=== FILE: README.md ===
# pipewire-orchestrator, modelled in Dafny

pipewire-orchestrator connects a MIDI controller (an Akai APC Key 25) to a
PipeWire audio graph. Button presses, button releases and dial turns reach it
as MIDI events. It turns them into shell commands, PipeWire link changes,
midish commands and LED updates on the controller. It also watches `pw-dump`
and reacts when devices appear or disappear.

The model covers these parts of the system:

- **MIDI codec** (`MidiCodec`). This covers `amidi --dump` line decoding,
  including the quirk where a repeated status byte is omitted. It also covers
  hex encoding of byte triplets for `amidi --send-hex`, and the event-type
  nibble codes.
- **midish** (`Midish`). Events are formatted as `oaddev {…}` commands. When
  commands are streamed, midish's current output (`co`) is tracked. The
  start-up script is modelled too.
- **LED helpers** (`Leds`, `Devices`, `LegacyConfig`). These are
  `buttonLEDBytes`, the default LED states of a binding table, and the
  `aconnect` client lookup of `connectMidiDevices`.
- **Audio graph** (`Graph`, `GraphLinks`, `PwDumpFraming`):
  - the item table, and its update and link-index rebuild (`updateDump`);
  - node and port lookup (`findPwNode`, `findLinkPair`);
  - the link decision of `ensureLink` and `destroyLink`;
  - the splitting of the `pw-dump` byte stream into JSON frames.
- **Commands**:
  - `swap_amps` (`SwapAmps`);
  - the QC35 hotplug watcher of `watch` (`WatchHotplug`);
  - the MIDI watcher `watch_midi` (`WatchMidi`);
  - the error classifiers of `errors.ts` (`Errors`).
- **Daemon** (`Daemon` and the `Daemon*` modules). This is the button, dial
  and graph state machine of the current daemon (`src/daemon/daemon.ts`) and
  of its earlier form (`src/commands/daemon.ts`). Both are one step function
  `Context × Event → Context × seq<Effect>`. Timers, child processes and the
  rofi prompt are effects that carry fresh ids, and their expiry, exit or
  answer comes back as a later event. The daemon modules cover:
  - long and short presses;
  - tracked commands and their `onFinish` delay;
  - cycles;
  - LED save, set and restore;
  - mute;
  - the mixer prompt;
  - configuration reload;
  - the reconciliation pass, with its `onConnect`, `onDisconnect` and mixer
    rules.

JavaScript values are modelled explicitly:

- A number that may come out of `parseInt` is `Num = NaN | Int(v)`. Events reach the watcher and the daemon as JSON, where a NaN becomes `null`. A `NaN` among the daemon's dial values stands for that `null`, which `?? 0` reads as 0.
- `>>`, `<<`, `&` and `|` convert their operands with ECMAScript's ToInt32 (section 7.1.6 of ECMA-262), so NaN becomes 0. `|` combines their ToUint32 images (section 7.1.7), and `<<` and `|` give a signed 32-bit result.
- `%` is the truncating remainder, which takes the dividend's sign. It is NaN for a NaN dividend or a zero divisor.
- `Object.fromEntries` and object spread let the later key win.
- Object keys that are integers enumerate in ascending order. The item table
  is therefore a sequence kept ascending by id.
- String keys enumerate in insertion order. The link index is therefore an
  association list.
- A property read of `undefined` is an error value, `Failure(…)`, carrying
  the message Node would throw.

## Model

| member | source | states |
|---|---|---|
| MidiCodec.EventTypeCode | src/midi/index.ts:79-96 | every event type has a status nibble between 0x8 and 0xE |
| MidiCodec.EventTypeOfCode | src/midi/index.ts:98-123 | a nibble names an event type iff it lies in 0x8..0xE, and the type named encodes back to that nibble |
| MidiCodec.EventTypeRoundTrip | src/midi/index.ts:79-123 | decoding the nibble of an event type gives that type back |
| MidiCodec.MakeEvent | src/midi/index.ts:204-224 | the event built for a type carries that type, the channel and the first data byte; it carries the second data byte exactly when the type has two data bytes |
| MidiCodec.MakeEventComplete | src/midi/index.ts:204-224 | every event is one that the decoder's constructor can build |
| MidiCodec.DecodeLine | src/midi/index.ts:175-226 | lines that are not 4 or 6 characters long give no event and keep the remembered status. No event means the status is unchanged. An event agrees with the new status in type and channel. A 6-character line stores its own status byte. A 4-character line without a status byte decodes against the remembered one |
| MidiCodec.OmittedStatusNeedsHistory | src/midi/index.ts:186-200 | before any status has been seen (status 0), a 4-character line without a status byte gives no event |
| MidiCodec.DumpLines | src/midi/index.ts:168-171 | each line kept from a chunk is non-empty and trimmed at both ends |
| MidiCodec.DumpLinesOne | src/midi/index.ts:168-171 | a chunk holding one line gives that line trimmed, or nothing when the line is blank |
| MidiCodec.DumpLinesFirst | src/midi/index.ts:168-171 | the lines of `line\nrest` are the first line trimmed (dropped when blank) followed by the lines of the rest, so every non-blank line is kept, trimmed, in order |
| MidiCodec.TrimAll | src/midi/index.ts:170 | maps trim over the lines, position by position |
| MidiCodec.TrimAllCons | src/midi/index.ts:170 | trimming a list trims its first line, then the rest |
| MidiCodec.NonBlank | src/midi/index.ts:171 | keeps exactly the non-empty lines: each kept line is an input line, and every non-empty input line is kept |
| MidiCodec.NonBlankOne | src/midi/index.ts:171 | a single line is kept iff it is non-empty |
| MidiCodec.NonBlankAppend | src/midi/index.ts:171 | filtering a concatenation is concatenating the filtered parts, so the filter keeps the order |
| MidiCodec.DecodeLines | src/midi/index.ts:173-228 | at most one event per line; the final status agrees with the last event, and no event leaves it unchanged |
| MidiCodec.DecodeLinesAppend | src/midi/index.ts:150-228 | decoding two runs of whole lines in sequence, with the status threaded between them, is decoding their concatenation, so a chunk boundary between two lines does not matter |
| MidiCodec.TripletHex | src/midi/index.ts:131-136 | a triplet of bytes encodes as 6 lower-case hex digits |
| MidiCodec.Defined | src/midi/index.ts:130 | keeps exactly the present triplets; a one-element list gives its triplet, or nothing when it is absent |
| MidiCodec.DefinedAppend | src/midi/index.ts:130 | the present triplets of a concatenation are those of each part in turn, so the order is kept |
| MidiCodec.EncodeTriplets | src/midi/index.ts:129-137 | the hex string for a batch has 6 digits per present triplet; block k is the encoding of the k-th present triplet |
| MidiCodec.HexOfAll | src/midi/index.ts:131-137 | the joined hex has 6 lower-case digits per triplet and block k encodes triplet k |
| MidiCodec.JoinSixes | src/midi/index.ts:137 | joining 6-digit hex blocks puts block k at offset 6k |
| MidiCodec.DecodeEncodedTriplet | src/midi/index.ts:129-226 | round trip: the hex of a triplet with a valid status byte decodes to the event of that status, channel and data, and stores the status |
| MidiCodec.DecodeParsedSix | src/midi/index.ts:182-226 | a 6-character line whose three hex pairs parse to a triplet decodes to that triplet's event |
| MidiCodec.DecodeOmittedStatus | src/midi/index.ts:186-192 | a 4-character line whose first byte is not a status byte is read as two data bytes under the remembered status |
| MidiCodec.NoteOnTriplet | src/util.ts:70-74 | the note-on triplet carries status 0x90 plus the channel, the note and the LED code |
| MidiCodec.NoteOnRoundTrip | src/util.ts:70-74 | round trip: a note-on triplet, written as hex and read back by the decoder, is that note-on event |
| JsNum.ToUint32 | src/midi/index.ts:188 | ECMAScript ToUint32: the result lies in [0, 2^32) and is congruent to the input |
| JsNum.ToInt32 | src/midi/index.ts:194 | ECMAScript ToInt32: the result lies in [-2^31, 2^31) and is congruent to the input |
| JsNum.Int32Of | src/midi/index.ts:188-194 | a number used in a bitwise operation becomes a signed 32-bit value (NaN becomes 0) |
| JsNum.LowNibble | src/midi/index.ts:194 | `b1 & 0b1111` is a channel in 0..15 |
| JsNum.Rem | src/commands/daemon.ts:368 | JavaScript `%`: NaN exactly when the divisor is 0 or the dividend is NaN; the ordinary remainder on non-negative operands |
| JsNum.StatusByteValue | src/util.ts:71 | `(kind << 4) \| channel` is 16·kind + channel for nibble-sized operands |
| JsNum.SmallIsInt32 | src/midi/index.ts:194 | 32-bit conversion leaves values below 2^31 alone |
| JsString.LeadingSpaces | src/midi/index.ts:170 | counts exactly the whitespace run at the front |
| JsString.TrailingSpaces | src/midi/index.ts:170 | counts exactly the whitespace run at the back |
| JsString.TrimStart | src/midi/index.ts:170 | the input with its leading whitespace run removed: the dropped prefix is all whitespace, the result starts with a non-space, and it is empty iff the input is all whitespace |
| JsString.Trim | src/midi/index.ts:170 | the result is empty iff the input is all whitespace; otherwise it is the slice of the input between the leading and trailing whitespace, and neither of its ends is whitespace |
| JsString.IndexFrom | src/pipewire/index.ts:175-176 | the first occurrence at or after a position, or -1 when there is none |
| JsString.IndexOf | src/pipewire/index.ts:175-176 | `indexOf`: the first occurrence, and -1 iff the pattern does not occur |
| JsString.SplitLines | src/util.ts:14 | `split(/\r?\n/)` gives at least one piece, and no piece contains a newline |
| JsString.SplitLinesOne | src/util.ts:14 | a string without a newline is a single piece |
| JsString.SplitLinesFirst | src/util.ts:14 | the first newline cuts off the first piece, with a `\r` before it dropped, and the rest is split the same way |
| JsString.CrLfToLfCut | src/util.ts:14 | the reference `\r\n`-to-`\n` conversion, cut at a newline, is the converted first line, the newline, and the converted rest |
| JsString.SplitLinesRejoin | src/util.ts:14 | the pieces joined back with newlines give the input with the `\r` of every `\r\n` removed, so no character is lost |
| JsString.SplitJoined | src/midi/midish.ts:124 | splitting lines joined by newlines (none holding a newline or ending in `\r`) gives those lines back |
| JsString.TrimDropCr | src/midi/index.ts:169-170 | dropping the `\r` of a line before trimming changes nothing |
| JsString.NatToDecimal | src/midi/midish.ts:19-25 | a natural prints as a non-empty run of digits whose decimal value is that natural, with no leading zero |
| JsString.IntToDecimal | src/commands/watch_midi.ts:209 | a non-negative integer prints as digits denoting it; a negative one as a minus followed by digits denoting its magnitude |
| JsString.HexValue | src/midi/index.ts:182 | a hex digit's value is below 16 |
| JsString.NatToHex | src/midi/index.ts:132-134 | `toString(16)`: one digit below 16, two digits below 256, all lower-case |
| JsString.PadStart2 | src/midi/index.ts:132-134 | `padStart(2, "0")` yields at least two characters |
| JsString.ParseIntHex | src/midi/index.ts:182-184 | `parseInt(s, 16)`: all-whitespace input gives NaN, and a negative result needs a minus right after the leading whitespace |
| JsString.ParseIntHexReads | src/midi/index.ts:182-184 | after leading whitespace, an optional sign and an optional `0x`, the longest run of hex digits is read and negated after a minus |
| JsString.ParseIntHexNaN | src/midi/index.ts:182-184 | with no hex digit at that point the result is NaN |
| JsString.ParseTwoHexDigits | src/midi/index.ts:182-184 | two hex digits parse to 16·hi + lo |
| JsString.ParseByteHex | src/midi/index.ts:132-184 | round trip: a byte written with `toString(16).padStart(2, "0")` parses back to itself |
| Midish.ToMidish | src/midi/midish.ts:7-39 | note events throw, and nothing else does; every other event gives an `oaddev {…}` command |
| Midish.Mnemonic | src/midi/midish.ts:16-35 | the command word names the event kind midish reads back from it, and is the 14-bit `xctl` iff a control change asks for high precision |
| Midish.Arguments | src/midi/midish.ts:16-35 | one space-led field per data value: two for `kat` and `ctl`, one for `xpc`, `cat` and `bend` (whose two bytes make one amount); no brace or newline that would end the filter or the command early |
| Midish.Oaddev | src/midi/midish.ts:16-35 | the filter is `oaddev {`, the body unchanged, then `}` |
| Midish.ControlChangeWord | src/midi/midish.ts:19-25 | a control change is formatted as `xctl` iff the high-precision flag is set |
| Midish.BendAmountValue | src/midi/midish.ts:32-35 | the bend amount combines the two data bytes as 16·msb + lsb |
| Midish.MidishBatch | src/midi/midish.ts:7-39 | a batch fails iff it holds a note event; otherwise it is the events' commands joined by newlines, in order |
| Midish.Collect | src/midi/midish.ts:7-39 | collecting results fails iff one of them failed, and otherwise keeps each value in place |
| Midish.BatchNeverHighPrecision | src/midi/midish.ts:13-25 | the index a batch passes in as the flags argument never selects the high-precision forms |
| Midish.FirstOutIndexFrom | src/midi/midish.ts:54 | the first `out<digits>` token at or after a position, or -1 when there is none |
| Midish.FirstOutToken | src/midi/midish.ts:54-66 | finds no output token iff the command contains none |
| Midish.Terminated | src/midi/midish.ts:57-60 | the written command ends with a newline; one is added only when missing |
| Midish.StreamCommand | src/midi/midish.ts:53-66 | the text always ends with a newline. It is the command alone iff the tracked output is unchanged; otherwise a `co <out>` line comes first, and the tracked output becomes the command's first output token |
| Midish.StreamCommandIdempotent | src/midi/midish.ts:62-66 | after a command has been written, writing it again adds no `co` line |
| Midish.StreamCommandKeepsCommand | src/midi/midish.ts:56-66 | the text written always ends with the command itself |
| Midish.FirstOutTokenAfterPrefix | src/midi/midish.ts:54 | in a command with no earlier token, the first token is the `out` and digits that follow the prefix |
| Midish.CommandPrefixHasNoToken | src/midi/midish.ts:16-35 | the `oaddev {<mnemonic> ` prefix contains no output token |
| Midish.CommandShape | src/midi/midish.ts:16-35 | a formatted event is the prefix, `out` and the channel, then arguments ending in `}` |
| Midish.MidishSelectsEventOutput | src/midi/midish.ts:7-66 | streaming an event's command selects the event's channel as output; the text gains a `co` line iff that output was not already current |
| Midish.OutputDeclarations | src/midi/midish.ts:119-121 | one `onew` declaration per channel, from the given channel up to 15, in order |
| Midish.InitCommands | src/midi/midish.ts:112-122 | the 19 start-up commands: `dnew`, `i`, the 16 output declarations in channel order, and `co out0` |
| Midish.InitScript | src/midi/midish.ts:124 | the start-up script ends with a newline, and its lines are exactly the start-up commands in order |
| Midish.InitCommandsAreLines | src/midi/midish.ts:112-122 | no start-up command holds a newline or ends in `\r`, so each is one line of the script |
| Midish.InitScriptAgreesWithTracking | src/midi/midish.ts:112-124 | the script's last command selects `out0`, which is the output the tracker starts from, so a first command for `out0` gets no `co` line |
| Devices.LedCode | src/util.ts:61-63 | a colour has a code iff the button lists it, and the code is the one listed |
| Devices.ButtonByLabel | src/util.ts:85-87 | finds a button iff some button carries the label, and returns the first listed one with that label |
| Wrappers.EntryAt | src/commands/watch_midi.ts:154-158 | reading an object by key (a `channel:note` button or dial, a label's binding) finds a value iff the key is listed, and the value is one listed under it |
| Leds.ButtonLedBytes | src/util.ts:54-77 | no triplet iff the button has no LED states or lacks the colour; otherwise a note-on on the button's channel, with the note and the colour's code |
| Leds.ButtonLedBytesDecode | src/util.ts:54-77 | round trip: an LED triplet, once hex-encoded, decodes to the note-on event it stands for |
| Leds.LedForBinding | src/util.ts:84-124 | labels without a device button give no triplet, and a triplet is only produced for a labelled button |
| Leds.RangeLightsFirstMode | src/util.ts:93-97 | a range binding lights its button in the first mode's colour, and throws when it has no modes |
| Leds.OtherBindingsUnlit | src/util.ts:84-124 | passthrough and other bindings light nothing |
| Leds.MuteLightsGreen | src/util.ts:99-102 | a mute binding lights its button GREEN |
| Leds.CommandLightsOn | src/util.ts:110-123 | a command binding lights its button with the ON code iff the button has one, as a note-on |
| Leds.CycleLightsFirstItem | src/util.ts:104-108 | a cycle binding lights its button in the first item's colour, or OFF when that item has none |
| Leds.DefaultLedStates | src/util.ts:79-126 | fails iff some binding's LED lookup throws; otherwise it is the present per-binding triplets in binding order, none invented and none lost |
| Leds.Contributions | src/util.ts:83-124 | one entry per binding, in binding order: that binding's triplet, or none |
| Leds.ContributionsCons | src/util.ts:83-125 | the first binding's triplet comes before those of the rest |
| Leds.DefaultLedStatesSkipsUnknownLabels | src/util.ts:89-91 | a binding whose label no button carries contributes nothing |
| Leds.ClientMatchAt | src/util.ts:7 | a match of `client (\d+): '(.*?)'` yields a digit string and a name free of quotes and of the line terminators `.` cannot match |
| Leds.ClientMatchFrom | src/util.ts:7-15 | the leftmost match, or none iff no position matches |
| Leds.ParseClientLineRoundTrip | src/util.ts:7-15 | round trip: a client line printed from a number and a name without quotes or line terminators parses back to them |
| Leds.ClientMatchAtStart | src/util.ts:7 | at the start of a client line with a quote-free name the pattern matches, giving the number and name, exactly when the name has no line terminator |
| Leds.ClientOf | src/util.ts:20-21 | a device has a client number iff some listing line names it, and the number is the one on the first such line |
| Leds.ConnectCommand | src/util.ts:20-29 | `aconnect` runs iff both devices are listed, with their client numbers in order |
| Leds.ConnectFailureRethrown | src/util.ts:32-38 | a failing `aconnect` is rethrown iff its trimmed stderr is not "Connection is already subscribed" |
| Leds.AlreadySubscribedIgnored | src/util.ts:35 | the already-subscribed message, with its trailing newline, is ignored |
| Errors.HandlePwLinkError | src/errors.ts:6-18 | only Error values are rethrown, and an Error is swallowed iff its message mentions an existing link or a missing unlink |
| Errors.HandleAmidiError | src/errors.ts:3-4 | every amidi failure is swallowed |
| Errors.WatchLinkError | src/commands/watch.ts:48-52 | the watcher rethrows iff the error is an Error whose message does not mention an existing link |
| Errors.WatchStricterThanShared | src/errors.ts:6-18 | whatever the watcher swallows the shared handler swallows, and whatever the shared handler rethrows the watcher rethrows |
| Errors.ShellFailuresAreDropped | src/errors.ts:6-18 | a rejection that is not an Error (a failed shell command) is swallowed by both handlers |
| Graph.Lookup | src/pipewire/index.ts:221-223 | `dump.items[id]` is present iff some item has that id, and it is that item |
| Graph.Upsert | src/pipewire/index.ts:221-223 | storing an item keeps the table ordered by id, makes the id map to the new item, and leaves every other id alone |
| Graph.UpsertFresh | src/pipewire/index.ts:221-223 | an item with a new id is inserted at one position, and the rest of the table keeps its order |
| Graph.LastWithId | src/pipewire/index.ts:221-223 | the item that wins for an id is one in the frame with that id, and there is none iff no item in the frame has it |
| Graph.UpsertAll | src/pipewire/index.ts:221-223 | after a frame, each id maps to the frame's last item with that id, or to its old item if the frame has none |
| Graph.AscendingExtensional | src/pipewire/index.ts:57 | two id-ordered tables that agree on every id are equal, so `Object.values` order is determined by the contents |
| Graph.UpsertAllIdempotent | src/pipewire/index.ts:221-223 | applying the same frame twice is applying it once |
| Graph.EndpointsOf | src/pipewire/index.ts:229-238 | a link has endpoints iff all four of its link properties are present |
| Graph.IndexGet | src/pipewire/index.ts:110 | an index entry exists iff its key was added |
| Graph.IndexAdd | src/pipewire/index.ts:249-271 | adding a link end creates the key's entry with the item and port, or extends its link list. Keys stay unique and other keys are untouched |
| Graph.BuildIndex | src/pipewire/index.ts:227-273 | building an index fails iff some link lacks an endpoint, and keys stay unique |
| Graph.BuildIndexContents | src/pipewire/index.ts:246-271 | each index entry holds the item and port of its key and, in table order, the far ends of every link from that key |
| Graph.LinkIsIndexed | src/pipewire/index.ts:264-271 | every complete link appears among the link ends of its near key |
| Graph.Rebuild | src/pipewire/index.ts:225-276 | the rebuild fails iff some link lacks an endpoint; both indexes have unique keys |
| Graph.ConsistentIndexContents | src/pipewire/index.ts:225-276 | in a consistent dump, the forward and reverse entries are exactly what the rebuild computes from the items |
| Graph.ConsistentLinkBothWays | src/pipewire/index.ts:264-271 | in a consistent dump, every link is recorded forward under its output and backward under its input |
| Graph.UpdateDump | src/pipewire/index.ts:211-277 | a frame that does not parse gives "failed to parse" and leaves the dump alone. Otherwise the items are upserted. It succeeds iff the rebuild does, and then the dump is consistent; on failure the old indexes stay |
| Graph.UpdateDumpKeepsItems | src/pipewire/index.ts:221-223 | after an update each id maps to the frame's last item with that id, or else to the item it had |
| Graph.UpdateDumpIdempotent | src/pipewire/index.ts:211-277 | replaying a frame changes nothing further |
| GraphLinks.Find | src/pipewire/index.ts:59-93 | `Array.find`: none iff no item matches; otherwise the first match |
| GraphLinks.FindPwNode | src/pipewire/index.ts:7-17 | finds a node iff some node item has the term as description or name |
| GraphLinks.FindLinkPair | src/pipewire/index.ts:45-96 | resolves iff both nodes and then both ports by node id are found; the four items are from the table and match their queries |
| GraphLinks.FindLinkPairFirstMatch | src/pipewire/index.ts:59-93 | each of the four items is the first one in table order that matches its query |
| GraphLinks.FlagsCommand | src/pipewire/index.ts:112-113 | the flagged command is `pw-link `, the flags as given, then a space and the quoted source |
| GraphLinks.CreateCommand | src/pipewire/index.ts:120 | the create command carries no flag: the quoted source follows `pw-link ` directly |
| GraphLinks.DestroyCommand | src/pipewire/index.ts:127 | the destroy command is the create command of the same operands with `-d ` put before them |
| GraphLinks.CreateNeverDestroys | src/pipewire/index.ts:120-127 | no create command, whatever its operands, is a destroy command |
| GraphLinks.FlagsCommandForms | src/pipewire/index.ts:111-130 | the flagged command with `-d` is the destroy command; with empty flags it has a double space but the same arguments as the create command |
| GraphLinks.LinksTo | src/pipewire/index.ts:116-126 | `links.some(l => l[0].id === id)` scans in order: a TypeError iff an undefined node comes before every end on the node, and `true` iff an end on the node comes before every undefined one |
| GraphLinks.UndefinedBeforeMatchThrows | src/pipewire/index.ts:116-126 | an undefined end before the matching one throws, and the same two ends the other way round answer `true` |
| GraphLinks.ModifyLink | src/pipewire/index.ts:98-131 | unresolved endpoints do nothing, the only failure is reading `id` of undefined, destroy only ever runs the destroy command, and with no index entry the flagged command runs |
| GraphLinks.EnsureLink | src/pipewire/index.ts:133-139 | ensure is modify in ensure mode, and runs a command only for resolved endpoints |
| GraphLinks.DestroyLink | src/pipewire/index.ts:141-147 | destroy is modify in destroy mode, and only ever runs the destroy command |
| GraphLinks.DestroyWithoutEntry | src/pipewire/index.ts:111-115 | with no forward entry for the source port, destroy still runs `pw-link -d` |
| GraphLinks.EnsureIdleWhenLinked | src/pipewire/index.ts:116-119 | in a consistent dump, ensure does nothing when the link already exists |
| GraphLinks.ForwardEntryLinksTo | src/pipewire/index.ts:264-267 | in a consistent dump, the forward entry of a link's output reaches its input node |
| GraphLinks.FindLinkPairIgnoresLinks | src/pipewire/index.ts:59-93 | inserting a link item does not change which nodes and ports resolve |
| GraphLinks.EnsureSettlesAfterCreate | src/pipewire/index.ts:116-122 | once the link that ensure created shows up in `pw-dump`, ensuring again does nothing |
| GraphLinks.FreshLinkKeepsGraphWhole | src/pipewire/index.ts:225-273 | adding a complete link whose input node exists keeps the rebuild from failing |
| PwDumpFraming.StepFrame | src/pipewire/index.ts:175-194 | a step emits a parsable frame cut from the first `\n[` to the first `\n]`, removing exactly that slice. It stops when either mark is missing, or when the cut does not parse |
| PwDumpFraming.Extract | src/pipewire/index.ts:178-200 | every emitted chunk parses and is a frame. The buffer left is empty or cannot be cut further, and no characters are invented |
| PwDumpFraming.OnData | src/pipewire/index.ts:169-203 | every chunk handed on parses; with none, the buffer is the old one plus `\n` plus the data |
| PwDumpFraming.ExtractLoop | src/pipewire/index.ts:178-200 | the `while` loop over the buffer computes the same chunks and remainder as the recursive definition |
| PwDumpFraming.ExtractEmits | src/pipewire/index.ts:178-200 | a parsable cut is emitted and the loop continues on the rest, which resets to empty if only whitespace remains |
| PwDumpFraming.ExtractStops | src/pipewire/index.ts:181-190 | a missing mark or an unparsable cut emits nothing and keeps the buffer |
| PwDumpFraming.WholeMessageInOnePiece | src/pipewire/index.ts:169-203 | a whole one-object message in one piece is emitted and the buffer empties |
| PwDumpFraming.ExtractOneObject | src/pipewire/index.ts:178-200 | a buffered one-object frame is emitted whole |
| PwDumpFraming.HalfMessageStops | src/pipewire/index.ts:175-190 | half a message waits |
| PwDumpFraming.SplitMessageWaits | src/pipewire/index.ts:169-203 | a message split in two is held after the first half and emitted after the second |
| SwapAmps.NextAmp | src/commands/swap_amps.ts:9-12 | clean goes to metal and everything else to clean; the result always differs from the input |
| SwapAmps.NextAmpSwapsBack | src/commands/swap_amps.ts:9-12 | between the two amps, swapping twice returns to the start |
| SwapAmps.PortNameOf | src/commands/swap_amps.ts:34-41 | reading a port name fails iff the item is undefined |
| SwapAmps.GuitarEntry | src/commands/swap_amps.ts:16-22 | finds the guitar's forward entry; none iff every entry is defined and none is the guitar's; a TypeError only on an undefined item or port |
| SwapAmps.AmpLinks | src/commands/swap_amps.ts:28-30 | keeps exactly the links to amp nodes; fails iff some link end is undefined |
| SwapAmps.SwapAmps | src/commands/swap_amps.ts:14-53 | fails iff the guitar lookup fails or, once the guitar is found, the amp scan fails or the single amp link has no port name. No guitar link does nothing. Exactly one amp link with a port name yields destroying it and then linking the guitar to the other amp's input; any other number of amp links does nothing |
| SwapAmps.CleanSwapsToMetal | src/commands/swap_amps.ts:43-51 | a guitar on the clean amp is moved to the metal amp |
| WatchHotplug.HasQC35 | src/commands/watch.ts:36-40 | true iff some item is the QC35 node |
| WatchHotplug.CommandOf | src/commands/watch.ts:42-54 | a link decision runs a command iff it produced one |
| WatchHotplug.PassEffects | src/commands/watch.ts:42-54 | the pass ensures both channels in order; a TypeError from either becomes an unhandled rejection after the commands |
| WatchHotplug.TypeErrorRethrown | src/commands/watch.ts:48-52 | a TypeError from the link decision is rethrown by the watcher's handler |
| WatchHotplug.Step | src/commands/watch.ts:24-60 | data never changes the remembered presence, and arms the timer at most once (not while one is pending). A fired timer records current presence, and links only when the QC35 has just appeared |
| WatchHotplug.Burst | src/commands/watch.ts:28-33 | a burst of frames keeps the remembered presence and the table order |
| WatchHotplug.BurstArmsAtMostOnce | src/commands/watch.ts:31-58 | a burst arms at most one timer in all, counting one already pending |
| WatchHotplug.SteadyGraphIsQuiet | src/commands/watch.ts:36-57 | a second pass over the same graph does nothing |
| WatchHotplug.LinksOnArrivalOnly | src/commands/watch.ts:36-54 | with the links missing, a pass links iff the QC35 was absent at the last pass and is present now |
| WatchMidi.StatusByte | src/commands/watch_midi.ts:185-186 | the status byte is 16·kind + channel |
| WatchMidi.SetRangeLed | src/commands/watch_midi.ts:25-51 | no triplet iff the button lacks LED states or the mode's colour; otherwise status 0x80 plus the channel, the note and the colour code |
| WatchMidi.SetRangeLedIsNoteOff | src/commands/watch_midi.ts:25-51 | the range LED is the shared note-on LED triplet with the note-off status |
| WatchMidi.SetRangeLedDecodes | src/commands/watch_midi.ts:45 | its hex decodes as a note-off event |
| WatchMidi.RangeLedFor | src/commands/watch_midi.ts:104-116 | only a range binding with no modes throws, and a triplet comes only from a labelled button's first mode |
| WatchMidi.RangeLeds | src/commands/watch_midi.ts:102-118 | the batch fails iff some range binding's LED throws, and otherwise holds the triplets produced, in binding order |
| WatchMidi.RangeLedsOne | src/commands/watch_midi.ts:102-118 | one binding's batch is its own LED, nothing, or the failure |
| WatchMidi.RangeLedsAppend | src/commands/watch_midi.ts:102-118 | the batch of two runs of bindings is their batches in order, and fails iff either does |
| WatchMidi.CommandLedFor | src/commands/watch_midi.ts:123-143 | only command bindings on labelled buttons light |
| WatchMidi.CommandLeds | src/commands/watch_midi.ts:121-146 | the batch holds exactly the command triplets produced |
| WatchMidi.CommandLedsOne | src/commands/watch_midi.ts:121-146 | one binding's batch is its own LED, or nothing |
| WatchMidi.CommandLedsAppend | src/commands/watch_midi.ts:121-146 | the batch of two runs of bindings is their batches in order |
| WatchMidi.CommandLedIsNoteOffOfDefault | src/commands/watch_midi.ts:137-141 | a command LED is the shared default (src/util.ts:110-123) with the note-off status instead of note-on |
| WatchMidi.LastRangeModes | src/commands/watch_midi.ts:87-99 | a dial's range comes from the last range binding for it, and none iff no range binding names it |
| WatchMidi.InitRangeStates | src/commands/watch_midi.ts:87-99 | fails iff a range binding has no modes. Otherwise the dials are exactly those with a range binding, each at the first mode of its last binding |
| WatchMidi.RangePress | src/commands/watch_midi.ts:162-169 | an unknown dial or empty modes throw; otherwise the dial moves to the next mode, wrapping at the end |
| WatchMidi.RangePressesCount | src/commands/watch_midi.ts:162-169 | k presses from the first mode reach mode k |
| WatchMidi.RangePressesWrap | src/commands/watch_midi.ts:162-169 | as many presses as there are modes return to the start |
| WatchMidi.LastPressRestores | src/commands/watch_midi.ts:163-164 | from the last mode, one press restores the initial state |
| WatchMidi.LastPressWraps | src/commands/watch_midi.ts:163-164 | from the last mode, a press goes to mode 0 |
| WatchMidi.NonFlashing | src/commands/watch_midi.ts:175-177 | keeps exactly the colour names without FLASHING |
| WatchMidi.NextButtonState | src/commands/watch_midi.ts:179-183 | an unset or zero state becomes 1; otherwise it steps modulo the count, and a count of 0 gives NaN |
| WatchMidi.StateCode | src/commands/watch_midi.ts:188 | the code of the state's colour, or the lookup of "undefined" when the state is out of range |
| WatchMidi.ButtonPresses | src/commands/watch_midi.ts:179-183 | a button has a state iff it was pressed |
| WatchMidi.ButtonPressesCycle | src/commands/watch_midi.ts:179-183 | with at least two colours, the k-th press selects colour k modulo the count |
| WatchMidi.CycledCodeIsAColour | src/commands/watch_midi.ts:185-189 | with at least two colours, every press sends a listed colour's code |
| WatchMidi.SingleColourAlternates | src/commands/watch_midi.ts:179-188 | with one colour the state alternates 1, 0, 1, and state 1 looks up the colour "undefined" |
| WatchMidi.SelectOutput | src/commands/watch_midi.ts:209-219 | the current output becomes the target; a `co` line is added iff it changes |
| WatchMidi.PassthroughKeepsMidishInStep | src/commands/watch_midi.ts:209-221 | the local `co` tracking and the midish stream's own tracking end on the same output; when it changes, the stream writes another `co` line in front of the watcher's, so each change is written twice |
| WatchMidi.PassthroughIsMidish | src/commands/watch_midi.ts:213 | the passthrough command is exactly what `midiEventToMidish` (src/midi/midish.ts:19-21) makes of a control change on that output with high precision asked for |
| WatchMidi.PassthroughToken | src/commands/watch_midi.ts:213 | a passthrough command ends in `}` and names its output first |
| WatchMidi.SelectionToken | src/commands/watch_midi.ts:216-218 | a `co` line names the output it selects first |
| WatchMidi.StartupEndsAtOutputZero | src/commands/watch_midi.ts:80 | the start-up `co out0` leaves the stream tracking `out0`, as the watcher's own `co` does |
| WatchMidi.StartUp | src/commands/watch_midi.ts:75-148 | start-up fails iff a range binding has no modes; otherwise it pushes the midish set-up, holds the initial range states, and sends the range LED batch and the command LED batch |
| WatchMidi.OnNoteOn | src/commands/watch_midi.ts:153-195 | an unknown note does nothing; a command binding runs its command; a range binding advances the dial's mode and throws exactly when that throws; an unbound button with LED states steps its state and sends the note-off LED of the new state's colour; a note-on never pushes to midish |
| WatchMidi.OnControlChange | src/commands/watch_midi.ts:196-223 | a dial turn changes only the output, pushes at most one command ending in `}`, and leaves state alone when it pushes nothing |
| WatchMidi.ControlChangeCases | src/commands/watch_midi.ts:196-223 | a passthrough dial pushes its scaled value to the bound output, selecting that output first when needed; every other control change does nothing |
| WatchMidi.OnEvent | src/commands/watch_midi.ts:150-229 | a note-on goes to the note-on handler and a control change to the dial handler; other events do nothing, and only a note-on can throw |
| WatchMidi.StartUpTracked | src/commands/watch_midi.ts:87-99 | start-up states cover every ranged dial with a valid mode index |
| WatchMidi.OnEventKeepsTracked | src/commands/watch_midi.ts:150-229 | from tracked states, no event throws and states stay tracked |
| DaemonConfig.ButtonBindingOf | src/daemon/daemon.ts:310-313 | a button binding is found iff the label's binding is a button binding |
| DaemonConfig.ButtonLabelled | src/daemon/daemon.ts:159-182 | a labelled key is found iff a device button has the label, and it is the key of the first such button |
| DaemonCycle.CycleIndex | src/daemon/daemon.ts:109-114 | a cycle with no items gives NaN, and the first pick is 1 modulo the length. From an in-range index the next stays in range, stepping by one and wrapping |
| DaemonCycle.EarlierCycleIndexAsWritten | src/commands/daemon.ts:364-370 | as written, the first pick is 1 whatever the length, and later picks agree with the corrected step |
| DaemonCycle.FirstPickOutOfRange | src/commands/daemon.ts:364-372 | with one item, the first pick of the earlier daemon is out of range; the corrected pick is 0 and in range |
| DaemonCycle.CorrectionAgreesFromTwoItems | src/commands/daemon.ts:364-370 | from two items on, the written and corrected cycles agree |
| DaemonCycle.Triggered | src/daemon/daemon.ts:109-114 | a cycle has a counter iff it was triggered |
| DaemonCycle.ModOf | src/daemon/daemon.ts:112 | reference modulo by repeated subtraction: below n, and identity below n |
| DaemonCycle.TriggeredIsModulo | src/daemon/daemon.ts:109-114 | after k triggers, the counter is k modulo the length |
| DaemonCommands.FinishDelay | src/daemon/daemon.ts:201 | the `onFinish` delay is 150 ms iff the command ran for less than 150 ms, and 0 otherwise |
| DaemonCommands.FinishNotBeforeMinimum | src/daemon/daemon.ts:186-203 | `onFinish` never runs sooner than 150 ms after the command started, and is not delayed after that |
| DaemonCommands.StaleExitIsQuiet | src/daemon/daemon.ts:215-233 | the exit of a killed or replaced command does not finish; the current run's exit does |
| DaemonMixer.MatchingApps | src/daemon/daemon.ts:427-494 | the apps kept are clients matching the node name, and every matching client is kept |
| DaemonMixer.FirstAssigned | src/commands/daemon.ts:476-484 | the first matching app with a channel; none iff no app has one |
| DaemonMixer.FirstFree | src/commands/daemon.ts:505-518 | the first free channel; none iff no channel is free |
| DaemonMixer.UnassignedTarget | src/commands/daemon.ts:505-518 | a numbered rule targets `Mixer Channel <n>`; `round_robin` targets the first free channel, and nothing if none is free |
| DaemonMixer.MixerRule | src/commands/daemon.ts:461-527 | no mixer or no matching app connects nothing. Otherwise every matching app goes to one target, in order: the channel of the first assigned app if there is one, and otherwise the rule's channel |
| DaemonMixer.AssignedChannelIsShared | src/commands/daemon.ts:490-501 | once an app is on a channel, every matching app goes there |
| DaemonMixer.RoundRobinWithoutFreeChannel | src/commands/daemon.ts:505-518 | `round_robin` with no free channel and no assigned app connects nothing |
| DaemonPresence.FromEntries | src/daemon/daemon.ts:638-641 | `Object.fromEntries` has exactly the listed keys |
| DaemonPresence.FromEntriesAppend | src/daemon/daemon.ts:638-641 | building from two lists is the spread of the two, and the second list wins |
| DaemonPresence.Entries | src/daemon/daemon.ts:638-641 | pairs each node with the value, in order |
| DaemonPresence.FromEntriesUniform | src/daemon/daemon.ts:638-641 | uniform entries give each listed node that value |
| DaemonPresence.NodesOf | src/daemon/daemon.ts:638-641 | the rules' nodes, in order |
| DaemonPresence.InitialPresence | src/daemon/daemon.ts:638-641 | the rule nodes are remembered: all absent in the current daemon, and in the earlier one (src/commands/daemon.ts:641-644) exactly the departure nodes present |
| DaemonPresence.ReloadMerge | src/daemon/daemon.ts:132-140 | reload keeps every remembered value and adds the new rule nodes as absent |
| DaemonPresence.NextPresence | src/daemon/daemon.ts:714-716 | a pass stores the current presence of every remembered node |
| DaemonPresence.Marked | src/daemon/daemon.ts:686-706 | the set positions, strictly increasing |
| DaemonPresence.Fired | src/daemon/daemon.ts:686-706 | the fired rules are exactly those whose edge holds, in order; none iff no edge holds |
| DaemonPresence.SteadyGraphFiresNothing | src/daemon/daemon.ts:686-716 | a second pass over the same graph fires no rule |
| DaemonPresence.FiresOnTransition | src/daemon/daemon.ts:688-706 | an arrival fires iff the node was absent at the last pass and is present now, and a departure iff the reverse |
| DaemonPresence.FirstPassDepartures | src/commands/daemon.ts:641-644 | the current daemon's first pass fires no departure; the earlier one's fires each departure whose node is missing |
| DaemonPresence.CoverageKept | src/daemon/daemon.ts:132-140 | passes and reloads keep every rule node remembered |
| Daemon.UpdateHookTimeout | src/daemon/daemon.ts:46 | the reconciliation delay is 100 ms in the current daemon and 150 ms (src/commands/daemon.ts:48) in the earlier one |
| Daemon.Init | src/daemon/daemon.ts:619-653 | the start-up context is well formed, with nothing pressed, running or open, and the initial presence; the current daemon takes the ranges, mutes, dials, LED saves and cycle counters of a readable state file, and otherwise the dial defaults and empty records |
| Daemon.StartupLeds | src/daemon/daemon.ts:664-675 | every configured colour of a device button is sent as a button LED, with at most one LED per configured colour |
| Daemon.LinkEffects | src/daemon/daemon.ts:80-87 | a link decision runs its command; none runs nothing, and a swallowed error emits nothing |
| Daemon.Finish | src/daemon/daemon.ts:186-203 | finishing forgets the command and arms the `onFinish` timer with the finish delay |
| Daemon.TrackedCommand | src/daemon/daemon.ts:184-237 | a cancelable re-trigger kills the running process and finishes at once; otherwise the command is spawned and recorded |
| Daemon.StoreCounter | src/daemon/daemon.ts:111-112 | records the cycle counter and leaves timers, processes and prompts alone |
| Daemon.DoAction | src/daemon/daemon.ts:61-284 | running an action keeps the context well formed, and keeps the configuration, presence, graph and existing timers |
| Daemon.RunCycle | src/commands/daemon.ts:363-387 | a cycle keeps the context well formed and the unrelated state |
| Daemon.DialValue | src/daemon/daemon.ts:100 | a stored number is read back; a missing dial or a stored `null` reads as 0 |
| Daemon.ActionEffects | src/daemon/daemon.ts:69-93 | the stateless actions emit at most one effect each: a MIDI batch is pushed or refused whole, a preset reaches only a running plugin, and link actions run at most one command; the LED actions (lines 158-180) reach only a labelled button; `config::reload` (lines 122-144) loads only in the current daemon; `lv2::show_gui` (src/commands/daemon.ts:90-93) is shown only by the earlier daemon, to a running plugin |
| Daemon.StateAction | src/daemon/daemon.ts:94-106 | range, LED save, mute and mixer select keep the context well formed |
| Daemon.DoActions | src/daemon/daemon.ts:115-119 | running no actions does nothing, and running several keeps the context well formed |
| Daemon.ButtonAction | src/commands/daemon.ts:300-390 | a button's action keeps the context well formed |
| Daemon.ButtonActions | src/commands/daemon.ts:382-386 | a button's actions keep the context well formed |
| Daemon.RunSlot | src/daemon/daemon.ts:315-325 | running a press slot first sends the LED: no colour in the current daemon, and the slot's colour (src/commands/daemon.ts:213-298) in the earlier one |
| Daemon.FindButton | src/daemon/daemon.ts:295-301 | finds the button at the event's `channel:note` iff it exists |
| Daemon.LongPressDelay | src/daemon/daemon.ts:327-350 | the long-press delay is the configured one; without one it is 500 ms, or (in the earlier daemon) Node's 1 ms for `undefined` |
| Daemon.ArmLongPress | src/daemon/daemon.ts:327-367 | arming keeps the context well formed |
| Daemon.HandleNoteOn | src/daemon/daemon.ts:286-368 | a note-on keeps the context well formed |
| Daemon.Release | src/daemon/daemon.ts:402-406 | no `onRelease` does nothing; the earlier daemon sends the release LED first (src/commands/daemon.ts:424-440) |
| Daemon.ResolvePending | src/daemon/daemon.ts:392-400 | releasing a pending button clears its timer and runs the deferred short press |
| Daemon.ClearPending | src/daemon/daemon.ts:392-400 | clears the timer first, then runs the deferred press if any |
| Daemon.ForgetPress | src/daemon/daemon.ts:392-400 | forgets only the label's pending press |
| Daemon.RunDeferred | src/daemon/daemon.ts:396-399 | no deferred press does nothing; one sends its LED first |
| Daemon.HandleNoteOff | src/daemon/daemon.ts:370-407 | a note-off keeps the context well formed |
| Daemon.HandleControlChange | src/daemon/daemon.ts:409-425 | ignored while Shift is held; otherwise a known dial's value is stored and manifested |
| Daemon.RuleActions | src/daemon/daemon.ts:686-706 | no fired rules give no actions |
| Daemon.MixerEffects | src/daemon/daemon.ts:708-712 | mixer rules only connect apps |
| Daemon.PassActions | src/daemon/daemon.ts:686-706 | no edge gives no actions |
| Daemon.ReconcilePass | src/daemon/daemon.ts:686-717 | a pass stores the current presence and keeps configuration and graph |
| Daemon.Fire | src/daemon/daemon.ts:315-346 | a timer that was cleared or has fired does nothing |
| Daemon.Exited | src/daemon/daemon.ts:215-233 | an unknown process does nothing; a stale exit only forgets the process; the current exit finishes |
| Daemon.Answered | src/daemon/daemon.ts:260-282 | an answer connects the chosen source when there is one, then closes the prompt and runs `onFinish` |
| Daemon.GraphData | src/daemon/daemon.ts:678-684 | data updates the dump and, when the update succeeds, re-arms the reconciliation timer |
| Daemon.Rearm | src/daemon/daemon.ts:681-684 | refreshes the existing timer, or arms a new one with the variant's delay |
| Daemon.RefreshReconcile | src/daemon/daemon.ts:681-684 | refreshing the pending reconciliation timer keeps the context well formed and the graph, and the timer stays a reconciliation timer |
| Daemon.ArmReconcile | src/daemon/daemon.ts:686-717 | with no timer pending, a new reconciliation timer is armed under the next id and recorded as the pending one |
| Daemon.Step | src/daemon/daemon.ts:678-742 | every event keeps the context well formed |
| DaemonScenarios.KeysChannelIgnored | src/daemon/daemon.ts:290-293 | events on the keys channel do nothing |
| DaemonScenarios.ShiftOnlyFlags | src/daemon/daemon.ts:303-307 | Shift sets and clears its flag and does nothing else |
| DaemonScenarios.PressArmsLongPress | src/daemon/daemon.ts:327-346 | a press with a long-press slot only arms its timer and records it pending |
| DaemonScenarios.PressRunsShortPress | src/daemon/daemon.ts:347-367 | a press with only a short slot runs it at once |
| DaemonScenarios.ReleaseBeforeTimeout | src/daemon/daemon.ts:327-400 | release before the timeout clears the timer, runs the short press and forgets the press |
| DaemonScenarios.PressLeavesPending | src/daemon/daemon.ts:327-346 | after a press that arms a long press, the button's press is pending under the new timer with the short slot deferred |
| DaemonScenarios.NoteOffResolves | src/daemon/daemon.ts:370-407 | a release first resolves the pending press, then runs the release slot, with the effects in that order |
| DaemonScenarios.ReleaseResolves | src/daemon/daemon.ts:392-400 | a pending release clears the timer and runs the deferred slot |
| DaemonScenarios.TimeoutBeforeRelease | src/daemon/daemon.ts:315-346 | the timeout runs the long press and forgets it, so the release does not run the short one |
| DaemonScenarios.FireRunsLongPress | src/daemon/daemon.ts:315-325 | a long-press timer runs its slot and forgets the press |
| DaemonScenarios.ReleaseWithoutPending | src/daemon/daemon.ts:402-406 | a release with nothing pending runs `onRelease` |
| DaemonScenarios.CurrentCommandIsTracked | src/daemon/daemon.ts:184-237 | the current daemon tracks commands by action |
| DaemonScenarios.CommandRunsToFinish | src/daemon/daemon.ts:184-237 | a spawned command that exits arms `onFinish` no sooner than 150 ms after its start |
| DaemonScenarios.RetriggerCancels | src/daemon/daemon.ts:205-221 | a cancelable re-trigger kills, finishes, and the killed exit is quiet |
| DaemonScenarios.CycleRunsNextItem | src/daemon/daemon.ts:109-120 | a cycle stores the next index and runs that item's actions |
| DaemonScenarios.CycleDispatch | src/daemon/daemon.ts:108-111 | the current daemon keeps a cycle's counter under the action itself |
| DaemonScenarios.CycleRunsIndex | src/daemon/daemon.ts:109-118 | a cycle whose next index is an item stores that index and runs that item's actions |
| DaemonScenarios.NextCycleIndex | src/daemon/daemon.ts:110-114 | the stored counter steps by one and wraps |
| DaemonScenarios.EarlierCycleSetsLed | src/commands/daemon.ts:363-381 | the earlier daemon's cycle stores its counter as written; a counter naming an item lights that item's colour before its actions, and any other counter stops with the error of reading `color` of undefined |
| DaemonScenarios.EarlierOneItemCycleFails | src/commands/daemon.ts:363-372 | the first press of a one-item cycle stores 1, sets no LED and runs nothing |
| DaemonScenarios.EarlierCycleFromTwoItems | src/commands/daemon.ts:363-381 | from two items on, the earlier cycle lights the item the corrected counter selects |
| DaemonScenarios.RangeRepublishes | src/daemon/daemon.ts:94-101 | `range` stores the new range and republishes the dial's last value, 0 when it has none or it is `null`, changing nothing else |
| DaemonScenarios.CancelPrefersPrompt | src/daemon/daemon.ts:62-68 | `cancel` presses Escape while a prompt is open; otherwise it runs its alternative action, or does nothing without one |
| DaemonScenarios.PlainActionEffects | src/daemon/daemon.ts:69-93 | `midi`, plugin and link actions leave the state alone and emit their one effect; `config::reload` (lines 121-144) loads the configuration in the current daemon only; the earlier daemon's `doActionBinding` (src/commands/daemon.ts:66-72) runs `command` untracked |
| DaemonScenarios.SelectOpensOnePrompt | src/daemon/daemon.ts:239-283 | a mixer select opens one prompt, and a second select is refused while it is open |
| DaemonScenarios.PromptAnswer | src/daemon/daemon.ts:260-282 | an answer connects the chosen source and then runs `onFinish` |
| DaemonScenarios.MuteThenUnmute | src/daemon/daemon.ts:146-157 | mute sends 0, and unmute restores the stored dial value (0 if none or `null`) |
| DaemonScenarios.LedSaveSetRestore | src/daemon/daemon.ts:103-182 | save, set, restore: the set colour is shown, then the saved colour is restored |
| DaemonScenarios.LedSaveRecords | src/daemon/daemon.ts:103-106 | save records the button's current colour, or none |
| DaemonScenarios.LedSetSends | src/daemon/daemon.ts:159-182 | set sends the colour and changes nothing |
| DaemonScenarios.LedRestoreSends | src/daemon/daemon.ts:159-182 | restore sends the saved colour |
| DaemonScenarios.SteadyPassRunsNoRules | src/daemon/daemon.ts:686-716 | a second pass over the same graph runs no rule, only the mixer connections |
| DaemonScenarios.ReloadKeepsPresence | src/daemon/daemon.ts:122-144 | reload installs the configuration, keeps every remembered presence, and covers the new rule nodes |
| DaemonLaws.DoActionsOne | src/daemon/daemon.ts:115-119 | a one-action list runs that action |
| DaemonLaws.DoActionsAppend | src/daemon/daemon.ts:115-119 | actions run one after another: `a + b` runs `a`, then `b` from the state `a` left, with the effects in that order |
| DaemonLaws.ButtonActionsAgree | src/commands/daemon.ts:300-390 | without `command` or `cycle`, the earlier daemon's button actions run exactly as plain actions |
| DaemonLaws.ReleaseRunsSlot | src/daemon/daemon.ts:402-406 | a release runs the `onRelease` actions; the earlier daemon (src/commands/daemon.ts:424-440) sets the slot's LED colour first |
| DaemonLaws.FireRunsOnFinish | src/daemon/daemon.ts:196-202 | an `onFinish` timer runs those actions once, with the timer gone |
| DaemonLaws.FireReconciles | src/daemon/daemon.ts:678-684 | the reconciliation timer runs a pass, with the timer gone |
| DaemonLaws.RuleActionsOne | src/daemon/daemon.ts:686-706 | one fired rule contributes its own actions |
| DaemonLaws.RuleActionsAppend | src/daemon/daemon.ts:686-706 | the fired rules' actions follow the order of the fired list |
| DaemonLaws.FiredOne | src/daemon/daemon.ts:686-706 | when exactly one rule fires, it is the only one listed |
| DaemonLaws.ReconcilePassOrder | src/daemon/daemon.ts:686-717 | a pass runs the arrival rules' actions, then the departure rules' actions, then the mixer connections |
| DaemonLaws.ArrivalRunsRule | src/daemon/daemon.ts:686-717 | a pass in which one node arrives and none departs runs that rule's actions, then the mixer connections |
| DaemonLaws.DepartureRunsRule | src/daemon/daemon.ts:686-717 | a pass in which one node departs and none arrives runs that rule's actions, then the mixer connections |
| DaemonLaws.MixerConnectsMembers | src/daemon/daemon.ts:708-712 | a mixer connection is made iff some mixer rule asks for it |
| DaemonLaws.MixerConnectsAppend | src/daemon/daemon.ts:708-712 | the mixer connections go rule by rule |
| DaemonLaws.MixerEffectsAppend | src/daemon/daemon.ts:708-712 | the mixer effects of a pass go rule by rule |
| DaemonLaws.MixerEffectsOne | src/daemon/daemon.ts:708-712 | one mixer rule's effects are its connections, in order |
| DaemonLaws.StartupLedsOne | src/daemon/daemon.ts:664-675 | one configured colour lights its button, or nothing when no button has the label |
| DaemonLaws.StartupLedsAppend | src/daemon/daemon.ts:664-675 | the start-up LEDs follow the order of the configured colours |

## Left out

- Awaits and promises run to completion in order. Concurrent interleavings of `doAction` calls are not modelled, because the step function handles one event at a time.
- The helpers the core calls but whose code is not part of this model become parameters (`MixerEnv`) or effects. These are `manifestDialValue`, `exclusiveLink`, `connectAppToMixer`, `findMixer`, `audioClients`, `mixerPorts`, `isAssignedToMixer` and `freeMixerPorts`.
- `objectId(action)` is a content hash; the action value itself is the key, so hash collisions are not modelled.
- Actions never update `buttonColors`. The start-up colours are an input: `defaultButtonColors` and its merge with the saved colours are not modelled. What `restoreState` reads back is an input of `Daemon.Init`; reading and parsing the state file are not modelled.
- Dial defaults are inputs, because their mapping is floating point.
- The rofi prompt's text (`sourcesString`) is not modelled. Only the chosen line is.
- Node runs a timer whose delay is `undefined` after 1 ms. This is a constant.
- `amidiSendBatched` is not modelled. The watcher's passthrough percentage and `MAP_FUNCTIONS` are floating point and become a `Scale` input.
- The earlier daemon's `config::reload` and `cycle` cases inside `doActionBinding` do nothing, as written.
- The plugin input streams are fixed at start-up.
- JSON parsing (`Convert.toPipewireItems`, `JSON.parse`) is a `parses` predicate or pre-parsed items.
- Spawning processes, `rofi` and `xdotool` are effects.
- `state.ts`, the logger, configuration validation and `loadConfig` are not part of this model. `loadConfig`'s result arrives as the `ConfigLoaded` event.
- The reconciliation timer handle is never cleared, as in the daemon.
- `connectMidiDevices` in `src/util.ts` takes two device names and runs `aconnect --list` itself, while the daemons call it with the listing as an extra first argument. The model takes the listing as a parameter in place of running the command.
- DaemonMixer.MatchingApps: states membership and length, not that order is kept.
- Midish.Collect: does not state which failing event's error comes first, because the message is the same for every note event.
- Midish.MidishBatch: does not state which error is reported, for the same reason.
- Daemon.DoAction: its own contract states the context invariant; per-action behaviour is stated by the DaemonScenarios lemmas (CurrentCommandIsTracked, CycleRunsNextItem, CancelPrefersPrompt, RangeRepublishes, MuteThenUnmute, LedSaveRecords, LedSetSends, LedRestoreSends, SelectOpensOnePrompt, PlainActionEffects).
- Daemon.HandleNoteOn: its own contract states the context invariant; press behaviour is stated by DaemonScenarios.PressArmsLongPress and DaemonScenarios.PressRunsShortPress.
- Daemon.HandleNoteOff: its own contract states the context invariant; release behaviour is stated by DaemonScenarios.ReleaseResolves and DaemonScenarios.ReleaseWithoutPending.
- Daemon.Step: its own contract states the context invariant; the events' behaviour is stated by the DaemonScenarios lemmas.
- Daemon.RunCycle: its contract states the context invariant only; its behaviour is stated by DaemonScenarios.CycleRunsIndex and DaemonScenarios.CycleRunsNextItem.
- Daemon.StateAction: its contract states the context invariant only; its behaviour is stated by DaemonScenarios.RangeRepublishes, DaemonScenarios.LedSaveRecords, DaemonScenarios.MuteThenUnmute and DaemonScenarios.SelectOpensOnePrompt.
- Daemon.ButtonAction: its contract states the context invariant only; its cycle is stated by DaemonScenarios.EarlierCycleSetsLed and its other actions by DaemonLaws.ButtonActionsAgree.
- Daemon.ButtonActions: its contract states the context invariant only; its behaviour is stated by DaemonLaws.ButtonActionsAgree.
- Daemon.ArmLongPress: its contract states the context invariant only; its behaviour is stated by DaemonScenarios.PressArmsLongPress.
- MidiCodec.DumpLines: its own contract states that every kept line is trimmed and non-blank; MidiCodec.DumpLinesOne and MidiCodec.DumpLinesFirst state that every non-blank line is kept, trimmed, in order.
- MidiCodec.NonBlank: its own contract states membership both ways; MidiCodec.NonBlankOne and MidiCodec.NonBlankAppend state that the order is kept.
- MidiCodec.Defined: its own contract states membership both ways and the one-element case; MidiCodec.DefinedAppend states that the order is kept.
- MidiCodec.DecodeLinesAppend: holds for chunk boundaries between whole lines only. Each stdout chunk of `amidi` is split on its own, with no line buffer (src/midi/index.ts:167-171). A line cut across two chunks therefore becomes two fragments, each trimmed and then dropped or decoded as a line of its own. No lemma states what such fragments decode to.
- WatchMidi.CommandLeds: its own contract states membership both ways; WatchMidi.CommandLedsOne and WatchMidi.CommandLedsAppend state the binding order and multiplicity.
- JsString.SplitLines: its own contract states the shape of the pieces; JsString.SplitLinesRejoin, JsString.SplitLinesOne and JsString.SplitLinesFirst state what the pieces are.
- Leds.LedForBinding: its own contract states when a triplet can be produced; the colour per binding type is stated by Leds.MuteLightsGreen, Leds.CommandLightsOn, Leds.CycleLightsFirstItem, Leds.RangeLightsFirstMode and Leds.OtherBindingsUnlit.
- Daemon.StartupLeds: its own contract does not rule out an extra LED; DaemonLaws.StartupLedsOne and DaemonLaws.StartupLedsAppend fix the batch exactly, one LED per labelled colour in configured order.
- Daemon.DoActions: its own contract states the empty case and the context invariant; DaemonLaws.DoActionsOne and DaemonLaws.DoActionsAppend state that the actions run one after another on the threaded context.
- Daemon.Release: its own contract states the empty slot and the earlier daemon's LED; DaemonLaws.ReleaseRunsSlot states that the `onRelease` actions run.
- Daemon.RuleActions: its own contract states the empty case; DaemonLaws.RuleActionsOne and DaemonLaws.RuleActionsAppend state that the fired rules' actions run in the order they fired.
- Daemon.PassActions: its own contract states that no edge gives no actions; DaemonLaws.ArrivalRunsRule and DaemonLaws.DepartureRunsRule state that a firing rule runs.
- Daemon.MixerEffects: its own contract states that every effect is a mixer connection; DaemonLaws.MixerEffectsOne and DaemonLaws.MixerEffectsAppend state the connections rule by rule.
- Daemon.ReconcilePass: its own contract states the stored presence and what is kept; DaemonLaws.ReconcilePassOrder states the arrival actions, then the departure actions, then the mixer connections.
- Daemon.Fire: its own contract states the cleared-timer case and the invariant; DaemonLaws.FireRunsOnFinish and DaemonLaws.FireReconciles state the `onFinish` and reconciliation timers, and DaemonScenarios.FireRunsLongPress the long-press timer.
- Daemon.GraphData: a frame whose update throws gives one `HandlerThrew` effect. The framing loop catches that throw, keeps the frame and delivers it again, throwing again, with every later chunk, so no later frame gets through; these repeated deliveries and their log lines are not modelled.
- WatchHotplug.Burst: ends at the first frame whose update throws, for the same reason; the repeated deliveries of that frame are not modelled.

## Findings

| source | as written | input that shows it | evidently intended | confidence | as-written member | corrected member |
|---|---|---|---|---|---|---|
| src/commands/daemon.ts:364-372 | the first activation of a cycle stores index 1 whatever the number of items, so with one item `items[1]` is undefined and reading `.color` throws | a `cycle` binding with a single item, pressed once | `((idx ?? 0) + 1) % items.length`, as `src/daemon/daemon.ts:110-114` does | not executed | DaemonCycle.EarlierCycleIndexAsWritten, DaemonCycle.FirstPickOutOfRange | DaemonCycle.CycleIndex |

=== FILE: daemon.dfy ===
/** The button/dial state machine and action interpreter of the daemon. The
    current daemon is `src/daemon/daemon.ts`, and `src/commands/daemon.ts`
    is its earlier form. Both are one step function
    `Context × Event → Context × seq<Effect>`, with the variant held in the
    context. Timers, child processes, the rofi prompt, configuration loading
    and the unseen helpers are abstract. Arming a timer, spawning a process
    or opening a prompt is an effect carrying a fresh id. Its expiry, exit
    or answer comes back later as an event with that id. */
module Daemon {
  import opened Wrappers
  import opened JsNum
  import opened JsString
  import opened MidiCodec
  import opened Midish
  import opened Devices
  import opened LegacyConfig
  import opened Graph
  import opened GraphLinks
  import opened Errors
  import opened DaemonConfig
  import opened DaemonCycle
  import opened DaemonCommands
  import opened DaemonPresence
  import opened DaemonMixer

  const DEFAULT_LONG_PRESS_TIMEOUT_MS: int := 500
  /** Node runs a timer whose delay is `undefined` after 1 ms. */
  const UNDEFINED_DELAY_MS: int := 1
  const CANCEL_COMMAND: string := "xdotool key Escape"
  const MAP_OF_UNDEFINED: string := "Cannot read properties of undefined (reading 'map')"
  const COLOR_OF_UNDEFINED: string := "Cannot read properties of undefined (reading 'color')"

  /** How long the graph must stay quiet before a reconciliation pass. */
  function UpdateHookTimeout(variant: Variant): (ms: int)
    ensures ms == (if variant == Current then 100 else 150)
  {
    match variant
    case Current => 100
    case Earlier => 150
  }

  // ---------------------------------------------------------------------
  // State, events and effects.

  /** A button held with a long-press slot: the long-press timer and the
      short press to run if the button is released first. */
  datatype Pending = Pending(token: nat, deferred: Option<PressSlot>)

  /** What a timer runs when it expires. */
  datatype Job =
    | LongPress(labelName: string, button: ButtonKey, slot: PressSlot)
    | RunActions(actions: seq<Action>)
    | Reconcile

  /** An open `mixer::select` prompt. */
  datatype Prompt = Prompt(channel: int, onFinish: seq<Action>)

  datatype Context = Context(
    variant: Variant,
    config: RuntimeConfig,
    /** The plugins whose input streams were opened at start-up. */
    pluginStreams: set<string>,
    shiftPressed: bool,
    rofiOpen: bool,
    ranges: map<string, Range>,
    mutes: map<string, bool>,
    /** The last value of each dial; `NaN` is the JSON `null` an
        unparsable value byte arrives as. */
    dials: map<string, Num>,
    ledSaveStates: map<string, Option<string>>,
    buttonColors: map<string, string>,
    /** The current daemon's `commandStates` and `cycleStates`, or the
        earlier daemon's `buttons`. */
    slots: map<SlotKey, Slot>,
    buttonTimeouts: map<string, Pending>,
    prevDevices: Presence,
    dump: Dump,
    /** The handle of the reconciliation timer, never cleared once set. */
    reconcileTimer: Option<nat>,
    /** The timers that have not fired or been cleared. */
    timers: map<nat, Job>,
    processes: map<nat, Running>,
    prompts: map<nat, Prompt>,
    /** The next unused id for a timer, process or prompt. */
    nextId: nat)

  datatype Event =
    | Midi(event: MidiEvent)
    | TimerFired(token: nat)
    | CommandExited(pid: nat)
      /** The prompt's standard output, or `None` if it failed. */
    | PromptReturned(id: nat, output: Option<string>)
      /** The result of `loadConfig`, `None` for an error. */
    | ConfigLoaded(loaded: Option<RuntimeConfig>)
      /** A frame of `pw-dump`, parsed; `None` if it does not parse. */
    | PwData(parsed: Option<seq<Item>>)

  datatype Effect =
      /** `amidiSend` of `buttonLEDBytes(button, color, ...)`. */
    | SendButtonLed(button: ButtonKey, color: Option<string>)
      /** `manifestDialValue(dial, value, context)`. */
    | ManifestDial(dial: string, value: Num)
    | PushMidish(text: string)
    | PushPlugin(plugin: string, line: string)
    | RunShell(command: string)
      /** `exclusiveLink(src, dest, dump)`. */
    | ExclusiveLink(src: NodeAndPort, dest: NodeAndPort)
    | Spawn(pid: nat, command: string)
    | Kill(pid: nat)
    | ArmTimer(token: nat, delayMs: int)
    | ClearTimer(token: nat)
    | RefreshTimer(token: nat)
    | ConnectMixer(connect: MixerConnect)
      /** `connectAppToMixer(sources[choice], mixerChannels[channel], ...)`. */
    | ConnectSelected(choice: string, channel: string)
    | LoadConfig
    | OpenPrompt(id: nat)
      /** A promise the daemon does not catch rejects. */
    | Rejected(message: string)
      /** A stream listener throws. */
    | HandlerThrew(message: string)

  datatype Out = Out(ctx: Context, effects: seq<Effect>)

  /** Ids are never reused, the rofi flag is set exactly while a prompt is
      open, at most one prompt is open, and the object table is ordered. */
  predicate Wellformed(c: Context) {
    (forall t | t in c.timers :: t < c.nextId)
    && (forall p | p in c.processes :: p < c.nextId)
    && (forall i | i in c.prompts :: i < c.nextId)
    && (forall l | l in c.buttonTimeouts :: c.buttonTimeouts[l].token < c.nextId)
    && (c.reconcileTimer.Some? ==> c.reconcileTimer.value < c.nextId)
    && (c.rofiOpen <==> c.prompts != map[])
    && (forall i, j | i in c.prompts && j in c.prompts :: i == j)
    && Ascending(c.dump.items)
  }

  /** What running actions leaves alone: everything but the dial, LED,
      command, cycle, timer, process and prompt bookkeeping. Running timers
      stay and new ones get nextId ids. */
  predicate Kept(a: Context, b: Context) {
    b.variant == a.variant && b.config == a.config && b.pluginStreams == a.pluginStreams
    && b.shiftPressed == a.shiftPressed && b.buttonColors == a.buttonColors
    && b.buttonTimeouts == a.buttonTimeouts && b.prevDevices == a.prevDevices
    && b.dump == a.dump && b.reconcileTimer == a.reconcileTimer
    && a.nextId <= b.nextId
    && (forall t | t in a.timers :: t in b.timers && b.timers[t] == a.timers[t])
    && (forall t | t in b.timers && t !in a.timers :: a.nextId <= t)
  }

  /** The fields `restoreState` reads back from the state file, with the
      cycle counters keyed by their action. The saved button colours are
      merged with the configured ones before the daemon starts, so they
      arrive with those as `Init`'s `buttonColors`. */
  datatype Restored = Restored(
    ranges: map<string, Range>,
    mutes: map<string, bool>,
    dials: map<string, Num>,
    ledSaveStates: map<string, Option<string>>,
    cycleStates: map<SlotKey, Num>)

  /** The start-up context: nothing pressed, running or open, an empty
      graph, and the initial presence of the rule nodes. The current daemon
      then restores its saved state, when the state file could be read;
      otherwise the dials keep their defaults and the other records start
      empty. The earlier daemon restores nothing. The dial defaults and
      the start-up button colours are inputs. */
  function Init(variant: Variant, config: RuntimeConfig, defaultDials: map<string, Num>,
                restored: Option<Restored>, buttonColors: map<string, string>): (c: Context)
    ensures Wellformed(c)
    ensures c.prevDevices == InitialPresence(variant, config) && c.buttonColors == buttonColors
    ensures !c.shiftPressed && !c.rofiOpen && c.timers == map[] && c.processes == map[]
    ensures forall k | k in c.slots :: c.slots[k].process.None?
    ensures variant == Earlier || restored.None? ==>
      c.ranges == map[] && c.mutes == map[] && c.dials == defaultDials && c.ledSaveStates == map[] && c.slots == map[]
    ensures variant == Current && restored.Some? ==>
      var saved := restored.value;
      c.ranges == saved.ranges && c.mutes == saved.mutes && c.dials == saved.dials
      && c.ledSaveStates == saved.ledSaveStates
      && c.slots.Keys == saved.cycleStates.Keys
      && forall k | k in saved.cycleStates :: StoredCounter(c, k) == Some(saved.cycleStates[k])
  {
    var start := Context(variant, config, config.plugins, false, false, map[], map[], defaultDials, map[], buttonColors,
                         map[], map[], InitialPresence(variant, config), EMPTY_DUMP, None, map[], map[], map[], 0);
    if variant == Earlier || restored.None? then start
    else
      var saved := restored.value;
      start.(ranges := saved.ranges, mutes := saved.mutes, dials := saved.dials, ledSaveStates := saved.ledSaveStates,
             slots := map k | k in saved.cycleStates :: Slot(saved.cycleStates[k], None))
  }

  /** The current daemon's start-up LEDs: one per listed colour whose label
      is a device button, in order. `amidiSend` drops the others. */
  function StartupLeds(device: Device, colors: seq<(string, string)>): (r: seq<Effect>)
    ensures |r| <= |colors|
    ensures forall k | 0 <= k < |r| :: r[k].SendButtonLed? && r[k].color.Some?
    ensures forall i | 0 <= i < |colors| && ButtonByLabel(device.buttons, colors[i].0).Some? ::
              SendButtonLed(ButtonByLabel(device.buttons, colors[i].0).value.0, Some(colors[i].1)) in r
  {
    if |colors| == 0 then []
    else
      var rest := StartupLeds(device, colors[1..]);
      assert forall i | 1 <= i < |colors| :: colors[i] == colors[1..][i - 1];
      match ButtonByLabel(device.buttons, colors[0].0)
      case None => rest
      case Some((key, _)) =>
        var r := [SendButtonLed(key, Some(colors[0].1))] + rest;
        assert forall k | 1 <= k < |r| :: r[k] == rest[k - 1];
        r
  }

  // ---------------------------------------------------------------------
  // Actions.

  /** `context.dials[dial] ?? 0`. A stored `NaN` stands for the `null` that
      an unparsable value byte becomes once the event is passed on as JSON,
      so it reads as 0 here as well. */
  function DialValue(ctx: Context, dial: string): (v: Num)
    ensures v.Int?
    ensures dial in ctx.dials && ctx.dials[dial].Int? ==> v == ctx.dials[dial]
    ensures dial !in ctx.dials || ctx.dials[dial].NaN? ==> v == Int(0)
  {
    if dial in ctx.dials && ctx.dials[dial].Int? then ctx.dials[dial] else Int(0)
  }

  /** The effect of a `pipewire::link` or `pipewire::unlink` decision: the
      command to run, or the rejection `handlePwLinkError` rethrows. */
  function LinkEffects(r: Result<Option<string>, string>): (e: seq<Effect>)
    ensures r.Success? && r.value.None? ==> e == []
    ensures r.Success? && r.value.Some? ==> e == [RunShell(r.value.value)]
    ensures r.Failure? && HandlePwLinkError(ErrorValue(r.error)) == Swallowed ==> e == []
  {
    match r
    case Success(None) => []
    case Success(Some(cmd)) => [RunShell(cmd)]
    case Failure(message) =>
      if HandlePwLinkError(ErrorValue(message)) == Rethrown then [Rejected(message)] else []
  }

  /** A command finishes: its record is deleted and `onFinish` is put on a
      timer of `FinishDelay`. */
  function Finish(ctx: Context, key: SlotKey, first: Num, onFinish: seq<Action>, now: int): (o: Out)
    requires Wellformed(ctx)
    ensures Wellformed(o.ctx) && Kept(ctx, o.ctx)
    ensures key !in o.ctx.slots && o.ctx.slots == ctx.slots - {key}
    ensures o.effects == [ArmTimer(ctx.nextId, FinishDelay(now, first))]
    ensures o.ctx.timers == ctx.timers[ctx.nextId := RunActions(onFinish)] && o.ctx.nextId == ctx.nextId + 1
  {
    var token := ctx.nextId;
    Out(ctx.(slots := ctx.slots - {key}, timers := ctx.timers[token := RunActions(onFinish)], nextId := token + 1),
        [ArmTimer(token, FinishDelay(now, first))])
  }

  /** A tracked `command`: a cancelable retrigger of a recorded command
      kills its process (if it has one) and finishes at once. Otherwise the
      command is spawned and recorded with the current time. */
  function TrackedCommand(ctx: Context, key: SlotKey, command: string, cancelable: bool, onFinish: seq<Action>, now: int): (o: Out)
    requires Wellformed(ctx)
    ensures Wellformed(o.ctx) && Kept(ctx, o.ctx)
    ensures cancelable && key in ctx.slots ==>
      var s := ctx.slots[key];
      o.effects == (if s.process.Some? then [Kill(s.process.value)] else []) + [ArmTimer(ctx.nextId, FinishDelay(now, s.first))]
      && o.ctx.slots == ctx.slots - {key} && ctx.nextId in o.ctx.timers && o.ctx.timers[ctx.nextId] == RunActions(onFinish)
      && o.ctx.processes == ctx.processes
    ensures !(cancelable && key in ctx.slots) ==>
      o.effects == [Spawn(ctx.nextId, command)]
      && o.ctx.slots == ctx.slots[key := Slot(Int(now), Some(ctx.nextId))]
      && o.ctx.processes == ctx.processes[ctx.nextId := Running(key, now, onFinish)]
  {
    if cancelable && key in ctx.slots then
      var s := ctx.slots[key];
      var kill := if s.process.Some? then [Kill(s.process.value)] else [];
      var f := Finish(ctx, key, s.first, onFinish, now);
      Out(f.ctx, kill + f.effects)
    else
      var pid := ctx.nextId;
      Out(ctx.(slots := ctx.slots[key := Slot(Int(now), Some(pid))],
               processes := ctx.processes[pid := Running(key, now, onFinish)],
               nextId := pid + 1),
          [Spawn(pid, command)])
  }

  /** A cycle's new counter stored under its key: only `slots` changes. */
  function StoreCounter(ctx: Context, key: SlotKey, idx: Num): (c: Context)
    requires Wellformed(ctx)
    ensures Wellformed(c) && Kept(ctx, c)
    ensures c.slots == ctx.slots[key := Slot(idx, None)] && c.nextId == ctx.nextId
    ensures c.timers == ctx.timers && c.processes == ctx.processes && c.prompts == ctx.prompts
  {
    ctx.(slots := ctx.slots[key := Slot(idx, None)])
  }

  /** The stored counter under a key, if any. */
  function StoredCounter(ctx: Context, key: SlotKey): Option<Num> {
    if key in ctx.slots then Some(ctx.slots[key].first) else None
  }

  /** `doAction` (current) and `doActionBinding` (earlier). */
  function DoAction(ctx: Context, env: MixerEnv, a: Action, now: int): (o: Out)
    requires Wellformed(ctx)
    ensures Wellformed(o.ctx) && Kept(ctx, o.ctx)
    decreases a
  {
    match a
    case CommandAction(command, cancelable, onFinish) =>
      if ctx.variant == Earlier then Out(ctx, [RunShell(command)])
      else TrackedCommand(ctx, ByAction(a), command, cancelable, onFinish, now)
    case CycleAction(items) =>
      if ctx.variant == Earlier then Out(ctx, []) else RunCycle(ctx, env, ByAction(a), items, now)
    case CancelAction(alt) =>
      if ctx.rofiOpen then Out(ctx, [RunShell(CANCEL_COMMAND)])
      else if alt.Some? then DoAction(ctx, env, alt.value, now)
      else Out(ctx, [])
    case RangeAction(_, _) => StateAction(ctx, env, a)
    case LedSaveAction(_) => StateAction(ctx, env, a)
    case MuteAction(_, _) => StateAction(ctx, env, a)
    case MixerSelectAction(_, _) => StateAction(ctx, env, a)
    case _ => Out(ctx, ActionEffects(ctx, a))
  }

  /** The current daemon's `cycle`: store the next index under the key and
      run that item's actions. */
  function RunCycle(ctx: Context, env: MixerEnv, key: SlotKey, items: seq<CycleStep>, now: int): (o: Out)
    requires Wellformed(ctx)
    ensures Wellformed(o.ctx) && Kept(ctx, o.ctx)
    decreases items
  {
    var idx := CycleIndex(StoredCounter(ctx, key), |items|);
    var stored := StoreCounter(ctx, key, idx);
    if InRange(idx, |items|) then DoActions(stored, env, items[idx.v].actions, now)
    else Out(stored, [Rejected(MAP_OF_UNDEFINED)])
  }

  /** The actions that only change the daemon's state (and may report a
      dial): `range`, `led::save`, `mute` and `mixer::select`. */
  function StateAction(ctx: Context, env: MixerEnv, a: Action): (o: Out)
    requires Wellformed(ctx)
    requires a.RangeAction? || a.LedSaveAction? || a.MuteAction? || a.MixerSelectAction?
    ensures Wellformed(o.ctx) && Kept(ctx, o.ctx)
  {
    match a
    case RangeAction(dial, range) =>
      Out(ctx.(ranges := ctx.ranges[dial := range]), [ManifestDial(dial, DialValue(ctx, dial))])
    case LedSaveAction(button) =>
      var saved := if button in ctx.buttonColors then Some(ctx.buttonColors[button]) else None;
      Out(ctx.(ledSaveStates := ctx.ledSaveStates[button := saved]), [])
    case MuteAction(dial, mute) =>
      Out(ctx.(mutes := ctx.mutes[dial := mute]), [ManifestDial(dial, if mute then Int(0) else DialValue(ctx, dial))])
    case MixerSelectAction(channel, onFinish) =>
      if ctx.rofiOpen || !env.hasMixerPorts(ctx.dump) then Out(ctx, [])
      else
        var id := ctx.nextId;
        var prompts := ctx.prompts[id := Prompt(channel, onFinish)];
        assert id in prompts;
        Out(ctx.(rofiOpen := true, prompts := prompts, nextId := id + 1), [OpenPrompt(id)])
  }

  /** The effects of the actions that leave the daemon's state alone: at
      most one each. A MIDI batch is pushed whole or refused; a plugin hears
      only while it runs, and only the earlier daemon shows GUIs; the LED
      actions reach only a button the device labels; only the current
      daemon reloads its configuration. */
  function ActionEffects(ctx: Context, a: Action): (r: seq<Effect>)
    requires !a.CommandAction? && !a.CycleAction? && !a.CancelAction?
    requires !a.RangeAction? && !a.LedSaveAction? && !a.MuteAction? && !a.MixerSelectAction?
    ensures |r| <= 1
    ensures a.MidiAction? ==> |r| == 1 && (r[0].PushMidish? <==> MidishBatch(a.events).Success?)
    ensures a.LoadPresetAction? ==> (r != [] <==> a.pluginName in ctx.pluginStreams)
    ensures a.ShowGuiAction? ==> (r != [] <==> ctx.variant == Earlier && a.pluginName in ctx.pluginStreams)
    ensures a.LedSetAction? || a.LedRestoreAction? ==>
      (r != [] <==> ButtonByLabel(ctx.config.device.buttons, a.button).Some?)
    ensures a.ConfigReloadAction? ==> (r != [] <==> ctx.variant == Current)
  {
    match a
    case MidiAction(events) =>
      (match MidishBatch(events)
       case Success(text) => [PushMidish(text)]
       case Failure(message) => [Rejected(message)])
    case LoadPresetAction(pluginName, preset) =>
      if pluginName in ctx.pluginStreams then [PushPlugin(pluginName, "preset " + preset)] else []
    case ShowGuiAction(pluginName) =>
      if ctx.variant == Earlier && pluginName in ctx.pluginStreams then [PushPlugin(pluginName, "show")] else []
    case LinkAction(src, dest) => LinkEffects(EnsureLink(src, dest, ctx.dump))
    case UnlinkAction(src, dest) => LinkEffects(DestroyLink(src, dest, ctx.dump))
    case ExclusiveLinkAction(src, dest) => [ExclusiveLink(src, dest)]
    case LedSetAction(button, color) =>
      (match ButtonByLabel(ctx.config.device.buttons, button)
       case None => []
       case Some((key, _)) => [SendButtonLed(key, Some(color))])
    case LedRestoreAction(button) =>
      (match ButtonByLabel(ctx.config.device.buttons, button)
       case None => []
       case Some((key, _)) =>
         var color := if button in ctx.ledSaveStates then ctx.ledSaveStates[button] else None;
         [SendButtonLed(key, color)])
    case ConfigReloadAction =>
      if ctx.variant == Current then [LoadConfig] else []
  }

  /** The actions of a list, one after the other, each on the context the
      previous one left. */
  function DoActions(ctx: Context, env: MixerEnv, acts: seq<Action>, now: int): (o: Out)
    requires Wellformed(ctx)
    ensures Wellformed(o.ctx) && Kept(ctx, o.ctx)
    ensures acts == [] ==> o == Out(ctx, [])
    decreases acts
  {
    if |acts| == 0 then Out(ctx, [])
    else
      var first := DoAction(ctx, env, acts[0], now);
      var rest := DoActions(first.ctx, env, acts[1..], now);
      Out(rest.ctx, first.effects + rest.effects)
  }

  /** The earlier daemon's `handleButtonBinding`: a `command` or `cycle` run
      from a button slot keeps its state under the button's label, and a
      cycle sets the button's LED to the selected item's colour before its
      actions. The cycle's counter is computed as written, so the first
      trigger of a one-item cycle stores 1 and then fails reading the
      colour of the missing item. Any other action is `doActionBinding`. */
  function ButtonAction(ctx: Context, env: MixerEnv, button: ButtonKey, labelName: string, a: Action, now: int): (o: Out)
    requires Wellformed(ctx)
    ensures Wellformed(o.ctx) && Kept(ctx, o.ctx)
  {
    match a
    case CommandAction(command, cancelable, onFinish) =>
      TrackedCommand(ctx, ByLabel(labelName), command, cancelable, onFinish, now)
    case CycleAction(items) =>
      var key := ByLabel(labelName);
      var idx := EarlierCycleIndexAsWritten(StoredCounter(ctx, key), |items|);
      var stored := StoreCounter(ctx, key, idx);
      if InRange(idx, |items|) then
        var item := items[idx.v];
        var o := DoActions(stored, env, item.actions, now);
        Out(o.ctx, [SendButtonLed(button, item.color)] + o.effects)
      else Out(stored, [Rejected(COLOR_OF_UNDEFINED)])
    case _ => DoAction(ctx, env, a, now)
  }

  function ButtonActions(ctx: Context, env: MixerEnv, button: ButtonKey, labelName: string, acts: seq<Action>, now: int): (o: Out)
    requires Wellformed(ctx)
    ensures Wellformed(o.ctx) && Kept(ctx, o.ctx)
    decreases |acts|
  {
    if |acts| == 0 then Out(ctx, [])
    else
      var first := ButtonAction(ctx, env, button, labelName, acts[0], now);
      var rest := ButtonActions(first.ctx, env, button, labelName, acts[1..], now);
      Out(rest.ctx, first.effects + rest.effects)
  }

  /** `executionFunc(actions, color)()`: the button's LED, then the slot's
      actions. The current daemon never passes the colour. */
  function RunSlot(ctx: Context, env: MixerEnv, button: ButtonKey, labelName: string, slot: PressSlot, now: int): (o: Out)
    requires Wellformed(ctx)
    ensures Wellformed(o.ctx) && Kept(ctx, o.ctx)
    ensures |o.effects| > 0 && o.effects[0] == SendButtonLed(button, if ctx.variant == Current then None else slot.color)
  {
    var led := SendButtonLed(button, if ctx.variant == Current then None else slot.color);
    var o :=
      if ctx.variant == Current then DoActions(ctx, env, slot.actions, now)
      else ButtonActions(ctx, env, button, labelName, slot.actions, now);
    Out(o.ctx, [led] + o.effects)
  }

  // ---------------------------------------------------------------------
  // MIDI events.

  /** The device button on a channel and note, with its label. */
  function FindButton(device: Device, channel: int, note: Num): (r: Option<(ButtonKey, string)>)
    ensures r.Some? ==> note == Int(r.value.0.note) && r.value.0.channel == channel
                        && EntryAt(device.buttons, r.value.0).Some?
                        && EntryAt(device.buttons, r.value.0).value.labelName == r.value.1
    ensures note.Int? && EntryAt(device.buttons, ButtonKey(channel, note.v)).Some? ==> r.Some?
  {
    match note
    case NaN => None
    case Int(n) =>
      match EntryAt(device.buttons, ButtonKey(channel, n))
      case None => None
      case Some(b) => Some((ButtonKey(channel, n), b.labelName))
  }

  /** The delay of a long-press timer: the slot's, else 500 ms in the
      current daemon. The earlier daemon passes the slot's value as it is. */
  function LongPressDelay(variant: Variant, timeout: Option<int>): (ms: int)
    ensures timeout.Some? ==> ms == timeout.value
    ensures timeout.None? ==> ms == (if variant == Current then DEFAULT_LONG_PRESS_TIMEOUT_MS else UNDEFINED_DELAY_MS)
  {
    match timeout
    case Some(t) => t
    case None => if variant == Current then DEFAULT_LONG_PRESS_TIMEOUT_MS else UNDEFINED_DELAY_MS
  }

  /** The long-press and short-press slots of the active layer: the shift
      slots while shift is held, the plain ones otherwise. */
  function ActiveSlots(shiftPressed: bool, b: ButtonBinding): (r: (Option<PressSlot>, Option<PressSlot>)) {
    if shiftPressed then (b.onShiftLongPress, b.onShiftPress) else (b.onLongPress, b.onPress)
  }

  /** A press with a long-press slot: arm its timer and remember the short
      press. */
  function ArmLongPress(ctx: Context, button: ButtonKey, labelName: string, long: PressSlot, short: Option<PressSlot>): (o: Out)
    requires Wellformed(ctx)
    ensures Wellformed(o.ctx)
  {
    var token := ctx.nextId;
    Out(ctx.(timers := ctx.timers[token := LongPress(labelName, button, long)],
             buttonTimeouts := ctx.buttonTimeouts[labelName := Pending(token, short)],
             nextId := token + 1),
        [ArmTimer(token, LongPressDelay(ctx.variant, long.timeout))])
  }

  /** `handleNoteOn`. */
  function HandleNoteOn(ctx: Context, env: MixerEnv, channel: int, note: Num, now: int): (o: Out)
    requires Wellformed(ctx)
    ensures Wellformed(o.ctx)
  {
    if channel == ctx.config.device.keysChannel then Out(ctx, [])
    else match FindButton(ctx.config.device, channel, note)
      case None => Out(ctx, [])
      case Some((button, labelName)) =>
        if labelName == SHIFT_LABEL then Out(ctx.(shiftPressed := true), [])
        else match ButtonBindingOf(ctx.config, labelName)
          case None => Out(ctx, [])
          case Some(b) =>
            var (long, short) := ActiveSlots(ctx.shiftPressed, b);
            if long.Some? then ArmLongPress(ctx, button, labelName, long.value, short)
            else if short.Some? then RunSlot(ctx, env, button, labelName, short.value, now)
            else Out(ctx, [])
  }

  /** The release part of `handleNoteOff`: the current daemon runs the
      `onRelease` actions. The earlier daemon first sets the LED to the
      slot's colour and treats the actions as button actions. */
  function Release(ctx: Context, env: MixerEnv, button: ButtonKey, labelName: string, b: ButtonBinding, now: int): (o: Out)
    requires Wellformed(ctx)
    ensures Wellformed(o.ctx) && Kept(ctx, o.ctx)
    ensures b.onRelease.None? ==> o == Out(ctx, [])
    ensures b.onRelease.Some? && ctx.variant == Earlier ==>
      |o.effects| > 0 && o.effects[0] == SendButtonLed(button, b.onRelease.value.color)
  {
    match b.onRelease
    case None => Out(ctx, [])
    case Some(slot) =>
      if ctx.variant == Current then DoActions(ctx, env, slot.actions, now)
      else
        var o := ButtonActions(ctx, env, button, labelName, slot.actions, now);
        Out(o.ctx, [SendButtonLed(button, slot.color)] + o.effects)
  }

  /** A pending long press resolved by the release: its timer is cleared,
      the deferred short press runs, and the entry is deleted. */
  function ResolvePending(ctx: Context, env: MixerEnv, button: ButtonKey, labelName: string, now: int): (o: Out)
    requires Wellformed(ctx)
    ensures Wellformed(o.ctx) && ctx.nextId <= o.ctx.nextId
    ensures labelName !in o.ctx.buttonTimeouts
    ensures labelName !in ctx.buttonTimeouts ==> o == Out(ctx, [])
    ensures labelName in ctx.buttonTimeouts ==>
      var p := ctx.buttonTimeouts[labelName];
      |o.effects| > 0 && o.effects[0] == ClearTimer(p.token) && p.token !in o.ctx.timers
      && (p.deferred.None? ==> o.effects == [ClearTimer(p.token)])
      && (p.deferred.Some? ==>
            |o.effects| > 1 && o.effects[1] == SendButtonLed(button, if ctx.variant == Current then None else p.deferred.value.color))
  {
    if labelName !in ctx.buttonTimeouts then Out(ctx, [])
    else ClearPending(ctx, env, button, labelName, ctx.buttonTimeouts[labelName], now)
  }

  /** Clear a pending press's timer, run its deferred short press if there
      is one, and forget the press. */
  function ClearPending(ctx: Context, env: MixerEnv, button: ButtonKey, labelName: string, p: Pending, now: int): (o: Out)
    requires Wellformed(ctx) && p.token < ctx.nextId
    ensures Wellformed(o.ctx) && ctx.nextId <= o.ctx.nextId
    ensures labelName !in o.ctx.buttonTimeouts
    ensures |o.effects| > 0 && o.effects[0] == ClearTimer(p.token) && p.token !in o.ctx.timers
    ensures p.deferred.None? ==> o.effects == [ClearTimer(p.token)]
    ensures p.deferred.Some? ==>
      |o.effects| > 1 && o.effects[1] == SendButtonLed(button, if ctx.variant == Current then None else p.deferred.value.color)
  {
    var ran := RunDeferred(WithoutTimer(ctx, p.token), env, button, labelName, p.deferred, now);
    Out(ForgetPress(ran.ctx, labelName), [ClearTimer(p.token)] + ran.effects)
  }

  /** `clearTimeout(token)`: the timer is gone and nothing else changes. */
  function WithoutTimer(ctx: Context, token: nat): (c: Context)
    requires Wellformed(ctx)
    ensures Wellformed(c)
    ensures c.timers.Keys == ctx.timers.Keys - {token}
    ensures c.variant == ctx.variant && c.nextId == ctx.nextId
  {
    ctx.(timers := ctx.timers - {token})
  }

  /** Drop a button's pending press; only `buttonTimeouts` changes. */
  function ForgetPress(ctx: Context, labelName: string): (c: Context)
    requires Wellformed(ctx)
    ensures Wellformed(c)
    ensures c.buttonTimeouts == ctx.buttonTimeouts - {labelName}
    ensures c.timers == ctx.timers && c.nextId == ctx.nextId && c.variant == ctx.variant && c.config == ctx.config
  {
    ctx.(buttonTimeouts := ctx.buttonTimeouts - {labelName})
  }

  /** The deferred short press of a pending press, if any. */
  function RunDeferred(ctx: Context, env: MixerEnv, button: ButtonKey, labelName: string, deferred: Option<PressSlot>, now: int): (o: Out)
    requires Wellformed(ctx)
    ensures Wellformed(o.ctx) && Kept(ctx, o.ctx)
    ensures deferred.None? ==> o == Out(ctx, [])
    ensures deferred.Some? ==>
      |o.effects| > 0 && o.effects[0] == SendButtonLed(button, if ctx.variant == Current then None else deferred.value.color)
  {
    if deferred.Some? then RunSlot(ctx, env, button, labelName, deferred.value, now) else Out(ctx, [])
  }

  /** `handleNoteOff`. */
  function HandleNoteOff(ctx: Context, env: MixerEnv, channel: int, note: Num, now: int): (o: Out)
    requires Wellformed(ctx)
    ensures Wellformed(o.ctx)
  {
    if channel == ctx.config.device.keysChannel then Out(ctx, [])
    else match FindButton(ctx.config.device, channel, note)
      case None => Out(ctx, [])
      case Some((button, labelName)) =>
        if labelName == SHIFT_LABEL then Out(ctx.(shiftPressed := false), [])
        else match ButtonBindingOf(ctx.config, labelName)
          case None => Out(ctx, [])
          case Some(b) =>
            var resolved := ResolvePending(ctx, env, button, labelName, now);
            var released := Release(resolved.ctx, env, button, labelName, b, now);
            Out(released.ctx, resolved.effects + released.effects)
  }

  /** `handleControlChange`: nothing while shift is held. Otherwise a
      matching dial is published and its value recorded. */
  function HandleControlChange(ctx: Context, channel: int, controller: Num, value: Num): (o: Out)
    requires Wellformed(ctx)
    ensures Wellformed(o.ctx)
    ensures ctx.shiftPressed ==> o == Out(ctx, [])
    ensures !ctx.shiftPressed && controller.Int? && EntryAt(ctx.config.device.dials, DialKey(channel, controller.v)).Some? ==>
      var dialLabel := EntryAt(ctx.config.device.dials, DialKey(channel, controller.v)).value;
      o == Out(ctx.(dials := ctx.dials[dialLabel := value]), [ManifestDial(dialLabel, value)])
    ensures controller.NaN? || EntryAt(ctx.config.device.dials, DialKey(channel, controller.v)).None? ==> o == Out(ctx, [])
  {
    if ctx.shiftPressed then Out(ctx, [])
    else match controller
      case NaN => Out(ctx, [])
      case Int(c) =>
        match EntryAt(ctx.config.device.dials, DialKey(channel, c))
        case None => Out(ctx, [])
        case Some(dialLabel) => Out(ctx.(dials := ctx.dials[dialLabel := value]), [ManifestDial(dialLabel, value)])
  }

  // ---------------------------------------------------------------------
  // Reconciliation.

  /** The actions of the fired rules, rule by rule, in order. */
  function RuleActions(rules: seq<(string, seq<Action>)>, fired: seq<nat>): (r: seq<Action>)
    requires forall k | 0 <= k < |fired| :: fired[k] < |rules|
    ensures fired == [] ==> r == []
  {
    if |fired| == 0 then [] else rules[fired[0]].1 + RuleActions(rules, fired[1..])
  }

  /** Connection `c` is one that the mixer rule `rule` asks for. */
  predicate InMixerRule(env: MixerEnv, dump: Dump, rule: (string, MixerChannel), c: MixerConnect) {
    c in MixerRule(env, dump, rule.0, rule.1)
  }

  /** The connections of every mixer rule, rule by rule. */
  function MixerConnects(env: MixerEnv, dump: Dump, rules: seq<(string, MixerChannel)>): seq<MixerConnect> {
    if |rules| == 0 then []
    else MixerRule(env, dump, rules[0].0, rules[0].1) + MixerConnects(env, dump, rules[1..])
  }

  /** One `ConnectMixer` effect per connection, in order. */
  function ConnectAll(c: seq<MixerConnect>): seq<Effect> {
    seq(|c|, k requires 0 <= k < |c| => ConnectMixer(c[k]))
  }

  function MixerEffects(env: MixerEnv, dump: Dump, rules: seq<(string, MixerChannel)>): (r: seq<Effect>)
    ensures forall k | 0 <= k < |r| :: r[k].ConnectMixer?
  {
    ConnectAll(MixerConnects(env, dump, rules))
  }

  /** The actions a pass runs: those of the arrival rules that fire, then
      those of the departure rules that fire. */
  function PassActions(ctx: Context): (r: seq<Action>)
    ensures (forall i | 0 <= i < |ctx.config.onConnectRules| :: !Fires(Arrival, ctx.prevDevices, ctx.dump.items, ctx.config.onConnectRules[i].0))
            && (forall i | 0 <= i < |ctx.config.onDisconnectRules| :: !Fires(Departure, ctx.prevDevices, ctx.dump.items, ctx.config.onDisconnectRules[i].0))
            ==> r == []
  {
    var items := ctx.dump.items;
    var arrivals := Fired(Arrival, ctx.config.onConnectRules, ctx.prevDevices, items);
    var departures := Fired(Departure, ctx.config.onDisconnectRules, ctx.prevDevices, items);
    RuleActions(ctx.config.onConnectRules, arrivals) + RuleActions(ctx.config.onDisconnectRules, departures)
  }

  /** Whether a pass runs the mixer rules: always in the earlier daemon,
      only when there is a mixer in the current one. */
  predicate RunsMixerRules(ctx: Context, env: MixerEnv) {
    ctx.variant == Earlier || env.hasMixer(ctx.dump)
  }

  /** The reconciliation timer's callback. Arrival rules fire, then
      departure rules, then the mixer rules. Last, every remembered node's
      presence is refreshed. */
  function ReconcilePass(ctx: Context, env: MixerEnv, now: int): (o: Out)
    requires Wellformed(ctx)
    ensures Wellformed(o.ctx)
    ensures o.ctx.prevDevices == NextPresence(ctx.prevDevices, ctx.dump.items)
    ensures o.ctx.config == ctx.config && o.ctx.dump == ctx.dump && o.ctx.variant == ctx.variant
  {
    var ran := DoActions(ctx, env, PassActions(ctx), now);
    var mixer := if RunsMixerRules(ctx, env) then MixerEffects(env, ctx.dump, ctx.config.mixerRules) else [];
    Out(ran.ctx.(prevDevices := NextPresence(ctx.prevDevices, ctx.dump.items)), ran.effects + mixer)
  }

  // ---------------------------------------------------------------------
  // The step function.

  /** A timer expires. A cleared or already-fired timer does nothing. */
  function Fire(ctx: Context, env: MixerEnv, token: nat, now: int): (o: Out)
    requires Wellformed(ctx)
    ensures Wellformed(o.ctx)
    ensures token !in ctx.timers ==> o == Out(ctx, [])
  {
    if token !in ctx.timers then Out(ctx, [])
    else
      var fired := ctx.(timers := ctx.timers - {token});
      match ctx.timers[token]
      case LongPress(labelName, button, slot) =>
        var ran := RunSlot(fired, env, button, labelName, slot, now);
        Out(ForgetPress(ran.ctx, labelName), ran.effects)
      case RunActions(acts) => DoActions(fired, env, acts, now)
      case Reconcile => ReconcilePass(fired, env, now)
  }

  /** A spawned command exits. Its callback finishes only if the record it
      started is still there. */
  function Exited(ctx: Context, pid: nat, now: int): (o: Out)
    requires Wellformed(ctx)
    ensures Wellformed(o.ctx)
    ensures pid !in ctx.processes ==> o == Out(ctx, [])
    ensures pid in ctx.processes && !ExitFinishes(ctx.slots, ctx.processes[pid]) ==>
              o == Out(ctx.(processes := ctx.processes - {pid}), [])
    ensures pid in ctx.processes && ExitFinishes(ctx.slots, ctx.processes[pid]) ==>
              var r := ctx.processes[pid];
              o.effects == [ArmTimer(ctx.nextId, FinishDelay(now, Int(r.timestamp)))]
              && r.key !in o.ctx.slots && ctx.nextId in o.ctx.timers && o.ctx.timers[ctx.nextId] == RunActions(r.onFinish)
  {
    if pid !in ctx.processes then Out(ctx, [])
    else
      var r := ctx.processes[pid];
      var gone := ctx.(processes := ctx.processes - {pid});
      if !ExitFinishes(ctx.slots, r) then Out(gone, [])
      else Finish(gone, r.key, Int(r.timestamp), r.onFinish, now)
  }

  /** The prompt answers (or fails). A chosen source is connected to the
      selected channel. Either way the rofi flag is cleared and `onFinish`
      runs. */
  function Answered(ctx: Context, env: MixerEnv, id: nat, output: Option<string>, now: int): (o: Out)
    requires Wellformed(ctx)
    ensures Wellformed(o.ctx)
    ensures id !in ctx.prompts ==> o == Out(ctx, [])
    ensures id in ctx.prompts ==>
      var p := ctx.prompts[id];
      var closed := ctx.(rofiOpen := false, prompts := ctx.prompts - {id});
      o.effects == (if output.Some? then [ConnectSelected(Trim(output.value), ChannelName(p.channel))] else [])
                   + DoActions(closed, env, p.onFinish, now).effects
  {
    if id !in ctx.prompts then Out(ctx, [])
    else
      var p := ctx.prompts[id];
      var closed := ctx.(rofiOpen := false, prompts := ctx.prompts - {id});
      var connect := if output.Some? then [ConnectSelected(Trim(output.value), ChannelName(p.channel))] else [];
      var ran := DoActions(closed, env, p.onFinish, now);
      Out(ran.ctx, connect + ran.effects)
  }

  /** `pw-dump` data: the graph is updated, then the reconciliation timer
      is refreshed, or armed the first time. When the update throws, the
      framing loop catches it and keeps the frame, delivering it again with
      every later chunk, so no later frame gets through. */
  function GraphData(ctx: Context, parsed: Option<seq<Item>>): (o: Out)
    requires Wellformed(ctx)
    ensures Wellformed(o.ctx)
    ensures o.ctx.dump == UpdateDump(ctx.dump, parsed).dump
    ensures UpdateDump(ctx.dump, parsed).error.None? && ctx.reconcileTimer.Some? ==>
      o.effects == [RefreshTimer(ctx.reconcileTimer.value)]
      && ctx.reconcileTimer.value in o.ctx.timers && o.ctx.timers[ctx.reconcileTimer.value] == Reconcile
    ensures UpdateDump(ctx.dump, parsed).error.None? && ctx.reconcileTimer.None? ==>
      o.effects == [ArmTimer(ctx.nextId, UpdateHookTimeout(ctx.variant))] && o.ctx.reconcileTimer == Some(ctx.nextId)
  {
    var u := UpdateDump(ctx.dump, parsed);
    var updated := ctx.(dump := u.dump);
    if u.error.Some? then Out(updated, [HandlerThrew(u.error.value)])
    else Rearm(updated)
  }

  /** The reconciliation timer restarted after an update. */
  function Rearm(ctx: Context): (o: Out)
    requires Wellformed(ctx)
    ensures Wellformed(o.ctx) && o.ctx.dump == ctx.dump
    ensures ctx.reconcileTimer.Some? ==>
      o.effects == [RefreshTimer(ctx.reconcileTimer.value)]
      && ctx.reconcileTimer.value in o.ctx.timers && o.ctx.timers[ctx.reconcileTimer.value] == Reconcile
    ensures ctx.reconcileTimer.None? ==>
      o.effects == [ArmTimer(ctx.nextId, UpdateHookTimeout(ctx.variant))] && o.ctx.reconcileTimer == Some(ctx.nextId)
  {
    match ctx.reconcileTimer
    case Some(t) => Out(RefreshReconcile(ctx, t), [RefreshTimer(t)])
    case None => Out(ArmReconcile(ctx), [ArmTimer(ctx.nextId, UpdateHookTimeout(ctx.variant))])
  }

  /** `timer.refresh()` on the running reconciliation timer. */
  function RefreshReconcile(ctx: Context, t: nat): (c: Context)
    requires Wellformed(ctx) && ctx.reconcileTimer == Some(t)
    ensures Wellformed(c) && c.dump == ctx.dump
    ensures t in c.timers && c.timers[t] == Reconcile
  {
    var timers := ctx.timers[t := Reconcile];
    assert forall x | x in timers :: x < ctx.nextId;
    ctx.(timers := timers)
  }

  /** A new reconciliation timer under the next id. */
  function ArmReconcile(ctx: Context): (c: Context)
    requires Wellformed(ctx)
    ensures Wellformed(c) && c.dump == ctx.dump
    ensures c.reconcileTimer == Some(ctx.nextId) && ctx.nextId in c.timers && c.timers[ctx.nextId] == Reconcile
  {
    var t := ctx.nextId;
    var timers := ctx.timers[t := Reconcile];
    assert forall x | x in timers :: x < t + 1;
    ctx.(reconcileTimer := Some(t), timers := timers, nextId := t + 1)
  }

  /** One event, at time `now`. */
  function Step(ctx: Context, env: MixerEnv, ev: Event, now: int): (o: Out)
    requires Wellformed(ctx)
    ensures Wellformed(o.ctx)
  {
    match ev
    case Midi(e) =>
      (match e
       case NoteOnEvent(channel, note, _) => HandleNoteOn(ctx, env, channel, note, now)
       case NoteOffEvent(channel, note, _) => HandleNoteOff(ctx, env, channel, note, now)
       case ControlChangeEvent(channel, controller, value) => HandleControlChange(ctx, channel, controller, value)
       case _ => Out(ctx, []))
    case TimerFired(token) => Fire(ctx, env, token, now)
    case CommandExited(pid) => Exited(ctx, pid, now)
    case PromptReturned(id, output) => Answered(ctx, env, id, output, now)
    case ConfigLoaded(loaded) =>
      (match loaded
       case None => Out(ctx, [])
       case Some(config) => Out(ctx.(config := config, prevDevices := ReloadMerge(ctx.prevDevices, config)), []))
    case PwData(parsed) => GraphData(ctx, parsed)
  }
}

=== FILE: daemon_commands.dfy ===
/** The bookkeeping of `command` actions run by the daemons. A started
    command records its start time and process. A cancelable command that
    is triggered again while recorded kills the process and finishes at
    once. An exit callback finishes only if the record is still the one it
    started. Finishing deletes the record and runs `onFinish` after a delay.
    The delay makes the actions start no sooner than 150 ms after the command
    did. */
module DaemonCommands {
  import opened Wrappers
  import opened JsNum
  import opened DaemonConfig

  /** The key of a record. The current daemon keys it by the action itself
      (`objectId(action)`, a digest of the action's content). The earlier
      daemon keys it by the label of the button that ran it. */
  datatype SlotKey = ByAction(action: Action) | ByLabel(labelName: string)

  /** A record: its first field, and the process if there is one. A running
      command stores `[timestamp, process]`. The earlier daemon's `cycle`
      stores `[index]` under the same key. */
  datatype Slot = Slot(first: Num, process: Option<nat>)

  /** A spawned command whose exit callback has not run yet. */
  datatype Running = Running(key: SlotKey, timestamp: int, onFinish: seq<Action>)

  const FINISH_MIN_DELAY_MS: int := 150

  /** `Date.now() - timestamp < 150 ? 150 : 0`. The record's first field
      stands in for the timestamp, and a NaN one compares false. */
  function FinishDelay(now: int, first: Num): (d: int)
    ensures d == FINISH_MIN_DELAY_MS || d == 0
    ensures d == FINISH_MIN_DELAY_MS <==> first.Int? && now - first.v < FINISH_MIN_DELAY_MS
  {
    match first
    case NaN => 0
    case Int(ts) => if now - ts < FINISH_MIN_DELAY_MS then FINISH_MIN_DELAY_MS else 0
  }

  /** With a timestamp no later than now, the `onFinish` actions start at
      least 150 ms after the command started. A command that has already run
      that long finishes with no extra wait. */
  lemma FinishNotBeforeMinimum(now: int, ts: int)
    requires ts <= now
    ensures now + FinishDelay(now, Int(ts)) >= ts + FINISH_MIN_DELAY_MS
    ensures now - ts >= FINISH_MIN_DELAY_MS ==> FinishDelay(now, Int(ts)) == 0
  {
  }

  /** Whether an exit callback runs the finish. The record must still exist
      and still carry the callback's own timestamp. */
  predicate ExitFinishes(slots: map<SlotKey, Slot>, r: Running) {
    r.key in slots && slots[r.key].first == Int(r.timestamp)
  }

  /** A retrigger that finished the command deleted its record, so the exit
      callback of the killed process does nothing. So does a superseded
      instance's callback once a newer start has replaced the record with
      another timestamp. The newer instance's own callback still finishes. */
  lemma StaleExitIsQuiet(slots: map<SlotKey, Slot>, older: Running, ts: int, pid: nat)
    requires ts != older.timestamp
    ensures !ExitFinishes(slots - {older.key}, older)
    ensures !ExitFinishes(slots[older.key := Slot(Int(ts), Some(pid))], older)
    ensures ExitFinishes(slots[older.key := Slot(Int(ts), Some(pid))], Running(older.key, ts, older.onFinish))
  {
  }
}

=== FILE: daemon_config.dfy ===
/** The configuration the two daemons (`src/daemon/daemon.ts` and its
    earlier form `src/commands/daemon.ts`) act on: actions, button bindings
    with their press slots, and the pipewire rules. The declarations of these
    shapes are not part of this model; they are inferred from the fields the
    daemons read. */
module DaemonConfig {
  import opened Wrappers
  import opened MidiCodec
  import opened Devices
  import opened LegacyConfig
  import opened GraphLinks

  /** Which of the two daemons: `src/daemon/daemon.ts` (`Current`) or
      `src/commands/daemon.ts` (`Earlier`). */
  datatype Variant = Current | Earlier

  /** A configured action. `CycleAction` is the current daemon's `cycle`
      (lists of actions) and the earlier one's (items with a colour). */
  datatype Action =
    | CommandAction(command: string, cancelable: bool, onFinish: seq<Action>)
    | CycleAction(items: seq<CycleStep>)
    | CancelAction(alt: Option<Action>)
    | MidiAction(events: seq<MidiEvent>)
    | LoadPresetAction(pluginName: string, preset: string)
    | ShowGuiAction(pluginName: string)
    | LinkAction(src: NodeAndPort, dest: NodeAndPort)
    | UnlinkAction(src: NodeAndPort, dest: NodeAndPort)
    | ExclusiveLinkAction(src: NodeAndPort, dest: NodeAndPort)
    | RangeAction(dial: string, range: Range)
    | LedSaveAction(button: string)
    | LedSetAction(button: string, color: string)
    | LedRestoreAction(button: string)
    | MuteAction(dial: string, mute: bool)
    | ConfigReloadAction
    | MixerSelectAction(channel: int, onFinish: seq<Action>)

  datatype CycleStep = CycleStep(actions: seq<Action>, color: Option<string>)

  /** One way of pressing a button: the actions, the LED colour and, for a
      long press, the hold time in milliseconds. */
  datatype PressSlot = PressSlot(actions: seq<Action>, color: Option<string>, timeout: Option<int>)

  /** A `button` binding. */
  datatype ButtonBinding = ButtonBinding(
    onPress: Option<PressSlot>,
    onLongPress: Option<PressSlot>,
    onShiftPress: Option<PressSlot>,
    onShiftLongPress: Option<PressSlot>,
    onRelease: Option<PressSlot>)

  /** A binding: a button binding, or one of the other kinds, which the
      daemons' note handlers skip. */
  datatype DaemonBinding = ButtonKind(button: ButtonBinding) | OtherKind

  /** The channel a mixer rule assigns: a numbered channel or the first free
      one. */
  datatype MixerChannel = NumberedChannel(n: int) | RoundRobin

  datatype RuntimeConfig = RuntimeConfig(
    device: Device,
    bindings: seq<(string, DaemonBinding)>,
    onConnectRules: seq<(string, seq<Action>)>,
    onDisconnectRules: seq<(string, seq<Action>)>,
    mixerRules: seq<(string, MixerChannel)>,
    plugins: set<string>)

  /** The button binding of a label, if its binding is one. */
  function ButtonBindingOf(config: RuntimeConfig, labelName: string): (r: Option<ButtonBinding>)
    ensures r.Some? <==> EntryAt(config.bindings, labelName).Some? && EntryAt(config.bindings, labelName).value.ButtonKind?
  {
    match EntryAt<string, DaemonBinding>(config.bindings, labelName)
    case Some(ButtonKind(b)) => Some(b)
    case _ => None
  }

  /** `device.buttons.find(b => b.label === label)`: the key of the first
      button with the label. */
  function ButtonLabelled(device: Device, labelName: string): (r: Option<ButtonKey>)
    ensures r.Some? <==> exists i | 0 <= i < |device.buttons| :: device.buttons[i].1.labelName == labelName
    ensures r.Some? ==> exists i | 0 <= i < |device.buttons| ::
      device.buttons[i].0 == r.value && device.buttons[i].1.labelName == labelName
      && forall j | 0 <= j < i :: device.buttons[j].1.labelName != labelName
  {
    match ButtonByLabel(device.buttons, labelName)
    case None => None
    case Some((key, _)) => Some(key)
  }
}

=== FILE: daemon_cycle.dfy ===
/** The counter of a `cycle` action. Each trigger advances it and runs the
    actions of the item it selects. The current daemon computes
    `((state ?? 0) + 1) % n` (`src/daemon/daemon.ts`). The earlier daemon
    (`src/commands/daemon.ts`) computes the same thing, except that the first
    trigger stores 1 whatever `n` is. With a one-item cycle, that index is
    past the end. */
module DaemonCycle {
  import opened Wrappers
  import opened JsNum

  /** `items[idx]` is an item: the index is an integer in `[0, n)`. */
  predicate InRange(idx: Num, n: int) {
    idx.Int? && 0 <= idx.v < n
  }

  /** The next cycle index for `n` items, given the stored counter
      (`None` when nothing is stored). This is `((prev ?? 0) + 1) % n`, with
      JavaScript's `%`. */
  function CycleIndex(prev: Option<Num>, n: nat): (r: Num)
    ensures n == 0 ==> r.NaN?
    ensures prev.None? && n > 0 ==> r == Int(1 % n)
    ensures n > 0 && (prev.None? || InRange(prev.value, n)) ==> InRange(r, n)
    ensures prev.Some? && InRange(prev.value, n) ==>
              r == Int(if prev.value.v + 1 == n then 0 else prev.value.v + 1)
  {
    Rem(Succ(prev.GetOr(Int(0))), n)
  }

  /** The counter the earlier daemon stores, as written: 1 on the first
      trigger, then the stored value plus one, modulo `n`. */
  function EarlierCycleIndexAsWritten(prev: Option<Num>, n: nat): (r: Num)
    ensures prev.Some? ==> r == CycleIndex(prev, n)
    ensures prev.None? ==> r == Int(1)
  {
    if prev.None? then Int(1) else Rem(Succ(prev.value), n)
  }

  /** The earlier daemon's first trigger of a one-item cycle selects index
      1, which is not an item: `items[1]` is undefined, and reading its
      `color` throws. The corrected index selects the only item. */
  lemma FirstPickOutOfRange()
    ensures !InRange(EarlierCycleIndexAsWritten(None, 1), 1)
    ensures CycleIndex(None, 1) == Int(0) && InRange(CycleIndex(None, 1), 1)
  {
  }

  /** With two items or more, the two computations agree on every stored
      counter: the correction only changes one-item cycles. */
  lemma CorrectionAgreesFromTwoItems(prev: Option<Num>, n: nat)
    requires n >= 2
    ensures EarlierCycleIndexAsWritten(prev, n) == CycleIndex(prev, n)
  {
  }

  /** The stored counter after `k` triggers, starting from nothing stored. */
  function Triggered(n: nat, k: nat): (r: Option<Num>)
    ensures k == 0 <==> r.None?
  {
    if k == 0 then None else Some(CycleIndex(Triggered(n, k - 1), n))
  }

  /** `k mod n`, by repeated subtraction. */
  function ModOf(k: nat, n: nat): (r: nat)
    requires n > 0
    ensures r < n
    ensures k < n ==> r == k
    decreases k
  {
    if k < n then k else ModOf(k - n, n)
  }

  /** `k mod n` is `(k - 1) mod n` plus one, wrapping at `n`. */
  lemma {:induction false} ModOfStep(n: nat, k: nat)
    requires n > 0 && k > 0
    ensures ModOf(k, n) == (if ModOf(k - 1, n) + 1 == n then 0 else ModOf(k - 1, n) + 1)
    decreases k
  {
    if k > n {
      ModOfStep(n, k - n);
    }
  }

  /** After `k` triggers of an `n`-item cycle, the counter is `k mod n`:
      the first trigger selects item 1 (item 0 when there is only one), and
      the cycle visits every item in turn. */
  lemma {:induction false} TriggeredIsModulo(n: nat, k: nat)
    requires n > 0 && k > 0
    ensures Triggered(n, k) == Some(Int(ModOf(k, n)))
  {
    if k > 1 {
      TriggeredIsModulo(n, k - 1);
      ModOfStep(n, k);
    } else {
      assert Triggered(n, 1) == Some(CycleIndex(None, n));
    }
  }
}

=== FILE: daemon_laws.dfy ===
/** How the daemon's runners compose: a list of actions runs its parts one
    after the other, a reconciliation pass runs the actions of the rules
    that fire in rule order and then the mixer rules, a timer runs the job
    it was armed with, and the start-up LEDs and mixer connections go entry
    by entry. */
module DaemonLaws {
  import opened Wrappers
  import opened Devices
  import opened Graph
  import opened DaemonConfig
  import opened DaemonPresence
  import opened DaemonMixer
  import opened Daemon
  import opened Seqs

  // ---------------------------------------------------------------------
  // Running actions.

  /** A one-action list runs that action. */
  lemma DoActionsOne(ctx: Context, env: MixerEnv, a: Action, now: int)
    requires Wellformed(ctx)
    ensures DoActions(ctx, env, [a], now) == DoAction(ctx, env, a, now)
  {
    assert [a][1..] == [];
  }

  /** Actions run one after another: `a + b` runs `a`, then `b` from the
      state `a` left, and the effects come in that order. */
  lemma {:induction false} DoActionsAppend(ctx: Context, env: MixerEnv, a: seq<Action>, b: seq<Action>, now: int)
    requires Wellformed(ctx)
    ensures var first := DoActions(ctx, env, a, now);
      var second := DoActions(first.ctx, env, b, now);
      DoActions(ctx, env, a + b, now) == Out(second.ctx, first.effects + second.effects)
    decreases |a|
  {
    if |a| == 0 {
      assert a + b == b;
    } else {
      var f := DoAction(ctx, env, a[0], now);
      assert (a + b)[0] == a[0];
      assert (a + b)[1..] == a[1..] + b;
      DoActionsAppend(f.ctx, env, a[1..], b, now);
      var tail := DoActions(f.ctx, env, a[1..], now);
      var second := DoActions(tail.ctx, env, b, now);
      Assoc(f.effects, tail.effects, second.effects);
    }
  }

  /** The earlier daemon's button actions differ from plain actions only in
      `command` and `cycle`: a list without either runs the same way. */
  lemma {:induction false} ButtonActionsAgree(ctx: Context, env: MixerEnv, button: ButtonKey, labelName: string, acts: seq<Action>, now: int)
    requires Wellformed(ctx)
    requires forall k | 0 <= k < |acts| :: !acts[k].CommandAction? && !acts[k].CycleAction?
    ensures ButtonActions(ctx, env, button, labelName, acts, now) == DoActions(ctx, env, acts, now)
    decreases |acts|
  {
    if |acts| > 0 {
      var first := DoAction(ctx, env, acts[0], now);
      assert ButtonAction(ctx, env, button, labelName, acts[0], now) == first;
      assert forall k | 0 <= k < |acts[1..]| :: acts[1..][k] == acts[k + 1];
      ButtonActionsAgree(first.ctx, env, button, labelName, acts[1..], now);
    }
  }

  /** A release runs the binding's `onRelease` actions: as plain actions in
      the current daemon, and as button actions after setting the LED to
      the slot's colour in the earlier one. */
  lemma ReleaseRunsSlot(ctx: Context, env: MixerEnv, button: ButtonKey, labelName: string, b: ButtonBinding, now: int)
    requires Wellformed(ctx) && b.onRelease.Some?
    ensures ctx.variant == Current ==>
      Release(ctx, env, button, labelName, b, now) == DoActions(ctx, env, b.onRelease.value.actions, now)
    ensures ctx.variant == Earlier ==>
      var ran := ButtonActions(ctx, env, button, labelName, b.onRelease.value.actions, now);
      Release(ctx, env, button, labelName, b, now) == Out(ran.ctx, [SendButtonLed(button, b.onRelease.value.color)] + ran.effects)
  {
  }

  // ---------------------------------------------------------------------
  // Timers.

  /** A command's `onFinish` timer runs the command's `onFinish` actions,
      once: the timer is gone before they run. */
  lemma FireRunsOnFinish(ctx: Context, env: MixerEnv, token: nat, acts: seq<Action>, now: int)
    requires Wellformed(ctx) && token in ctx.timers && ctx.timers[token] == RunActions(acts)
    ensures Fire(ctx, env, token, now) == DoActions(WithoutTimer(ctx, token), env, acts, now)
  {
  }

  /** The reconciliation timer runs a pass with the timer gone. */
  lemma FireReconciles(ctx: Context, env: MixerEnv, token: nat, now: int)
    requires Wellformed(ctx) && token in ctx.timers && ctx.timers[token] == Reconcile
    ensures Fire(ctx, env, token, now) == ReconcilePass(WithoutTimer(ctx, token), env, now)
  {
  }

  // ---------------------------------------------------------------------
  // Reconciliation.

  /** One fired rule contributes its own actions. */
  lemma RuleActionsOne(rules: seq<(string, seq<Action>)>, i: nat)
    requires i < |rules|
    ensures RuleActions(rules, [i]) == rules[i].1
  {
    assert [i][1..] == [];
  }

  /** The actions of the fired rules follow the order of `fired`. */
  lemma {:induction false} RuleActionsAppend(rules: seq<(string, seq<Action>)>, f1: seq<nat>, f2: seq<nat>)
    requires forall k | 0 <= k < |f1| :: f1[k] < |rules|
    requires forall k | 0 <= k < |f2| :: f2[k] < |rules|
    ensures forall k | 0 <= k < |f1 + f2| :: (f1 + f2)[k] < |rules|
    ensures RuleActions(rules, f1 + f2) == RuleActions(rules, f1) + RuleActions(rules, f2)
    decreases |f1|
  {
    assert forall k | 0 <= k < |f1 + f2| :: (f1 + f2)[k] < |rules| by {
      forall k | 0 <= k < |f1 + f2| ensures (f1 + f2)[k] < |rules| {
        if k < |f1| { assert (f1 + f2)[k] == f1[k]; } else { assert (f1 + f2)[k] == f2[k - |f1|]; }
      }
    }
    if |f1| == 0 {
      assert f1 + f2 == f2;
    } else {
      assert (f1 + f2)[1..] == f1[1..] + f2;
      RuleActionsAppend(rules, f1[1..], f2);
      Assoc(rules[f1[0]].1, RuleActions(rules, f1[1..]), RuleActions(rules, f2));
    }
  }

  /** A strictly increasing list of one repeated value has at most one
      element. */
  lemma AscendingConstantShort(r: seq<nat>, i: nat)
    ensures (forall k | 0 <= k < |r| :: r[k] == i) && (forall j, k | 0 <= j < k < |r| :: r[j] < r[k]) ==> |r| <= 1
  {
    if |r| >= 2 {
      assert r[0] == r[1] ==> !(r[0] < r[1]);
    }
  }

  /** When exactly one rule fires, `Fired` lists that rule alone. */
  lemma FiredOne(edge: Edge, rules: seq<(string, seq<Action>)>, prev: Presence, items: seq<Item>, i: nat)
    requires i < |rules| && Fires(edge, prev, items, rules[i].0)
    requires forall j | 0 <= j < |rules| && j != i :: !Fires(edge, prev, items, rules[j].0)
    ensures Fired(edge, rules, prev, items) == [i]
  {
    var r := Fired(edge, rules, prev, items);
    assert i in r;
    forall k | 0 <= k < |r| ensures r[k] == i {
      assert r[k] in r;
    }
    AscendingConstantShort(r, i);
  }

  /** A pass runs the arrival rules' actions, then the departure rules'
      actions from the state those left, then the mixer connections. */
  lemma ReconcilePassOrder(ctx: Context, env: MixerEnv, now: int)
    requires Wellformed(ctx)
    ensures var items := ctx.dump.items;
      var arrivals := DoActions(ctx, env, RuleActions(ctx.config.onConnectRules, Fired(Arrival, ctx.config.onConnectRules, ctx.prevDevices, items)), now);
      var departures := DoActions(arrivals.ctx, env, RuleActions(ctx.config.onDisconnectRules, Fired(Departure, ctx.config.onDisconnectRules, ctx.prevDevices, items)), now);
      ReconcilePass(ctx, env, now).effects
        == arrivals.effects + departures.effects
           + (if RunsMixerRules(ctx, env) then MixerEffects(env, ctx.dump, ctx.config.mixerRules) else [])
  {
    var items := ctx.dump.items;
    var a := RuleActions(ctx.config.onConnectRules, Fired(Arrival, ctx.config.onConnectRules, ctx.prevDevices, items));
    var d := RuleActions(ctx.config.onDisconnectRules, Fired(Departure, ctx.config.onDisconnectRules, ctx.prevDevices, items));
    DoActionsAppend(ctx, env, a, d, now);
  }

  /** A pass in which one arrival rule fires and nothing departs runs that
      rule's actions and then the mixer connections. */
  lemma ArrivalRunsRule(ctx: Context, env: MixerEnv, now: int, i: nat)
    requires Wellformed(ctx)
    requires var rules := ctx.config.onConnectRules;
      i < |rules| && Fires(Arrival, ctx.prevDevices, ctx.dump.items, rules[i].0)
      && forall j | 0 <= j < |rules| && j != i :: !Fires(Arrival, ctx.prevDevices, ctx.dump.items, rules[j].0)
    requires forall j | 0 <= j < |ctx.config.onDisconnectRules| ::
      !Fires(Departure, ctx.prevDevices, ctx.dump.items, ctx.config.onDisconnectRules[j].0)
    ensures PassActions(ctx) == ctx.config.onConnectRules[i].1
    ensures ReconcilePass(ctx, env, now).effects
      == DoActions(ctx, env, ctx.config.onConnectRules[i].1, now).effects
         + (if RunsMixerRules(ctx, env) then MixerEffects(env, ctx.dump, ctx.config.mixerRules) else [])
  {
    FiredOne(Arrival, ctx.config.onConnectRules, ctx.prevDevices, ctx.dump.items, i);
    RuleActionsOne(ctx.config.onConnectRules, i);
    assert PassActions(ctx) == ctx.config.onConnectRules[i].1 + [];
  }

  /** A pass in which one departure rule fires and nothing arrives runs
      that rule's actions and then the mixer connections. */
  lemma DepartureRunsRule(ctx: Context, env: MixerEnv, now: int, i: nat)
    requires Wellformed(ctx)
    requires var rules := ctx.config.onDisconnectRules;
      i < |rules| && Fires(Departure, ctx.prevDevices, ctx.dump.items, rules[i].0)
      && forall j | 0 <= j < |rules| && j != i :: !Fires(Departure, ctx.prevDevices, ctx.dump.items, rules[j].0)
    requires forall j | 0 <= j < |ctx.config.onConnectRules| ::
      !Fires(Arrival, ctx.prevDevices, ctx.dump.items, ctx.config.onConnectRules[j].0)
    ensures PassActions(ctx) == ctx.config.onDisconnectRules[i].1
    ensures ReconcilePass(ctx, env, now).effects
      == DoActions(ctx, env, ctx.config.onDisconnectRules[i].1, now).effects
         + (if RunsMixerRules(ctx, env) then MixerEffects(env, ctx.dump, ctx.config.mixerRules) else [])
  {
    FiredOne(Departure, ctx.config.onDisconnectRules, ctx.prevDevices, ctx.dump.items, i);
    RuleActionsOne(ctx.config.onDisconnectRules, i);
    assert PassActions(ctx) == [] + ctx.config.onDisconnectRules[i].1;
  }

  // ---------------------------------------------------------------------
  // Mixer connections.

  /** A mixer connection is made iff some mixer rule asks for it. */
  lemma {:induction false} MixerConnectsMembers(env: MixerEnv, dump: Dump, rules: seq<(string, MixerChannel)>)
    ensures forall c :: c in MixerConnects(env, dump, rules) <==> exists k | 0 <= k < |rules| :: InMixerRule(env, dump, rules[k], c)
    decreases |rules|
  {
    if |rules| > 0 {
      MixerConnectsMembers(env, dump, rules[1..]);
      Seqs.MembersCons(rules, MixerRule(env, dump, rules[0].0, rules[0].1), MixerConnects(env, dump, rules[1..]),
        (rule, c) => InMixerRule(env, dump, rule, c));
    }
  }

  /** The mixer connections go rule by rule. */
  lemma {:induction false} MixerConnectsAppend(env: MixerEnv, dump: Dump, a: seq<(string, MixerChannel)>, b: seq<(string, MixerChannel)>)
    ensures MixerConnects(env, dump, a + b) == MixerConnects(env, dump, a) + MixerConnects(env, dump, b)
    decreases |a|
  {
    if |a| == 0 {
      assert a + b == b;
    } else {
      assert (a + b)[0] == a[0];
      assert (a + b)[1..] == a[1..] + b;
      MixerConnectsAppend(env, dump, a[1..], b);
      Assoc(MixerRule(env, dump, a[0].0, a[0].1), MixerConnects(env, dump, a[1..]), MixerConnects(env, dump, b));
    }
  }

  /** Connecting a concatenation connects each part in turn. */
  lemma ConnectAllAppend(x: seq<MixerConnect>, y: seq<MixerConnect>)
    ensures ConnectAll(x + y) == ConnectAll(x) + ConnectAll(y)
  {
    var l := ConnectAll(x + y);
    var r := ConnectAll(x) + ConnectAll(y);
    assert |l| == |r|;
    forall k | 0 <= k < |l| ensures l[k] == r[k] {
      if k < |x| {
        assert (x + y)[k] == x[k];
      } else {
        assert (x + y)[k] == y[k - |x|];
      }
    }
  }

  /** The mixer effects of a pass go rule by rule. */
  lemma MixerEffectsAppend(env: MixerEnv, dump: Dump, a: seq<(string, MixerChannel)>, b: seq<(string, MixerChannel)>)
    ensures MixerEffects(env, dump, a + b) == MixerEffects(env, dump, a) + MixerEffects(env, dump, b)
  {
    MixerConnectsAppend(env, dump, a, b);
    ConnectAllAppend(MixerConnects(env, dump, a), MixerConnects(env, dump, b));
  }

  /** One mixer rule's effects are its connections, in order. */
  lemma MixerEffectsOne(env: MixerEnv, dump: Dump, rule: (string, MixerChannel))
    ensures var c := MixerRule(env, dump, rule.0, rule.1);
      var e := MixerEffects(env, dump, [rule]);
      |e| == |c| && forall k | 0 <= k < |e| :: e[k] == ConnectMixer(c[k])
  {
    assert [rule][1..] == [];
    assert MixerConnects(env, dump, [rule]) == MixerRule(env, dump, rule.0, rule.1) + [];
  }

  // ---------------------------------------------------------------------
  // Start-up LEDs.

  /** One listed colour lights its button, or nothing when no button has
      that label. */
  lemma StartupLedsOne(device: Device, c: (string, string))
    ensures StartupLeds(device, [c])
      == match ButtonByLabel(device.buttons, c.0)
         case None => []
         case Some((key, _)) => [SendButtonLed(key, Some(c.1))]
  {
    assert [c][1..] == [];
  }

  /** The start-up LEDs follow the order of the listed colours. */
  lemma {:induction false} StartupLedsAppend(device: Device, a: seq<(string, string)>, b: seq<(string, string)>)
    ensures StartupLeds(device, a + b) == StartupLeds(device, a) + StartupLeds(device, b)
    decreases |a|
  {
    if |a| == 0 {
      assert a + b == b;
    } else {
      assert (a + b)[0] == a[0];
      assert (a + b)[1..] == a[1..] + b;
      StartupLedsAppend(device, a[1..], b);
      match ButtonByLabel(device.buttons, a[0].0)
      case None =>
      case Some((key, _)) =>
        Assoc([SendButtonLed(key, Some(a[0].1))], StartupLeds(device, a[1..]), StartupLeds(device, b));
    }
  }
}

=== FILE: daemon_mixer.dfy ===
/** The mixer rules of the daemons (`handleMixerRule`). During a
    reconciliation pass, every audio client matching a rule's node name is
    connected to a mixer channel. If one of them already has a channel, all
    of them go to that channel. Otherwise they go to the rule's numbered
    channel, or, for `round_robin`, to the first free channel.

    The helpers this decision calls (`audioClients`, `mixerPorts`,
    `isAssignedToMixer`, `freeMixerPorts`, `findMixer` and
    `connectAppToMixer`) are not part of this model. They are kept as
    uninterpreted functions of the graph, and a connection is an effect. */
module DaemonMixer {
  import opened Wrappers
  import opened JsString
  import opened Graph
  import opened GraphLinks
  import opened DaemonConfig

  /** The unseen helpers, as functions of the graph. */
  datatype MixerEnv = MixerEnv(
    /** `audioClients(dump)`: the client nodes, in order. */
    audioClients: Dump -> seq<Item>,
    /** `mixerPorts(dump) !== undefined`. */
    hasMixerPorts: Dump -> bool,
    /** `isAssignedToMixer(app, mixerChannels, dump)`: the channel node the
        app is connected to, if any. */
    assignedChannel: (Item, Dump) -> Option<Item>,
    /** `freeMixerPorts(mixerChannels, dump)`: channel names, each with
        whether it is free, in order; `None` for undefined. */
    freeMixerPorts: Dump -> Option<seq<(string, bool)>>,
    /** `findMixer(dump) !== undefined`. */
    hasMixer: Dump -> bool)

  /** The channel argument of `connectAppToMixer`: a channel node found as
      an app's current assignment, or `mixerChannels[name]`. */
  datatype MixerTarget = AssignedChannel(channel: Item) | NamedChannel(name: string)

  /** `connectAppToMixer(app, target, dump, "smart")`. */
  datatype MixerConnect = MixerConnect(app: Item, target: MixerTarget)

  /** `"Mixer Channel " + n`. */
  function ChannelName(n: int): string {
    "Mixer Channel " + IntToDecimal(n)
  }

  /** `audioClients(dump).filter(s => findPwNode(nodeName)(s.node))`. */
  function MatchingApps(clients: seq<Item>, nodeName: string): (r: seq<Item>)
    ensures forall k | 0 <= k < |r| :: r[k] in clients && Matches(NodeQuery(nodeName), r[k])
    ensures forall i | 0 <= i < |clients| :: Matches(NodeQuery(nodeName), clients[i]) ==> clients[i] in r
    ensures |r| <= |clients|
  {
    if |clients| == 0 then []
    else
      var rest := MatchingApps(clients[1..], nodeName);
      assert forall i | 1 <= i < |clients| :: clients[i] == clients[1..][i - 1];
      if Matches(NodeQuery(nodeName), clients[0]) then
        var r := [clients[0]] + rest;
        assert forall k | 1 <= k < |r| :: r[k] == rest[k - 1];
        r
      else rest
  }

  /** The loop over the matching apps that stops at the first one with a
      channel. */
  function FirstAssigned(env: MixerEnv, dump: Dump, apps: seq<Item>): (r: Option<Item>)
    ensures r.None? <==> forall k | 0 <= k < |apps| :: env.assignedChannel(apps[k], dump).None?
    ensures r.Some? ==> exists k | 0 <= k < |apps| ::
              env.assignedChannel(apps[k], dump) == r
              && forall j | 0 <= j < k :: env.assignedChannel(apps[j], dump).None?
  {
    if |apps| == 0 then None
    else if env.assignedChannel(apps[0], dump).Some? then env.assignedChannel(apps[0], dump)
    else
      var r := FirstAssigned(env, dump, apps[1..]);
      assert forall k | 1 <= k < |apps| :: apps[k] == apps[1..][k - 1];
      r
  }

  /** `Object.entries(free).find(([, free]) => free)?.[0]`. */
  function FirstFree(ports: seq<(string, bool)>): (r: Option<string>)
    ensures r.None? <==> forall k | 0 <= k < |ports| :: !ports[k].1
    ensures r.Some? ==> exists k | 0 <= k < |ports| ::
              ports[k] == (r.value, true) && forall j | 0 <= j < k :: !ports[j].1
  {
    if |ports| == 0 then None
    else if ports[0].1 then Some(ports[0].0)
    else
      var r := FirstFree(ports[1..]);
      assert forall k | 1 <= k < |ports| :: ports[k] == ports[1..][k - 1];
      r
  }

  /** The channel an unassigned app goes to: `Mixer Channel <n>` for a
      numbered rule. For `round_robin`, it is the first channel reported
      free. Every app of the pass asks the same question of the same graph,
      so they all get the same answer. */
  function UnassignedTarget(env: MixerEnv, dump: Dump, channel: MixerChannel): (r: Option<MixerTarget>)
    ensures channel.NumberedChannel? ==> r == Some(NamedChannel(ChannelName(channel.n)))
    ensures channel.RoundRobin? ==>
      (r.Some? <==> env.freeMixerPorts(dump).Some? && FirstFree(env.freeMixerPorts(dump).value).Some?)
    ensures channel.RoundRobin? && r.Some? ==> r == Some(NamedChannel(FirstFree(env.freeMixerPorts(dump).value).value))
  {
    match channel
    case NumberedChannel(n) => Some(NamedChannel(ChannelName(n)))
    case RoundRobin =>
      match env.freeMixerPorts(dump)
      case None => None
      case Some(ports) =>
        match FirstFree(ports)
        case None => None
        case Some(name) => Some(NamedChannel(name))
  }

  /** `handleMixerRule(nodeName, channel)`: the connections it makes, in
      order. */
  function MixerRule(env: MixerEnv, dump: Dump, nodeName: string, channel: MixerChannel): (r: seq<MixerConnect>)
    ensures var apps := MatchingApps(env.audioClients(dump), nodeName);
      (!env.hasMixerPorts(dump) || apps == [] ==> r == [])
      && (r != [] ==> |r| == |apps| && forall k | 0 <= k < |r| :: r[k].app == apps[k] && r[k].target == r[0].target)
      && (env.hasMixerPorts(dump) && FirstAssigned(env, dump, apps).Some? ==>
            |r| == |apps| && forall k | 0 <= k < |r| :: r[k].target == AssignedChannel(FirstAssigned(env, dump, apps).value))
      && (env.hasMixerPorts(dump) && FirstAssigned(env, dump, apps).None? ==>
            (UnassignedTarget(env, dump, channel).None? ==> r == [])
            && (UnassignedTarget(env, dump, channel).Some? ==>
                  |r| == |apps| && forall k | 0 <= k < |r| :: r[k].target == UnassignedTarget(env, dump, channel).value))
  {
    var apps := MatchingApps(env.audioClients(dump), nodeName);
    if !env.hasMixerPorts(dump) || |apps| == 0 then []
    else
      var target :=
        match FirstAssigned(env, dump, apps)
        case Some(channelNode) => Some(AssignedChannel(channelNode))
        case None => UnassignedTarget(env, dump, channel);
      match target
      case None => []
      case Some(t) => seq(|apps|, k requires 0 <= k < |apps| => MixerConnect(apps[k], t))
  }

  /** Reassignment: once one matching app is on a channel, the pass puts
      every matching app on that channel, whatever the rule says. */
  lemma AssignedChannelIsShared(env: MixerEnv, dump: Dump, nodeName: string, channel: MixerChannel, k: nat, channelNode: Item)
    requires env.hasMixerPorts(dump)
    requires var apps := MatchingApps(env.audioClients(dump), nodeName);
      k < |apps| && env.assignedChannel(apps[k], dump) == Some(channelNode)
      && forall j | 0 <= j < k :: env.assignedChannel(apps[j], dump).None?
    ensures var r := MixerRule(env, dump, nodeName, channel);
      |r| == |MatchingApps(env.audioClients(dump), nodeName)|
      && forall i | 0 <= i < |r| :: r[i].target == AssignedChannel(channelNode)
  {
    var apps := MatchingApps(env.audioClients(dump), nodeName);
    var f := FirstAssigned(env, dump, apps);
    assert f.Some?;
    var k' :| 0 <= k' < |apps| && env.assignedChannel(apps[k'], dump) == f
              && forall j | 0 <= j < k' :: env.assignedChannel(apps[j], dump).None?;
    assert k' == k;
  }

  /** A `round_robin` rule with no free channel, and no matching app on a
      channel, connects nothing. */
  lemma RoundRobinWithoutFreeChannel(env: MixerEnv, dump: Dump, nodeName: string)
    requires FirstAssigned(env, dump, MatchingApps(env.audioClients(dump), nodeName)).None?
    requires env.freeMixerPorts(dump).None?
             || forall k | 0 <= k < |env.freeMixerPorts(dump).value| :: !env.freeMixerPorts(dump).value[k].1
    ensures MixerRule(env, dump, nodeName, RoundRobin) == []
  {
  }
}

=== FILE: daemon_presence.dfy ===
/** Presence tracking for the daemons' `onConnect` and `onDisconnect` rules.
    The daemons remember, per rule node, whether the node was in the graph
    at the last reconciliation pass (`prevDevices`). A pass fires the rules
    whose node has just appeared or disappeared, then stores the current
    presence of every remembered node. */
module DaemonPresence {
  import opened Wrappers
  import opened Graph
  import opened GraphLinks
  import opened DaemonConfig

  /** The remembered presence of each rule node. */
  type Presence = map<string, bool>

  /** `Object.fromEntries(entries)`: for a repeated key, the later entry wins. */
  function FromEntries(entries: seq<(string, bool)>): (m: Presence)
    ensures m.Keys == set i | 0 <= i < |entries| :: entries[i].0
  {
    if |entries| == 0 then map[]
    else
      var init := entries[..|entries| - 1];
      var last := entries[|entries| - 1];
      var m := FromEntries(init)[last.0 := last.1];
      assert forall i | 0 <= i < |init| :: init[i] == entries[i];
      m
  }

  /** Building from two lists one after the other is the spread
      `{...FromEntries(a), ...FromEntries(b)}`: the second list overrides. */
  lemma {:induction false} FromEntriesAppend(a: seq<(string, bool)>, b: seq<(string, bool)>)
    ensures FromEntries(a + b) == FromEntries(a) + FromEntries(b)
    decreases |b|
  {
    if |b| == 0 {
      assert a + b == a;
    } else {
      var b' := b[..|b| - 1];
      var x := b[|b| - 1];
      FromEntriesAppend(a, b');
      assert (a + b)[..|a + b| - 1] == a + b';
      assert (a + b)[|a + b| - 1] == x;
      assert FromEntries(a + b) == FromEntries(a + b')[x.0 := x.1];
      assert FromEntries(b) == FromEntries(b')[x.0 := x.1];
      UnionUpdate(FromEntries(a), FromEntries(b'), x.0, x.1);
    }
  }

  /** Updating the right operand of a union updates the union. */
  lemma UnionUpdate(m: Presence, n: Presence, k: string, v: bool)
    ensures (m + n)[k := v] == m + n[k := v]
  {
  }

  /** The entries `[node, value]` for a list of nodes. */
  function Entries(nodes: seq<string>, value: bool): (r: seq<(string, bool)>)
    ensures |r| == |nodes| && forall i | 0 <= i < |nodes| :: r[i] == (nodes[i], value)
  {
    seq(|nodes|, i requires 0 <= i < |nodes| => (nodes[i], value))
  }

  /** Entries that all carry one value give a map with that value for each
      listed node, in whatever order the nodes come. */
  lemma {:induction false} FromEntriesUniform(nodes: seq<string>, value: bool)
    ensures FromEntries(Entries(nodes, value)) == map n | n in nodes :: value
    decreases |nodes|
  {
    if |nodes| > 0 {
      var init := nodes[..|nodes| - 1];
      FromEntriesUniform(init, value);
      assert Entries(nodes, value)[..|nodes| - 1] == Entries(init, value);
      assert forall n :: n in nodes <==> n in init || n == nodes[|nodes| - 1];
    }
  }

  /** The nodes of a list of rules, in order. */
  function NodesOf(rules: seq<(string, seq<Action>)>): (r: seq<string>)
    ensures |r| == |rules| && forall i | 0 <= i < |rules| :: r[i] == rules[i].0
  {
    seq(|rules|, i requires 0 <= i < |rules| => rules[i].0)
  }

  /** Every node some rule names. */
  function RuleNodes(config: RuntimeConfig): set<string> {
    (set n | n in NodesOf(config.onConnectRules)) + (set n | n in NodesOf(config.onDisconnectRules))
  }

  /** `prevDevices` at start-up: entries `[node, false]` for the
      `onConnect` nodes, then `[node, x]` for the `onDisconnect` nodes. `x`
      is `false` in the current daemon and `true` in the earlier one. */
  function InitialPresence(variant: Variant, config: RuntimeConfig): (m: Presence)
    ensures m.Keys == RuleNodes(config)
    ensures variant == Current ==> forall n | n in m :: !m[n]
    ensures variant == Earlier ==> forall n | n in m :: (m[n] <==> n in NodesOf(config.onDisconnectRules))
  {
    var connect := NodesOf(config.onConnectRules);
    var disconnect := NodesOf(config.onDisconnectRules);
    FromEntriesAppend(Entries(connect, false), Entries(disconnect, variant == Earlier));
    FromEntriesUniform(connect, false);
    FromEntriesUniform(disconnect, variant == Earlier);
    FromEntries(Entries(connect, false) + Entries(disconnect, variant == Earlier))
  }

  /** `config::reload`: `{...fresh, ...prevDevices}`, where `fresh` maps
      every node of the new rules to `false`. A remembered node keeps its
      value, a new one starts absent, and no node is forgotten. */
  function ReloadMerge(remembered: Presence, config: RuntimeConfig): (m: Presence)
    ensures m.Keys == remembered.Keys + RuleNodes(config)
    ensures forall n | n in remembered :: m[n] == remembered[n]
    ensures forall n | n in m && n !in remembered :: !m[n]
  {
    InitialPresence(Current, config) + remembered
  }

  /** `pwItems.some(findPwNode(node))`. */
  predicate Present(items: seq<Item>, node: string) {
    FindPwNode(items, node).Some?
  }

  /** The presence stored at the end of a pass: each remembered node's
      current presence. */
  function NextPresence(prev: Presence, items: seq<Item>): (m: Presence)
    ensures m.Keys == prev.Keys
    ensures forall n | n in m :: m[n] == Present(items, n)
  {
    map n | n in prev :: Present(items, n)
  }

  /** The two kinds of rule. */
  datatype Edge = Arrival | Departure

  /** `prevDevices[node] === false && present` for an arrival, and
      `prevDevices[node] === true && !present` for a departure. A node that
      is not remembered compares unequal to both. */
  predicate Fires(edge: Edge, prev: Presence, items: seq<Item>, node: string) {
    node in prev &&
    match edge
    case Arrival => !prev[node] && Present(items, node)
    case Departure => prev[node] && !Present(items, node)
  }

  /** The positions, in order, of the set flags from `from` on. */
  function Marked(flags: seq<bool>, from: nat): (r: seq<nat>)
    requires from <= |flags|
    ensures forall i :: i in r <==> from <= i < |flags| && flags[i]
    ensures forall j, k | 0 <= j < k < |r| :: r[j] < r[k]
    ensures forall k | 0 <= k < |r| :: from <= r[k] < |flags|
    decreases |flags| - from
  {
    if from == |flags| then []
    else
      var rest := Marked(flags, from + 1);
      MarkedBehind(flags, from, rest);
      if flags[from] then [from] + rest else rest
  }

  /** The positions marked after `from`, with `from` in front if it is
      marked, are the positions marked from `from`. */
  lemma MarkedBehind(flags: seq<bool>, from: nat, rest: seq<nat>)
    requires from < |flags|
    requires forall i :: i in rest <==> from + 1 <= i < |flags| && flags[i]
    requires forall j, k | 0 <= j < k < |rest| :: rest[j] < rest[k]
    requires forall k | 0 <= k < |rest| :: from + 1 <= rest[k] < |flags|
    ensures var r := if flags[from] then [from] + rest else rest;
      (forall i :: i in r <==> from <= i < |flags| && flags[i])
      && (forall j, k | 0 <= j < k < |r| :: r[j] < r[k])
      && (forall k | 0 <= k < |r| :: from <= r[k] < |flags|)
  {
    if flags[from] {
      var r := [from] + rest;
      assert forall k | 1 <= k < |r| :: r[k] == rest[k - 1];
    }
  }

  /** The positions, in order, of the rules a pass fires. */
  function Fired(edge: Edge, rules: seq<(string, seq<Action>)>, prev: Presence, items: seq<Item>): (r: seq<nat>)
    ensures forall i :: i in r <==> 0 <= i < |rules| && Fires(edge, prev, items, rules[i].0)
    ensures r == [] <==> forall i | 0 <= i < |rules| :: !Fires(edge, prev, items, rules[i].0)
    ensures forall j, k | 0 <= j < k < |r| :: r[j] < r[k]
    ensures forall k | 0 <= k < |r| :: r[k] < |rules|
  {
    var r := Marked(seq(|rules|, i requires 0 <= i < |rules| => Fires(edge, prev, items, rules[i].0)), 0);
    assert r != [] ==> r[0] in r;
    r
  }

  /** Two passes over the same graph: the second fires nothing, since the
      presence it compares against is the one the first pass stored. */
  lemma SteadyGraphFiresNothing(edge: Edge, rules: seq<(string, seq<Action>)>, prev: Presence, items: seq<Item>)
    ensures Fired(edge, rules, NextPresence(prev, items), items) == []
  {
  }

  /** Rules fire on edges. For a remembered node, a pass fires its arrival
      rule iff the node was absent at the previous pass and is present now.
      It fires its departure rule iff the reverse holds. */
  lemma FiresOnTransition(prev: Presence, before: seq<Item>, now: seq<Item>, node: string)
    requires node in prev
    ensures Fires(Arrival, NextPresence(prev, before), now, node) <==> !Present(before, node) && Present(now, node)
    ensures Fires(Departure, NextPresence(prev, before), now, node) <==> Present(before, node) && !Present(now, node)
  {
  }

  /** The current daemon starts every node as absent, so its first pass
      fires no departure rule. The earlier daemon starts departure nodes as
      present, so its first pass fires the departure rule of every such node
      that is missing. */
  lemma FirstPassDepartures(config: RuntimeConfig, items: seq<Item>, i: nat)
    requires i < |config.onDisconnectRules|
    ensures Fired(Departure, config.onDisconnectRules, InitialPresence(Current, config), items) == []
    ensures i in Fired(Departure, config.onDisconnectRules, InitialPresence(Earlier, config), items)
            <==> !Present(items, config.onDisconnectRules[i].0)
  {
    var n := config.onDisconnectRules[i].0;
    assert NodesOf(config.onDisconnectRules)[i] == n;
  }

  /** Remembered nodes stay remembered, and reload adds the new rule nodes:
      every rule node of the configuration in force is remembered, so a
      rule can fire. */
  predicate Covers(prev: Presence, config: RuntimeConfig) {
    RuleNodes(config) <= prev.Keys
  }

  lemma CoverageKept(prev: Presence, config: RuntimeConfig, reloaded: RuntimeConfig, items: seq<Item>)
    requires Covers(prev, config)
    ensures Covers(NextPresence(prev, items), config)
    ensures Covers(ReloadMerge(prev, reloaded), reloaded)
    ensures Covers(InitialPresence(Current, config), config) && Covers(InitialPresence(Earlier, config), config)
  {
  }
}

=== FILE: daemon_scenarios.dfy ===
/** Properties of the daemon's step function over sequences of events:
    what a press, a release, a timer, a command exit or a prompt answer
    leads to, given what came before. */
module DaemonScenarios {
  import opened Wrappers
  import opened JsNum
  import opened JsString
  import opened MidiCodec
  import opened Devices
  import opened DaemonConfig
  import opened DaemonCycle
  import opened DaemonCommands
  import opened DaemonPresence
  import opened DaemonMixer
  import opened Daemon
  import opened Seqs
  import LegacyConfig
  import opened Midish
  import opened GraphLinks

  /** A button of the device that is not on the keys channel, not Shift,
      and has a button binding. */
  predicate BoundButton(ctx: Context, channel: int, note: Num, button: ButtonKey, labelName: string, b: ButtonBinding) {
    channel != ctx.config.device.keysChannel
    && FindButton(ctx.config.device, channel, note) == Some((button, labelName))
    && labelName != SHIFT_LABEL
    && ButtonBindingOf(ctx.config, labelName) == Some(b)
  }

  /** Notes on the keys channel are the keyboard's, not buttons: they change
      nothing and do nothing. */
  lemma KeysChannelIgnored(ctx: Context, env: MixerEnv, note: Num, velocity: Num, now: int)
    requires Wellformed(ctx)
    ensures Step(ctx, env, Midi(NoteOnEvent(ctx.config.device.keysChannel, note, velocity)), now) == Out(ctx, [])
    ensures Step(ctx, env, Midi(NoteOffEvent(ctx.config.device.keysChannel, note, velocity)), now) == Out(ctx, [])
  {
  }

  /** The Shift button only sets and clears the shift flag. */
  lemma ShiftOnlyFlags(ctx: Context, env: MixerEnv, channel: int, note: Num, velocity: Num, button: ButtonKey, now: int)
    requires Wellformed(ctx)
    requires channel != ctx.config.device.keysChannel
    requires FindButton(ctx.config.device, channel, note) == Some((button, SHIFT_LABEL))
    ensures Step(ctx, env, Midi(NoteOnEvent(channel, note, velocity)), now) == Out(ctx.(shiftPressed := true), [])
    ensures Step(ctx, env, Midi(NoteOffEvent(channel, note, velocity)), now) == Out(ctx.(shiftPressed := false), [])
  {
  }

  /** Pressing a button whose active layer has a long-press slot arms one
      timer, with the slot's delay, and runs nothing yet. The short press of
      the same layer is kept for the release. */
  lemma PressArmsLongPress(ctx: Context, env: MixerEnv, channel: int, note: Num, now: int,
                           button: ButtonKey, labelName: string, b: ButtonBinding)
    requires Wellformed(ctx) && BoundButton(ctx, channel, note, button, labelName, b)
    requires ActiveSlots(ctx.shiftPressed, b).0.Some?
    ensures var o := HandleNoteOn(ctx, env, channel, note, now);
      var long := ActiveSlots(ctx.shiftPressed, b).0.value;
      o.effects == [ArmTimer(ctx.nextId, LongPressDelay(ctx.variant, long.timeout))]
      && ctx.nextId in o.ctx.timers && o.ctx.timers[ctx.nextId] == LongPress(labelName, button, long)
      && labelName in o.ctx.buttonTimeouts
      && o.ctx.buttonTimeouts[labelName] == Pending(ctx.nextId, ActiveSlots(ctx.shiftPressed, b).1)
      && o.ctx.config == ctx.config && o.ctx.slots == ctx.slots && o.ctx.variant == ctx.variant
  {
  }

  /** Without a long-press slot, the short press runs on the press itself,
      starting with the button's LED. */
  lemma PressRunsShortPress(ctx: Context, env: MixerEnv, channel: int, note: Num, now: int,
                            button: ButtonKey, labelName: string, b: ButtonBinding)
    requires Wellformed(ctx) && BoundButton(ctx, channel, note, button, labelName, b)
    requires ActiveSlots(ctx.shiftPressed, b).0.None? && ActiveSlots(ctx.shiftPressed, b).1.Some?
    ensures var o := HandleNoteOn(ctx, env, channel, note, now);
      var short := ActiveSlots(ctx.shiftPressed, b).1.value;
      o == RunSlot(ctx, env, button, labelName, short, now)
      && |o.effects| > 0 && o.effects[0] == SendButtonLed(button, if ctx.variant == Current then None else short.color)
  {
  }

  /** A release before the long-press timer expires clears the timer and
      runs the short press. The timer then no longer fires: its expiry does
      nothing. */
  lemma ReleaseBeforeTimeout(ctx: Context, env: MixerEnv, channel: int, note: Num,
                             t1: int, t2: int, t3: int, button: ButtonKey, labelName: string, b: ButtonBinding)
    requires Wellformed(ctx) && BoundButton(ctx, channel, note, button, labelName, b)
    requires ActiveSlots(ctx.shiftPressed, b).0.Some?
    ensures var token := ctx.nextId;
      var pressed := HandleNoteOn(ctx, env, channel, note, t1);
      var released := HandleNoteOff(pressed.ctx, env, channel, note, t2);
      var short := ActiveSlots(ctx.shiftPressed, b).1;
      |released.effects| > 0 && released.effects[0] == ClearTimer(token)
      && (short.Some? ==>
            |released.effects| > 1
            && released.effects[1] == SendButtonLed(button, if ctx.variant == Current then None else short.value.color))
      && labelName !in released.ctx.buttonTimeouts
      && Fire(released.ctx, env, token, t3) == Out(released.ctx, [])
  {
    var pressed := HandleNoteOn(ctx, env, channel, note, t1);
    PressLeavesPending(ctx, env, channel, note, t1, button, labelName, b);
    ReleaseResolves(pressed.ctx, env, channel, note, t2, button, labelName, b);
  }

  /** After a press that arms a long press, the button is still bound and
      its press is pending under the new timer. */
  lemma PressLeavesPending(ctx: Context, env: MixerEnv, channel: int, note: Num, now: int,
                           button: ButtonKey, labelName: string, b: ButtonBinding)
    requires Wellformed(ctx) && BoundButton(ctx, channel, note, button, labelName, b)
    requires ActiveSlots(ctx.shiftPressed, b).0.Some?
    ensures var pressed := HandleNoteOn(ctx, env, channel, note, now);
      Wellformed(pressed.ctx) && BoundButton(pressed.ctx, channel, note, button, labelName, b)
      && pressed.ctx.variant == ctx.variant
      && labelName in pressed.ctx.buttonTimeouts
      && pressed.ctx.buttonTimeouts[labelName] == Pending(ctx.nextId, ActiveSlots(ctx.shiftPressed, b).1)
  {
    PressArmsLongPress(ctx, env, channel, note, now, button, labelName, b);
  }

  /** A release with a pending press clears the press's timer first, then
      runs its deferred short press, and forgets the press. */
  lemma ReleaseResolves(ctx: Context, env: MixerEnv, channel: int, note: Num, now: int,
                        button: ButtonKey, labelName: string, b: ButtonBinding)
    requires Wellformed(ctx) && BoundButton(ctx, channel, note, button, labelName, b)
    requires labelName in ctx.buttonTimeouts
    ensures var p := ctx.buttonTimeouts[labelName];
      var o := HandleNoteOff(ctx, env, channel, note, now);
      |o.effects| > 0 && o.effects[0] == ClearTimer(p.token)
      && (p.deferred.Some? ==>
            |o.effects| > 1
            && o.effects[1] == SendButtonLed(button, if ctx.variant == Current then None else p.deferred.value.color))
      && labelName !in o.ctx.buttonTimeouts && p.token !in o.ctx.timers
  {
    var resolved := ResolvePending(ctx, env, button, labelName, now);
    var rel := Release(resolved.ctx, env, button, labelName, b, now);
    NoteOffResolves(ctx, env, channel, note, now, button, labelName, b);
    FrontIndex(resolved.effects, rel.effects);
  }

  /** A release of a bound button resolves the pending press, then runs the
      release slot; the effects come in that order. */
  lemma NoteOffResolves(ctx: Context, env: MixerEnv, channel: int, note: Num, now: int,
                        button: ButtonKey, labelName: string, b: ButtonBinding)
    requires Wellformed(ctx) && BoundButton(ctx, channel, note, button, labelName, b)
    ensures var resolved := ResolvePending(ctx, env, button, labelName, now);
      var rel := Release(resolved.ctx, env, button, labelName, b, now);
      HandleNoteOff(ctx, env, channel, note, now) == Out(rel.ctx, resolved.effects + rel.effects)
  {
  }

  /** When the long-press timer expires first, it runs the long-press slot
      and forgets the pending press. The release then runs only the
      `onRelease` part: no timer to clear, no short press. */
  lemma TimeoutBeforeRelease(ctx: Context, env: MixerEnv, channel: int, note: Num,
                             t1: int, t2: int, t3: int, button: ButtonKey, labelName: string, b: ButtonBinding)
    requires Wellformed(ctx) && BoundButton(ctx, channel, note, button, labelName, b)
    requires ActiveSlots(ctx.shiftPressed, b).0.Some?
    ensures var token := ctx.nextId;
      var pressed := HandleNoteOn(ctx, env, channel, note, t1);
      var fired := Fire(pressed.ctx, env, token, t2);
      var long := ActiveSlots(ctx.shiftPressed, b).0.value;
      fired == (var ran := RunSlot(pressed.ctx.(timers := pressed.ctx.timers - {token}), env, button, labelName, long, t2);
                Out(ForgetPress(ran.ctx, labelName), ran.effects))
      && |fired.effects| > 0 && fired.effects[0] == SendButtonLed(button, if ctx.variant == Current then None else long.color)
      && labelName !in fired.ctx.buttonTimeouts
      && HandleNoteOff(fired.ctx, env, channel, note, t3) == Release(fired.ctx, env, button, labelName, b, t3)
  {
    var token := ctx.nextId;
    var pressed := HandleNoteOn(ctx, env, channel, note, t1);
    PressArmsLongPress(ctx, env, channel, note, t1, button, labelName, b);
    var long := ActiveSlots(ctx.shiftPressed, b).0.value;
    FireRunsLongPress(pressed.ctx, env, token, t2, labelName, button, long);
    var fired := Fire(pressed.ctx, env, token, t2);
    assert BoundButton(fired.ctx, channel, note, button, labelName, b);
    ReleaseWithoutPending(fired.ctx, env, channel, note, t3, button, labelName, b);
  }

  /** An expired long-press timer runs its slot and forgets the pending
      press of its button. */
  lemma FireRunsLongPress(ctx: Context, env: MixerEnv, token: nat, now: int, labelName: string, button: ButtonKey, slot: PressSlot)
    requires Wellformed(ctx) && token in ctx.timers && ctx.timers[token] == LongPress(labelName, button, slot)
    ensures var fired := Fire(ctx, env, token, now);
      fired == (var ran := RunSlot(ctx.(timers := ctx.timers - {token}), env, button, labelName, slot, now);
                Out(ForgetPress(ran.ctx, labelName), ran.effects))
      && |fired.effects| > 0 && fired.effects[0] == SendButtonLed(button, if ctx.variant == Current then None else slot.color)
      && labelName !in fired.ctx.buttonTimeouts && fired.ctx.config == ctx.config
  {
  }

  /** With no pending press, a release runs only the `onRelease` part. */
  lemma ReleaseWithoutPending(ctx: Context, env: MixerEnv, channel: int, note: Num, now: int,
                              button: ButtonKey, labelName: string, b: ButtonBinding)
    requires Wellformed(ctx) && BoundButton(ctx, channel, note, button, labelName, b)
    requires labelName !in ctx.buttonTimeouts
    ensures HandleNoteOff(ctx, env, channel, note, now) == Release(ctx, env, button, labelName, b, now)
  {
    var rel := Release(ctx, env, button, labelName, b, now);
    assert [] + rel.effects == rel.effects;
  }

  /** The current daemon tracks a `command` action under the action
      itself. */
  lemma CurrentCommandIsTracked(ctx: Context, env: MixerEnv, command: string, cancelable: bool, onFinish: seq<Action>, now: int)
    requires Wellformed(ctx) && ctx.variant == Current
    ensures var a := CommandAction(command, cancelable, onFinish);
      DoAction(ctx, env, a, now) == TrackedCommand(ctx, ByAction(a), command, cancelable, onFinish, now)
  {
  }

  /** A started command is spawned and recorded. When it exits, its record
      is deleted and `onFinish` goes on a timer that starts it no sooner
      than 150 ms after the command did. */
  lemma CommandRunsToFinish(ctx: Context, key: SlotKey, command: string, cancelable: bool, onFinish: seq<Action>,
                            started: int, exited: int)
    requires Wellformed(ctx) && key !in ctx.slots && started <= exited
    ensures var pid := ctx.nextId;
      var run := TrackedCommand(ctx, key, command, cancelable, onFinish, started);
      var done := Exited(run.ctx, pid, exited);
      run.effects == [Spawn(pid, command)]
      && done.effects == [ArmTimer(run.ctx.nextId, FinishDelay(exited, Int(started)))]
      && exited + FinishDelay(exited, Int(started)) >= started + FINISH_MIN_DELAY_MS
      && key !in done.ctx.slots
      && run.ctx.nextId in done.ctx.timers && done.ctx.timers[run.ctx.nextId] == RunActions(onFinish)
  {
    var run := TrackedCommand(ctx, key, command, cancelable, onFinish, started);
    assert ExitFinishes(run.ctx.slots, run.ctx.processes[ctx.nextId]);
    FinishNotBeforeMinimum(exited, started);
  }

  /** A cancelable command triggered again while it runs is killed and
      finished at once. The exit of the killed process then finishes
      nothing, so `onFinish` is scheduled exactly once. */
  lemma RetriggerCancels(ctx: Context, key: SlotKey, command: string, onFinish: seq<Action>,
                         started: int, again: int, exited: int)
    requires Wellformed(ctx) && key !in ctx.slots
    ensures var pid := ctx.nextId;
      var run := TrackedCommand(ctx, key, command, true, onFinish, started);
      var cancel := TrackedCommand(run.ctx, key, command, true, onFinish, again);
      var exit := Exited(cancel.ctx, pid, exited);
      cancel.effects == [Kill(pid), ArmTimer(run.ctx.nextId, FinishDelay(again, Int(started)))]
      && key !in cancel.ctx.slots
      && exit == Out(cancel.ctx.(processes := cancel.ctx.processes - {pid}), [])
  {
    var run := TrackedCommand(ctx, key, command, true, onFinish, started);
    var cancel := TrackedCommand(run.ctx, key, command, true, onFinish, again);
    assert ctx.nextId in cancel.ctx.processes;
    assert !ExitFinishes(cancel.ctx.slots, cancel.ctx.processes[ctx.nextId]);
  }

  /** A `cycle` of the current daemon stores the next index and runs that
      item's actions: the one after the stored index, wrapping to the first
      after the last. The first trigger selects item 1 of two or more. */
  lemma CycleRunsNextItem(ctx: Context, env: MixerEnv, items: seq<CycleStep>, now: int)
    requires Wellformed(ctx) && ctx.variant == Current && |items| > 0
    requires var key := ByAction(CycleAction(items));
      key !in ctx.slots || InRange(ctx.slots[key].first, |items|)
    ensures var key := ByAction(CycleAction(items));
      var next := if key !in ctx.slots then 1 % |items|
                  else if ctx.slots[key].first.v + 1 == |items| then 0 else ctx.slots[key].first.v + 1;
      DoAction(ctx, env, CycleAction(items), now)
        == DoActions(StoreCounter(ctx, key, Int(next)), env, items[next].actions, now)
  {
    var key := ByAction(CycleAction(items));
    var next := if key !in ctx.slots then 1 % |items|
                else if ctx.slots[key].first.v + 1 == |items| then 0 else ctx.slots[key].first.v + 1;
    NextCycleIndex(ctx, key, |items|);
    CycleDispatch(ctx, env, items, now);
    CycleRunsIndex(ctx, env, key, items, now, next);
  }

  /** The current daemon hands a `cycle` to `RunCycle` under the action's
      key. */
  lemma CycleDispatch(ctx: Context, env: MixerEnv, items: seq<CycleStep>, now: int)
    requires Wellformed(ctx) && ctx.variant == Current
    ensures DoAction(ctx, env, CycleAction(items), now) == RunCycle(ctx, env, ByAction(CycleAction(items)), items, now)
  {
  }

  /** A cycle whose next index is `next` stores it and runs that item. */
  lemma CycleRunsIndex(ctx: Context, env: MixerEnv, key: SlotKey, items: seq<CycleStep>, now: int, next: nat)
    requires Wellformed(ctx) && next < |items|
    requires CycleIndex(StoredCounter(ctx, key), |items|) == Int(next)
    ensures RunCycle(ctx, env, key, items, now) == DoActions(StoreCounter(ctx, key, Int(next)), env, items[next].actions, now)
  {
  }

  /** The index a cycle stores: one after the stored one, wrapping, or 1
      (mod the length) on the first trigger. */
  lemma NextCycleIndex(ctx: Context, key: SlotKey, n: nat)
    requires n > 0 && (key !in ctx.slots || InRange(ctx.slots[key].first, n))
    ensures CycleIndex(StoredCounter(ctx, key), n)
            == Int(if key !in ctx.slots then 1 % n
                   else if ctx.slots[key].first.v + 1 == n then 0 else ctx.slots[key].first.v + 1)
  {
  }

  /** The earlier daemon's button cycle stores its counter as written and,
      when that counter names an item, sets the button's LED to the item's
      colour before the item's actions run; when it names no item, the
      handler stops with the error of reading `color` of `undefined`. */
  lemma EarlierCycleSetsLed(ctx: Context, env: MixerEnv, button: ButtonKey, labelName: string, items: seq<CycleStep>, now: int)
    requires Wellformed(ctx)
    ensures var key := ByLabel(labelName);
      var idx := EarlierCycleIndexAsWritten(StoredCounter(ctx, key), |items|);
      var o := ButtonAction(ctx, env, button, labelName, CycleAction(items), now);
      (InRange(idx, |items|) ==>
         o.effects == [SendButtonLed(button, items[idx.v].color)]
                      + DoActions(StoreCounter(ctx, key, idx), env, items[idx.v].actions, now).effects)
      && (!InRange(idx, |items|) ==> o == Out(StoreCounter(ctx, key, idx), [Rejected(COLOR_OF_UNDEFINED)]))
  {
  }

  /** The first press of a one-item cycle button in the earlier daemon sets
      no LED and runs nothing: the stored counter 1 is past the only item. */
  lemma EarlierOneItemCycleFails(ctx: Context, env: MixerEnv, button: ButtonKey, labelName: string, item: CycleStep, now: int)
    requires Wellformed(ctx) && ByLabel(labelName) !in ctx.slots
    ensures ButtonAction(ctx, env, button, labelName, CycleAction([item]), now)
            == Out(StoreCounter(ctx, ByLabel(labelName), Int(1)), [Rejected(COLOR_OF_UNDEFINED)])
  {
    FirstPickOutOfRange();
  }

  /** From two items on, the earlier daemon's button cycle selects the same
      item as the corrected counter. */
  lemma EarlierCycleFromTwoItems(ctx: Context, env: MixerEnv, button: ButtonKey, labelName: string, items: seq<CycleStep>, now: int)
    requires Wellformed(ctx) && |items| >= 2
    requires ByLabel(labelName) !in ctx.slots || InRange(ctx.slots[ByLabel(labelName)].first, |items|)
    ensures var idx := CycleIndex(StoredCounter(ctx, ByLabel(labelName)), |items|);
      var o := ButtonAction(ctx, env, button, labelName, CycleAction(items), now);
      InRange(idx, |items|)
      && |o.effects| > 0 && o.effects[0] == SendButtonLed(button, items[idx.v].color)
  {
    CorrectionAgreesFromTwoItems(StoredCounter(ctx, ByLabel(labelName)), |items|);
  }

  /** `range` stores the dial's new range and republishes the dial's
      last value (0 when it has none, or when it is the JSON `null` an
      unparsable value arrives as) so that the next move does not jump;
      nothing else changes. */
  lemma RangeRepublishes(ctx: Context, env: MixerEnv, dial: string, range: LegacyConfig.Range, now: int)
    requires Wellformed(ctx)
    ensures var o := DoAction(ctx, env, RangeAction(dial, range), now);
      o.ctx == ctx.(ranges := ctx.ranges[dial := range])
      && o.ctx.ranges[dial] == range
      && (dial in ctx.dials && ctx.dials[dial].Int? ==> o.effects == [ManifestDial(dial, ctx.dials[dial])])
      && (dial !in ctx.dials || ctx.dials[dial].NaN? ==> o.effects == [ManifestDial(dial, Int(0))])
  {
  }

  /** `cancel` closes an open prompt by pressing Escape; with no prompt
      open it runs its alternative action, or does nothing without one. */
  lemma CancelPrefersPrompt(ctx: Context, env: MixerEnv, alt: Option<Action>, now: int)
    requires Wellformed(ctx)
    ensures var o := DoAction(ctx, env, CancelAction(alt), now);
      (ctx.rofiOpen ==> o == Out(ctx, [RunShell(CANCEL_COMMAND)]))
      && (!ctx.rofiOpen && alt.Some? ==> o == DoAction(ctx, env, alt.value, now))
      && (!ctx.rofiOpen && alt.None? ==> o == Out(ctx, []))
  {
  }

  /** The actions that leave the daemon's state alone and emit at most
      one effect: `midi` pushes the batch to midish (a note event makes it
      reject), `lv2::load_preset` writes to a known plugin, `lv2::show_gui`
      only does so in the earlier daemon, the link actions run their link
      decision, and `config::reload` reloads in the current daemon only.
      In the earlier daemon's `doActionBinding`, `command` runs the shell
      command untracked and `cycle` does nothing. */
  lemma PlainActionEffects(ctx: Context, env: MixerEnv, a: Action, now: int)
    requires Wellformed(ctx)
    requires a.MidiAction? || a.LoadPresetAction? || a.ShowGuiAction? || a.LinkAction? || a.UnlinkAction?
             || a.ExclusiveLinkAction? || a.ConfigReloadAction?
             || (ctx.variant == Earlier && (a.CommandAction? || a.CycleAction?))
    ensures var o := DoAction(ctx, env, a, now);
      o.ctx == ctx
      && (a.MidiAction? ==>
            o.effects == (match MidishBatch(a.events)
                          case Success(text) => [PushMidish(text)]
                          case Failure(message) => [Rejected(message)]))
      && (a.LoadPresetAction? ==>
            o.effects == if a.pluginName in ctx.pluginStreams then [PushPlugin(a.pluginName, "preset " + a.preset)] else [])
      && (a.ShowGuiAction? ==>
            o.effects == if ctx.variant == Earlier && a.pluginName in ctx.pluginStreams then [PushPlugin(a.pluginName, "show")] else [])
      && (a.LinkAction? ==> o.effects == LinkEffects(EnsureLink(a.src, a.dest, ctx.dump)))
      && (a.UnlinkAction? ==> o.effects == LinkEffects(DestroyLink(a.src, a.dest, ctx.dump)))
      && (a.ExclusiveLinkAction? ==> o.effects == [ExclusiveLink(a.src, a.dest)])
      && (a.ConfigReloadAction? ==> o.effects == if ctx.variant == Current then [LoadConfig] else [])
      && (a.CommandAction? ==> o.effects == [RunShell(a.command)])
      && (a.CycleAction? ==> o.effects == [])
  {
  }

  /** `mixer::select` opens one prompt at a time: while one is open,
      another does nothing. */
  lemma SelectOpensOnePrompt(ctx: Context, env: MixerEnv, channel: int, onFinish: seq<Action>, other: Action, t1: int, t2: int)
    requires Wellformed(ctx) && !ctx.rofiOpen && env.hasMixerPorts(ctx.dump) && other.MixerSelectAction?
    ensures var shown := DoAction(ctx, env, MixerSelectAction(channel, onFinish), t1);
      shown.effects == [OpenPrompt(ctx.nextId)] && shown.ctx.rofiOpen
      && shown.ctx.prompts == map[ctx.nextId := Prompt(channel, onFinish)]
      && DoAction(shown.ctx, env, other, t2) == Out(shown.ctx, [])
  {
    assert ctx.prompts == map[];
  }

  /** When the prompt answers, the chosen source is connected to the rule's
      channel, the prompt is closed and `onFinish` runs. A failed prompt
      connects nothing but still runs `onFinish`. */
  lemma PromptAnswer(ctx: Context, env: MixerEnv, id: nat, p: Prompt, output: Option<string>, now: int)
    requires Wellformed(ctx) && ctx.prompts == map[id := p]
    ensures var closed := ctx.(rofiOpen := false, prompts := map[]);
      Answered(ctx, env, id, output, now).effects
        == (if output.Some? then [ConnectSelected(Trim(output.value), ChannelName(p.channel))] else [])
           + DoActions(closed, env, p.onFinish, now).effects
  {
    assert ctx.prompts - {id} == map[];
    assert ctx.(rofiOpen := false, prompts := ctx.prompts - {id}) == ctx.(rofiOpen := false, prompts := map[]);
  }

  /** Muting sends 0 for the dial, and unmuting sends the last recorded
      value again (0 if none, or if it is the JSON `null`). */
  lemma MuteThenUnmute(ctx: Context, env: MixerEnv, dial: string, t1: int, t2: int)
    requires Wellformed(ctx)
    ensures var muted := DoAction(ctx, env, MuteAction(dial, true), t1);
      var unmuted := DoAction(muted.ctx, env, MuteAction(dial, false), t2);
      muted.effects == [ManifestDial(dial, Int(0))] && muted.ctx.mutes[dial]
      && (dial in ctx.dials && ctx.dials[dial].Int? ==> unmuted.effects == [ManifestDial(dial, ctx.dials[dial])])
      && (dial !in ctx.dials || ctx.dials[dial].NaN? ==> unmuted.effects == [ManifestDial(dial, Int(0))])
      && !unmuted.ctx.mutes[dial]
  {
  }

  /** `led::save`, then any `led::set`, then `led::restore` gives the button
      back the colour it had when saved. */
  lemma LedSaveSetRestore(ctx: Context, env: MixerEnv, labelName: string, color: string, key: ButtonKey, t: int)
    requires Wellformed(ctx)
    requires ButtonByLabel(ctx.config.device.buttons, labelName).Some?
    requires ButtonByLabel(ctx.config.device.buttons, labelName).value.0 == key
    ensures var saved := DoAction(ctx, env, LedSaveAction(labelName), t);
      var overridden := DoAction(saved.ctx, env, LedSetAction(labelName, color), t);
      var restored := DoAction(overridden.ctx, env, LedRestoreAction(labelName), t);
      saved.effects == [] && overridden.effects == [SendButtonLed(key, Some(color))]
      && restored.effects
         == [SendButtonLed(key, if labelName in ctx.buttonColors then Some(ctx.buttonColors[labelName]) else None)]
  {
    var saved := DoAction(ctx, env, LedSaveAction(labelName), t);
    LedSaveRecords(ctx, env, labelName, t);
    LedSetSends(saved.ctx, env, labelName, color, key, t);
    var overridden := DoAction(saved.ctx, env, LedSetAction(labelName, color), t);
    LedRestoreSends(overridden.ctx, env, labelName, key, t);
  }

  /** `led::save` records the button's current colour and emits nothing. */
  lemma LedSaveRecords(ctx: Context, env: MixerEnv, labelName: string, t: int)
    requires Wellformed(ctx)
    ensures var o := DoAction(ctx, env, LedSaveAction(labelName), t);
      o.effects == [] && o.ctx.config == ctx.config && labelName in o.ctx.ledSaveStates
      && o.ctx.ledSaveStates[labelName]
         == if labelName in ctx.buttonColors then Some(ctx.buttonColors[labelName]) else None
  {
  }

  /** `led::set` sends the colour to the labelled button. */
  lemma LedSetSends(ctx: Context, env: MixerEnv, labelName: string, color: string, key: ButtonKey, t: int)
    requires Wellformed(ctx)
    requires ButtonByLabel(ctx.config.device.buttons, labelName).Some?
    requires ButtonByLabel(ctx.config.device.buttons, labelName).value.0 == key
    ensures DoAction(ctx, env, LedSetAction(labelName, color), t) == Out(ctx, [SendButtonLed(key, Some(color))])
  {
    var a := LedSetAction(labelName, color);
    assert DoAction(ctx, env, a, t) == Out(ctx, ActionEffects(ctx, a));
  }

  /** `led::restore` sends the saved colour, or none if nothing was saved. */
  lemma LedRestoreSends(ctx: Context, env: MixerEnv, labelName: string, key: ButtonKey, t: int)
    requires Wellformed(ctx)
    requires ButtonByLabel(ctx.config.device.buttons, labelName).Some?
    requires ButtonByLabel(ctx.config.device.buttons, labelName).value.0 == key
    ensures DoAction(ctx, env, LedRestoreAction(labelName), t).effects
            == [SendButtonLed(key, if labelName in ctx.ledSaveStates then ctx.ledSaveStates[labelName] else None)]
  {
    var a := LedRestoreAction(labelName);
    assert DoAction(ctx, env, a, t) == Out(ctx, ActionEffects(ctx, a));
  }

  /** A second reconciliation pass over an unchanged graph runs no rule
      actions: only the mixer rules run again. */
  lemma SteadyPassRunsNoRules(ctx: Context, env: MixerEnv, t1: int, t2: int)
    requires Wellformed(ctx)
    ensures var first := ReconcilePass(ctx, env, t1);
      PassActions(first.ctx) == []
      && ReconcilePass(first.ctx, env, t2).effects
         == (if RunsMixerRules(first.ctx, env) then MixerEffects(env, ctx.dump, ctx.config.mixerRules) else [])
  {
    var first := ReconcilePass(ctx, env, t1);
    SteadyGraphFiresNothing(Arrival, ctx.config.onConnectRules, ctx.prevDevices, ctx.dump.items);
    SteadyGraphFiresNothing(Departure, ctx.config.onDisconnectRules, ctx.prevDevices, ctx.dump.items);
    assert PassActions(first.ctx) == [];
  }

  /** A reloaded configuration keeps every remembered presence and
      remembers every node of its rules, so each of them can fire. */
  lemma ReloadKeepsPresence(ctx: Context, env: MixerEnv, config: RuntimeConfig, now: int)
    requires Wellformed(ctx)
    ensures var o := Step(ctx, env, ConfigLoaded(Some(config)), now);
      o.ctx.config == config && o.effects == [] && Covers(o.ctx.prevDevices, config)
      && forall n | n in ctx.prevDevices :: n in o.ctx.prevDevices && o.ctx.prevDevices[n] == ctx.prevDevices[n]
  {
  }
}

=== FILE: devices.dfy ===
/** The shape of a controller description (`src/devices/index.ts`) and the
    LED codes and fixed keys of the APC Key 25 table (`src/devices/apcKey25.ts`). */
module Devices {
  import opened Wrappers

  /** Named LED states of a button and the velocity that selects each,
      in the order the table lists them. */
  type LedStates = seq<(string, int)>

  datatype Button = Button(labelName: string, ledStates: Option<LedStates>)

  /** A button key `channel:note`. The table's keys are decimal pairs, so
      `key.split(":").map(Number)` gives back the two numbers. */
  datatype ButtonKey = ButtonKey(channel: int, note: int)

  /** A dial key `channel:controller`. */
  datatype DialKey = DialKey(channel: int, controller: int)

  datatype Device = Device(
    name: string,
    buttons: seq<(ButtonKey, Button)>,
    keysChannel: int,
    dials: seq<(DialKey, string)>)

  /** `Object.entries(states).find(([c]) => c === color)`: the velocity of the
      first state with that name. */
  function LedCode(states: LedStates, color: string): (r: Option<int>)
    ensures r.Some? <==> exists i | 0 <= i < |states| :: states[i].0 == color
    ensures r.Some? ==> exists i | 0 <= i < |states| :: states[i] == (color, r.value)
  {
    if |states| == 0 then None
    else if states[0].0 == color then Some(states[0].1)
    else
      var r := LedCode(states[1..], color);
      assert forall i | 1 <= i < |states| :: states[i] == states[1..][i - 1];
      r
  }

  /** The first device button with the given label, with its key
      (`Object.entries(buttons).find(([, b]) => b.label === label)`). */
  function ButtonByLabel(buttons: seq<(ButtonKey, Button)>, labelName: string): (r: Option<(ButtonKey, Button)>)
    ensures r.Some? <==> exists i | 0 <= i < |buttons| :: buttons[i].1.labelName == labelName
    ensures r.Some? ==> r.value in buttons && r.value.1.labelName == labelName
    ensures r.Some? ==> exists i | 0 <= i < |buttons| ::
      buttons[i] == r.value && forall j | 0 <= j < i :: buttons[j].1.labelName != labelName
  {
    if |buttons| == 0 then None
    else if buttons[0].1.labelName == labelName then Some(buttons[0])
    else
      var r := ButtonByLabel(buttons[1..], labelName);
      assert forall i | 1 <= i < |buttons| :: buttons[i] == buttons[1..][i - 1];
      r
  }

  /** The LED states of the button grid. */
  const GRID_LED_STATES: LedStates := [
    ("OFF", 0), ("GREEN", 1), ("GREEN_FLASHING", 2), ("RED", 3),
    ("RED_FLASHING", 4), ("AMBER", 5), ("AMBER_FLASHING", 6)]

  /** The LED states of the single-colour buttons. */
  const ON_OFF_LED_STATES: LedStates := [("OFF", 0), ("ON", 1)]

  /** The channel the piano keys send on. */
  const KEYS_CHANNEL: int := 1

  /** The label of the shift button, found at key `0:98`. */
  const SHIFT_LABEL: string := "Shift"
  const SHIFT_KEY: ButtonKey := ButtonKey(0, 98)
}

=== FILE: errors.dfy ===
/** Which failures are benign: `handlePwLinkError` and `handleAmidiError`
    of `src/errors.ts`, and the narrower check `src/commands/watch.ts`
    applies to the links it makes. */
module Errors {
  import opened JsString

  /** A rejected value: an `Error` with its message, or any other value. The
      shell helper `run` rejects with a plain `{ error, stdout, stderr }`
      object, which is not an `Error`. */
  datatype Thrown = ErrorValue(message: string) | PlainValue

  /** What a handler does with a failure. */
  datatype Handling = Swallowed | Rethrown

  const LINK_EXISTS: string := "failed to link ports: File exists"
  const UNLINK_MISSING: string := "failed to unlink ports: No such file or directory"

  /** `handlePwLinkError`: an `Error` that is neither "link exists" nor
      "nothing to unlink" is logged and rethrown; everything else is dropped. */
  function HandlePwLinkError(err: Thrown): (h: Handling)
    ensures h == Rethrown ==> err.ErrorValue?
    ensures err.ErrorValue? && Includes(err.message, LINK_EXISTS) ==> h == Swallowed
    ensures err.ErrorValue? && Includes(err.message, UNLINK_MISSING) ==> h == Swallowed
    ensures err.ErrorValue? && !Includes(err.message, LINK_EXISTS) && !Includes(err.message, UNLINK_MISSING) ==> h == Rethrown
  {
    match err
    case PlainValue => Swallowed
    case ErrorValue(message) =>
      if !Includes(message, UNLINK_MISSING) && !Includes(message, LINK_EXISTS) then Rethrown else Swallowed
  }

  /** `handleAmidiError` only logs. */
  function HandleAmidiError(err: Thrown): (h: Handling)
    ensures h == Swallowed
  {
    Swallowed
  }

  /** The check `watch.ts` applies to a failed `ensureLink`: only
      "link exists" is dropped among `Error`s. */
  function WatchLinkError(err: Thrown): (h: Handling)
    ensures h == Rethrown <==> err.ErrorValue? && !Includes(err.message, LINK_EXISTS)
  {
    match err
    case PlainValue => Swallowed
    case ErrorValue(message) => if !Includes(message, LINK_EXISTS) then Rethrown else Swallowed
  }

  /** The check in `watch.ts` is stricter: whatever it drops, the shared
      handler drops too, and it also rethrows "nothing to unlink". */
  lemma WatchStricterThanShared(err: Thrown)
    ensures WatchLinkError(err) == Swallowed ==> HandlePwLinkError(err) == Swallowed
    ensures HandlePwLinkError(err) == Rethrown ==> WatchLinkError(err) == Rethrown
  {
  }

  /** A failed shell command is never rethrown by either handler, because
      `run` rejects with a value that is not an `Error`. */
  lemma ShellFailuresAreDropped()
    ensures HandlePwLinkError(PlainValue) == Swallowed
    ensures WatchLinkError(PlainValue) == Swallowed
  {
  }
}

=== FILE: graph.dfy ===
/** The audio-graph model of `src/pipewire/index.ts`: the table of PipeWire
    objects keyed by id, and the forward and reverse link indices that
    `updateDump` rebuilds from it. */
module Graph {
  import opened Wrappers

  datatype ItemType = NodeType | PortType | LinkType | OtherType

  /** The properties the core reads from `info.props`; `None` where the
      object has no such property (or no `info`/`props` at all). */
  datatype Props = Props(
    nodeName: Option<string>,
    nodeDescription: Option<string>,
    nodeId: Option<int>,
    portName: Option<string>,
    linkInputNode: Option<int>,
    linkInputPort: Option<int>,
    linkOutputNode: Option<int>,
    linkOutputPort: Option<int>,
    applicationName: Option<string>)

  /** A PipeWire object as `pw-dump` reports it. */
  datatype Item = Item(id: nat, itemType: ItemType, props: Props)

  // ---------------------------------------------------------------------
  // The item table. `dump.items` is an object with integer keys, whose
  // values enumerate in ascending key order; it is kept as a sequence
  // sorted by id.

  predicate Ascending(items: seq<Item>) {
    forall i, j | 0 <= i < j < |items| :: items[i].id < items[j].id
  }

  /** `dump.items[id]`. */
  function Lookup(items: seq<Item>, id: int): (r: Option<Item>)
    ensures r.Some? <==> exists i | 0 <= i < |items| :: items[i].id == id
    ensures r.Some? ==> r.value in items && r.value.id == id
  {
    if |items| == 0 then None
    else if items[0].id == id then Some(items[0])
    else
      var r := Lookup(items[1..], id);
      assert forall i | 1 <= i < |items| :: items[i] == items[1..][i - 1];
      r
  }

  /** `dump.items[it.id] = it`: insert, or replace the object with that id. */
  function Upsert(items: seq<Item>, it: Item): (r: seq<Item>)
    requires Ascending(items)
    ensures Ascending(r)
    ensures Lookup(r, it.id) == Some(it)
    ensures forall id | id != it.id :: Lookup(r, id) == Lookup(items, id)
  {
    if |items| == 0 then [it]
    else if items[0].id == it.id then
      ReplaceHead(items, it);
      [it] + items[1..]
    else if it.id < items[0].id then
      PutInFront(items, it);
      [it] + items
    else
      var rest := Upsert(items[1..], it);
      KeepHead(items, it, rest);
      [items[0]] + rest
  }

  /** Replacing the first object by one with the same id. */
  lemma ReplaceHead(items: seq<Item>, it: Item)
    requires Ascending(items) && |items| > 0 && items[0].id == it.id
    ensures var r := [it] + items[1..];
      Ascending(r) && Lookup(r, it.id) == Some(it)
      && forall id | id != it.id :: Lookup(r, id) == Lookup(items, id)
  {
    var r := [it] + items[1..];
    assert r[1..] == items[1..];
    assert forall i | 1 <= i < |r| :: r[i] == items[i];
  }

  /** Putting an object with a smaller id than every other in front. */
  lemma PutInFront(items: seq<Item>, it: Item)
    requires Ascending(items) && |items| > 0 && it.id < items[0].id
    ensures var r := [it] + items;
      Ascending(r) && Lookup(r, it.id) == Some(it)
      && forall id | id != it.id :: Lookup(r, id) == Lookup(items, id)
  {
    var r := [it] + items;
    assert r[1..] == items;
  }

  /** Keeping a smaller first object in front of the upserted tail. */
  lemma KeepHead(items: seq<Item>, it: Item, rest: seq<Item>)
    requires Ascending(items) && |items| > 0 && items[0].id < it.id
    requires Ascending(rest) && Lookup(rest, it.id) == Some(it)
    requires forall id | id != it.id :: Lookup(rest, id) == Lookup(items[1..], id)
    ensures var r := [items[0]] + rest;
      Ascending(r) && Lookup(r, it.id) == Some(it)
      && forall id | id != it.id :: Lookup(r, id) == Lookup(items, id)
  {
    var r := [items[0]] + rest;
    assert r[1..] == rest;
    forall k | 0 <= k < |rest| ensures items[0].id < rest[k].id {
      var x := rest[k];
      assert Lookup(rest, x.id).Some?;
      if x.id != it.id {
        var y := Lookup(items[1..], x.id).value;
        assert y in items[1..];
      }
    }
  }

  /** Past a smaller head, upserting works on the tail. */
  lemma UpsertPastHead(items: seq<Item>, it: Item)
    requires Ascending(items) && |items| > 0 && items[0].id < it.id
    ensures Upsert(items, it) == [items[0]] + Upsert(items[1..], it)
    ensures Lookup(items[1..], it.id) == Lookup(items, it.id)
  {
  }

  /** Inserting an object with a fresh id puts it between two parts of the
      table. */
  lemma {:induction false} UpsertFresh(items: seq<Item>, it: Item) returns (p: nat)
    requires Ascending(items) && Lookup(items, it.id).None?
    ensures p <= |items| && Upsert(items, it) == items[..p] + [it] + items[p..]
    decreases |items|
  {
    if |items| == 0 || it.id < items[0].id {
      p := 0;
    } else {
      assert items[0].id != it.id;
      UpsertPastHead(items, it);
      var q := UpsertFresh(items[1..], it);
      p := q + 1;
      InsertAfterHead(items, it, q, Upsert(items[1..], it));
    }
  }

  lemma InsertAfterHead<X>(s: seq<X>, x: X, q: nat, u: seq<X>)
    requires q < |s| && u == s[1..][..q] + [x] + s[1..][q..]
    ensures [s[0]] + u == s[..q + 1] + [x] + s[q + 1..]
  {
    assert s[..q + 1] == [s[0]] + s[1..][..q];
    assert s[q + 1..] == s[1..][q..];
  }

  /** The last object of `parsed` with the given id. */
  function LastWithId(parsed: seq<Item>, id: int): (r: Option<Item>)
    ensures r.Some? ==> r.value in parsed && r.value.id == id
    ensures r.None? <==> forall i | 0 <= i < |parsed| :: parsed[i].id != id
  {
    if |parsed| == 0 then None
    else
      var last := parsed[|parsed| - 1];
      if last.id == id then Some(last)
      else
        var r := LastWithId(parsed[..|parsed| - 1], id);
        assert forall i | 0 <= i < |parsed| - 1 :: parsed[i] == parsed[..|parsed| - 1][i];
        r
  }

  /** `parsed.forEach(curr => dump.items[curr.id] = curr)`: later objects win,
      objects not mentioned stay. */
  function UpsertAll(items: seq<Item>, parsed: seq<Item>): (r: seq<Item>)
    requires Ascending(items)
    ensures Ascending(r)
    ensures forall id :: Lookup(r, id) == if LastWithId(parsed, id).Some? then LastWithId(parsed, id) else Lookup(items, id)
    decreases |parsed|
  {
    if |parsed| == 0 then items
    else
      var prefix := parsed[..|parsed| - 1];
      var last := parsed[|parsed| - 1];
      Upsert(UpsertAll(items, prefix), last)
  }

  /** Two sorted tables that agree on every id are the same table. */
  lemma {:induction false} AscendingExtensional(a: seq<Item>, b: seq<Item>)
    requires Ascending(a) && Ascending(b)
    requires forall id :: Lookup(a, id) == Lookup(b, id)
    ensures a == b
    decreases |a| + |b|
  {
    BothEmpty(a, b);
    if |a| > 0 {
      HeadsAgree(a, b);
      TailsAgree(a, b);
      AscendingExtensional(a[1..], b[1..]);
      SameHeadSameTail(a, b);
    }
  }

  /** Two agreeing tables are both empty or both not. */
  lemma BothEmpty(a: seq<Item>, b: seq<Item>)
    requires forall id :: Lookup(a, id) == Lookup(b, id)
    ensures |a| == 0 <==> |b| == 0
  {
    if |a| > 0 {
      assert Lookup(b, a[0].id) == Lookup(a, a[0].id);
    }
    if |b| > 0 {
      assert Lookup(a, b[0].id) == Lookup(b, b[0].id);
    }
  }

  lemma SameHeadSameTail<X>(a: seq<X>, b: seq<X>)
    requires |a| > 0 && |b| > 0 && a[0] == b[0] && a[1..] == b[1..]
    ensures a == b
  {
    assert a == [a[0]] + a[1..] && b == [b[0]] + b[1..];
  }

  /** Each of two agreeing sorted tables holds the other's smallest id, so
      their first objects are the same. */
  lemma HeadsAgree(a: seq<Item>, b: seq<Item>)
    requires Ascending(a) && Ascending(b) && |a| > 0 && |b| > 0
    requires forall id :: Lookup(a, id) == Lookup(b, id)
    ensures a[0] == b[0]
  {
    assert Lookup(a, a[0].id) == Some(a[0]);
    assert Lookup(b, b[0].id) == Some(b[0]);
    assert Lookup(b, a[0].id).Some? && Lookup(a, b[0].id).Some?;
    var j :| 0 <= j < |b| && b[j].id == a[0].id;
    var k :| 0 <= k < |a| && a[k].id == b[0].id;
    assert b[0].id <= b[j].id && a[0].id <= a[k].id;
  }

  /** Dropping the shared first object keeps two tables in agreement. */
  lemma TailsAgree(a: seq<Item>, b: seq<Item>)
    requires Ascending(a) && Ascending(b) && |a| > 0 && |b| > 0 && a[0] == b[0]
    requires forall id :: Lookup(a, id) == Lookup(b, id)
    ensures Ascending(a[1..]) && Ascending(b[1..])
    ensures forall id :: Lookup(a[1..], id) == Lookup(b[1..], id)
  {
    forall id ensures Lookup(a[1..], id) == Lookup(b[1..], id) {
      if id != a[0].id {
        assert Lookup(a, id) == Lookup(a[1..], id);
        assert Lookup(b, id) == Lookup(b[1..], id);
      } else {
        NotInTail(a, id);
        NotInTail(b, id);
      }
    }
  }

  lemma NotInTail(a: seq<Item>, id: int)
    requires Ascending(a) && |a| > 0 && a[0].id == id
    ensures Lookup(a[1..], id).None?
  {
    forall i | 0 <= i < |a[1..]| ensures a[1..][i].id != id {
      assert a[1..][i] == a[i + 1];
    }
  }

  /** Ingesting the same objects twice leaves the table as ingesting them once. */
  lemma UpsertAllIdempotent(items: seq<Item>, parsed: seq<Item>)
    requires Ascending(items)
    ensures UpsertAll(UpsertAll(items, parsed), parsed) == UpsertAll(items, parsed)
  {
    var once := UpsertAll(items, parsed);
    AscendingExtensional(UpsertAll(once, parsed), once);
  }

  // ---------------------------------------------------------------------
  // The link indices.

  /** The index key `${node}:${port}`. Both parts are numbers, whose decimal
      renderings are distinct, so the pair stands for the string. */
  datatype PortKey = PortKey(node: int, port: int)

  /** One far end of a link: the node and port objects, `undefined` when the
      table has no object with that id. */
  datatype LinkEnd = LinkEnd(node: Option<Item>, port: Option<Item>)

  /** An index entry: the near node and port, and the far ends of every link
      at that port in table order. */
  datatype IndexEntry = IndexEntry(item: Option<Item>, port: Option<Item>, links: seq<LinkEnd>)

  /** An index with string keys, which enumerate in insertion order. */
  type LinkIndex = seq<(PortKey, IndexEntry)>

  datatype Links = Links(forward: LinkIndex, reverse: LinkIndex)

  datatype Dump = Dump(items: seq<Item>, links: Links)

  const EMPTY_DUMP: Dump := Dump([], Links([], []))

  /** The four endpoint ids of a link object. */
  datatype Endpoints = Endpoints(outNode: int, outPort: int, inNode: int, inPort: int)

  /** The endpoints of a link object, if it has all four. */
  function EndpointsOf(it: Item): (r: Option<Endpoints>)
    ensures r.Some? <==> (it.props.linkOutputNode.Some? && it.props.linkOutputPort.Some?
                          && it.props.linkInputNode.Some? && it.props.linkInputPort.Some?)
  {
    var p := it.props;
    if p.linkOutputNode.Some? && p.linkOutputPort.Some? && p.linkInputNode.Some? && p.linkInputPort.Some? then
      Some(Endpoints(p.linkOutputNode.value, p.linkOutputPort.value, p.linkInputNode.value, p.linkInputPort.value))
    else None
  }

  const BROKEN_LINK: string := "one of the input/outputs on a link is undefined"

  /** A link object lacking an endpoint, which makes the rebuild throw. */
  predicate IsBrokenLink(it: Item) {
    it.itemType == LinkType && EndpointsOf(it).None?
  }

  datatype Direction = Forward | Reverse

  /** The near end a link is filed under: its output in the forward index,
      its input in the reverse one. */
  function NearKey(d: Direction, e: Endpoints): PortKey {
    match d
    case Forward => PortKey(e.outNode, e.outPort)
    case Reverse => PortKey(e.inNode, e.inPort)
  }

  /** The end a link entry records. */
  function FarKey(d: Direction, e: Endpoints): PortKey {
    match d
    case Forward => PortKey(e.inNode, e.inPort)
    case Reverse => PortKey(e.outNode, e.outPort)
  }

  /** `links[key]`. */
  function IndexGet(idx: LinkIndex, key: PortKey): (r: Option<IndexEntry>)
    ensures r.Some? <==> exists i | 0 <= i < |idx| :: idx[i].0 == key
  {
    if |idx| == 0 then None
    else if idx[0].0 == key then Some(idx[0].1)
    else
      var r := IndexGet(idx[1..], key);
      assert forall i | 1 <= i < |idx| :: idx[i] == idx[1..][i - 1];
      r
  }

  predicate UniqueKeys(idx: LinkIndex) {
    forall i, j | 0 <= i < j < |idx| :: idx[i].0 != idx[j].0
  }

  /** Create the entry for `key` if absent, then push `end` onto its links. */
  function IndexAdd(idx: LinkIndex, key: PortKey, item: Option<Item>, port: Option<Item>, end: LinkEnd): (r: LinkIndex)
    requires UniqueKeys(idx)
    ensures UniqueKeys(r)
    ensures IndexGet(r, key) == Some(
      match IndexGet(idx, key)
      case None => IndexEntry(item, port, [end])
      case Some(e) => e.(links := e.links + [end]))
    ensures forall k | k != key :: IndexGet(r, k) == IndexGet(idx, k)
    ensures forall i | 0 <= i < |r| :: r[i].0 == key || IndexGet(idx, r[i].0).Some?
  {
    if |idx| == 0 then [(key, IndexEntry(item, port, [end]))]
    else if idx[0].0 == key then
      var r := [(key, idx[0].1.(links := idx[0].1.links + [end]))] + idx[1..];
      assert forall i | 1 <= i < |r| :: r[i] == idx[i];
      r
    else
      var rest := IndexAdd(idx[1..], key, item, port, end);
      IndexAddBehind(idx, key, item, port, end, rest);
      [idx[0]] + rest
  }

  /** The recursive case of `IndexAdd`: the entry for `key` is behind the
      first one, and the first entry is kept in front. */
  lemma IndexAddBehind(idx: LinkIndex, key: PortKey, item: Option<Item>, port: Option<Item>, end: LinkEnd, rest: LinkIndex)
    requires UniqueKeys(idx) && |idx| > 0 && idx[0].0 != key
    requires UniqueKeys(rest)
    requires IndexGet(rest, key) == Some(
      match IndexGet(idx[1..], key)
      case None => IndexEntry(item, port, [end])
      case Some(e) => e.(links := e.links + [end]))
    requires forall k | k != key :: IndexGet(rest, k) == IndexGet(idx[1..], k)
    requires forall i | 0 <= i < |rest| :: rest[i].0 == key || IndexGet(idx[1..], rest[i].0).Some?
    ensures var r := [idx[0]] + rest;
      UniqueKeys(r)
      && IndexGet(r, key) == Some(
           match IndexGet(idx, key)
           case None => IndexEntry(item, port, [end])
           case Some(e) => e.(links := e.links + [end]))
      && (forall k | k != key :: IndexGet(r, k) == IndexGet(idx, k))
      && (forall i | 0 <= i < |r| :: r[i].0 == key || IndexGet(idx, r[i].0).Some?)
  {
    var r := [idx[0]] + rest;
    assert idx == [idx[0]] + idx[1..];
    ConsGet(idx[0], rest, key);
    ConsGet(idx[0], idx[1..], key);
    forall k | k != key ensures IndexGet(r, k) == IndexGet(idx, k) {
      ConsGet(idx[0], rest, k);
      ConsGet(idx[0], idx[1..], k);
    }
    forall i | 0 <= i < |r| ensures r[i].0 == key || IndexGet(idx, r[i].0).Some? {
      if i > 0 {
        assert r[i] == rest[i - 1];
        ConsGet(idx[0], idx[1..], r[i].0);
      }
    }
    BehindUnique(idx, key, rest);
  }

  /** Looking a key up past a first entry. */
  lemma ConsGet(h: (PortKey, IndexEntry), t: LinkIndex, k: PortKey)
    ensures IndexGet([h] + t, k) == if h.0 == k then Some(h.1) else IndexGet(t, k)
  {
    assert ([h] + t)[1..] == t;
  }

  /** An entry whose key is not among the keys behind it stays unique in
      front of them. */
  lemma BehindUnique(idx: LinkIndex, key: PortKey, rest: LinkIndex)
    requires UniqueKeys(idx) && |idx| > 0 && idx[0].0 != key
    requires UniqueKeys(rest)
    requires forall i | 0 <= i < |rest| :: rest[i].0 == key || IndexGet(idx[1..], rest[i].0).Some?
    ensures UniqueKeys([idx[0]] + rest)
  {
    var r := [idx[0]] + rest;
    var tail := idx[1..];
    forall i | 0 <= i < |rest|
      ensures rest[i].0 != idx[0].0
    {
      if rest[i].0 != key {
        assert IndexGet(tail, rest[i].0).Some?;
        var j :| 0 <= j < |tail| && tail[j].0 == rest[i].0;
        assert idx[j + 1] == tail[j];
      }
    }
    assert forall i | 1 <= i < |r| :: r[i] == rest[i - 1];
  }


  /** Build one index over the objects `items` (in table order), reading
      ends from the table `all`; the first link without all four endpoints
      throws. */
  function BuildIndex(d: Direction, items: seq<Item>, all: seq<Item>): (r: Result<LinkIndex, string>)
    ensures r.Failure? <==> exists i | 0 <= i < |items| :: IsBrokenLink(items[i])
    ensures r.Success? ==> UniqueKeys(r.value)
    decreases |items|
  {
    if |items| == 0 then Success([])
    else
      var prefix := items[..|items| - 1];
      var it := items[|items| - 1];
      assert forall i | 0 <= i < |items| - 1 :: items[i] == prefix[i];
      var prev := BuildIndex(d, prefix, all);
      if prev.Failure? then Failure(prev.error)
      else if it.itemType != LinkType then prev
      else match EndpointsOf(it)
        case None => Failure(BROKEN_LINK)
        case Some(e) =>
          var near := NearKey(d, e);
          var far := FarKey(d, e);
          Success(IndexAdd(prev.value, near, Lookup(all, near.node), Lookup(all, near.port),
                           LinkEnd(Lookup(all, far.node), Lookup(all, far.port))))
  }

  /** Reference definition: the far ends of the links filed under `key`,
      in table order. */
  function EndsAt(d: Direction, items: seq<Item>, all: seq<Item>, key: PortKey): seq<LinkEnd>
    decreases |items|
  {
    if |items| == 0 then []
    else
      var prev := EndsAt(d, items[..|items| - 1], all, key);
      var it := items[|items| - 1];
      if it.itemType == LinkType && EndpointsOf(it).Some? && NearKey(d, EndpointsOf(it).value) == key then
        var far := FarKey(d, EndpointsOf(it).value);
        prev + [LinkEnd(Lookup(all, far.node), Lookup(all, far.port))]
      else prev
  }

  /** The entry a rebuilt index holds for `key`, by the reference definition. */
  function ExpectedEntry(d: Direction, items: seq<Item>, all: seq<Item>, key: PortKey): Option<IndexEntry> {
    var ends := EndsAt(d, items, all, key);
    if |ends| == 0 then None else Some(IndexEntry(Lookup(all, key.node), Lookup(all, key.port), ends))
  }

  /** A rebuilt index holds, under every key, exactly the links filed under
      that key, and no entry for a key no link uses. */
  lemma {:induction false} BuildIndexContents(d: Direction, items: seq<Item>, all: seq<Item>, key: PortKey)
    requires BuildIndex(d, items, all).Success?
    ensures IndexGet(BuildIndex(d, items, all).value, key) == ExpectedEntry(d, items, all, key)
    decreases |items|
  {
    if |items| > 0 {
      var prefix := items[..|items| - 1];
      var it := items[|items| - 1];
      assert forall i | 0 <= i < |items| - 1 :: items[i] == prefix[i];
      BuildIndexContents(d, prefix, all, key);
      var prev := BuildIndex(d, prefix, all);
      assert prev.Success?;
      if it.itemType == LinkType && EndpointsOf(it).Some? {
        var e := EndpointsOf(it).value;
        var near := NearKey(d, e);
        var far := FarKey(d, e);
        var end := LinkEnd(Lookup(all, far.node), Lookup(all, far.port));
        assert BuildIndex(d, items, all).value == IndexAdd(prev.value, near, Lookup(all, near.node), Lookup(all, near.port), end);
        if near == key {
          assert EndsAt(d, items, all, key) == EndsAt(d, prefix, all, key) + [end];
          if |EndsAt(d, prefix, all, key)| == 0 {
            assert IndexGet(prev.value, key).None?;
            assert EndsAt(d, items, all, key) == [end];
            assert IndexGet(BuildIndex(d, items, all).value, key) == Some(IndexEntry(Lookup(all, key.node), Lookup(all, key.port), [end]));
          } else {
            assert IndexGet(prev.value, key) == Some(IndexEntry(Lookup(all, key.node), Lookup(all, key.port), EndsAt(d, prefix, all, key)));
          }
        } else {
          assert EndsAt(d, items, all, key) == EndsAt(d, prefix, all, key);
        }
      } else {
        assert BuildIndex(d, items, all) == prev;
        assert EndsAt(d, items, all, key) == EndsAt(d, prefix, all, key);
      }
    }
  }

  /** A link object with all endpoints is filed under its near end. */
  lemma {:induction false} LinkIsIndexed(d: Direction, items: seq<Item>, all: seq<Item>, i: nat)
    requires i < |items| && items[i].itemType == LinkType && EndpointsOf(items[i]).Some?
    ensures var e := EndpointsOf(items[i]).value;
      LinkEnd(Lookup(all, FarKey(d, e).node), Lookup(all, FarKey(d, e).port)) in EndsAt(d, items, all, NearKey(d, e))
    decreases |items|
  {
    var prefix := items[..|items| - 1];
    if i < |items| - 1 {
      assert items[i] == prefix[i];
      LinkIsIndexed(d, prefix, all, i);
    }
  }

  /** Both indices of a table, or the error of its first broken link. */
  function Rebuild(items: seq<Item>): (r: Result<Links, string>)
    ensures r.Failure? <==> exists i | 0 <= i < |items| :: IsBrokenLink(items[i])
    ensures r.Success? ==> UniqueKeys(r.value.forward) && UniqueKeys(r.value.reverse)
  {
    var fw := BuildIndex(Forward, items, items);
    var rv := BuildIndex(Reverse, items, items);
    if fw.Success? && rv.Success? then Success(Links(fw.value, rv.value))
    else Failure(BROKEN_LINK)
  }

  /** The indices of a dump are the ones its table determines. */
  predicate Consistent(dump: Dump) {
    Ascending(dump.items) && Rebuild(dump.items) == Success(dump.links)
  }

  /** In a consistent dump, the forward entry of every port holds the links
      leaving it and the reverse entry the links arriving at it. */
  lemma ConsistentIndexContents(dump: Dump, key: PortKey)
    requires Consistent(dump)
    ensures IndexGet(dump.links.forward, key) == ExpectedEntry(Forward, dump.items, dump.items, key)
    ensures IndexGet(dump.links.reverse, key) == ExpectedEntry(Reverse, dump.items, dump.items, key)
  {
    BuildIndexContents(Forward, dump.items, dump.items, key);
    BuildIndexContents(Reverse, dump.items, dump.items, key);
  }

  /** In a consistent dump, a link object from `o` to `i` appears in the
      forward entry of `o` and in the reverse entry of `i`. */
  lemma ConsistentLinkBothWays(dump: Dump, k: nat)
    requires Consistent(dump)
    requires k < |dump.items| && dump.items[k].itemType == LinkType
    ensures EndpointsOf(dump.items[k]).Some?
    ensures var e := EndpointsOf(dump.items[k]).value;
      var items := dump.items;
      var fw := IndexGet(dump.links.forward, PortKey(e.outNode, e.outPort));
      var rv := IndexGet(dump.links.reverse, PortKey(e.inNode, e.inPort));
      fw.Some? && LinkEnd(Lookup(items, e.inNode), Lookup(items, e.inPort)) in fw.value.links
      && rv.Some? && LinkEnd(Lookup(items, e.outNode), Lookup(items, e.outPort)) in rv.value.links
  {
    assert !IsBrokenLink(dump.items[k]);
    var e := EndpointsOf(dump.items[k]).value;
    LinkIsIndexed(Forward, dump.items, dump.items, k);
    LinkIsIndexed(Reverse, dump.items, dump.items, k);
    ConsistentIndexContents(dump, PortKey(e.outNode, e.outPort));
    ConsistentIndexContents(dump, PortKey(e.inNode, e.inPort));
  }

  // ---------------------------------------------------------------------
  // `updateDump`.

  /** The dump after an update, and the error the update threw, if any. */
  datatype UpdateOutcome = UpdateOutcome(dump: Dump, error: Option<string>)

  /** `updateDump`: `parsed` is the parse of the data, `None` when it does not
      parse. A parse failure throws before anything changes. Otherwise every
      parsed object is upserted, and both indices are rebuilt from the whole
      table; a broken link throws after the upsert, leaving the old indices. */
  function UpdateDump(dump: Dump, parsed: Option<seq<Item>>): (o: UpdateOutcome)
    requires Ascending(dump.items)
    ensures parsed.None? ==> o == UpdateOutcome(dump, Some("failed to parse"))
    ensures parsed.Some? ==> o.dump.items == UpsertAll(dump.items, parsed.value)
    ensures Ascending(o.dump.items)
    ensures o.error.None? <==> parsed.Some? && Rebuild(o.dump.items).Success?
    ensures o.error.None? ==> Consistent(o.dump)
    ensures o.error.Some? ==> o.dump.links == dump.links
  {
    match parsed
    case None => UpdateOutcome(dump, Some("failed to parse"))
    case Some(p) =>
      var items := UpsertAll(dump.items, p);
      match Rebuild(items)
      case Failure(e) => UpdateOutcome(Dump(items, dump.links), Some(e))
      case Success(links) => UpdateOutcome(Dump(items, links), None)
  }

  /** An update never drops an object: every id stays, with the last parsed
      object of that id if there is one. */
  lemma UpdateDumpKeepsItems(dump: Dump, parsed: seq<Item>, id: int)
    requires Ascending(dump.items)
    ensures var o := UpdateDump(dump, Some(parsed));
      Lookup(o.dump.items, id) == if LastWithId(parsed, id).Some? then LastWithId(parsed, id) else Lookup(dump.items, id)
  {
  }

  /** Delivering the same data twice gives the same dump as delivering it once. */
  lemma UpdateDumpIdempotent(dump: Dump, parsed: seq<Item>)
    requires Ascending(dump.items)
    ensures var once := UpdateDump(dump, Some(parsed));
      UpdateDump(once.dump, Some(parsed)).dump.items == once.dump.items
      && (once.error.None? ==> UpdateDump(once.dump, Some(parsed)) == once)
  {
    UpsertAllIdempotent(dump.items, parsed);
  }
}

=== FILE: graph_links.dfy ===
/** Resolving nodes and ports by name (`findPwNode`, `findLinkPair`) and the
    `modifyLink` decision of which `pw-link` command, if any, to run
    (`src/pipewire/index.ts`). */
module GraphLinks {
  import opened Wrappers
  import opened Graph
  import Seqs

  /** What `items.find` looks for: a node by description or name, or a port
      of a given node by port name. */
  datatype Query = NodeQuery(term: string) | PortQuery(nodeId: int, portName: string)

  predicate Matches(q: Query, it: Item) {
    match q
    case NodeQuery(term) =>
      it.itemType == NodeType && (it.props.nodeDescription == Some(term) || it.props.nodeName == Some(term))
    case PortQuery(nodeId, portName) =>
      it.itemType == PortType && it.props.nodeId == Some(nodeId) && it.props.portName == Some(portName)
  }

  /** `items.find(...)`: the first object in table order that matches. */
  function Find(items: seq<Item>, q: Query): (r: Option<Item>)
    ensures r.None? <==> forall i | 0 <= i < |items| :: !Matches(q, items[i])
    ensures r.Some? ==> exists i | 0 <= i < |items| ::
                          items[i] == r.value && Matches(q, r.value) && forall j | 0 <= j < i :: !Matches(q, items[j])
  {
    if |items| == 0 then None
    else if Matches(q, items[0]) then Some(items[0])
    else
      var r := Find(items[1..], q);
      assert forall i | 1 <= i < |items| :: items[i] == items[1..][i - 1];
      r
  }

  /** `findPwNode(term)`. */
  function FindPwNode(items: seq<Item>, term: string): (r: Option<Item>)
    ensures r.Some? ==> (r.value in items && r.value.itemType == NodeType
                         && (r.value.props.nodeDescription == Some(term) || r.value.props.nodeName == Some(term)))
    ensures r.None? <==> forall i | 0 <= i < |items| ::
                           !(items[i].itemType == NodeType
                             && (items[i].props.nodeDescription == Some(term) || items[i].props.nodeName == Some(term)))
  {
    Find(items, NodeQuery(term))
  }

  /** A node and a port named by the caller. */
  datatype NodeAndPort = NodeAndPort(node: string, port: string)

  datatype LinkPair = LinkPair(srcNode: Item, srcPort: Item, destNode: Item, destPort: Item)

  /** `findLinkPair`: both nodes, then each port among the ports of its node;
      `None` as soon as one of the four does not resolve. */
  function FindLinkPair(src: NodeAndPort, dest: NodeAndPort, items: seq<Item>): (r: Option<LinkPair>)
    ensures r.Some? <==>
      var sn := Find(items, NodeQuery(src.node));
      var dn := Find(items, NodeQuery(dest.node));
      sn.Some? && dn.Some?
      && Find(items, PortQuery(sn.value.id, src.port)).Some?
      && Find(items, PortQuery(dn.value.id, dest.port)).Some?
    ensures r.Some? ==>
      var p := r.value;
      p.srcNode in items && p.srcPort in items && p.destNode in items && p.destPort in items
      && Matches(NodeQuery(src.node), p.srcNode) && Matches(NodeQuery(dest.node), p.destNode)
      && Matches(PortQuery(p.srcNode.id, src.port), p.srcPort)
      && Matches(PortQuery(p.destNode.id, dest.port), p.destPort)
  {
    var sn := Find(items, NodeQuery(src.node));
    if sn.None? then None
    else
      var dn := Find(items, NodeQuery(dest.node));
      if dn.None? then None
      else
        var sp := Find(items, PortQuery(sn.value.id, src.port));
        if sp.None? then None
        else
          var dp := Find(items, PortQuery(dn.value.id, dest.port));
          if dp.None? then None
          else Some(LinkPair(sn.value, sp.value, dn.value, dp.value))
  }

  /** The first-match rule: no earlier object of the table matches the
      node or port that was chosen. */
  lemma FindLinkPairFirstMatch(src: NodeAndPort, dest: NodeAndPort, items: seq<Item>)
    requires FindLinkPair(src, dest, items).Some?
    ensures var p := FindLinkPair(src, dest, items).value;
      (exists i | 0 <= i < |items| :: items[i] == p.srcNode && forall j | 0 <= j < i :: !Matches(NodeQuery(src.node), items[j]))
      && (exists i | 0 <= i < |items| :: items[i] == p.destNode && forall j | 0 <= j < i :: !Matches(NodeQuery(dest.node), items[j]))
      && (exists i | 0 <= i < |items| :: items[i] == p.srcPort && forall j | 0 <= j < i :: !Matches(PortQuery(p.srcNode.id, src.port), items[j]))
      && (exists i | 0 <= i < |items| :: items[i] == p.destPort && forall j | 0 <= j < i :: !Matches(PortQuery(p.destNode.id, dest.port), items[j]))
  {
  }

  // ---------------------------------------------------------------------
  // The commands.

  function Quoted(np: NodeAndPort): string {
    "\"" + np.node + ":" + np.port + "\""
  }

  /** `pw-link ${flags} "src" "dest"`, the form used when the source port has
      no links at all: the flags come first, as given. */
  function FlagsCommand(flags: string, src: NodeAndPort, dest: NodeAndPort): (r: string)
    ensures |r| > 9 + |flags| && r[..8] == "pw-link " && r[8..8 + |flags|] == flags && r[8 + |flags|..10 + |flags|] == " \""
  {
    var r := "pw-link " + flags + " " + Quoted(src) + " " + Quoted(dest);
    assert r[8..8 + |flags|] == flags;
    assert r[8 + |flags|] == ' ' && r[9 + |flags|] == '"';
    r
  }

  /** `pw-link "src" "dest"`: create a link. The operands follow the
      program name directly, with no flag. */
  function CreateCommand(src: NodeAndPort, dest: NodeAndPort): (r: string)
    ensures |r| > 8 && r[..8] == "pw-link " && r[8] == '"'
  {
    var r := "pw-link " + Quoted(src) + " " + Quoted(dest);
    assert r[8] == Quoted(src)[0];
    r
  }

  /** `pw-link -d "src" "dest"`: destroy a link. It is the create command
      of the same operands with `-d ` put before them. */
  function DestroyCommand(src: NodeAndPort, dest: NodeAndPort): (r: string)
    ensures |r| > 11 && r[..11] == "pw-link -d " && r[11..] == CreateCommand(src, dest)[8..]
  {
    var operands := Quoted(src) + " " + Quoted(dest);
    var r := "pw-link -d " + operands;
    assert CreateCommand(src, dest) == "pw-link " + operands;
    assert CreateCommand(src, dest)[8..] == operands;
    assert r[11..] == operands;
    r
  }

  /** No create command destroys a link, whatever the operands. */
  lemma CreateNeverDestroys(src: NodeAndPort, dest: NodeAndPort, src': NodeAndPort, dest': NodeAndPort)
    ensures CreateCommand(src, dest) != DestroyCommand(src', dest')
  {
    var c := CreateCommand(src, dest);
    var d := DestroyCommand(src', dest');
    assert d[8] == d[..11][8] == '-';
    assert c[8] == '"';
  }

  /** The flags form with `-d` is the destroy command; with no flags it is
      the create command with one extra space, which the shell ignores. */
  lemma FlagsCommandForms(src: NodeAndPort, dest: NodeAndPort)
    ensures FlagsCommand("-d", src, dest) == DestroyCommand(src, dest)
    ensures FlagsCommand("", src, dest) == "pw-link " + " " + Quoted(src) + " " + Quoted(dest)
    ensures FlagsCommand("", src, dest)[8..] == CreateCommand(src, dest)[7..]
  {
    CommandTexts(Quoted(src), Quoted(dest));
  }

  /** The three command templates, on any two operands. */
  lemma CommandTexts(q1: string, q2: string)
    ensures "pw-link " + "-d" + " " + q1 + " " + q2 == "pw-link -d " + (q1 + " " + q2)
    ensures "pw-link " + "" + " " + q1 + " " + q2 == "pw-link " + " " + q1 + " " + q2
    ensures ("pw-link " + "" + " " + q1 + " " + q2)[8..] == ("pw-link " + q1 + " " + q2)[7..]
  {
    var tail := q1 + " " + q2;
    assert "pw-link " + "-d" + " " + q1 + " " + q2 == "pw-link " + "-d" + " " + tail;
    assert "pw-link " + "" + " " + q1 + " " + q2 == "pw-link " + " " + tail;
    assert "pw-link " + q1 + " " + q2 == "pw-link " + tail;
  }

  /** Some far end has no node object, and every end before it is defined
      and not `id`: `some` reaches it and throws. */
  predicate UndefinedFirst(ends: seq<LinkEnd>, id: int) {
    exists i | 0 <= i < |ends| ::
      ends[i].node.None? && forall j | 0 <= j < i :: ends[j].node.Some? && ends[j].node.value.id != id
  }

  /** Some far end is `id`, and every end before it is defined: `some` finds
      it without throwing. */
  predicate MatchFirst(ends: seq<LinkEnd>, id: int) {
    exists i | 0 <= i < |ends| ::
      ends[i].node.Some? && ends[i].node.value.id == id && forall j | 0 <= j < i :: ends[j].node.Some?
  }

  /** `links.some(link => link[0].id === id)`: scanning stops at the first
      link to `id`; a far end whose node object is missing before that
      throws a TypeError. */
  function LinksTo(ends: seq<LinkEnd>, id: int): (r: Result<bool, string>)
    ensures r.Failure? ==> r.error == ID_OF_UNDEFINED
    ensures (forall i | 0 <= i < |ends| :: ends[i].node.Some?) ==>
      r == Success(exists i | 0 <= i < |ends| :: ends[i].node.value.id == id)
    ensures r.Failure? ==> exists i | 0 <= i < |ends| :: ends[i].node.None?
    ensures r == Success(true) ==> exists i | 0 <= i < |ends| :: ends[i].node.Some? && ends[i].node.value.id == id
    ensures r == Success(false) ==> forall i | 0 <= i < |ends| :: ends[i].node.Some? && ends[i].node.value.id != id
    ensures r.Failure? <==> UndefinedFirst(ends, id)
    ensures r == Success(true) <==> MatchFirst(ends, id)
  {
    if |ends| == 0 then Success(false)
    else if ends[0].node.None? then LinksToHead(ends, id); Failure(ID_OF_UNDEFINED)
    else if ends[0].node.value.id == id then LinksToHead(ends, id); Success(true)
    else
      var r := LinksTo(ends[1..], id);
      assert forall i | 1 <= i < |ends| :: ends[i] == ends[1..][i - 1];
      LinksToShift(ends, id);
      r
  }

  /** `some` scans in order: an undefined end before the match throws, and
      a match before the undefined end answers `true`. */
  lemma UndefinedBeforeMatchThrows(undefinedEnd: LinkEnd, linked: LinkEnd, id: int)
    requires undefinedEnd.node.None? && linked.node.Some? && linked.node.value.id == id
    ensures LinksTo([undefinedEnd, linked], id) == Failure(ID_OF_UNDEFINED)
    ensures LinksTo([linked, undefinedEnd], id) == Success(true)
  {
  }

  /** An undefined first end is the first undefined end and rules out a
      match before it; a first end linked to `id` is the first match and
      rules out an undefined end before it. */
  lemma LinksToHead(ends: seq<LinkEnd>, id: int)
    requires |ends| > 0
    ensures ends[0].node.None? ==> UndefinedFirst(ends, id) && !MatchFirst(ends, id)
    ensures ends[0].node.Some? && ends[0].node.value.id == id ==> !UndefinedFirst(ends, id) && MatchFirst(ends, id)
  {
    Seqs.StopAtHead(ends, (e: LinkEnd) => e.node.None?, (e: LinkEnd) => e.node.Some? && e.node.value.id != id);
    Seqs.StopAtHead(ends, (e: LinkEnd) => e.node.Some? && e.node.value.id == id, (e: LinkEnd) => e.node.Some?);
  }

  /** Past a first end that is defined and is not `id`, a first undefined
      end, or a first match before any undefined end, is one of the tail's,
      one position on. */
  lemma LinksToShift(ends: seq<LinkEnd>, id: int)
    requires |ends| > 0 && ends[0].node.Some? && ends[0].node.value.id != id
    ensures UndefinedFirst(ends, id) <==> UndefinedFirst(ends[1..], id)
    ensures MatchFirst(ends, id) <==> MatchFirst(ends[1..], id)
  {
    Seqs.StopAfterHead(ends, (e: LinkEnd) => e.node.None?, (e: LinkEnd) => e.node.Some? && e.node.value.id != id);
    Seqs.StopAfterHead(ends, (e: LinkEnd) => e.node.Some? && e.node.value.id == id, (e: LinkEnd) => e.node.Some?);
  }

  /** The TypeError of reading `id` from a missing object, in the engine's
      words (written in pieces so that its letters can be reasoned about). */
  const ID_OF_UNDEFINED: string := "Cannot read " + "properties " + "of undefined " + "(reading 'id')"

  datatype Mode = Ensure | Destroy

  /** `modifyLink`: the command to run (`None` for none), or the TypeError
      the scan of existing links throws. */
  function ModifyLink(src: NodeAndPort, dest: NodeAndPort, dump: Dump, mode: Mode): (r: Result<Option<string>, string>)
    ensures FindLinkPair(src, dest, dump.items).None? ==> r == Success(None)
    ensures r.Failure? ==> r.error == ID_OF_UNDEFINED
    ensures mode == Destroy && r.Success? && r.value.Some? ==> r.value.value == DestroyCommand(src, dest)
    ensures mode == Ensure && r.Success? && r.value.Some? ==>
      r.value.value == CreateCommand(src, dest) || r.value.value == FlagsCommand("", src, dest)
    ensures FindLinkPair(src, dest, dump.items).Some? ==>
      var p := FindLinkPair(src, dest, dump.items).value;
      var entry := IndexGet(dump.links.forward, PortKey(p.srcNode.id, p.srcPort.id));
      (entry.None? ==> r == Success(Some(FlagsCommand(if mode == Destroy then "-d" else "", src, dest))))
      && (entry.Some? ==> r.Failure? == LinksTo(entry.value.links, p.destNode.id).Failure?)
      && (entry.Some? && LinksTo(entry.value.links, p.destNode.id).Success? ==>
            var linked := LinksTo(entry.value.links, p.destNode.id).value;
            r == Success(if mode == Ensure && !linked then Some(CreateCommand(src, dest))
                         else if mode == Destroy && linked then Some(DestroyCommand(src, dest))
                         else None))
  {
    FlagsCommandForms(src, dest);
    match FindLinkPair(src, dest, dump.items)
    case None => Success(None)
    case Some(p) =>
      match IndexGet(dump.links.forward, PortKey(p.srcNode.id, p.srcPort.id))
      case None => Success(Some(FlagsCommand(if mode == Destroy then "-d" else "", src, dest)))
      case Some(entry) =>
        var linked :- LinksTo(entry.links, p.destNode.id);
        if mode == Ensure && !linked then Success(Some(CreateCommand(src, dest)))
        else if mode == Destroy && linked then Success(Some(DestroyCommand(src, dest)))
        else Success(None)
  }

  /** `ensureLink`. */
  function EnsureLink(src: NodeAndPort, dest: NodeAndPort, dump: Dump): (r: Result<Option<string>, string>)
    ensures r.Success? && r.value.Some? ==> FindLinkPair(src, dest, dump.items).Some?
    ensures r == ModifyLink(src, dest, dump, Ensure)
  {
    ModifyLink(src, dest, dump, Ensure)
  }

  /** `destroyLink`. */
  function DestroyLink(src: NodeAndPort, dest: NodeAndPort, dump: Dump): (r: Result<Option<string>, string>)
    ensures r.Success? && r.value.Some? ==> r.value.value == DestroyCommand(src, dest)
    ensures r == ModifyLink(src, dest, dump, Destroy)
  {
    ModifyLink(src, dest, dump, Destroy)
  }

  /** Destroy mode still issues a destroy when the source port has no
      forward entry at all, although then no link can exist to destroy. */
  lemma DestroyWithoutEntry(src: NodeAndPort, dest: NodeAndPort, dump: Dump)
    requires FindLinkPair(src, dest, dump.items).Some?
    requires var p := FindLinkPair(src, dest, dump.items).value;
      IndexGet(dump.links.forward, PortKey(p.srcNode.id, p.srcPort.id)).None?
    ensures DestroyLink(src, dest, dump) == Success(Some(DestroyCommand(src, dest)))
  {
    FlagsCommandForms(src, dest);
  }

  // ---------------------------------------------------------------------
  // Ensure settles once the link is in the graph.

  /** Every link object's input node is in the table, so no forward entry
      has a dangling far end. */
  predicate InputsResolve(items: seq<Item>) {
    forall i | 0 <= i < |items| && items[i].itemType == LinkType && EndpointsOf(items[i]).Some? ::
      Lookup(items, EndpointsOf(items[i]).value.inNode).Some?
  }

  lemma {:induction false} EndsResolve(items: seq<Item>, all: seq<Item>, key: PortKey)
    requires forall i | 0 <= i < |items| && items[i].itemType == LinkType && EndpointsOf(items[i]).Some? ::
      Lookup(all, EndpointsOf(items[i]).value.inNode).Some?
    ensures forall k | 0 <= k < |EndsAt(Forward, items, all, key)| :: EndsAt(Forward, items, all, key)[k].node.Some?
    decreases |items|
  {
    if |items| > 0 {
      var prefix := items[..|items| - 1];
      assert forall i | 0 <= i < |prefix| :: prefix[i] == items[i];
      EndsResolve(prefix, all, key);
    }
  }

  lemma LookupMember(items: seq<Item>, x: Item)
    requires Ascending(items) && x in items
    ensures Lookup(items, x.id) == Some(x)
  {
    var k :| 0 <= k < |items| && items[k] == x;
    var y := Lookup(items, x.id).value;
    var j :| 0 <= j < |items| && items[j] == y;
    assert j == k;
  }

  /** If the graph already holds a link from the source port to the
      destination node, ensure mode issues nothing. */
  lemma EnsureIdleWhenLinked(src: NodeAndPort, dest: NodeAndPort, dump: Dump, k: nat)
    requires Consistent(dump) && InputsResolve(dump.items)
    requires FindLinkPair(src, dest, dump.items).Some?
    requires var p := FindLinkPair(src, dest, dump.items).value;
      k < |dump.items| && dump.items[k].itemType == LinkType
      && EndpointsOf(dump.items[k]).Some?
      && EndpointsOf(dump.items[k]).value.outNode == p.srcNode.id
      && EndpointsOf(dump.items[k]).value.outPort == p.srcPort.id
      && EndpointsOf(dump.items[k]).value.inNode == p.destNode.id
    ensures EnsureLink(src, dest, dump) == Success(None)
  {
    var p := FindLinkPair(src, dest, dump.items).value;
    var key := PortKey(p.srcNode.id, p.srcPort.id);
    ForwardEntryLinksTo(dump, k, p.destNode);
    var entry := IndexGet(dump.links.forward, key);
    assert entry.Some? && LinksTo(entry.value.links, p.destNode.id) == Success(true);
  }

  /** The forward entry of a link's output port, in a graph whose input
      nodes all resolve, reports a link to the link's input node. */
  lemma ForwardEntryLinksTo(dump: Dump, k: nat, destNode: Item)
    requires Consistent(dump) && InputsResolve(dump.items) && destNode in dump.items
    requires k < |dump.items| && dump.items[k].itemType == LinkType && EndpointsOf(dump.items[k]).Some?
    requires EndpointsOf(dump.items[k]).value.inNode == destNode.id
    ensures var e := EndpointsOf(dump.items[k]).value;
      var entry := IndexGet(dump.links.forward, PortKey(e.outNode, e.outPort));
      entry.Some? && LinksTo(entry.value.links, destNode.id) == Success(true)
  {
    var items := dump.items;
    var e := EndpointsOf(items[k]).value;
    var key := PortKey(e.outNode, e.outPort);
    LinkIsIndexed(Forward, items, items, k);
    ConsistentIndexContents(dump, key);
    var ends := EndsAt(Forward, items, items, key);
    EndsResolve(items, items, key);
    LookupMember(items, destNode);
    EndsLinkTo(ends, LinkEnd(Lookup(items, e.inNode), Lookup(items, e.inPort)), destNode.id);
  }

  lemma EndsLinkTo(ends: seq<LinkEnd>, end: LinkEnd, id: int)
    requires forall k | 0 <= k < |ends| :: ends[k].node.Some?
    requires end in ends && end.node.Some? && end.node.value.id == id
    ensures LinksTo(ends, id) == Success(true)
  {
    var i :| 0 <= i < |ends| && ends[i] == end;
    assert ends[i].node.value.id == id;
  }

  /** An object that matches nothing leaves every search unchanged. */
  lemma {:induction false} FindSkip(a: seq<Item>, b: seq<Item>, x: Item, q: Query)
    requires !Matches(q, x)
    ensures Find(a + [x] + b, q) == Find(a + b, q)
    decreases |a|
  {
    if |a| == 0 {
      assert a + [x] + b == [x] + b;
      assert ([x] + b)[1..] == b;
      assert a + b == b;
    } else {
      FindSkip(a[1..], b, x, q);
      assert (a + [x] + b)[1..] == a[1..] + [x] + b;
      assert (a + b)[1..] == a[1..] + b;
      assert (a + [x] + b)[0] == a[0] && (a + b)[0] == a[0];
    }
  }

  /** Adding a link object leaves every node and port resolution as it was. */
  lemma FindLinkPairIgnoresLinks(src: NodeAndPort, dest: NodeAndPort, items: seq<Item>, pos: nat, link: Item)
    requires link.itemType == LinkType && pos <= |items|
    ensures FindLinkPair(src, dest, items[..pos] + [link] + items[pos..]) == FindLinkPair(src, dest, items)
  {
    var a, b := items[..pos], items[pos..];
    assert a + b == items;
    forall q: Query ensures Find(a + [link] + b, q) == Find(items, q) {
      FindSkip(a, b, link, q);
    }
  }

  /** Ensure, then ingest the link PipeWire reports: a fresh link object
      from the source port to the destination port. The update succeeds and
      a second ensure on the updated graph issues nothing. */
  lemma EnsureSettlesAfterCreate(src: NodeAndPort, dest: NodeAndPort, dump: Dump, link: Item)
    requires Consistent(dump) && InputsResolve(dump.items)
    requires FindLinkPair(src, dest, dump.items).Some?
    requires var p := FindLinkPair(src, dest, dump.items).value;
      link.itemType == LinkType && Lookup(dump.items, link.id).None?
      && EndpointsOf(link) == Some(Endpoints(p.srcNode.id, p.srcPort.id, p.destNode.id, p.destPort.id))
    ensures var o := UpdateDump(dump, Some([link]));
      o.error.None? && EnsureLink(src, dest, o.dump) == Success(None)
  {
    var p := FindLinkPair(src, dest, dump.items).value;
    var items := dump.items;
    var pos := UpsertFresh(items, link);
    var newItems := Upsert(items, link);
    assert UpsertAll(items, [link]) == newItems by {
      assert [link][..0] == [];
    }
    FindLinkPairIgnoresLinks(src, dest, items, pos, link);
    LookupMember(items, p.destNode);
    FreshLinkKeepsGraphWhole(items, link, pos);
    var o := UpdateDump(dump, Some([link]));
    assert o.dump.items == newItems && o.error.None?;
    assert newItems[pos] == link;
    EnsureIdleWhenLinked(src, dest, o.dump, pos);
  }

  /** Adding a whole link object whose input node is in the table keeps the
      table free of broken links and keeps every input node resolvable. */
  lemma FreshLinkKeepsGraphWhole(items: seq<Item>, link: Item, pos: nat)
    requires Ascending(items) && Rebuild(items).Success? && InputsResolve(items)
    requires Lookup(items, link.id).None? && pos <= |items|
    requires Upsert(items, link) == items[..pos] + [link] + items[pos..]
    requires EndpointsOf(link).Some? && Lookup(items, EndpointsOf(link).value.inNode).Some?
    ensures Rebuild(Upsert(items, link)).Success?
    ensures InputsResolve(Upsert(items, link))
  {
    var newItems := Upsert(items, link);
    forall i | 0 <= i < |newItems| ensures newItems[i] == link || newItems[i] in items {
      InsertedAt(items, link, pos, i);
    }
    forall i | 0 <= i < |newItems| ensures !IsBrokenLink(newItems[i]) {
      if newItems[i] != link {
        var j :| 0 <= j < |items| && items[j] == newItems[i];
        assert !IsBrokenLink(items[j]);
      }
    }
    forall i | 0 <= i < |newItems| && newItems[i].itemType == LinkType && EndpointsOf(newItems[i]).Some?
      ensures Lookup(newItems, EndpointsOf(newItems[i]).value.inNode).Some?
    {
      var n := EndpointsOf(newItems[i]).value.inNode;
      if newItems[i] != link {
        var j :| 0 <= j < |items| && items[j] == newItems[i];
        assert Lookup(items, n).Some?;
      }
      if n != link.id {
        assert Lookup(newItems, n) == Lookup(items, n);
      }
    }
  }

  lemma InsertedAt<X>(s: seq<X>, x: X, pos: nat, i: nat)
    requires pos <= |s| && i < |s| + 1
    ensures var t := s[..pos] + [x] + s[pos..];
      (i < pos ==> t[i] == s[i]) && (i == pos ==> t[i] == x) && (i > pos ==> t[i] == s[i - 1])
      && (t[i] == x || t[i] in s)
  {
  }
}

=== FILE: js_num.dfy ===
/** The part of JavaScript number semantics the core relies on: integers,
    NaN, the 32-bit conversions behind the bitwise operators, and the
    truncating remainder `%`. Floating-point values are not modelled. */
module JsNum {

  /** A JavaScript number as the core produces it: an integer or NaN.
      (Negative zero is identified with zero: `===` does not tell them apart.) */
  datatype Num = NaN | Int(v: int)

  const TWO_31: int := 0x8000_0000
  const TWO_32: int := 0x1_0000_0000

  function Pow2(n: nat): (r: nat)
    ensures r >= 1
  {
    if n == 0 then 1 else 2 * Pow2(n - 1)
  }

  /** ToUint32 (section 7.1.7 of ECMA-262) on an integer. */
  function ToUint32(x: int): (r: int)
    ensures 0 <= r < TWO_32
    ensures (x - r) % TWO_32 == 0
  {
    x % TWO_32
  }

  /** Reinterpret 32 bits as a signed integer. */
  function FromUint32(u: int): int {
    if u >= TWO_31 then u - TWO_32 else u
  }

  /** ToInt32 (section 7.1.6 of ECMA-262) on an integer. */
  function ToInt32(x: int): (r: int)
    ensures -TWO_31 <= r < TWO_31
    ensures (x - r) % TWO_32 == 0
  {
    FromUint32(ToUint32(x))
  }

  /** The operand of a bitwise operator: NaN becomes 0. */
  function Int32Of(n: Num): (r: int)
    ensures -TWO_31 <= r < TWO_31
  {
    match n
    case NaN => 0
    case Int(v) => ToInt32(v)
  }

  /** Bitwise OR of the low `width` bits of two naturals. */
  function BitOr(a: nat, b: nat, width: nat): nat
    decreases width
  {
    if width == 0 then 0
    else 2 * BitOr(a / 2, b / 2, width - 1) + (if a % 2 == 1 || b % 2 == 1 then 1 else 0)
  }

  /** `a | b`. */
  function Or(a: Num, b: Num): int {
    FromUint32(BitOr(ToUint32(Int32Of(a)), ToUint32(Int32Of(b)), 32))
  }

  /** `a << 4`. */
  function ShiftLeft4(a: Num): int {
    ToInt32(Int32Of(a) * 16)
  }

  /** `a >> 4`: the sign-propagating shift is a floor division (Dafny's `/`
      rounds down for a positive divisor). */
  function ShiftRight4(a: Num): int {
    Int32Of(a) / 16
  }

  /** `a & 0x0F`: the low nibble of the two's complement representation,
      which is the non-negative remainder modulo 16. */
  function LowNibble(a: Num): (r: int)
    ensures 0 <= r < 16
  {
    Int32Of(a) % 16
  }

  /** `a + 1`. */
  function Succ(a: Num): Num {
    match a
    case NaN => NaN
    case Int(v) => Int(v + 1)
  }

  /** JavaScript `a % n`: NaN for a zero divisor, otherwise the remainder of
      the division truncated toward zero (it takes the dividend's sign). */
  function Rem(a: Num, n: int): (r: Num)
    ensures n == 0 || a.NaN? <==> r.NaN?
    ensures a.Int? && a.v >= 0 && n > 0 ==> r == Int(a.v % n)
  {
    if n == 0 then NaN
    else match a
      case NaN => NaN
      case Int(v) =>
        var m := if n < 0 then -n else n;
        if v >= 0 then Int(v % m) else Int(-((-v) % m))
  }

  /** `(i + 1) % m` for a non-negative `i` and a positive `m` is an index
      below `m`; from the last index it wraps to 0. */
  lemma NextIndex(i: int, m: int)
    ensures 0 <= i && 0 < m ==> Rem(Int(i + 1), m).Int? && 0 <= Rem(Int(i + 1), m).v < m
    ensures 0 <= i < m ==> Rem(Int(i + 1), m) == Int(if i + 1 < m then i + 1 else 0)
  {
  }

  lemma {:induction false} OrWithZero(a: nat, w: nat)
    requires a < Pow2(w)
    ensures BitOr(a, 0, w) == a
    decreases w
  {
    if w > 0 {
      OrWithZero(a / 2, w - 1);
    }
  }

  /** OR of a value shifted above bit `j` with a value below bit `j` is their sum. */
  lemma {:induction false} OrDisjoint(q: nat, b: nat, j: nat, w: nat)
    requires j <= w && b < Pow2(j) && q < Pow2(w - j)
    ensures BitOr(Pow2(j) * q, b, w) == Pow2(j) * q + b
    decreases j
  {
    if j == 0 {
      OrWithZero(q, w);
    } else {
      var x := Pow2(j - 1) * q;
      assert Pow2(j) * q == 2 * x;
      assert (2 * x) / 2 == x && (2 * x) % 2 == 0;
      OrDisjoint(q, b / 2, j - 1, w - 1);
    }
  }

  lemma {:induction false} Pow2Monotone(a: nat, b: nat)
    requires a <= b
    ensures Pow2(a) <= Pow2(b)
    decreases b
  {
    if a < b {
      Pow2Monotone(a, b - 1);
    }
  }

  /** `(hi << 4) | lo` with a 7-bit `hi` and a 4-bit `lo` is `16 * hi + lo`:
      the shift cannot overflow and the two operands share no bit. */
  lemma OrNibble(hi: int, lo: int)
    requires 0 <= hi < 128 && 0 <= lo < 16
    ensures Or(Int(ShiftLeft4(Int(hi))), Int(lo)) == 16 * hi + lo
  {
    ShiftSmall(hi);
    OrOfSmall(16 * hi, lo);
    NibblesDisjoint(hi, lo);
    SmallIsInt32(16 * hi + lo);
  }

  lemma ShiftSmall(hi: int)
    requires 0 <= hi < 128
    ensures ShiftLeft4(Int(hi)) == 16 * hi
  {
    SmallIsInt32(hi);
    SmallIsInt32(16 * hi);
  }

  /** On non-negative 32-bit operands, `|` is the plain bitwise OR. */
  lemma OrOfSmall(a: int, b: int)
    requires 0 <= a < TWO_31 && 0 <= b < TWO_31
    ensures Or(Int(a), Int(b)) == FromUint32(BitOr(a, b, 32))
  {
    SmallIsInt32(a);
    SmallIsInt32(b);
  }

  lemma NibblesDisjoint(hi: int, lo: int)
    requires 0 <= hi < 128 && 0 <= lo < 16
    ensures BitOr(16 * hi, lo, 32) == 16 * hi + lo
  {
    assert Pow2(4) == 16;
    assert Pow2(7) == 128;
    Pow2Monotone(7, 28);
    OrDisjoint(hi, lo, 4, 32);
  }

  /** A status byte built as `(kind << 4) | channel` with a channel in 0..15
      is `16 * kind + channel`. */
  lemma StatusByteValue(kind: int, channel: int)
    requires 0 <= kind < 16 && 0 <= channel < 16
    ensures Or(Int(ShiftLeft4(Int(kind))), Int(channel)) == 16 * kind + channel
  {
    OrNibble(kind, channel);
  }

  lemma SmallIsInt32(x: int)
    requires 0 <= x < TWO_31
    ensures ToUint32(x) == x && FromUint32(x) == x && ToInt32(x) == x
  {
  }
}

=== FILE: js_string.dfy ===
/** The JavaScript string operations the core applies to text it receives or
    builds: `trim`, `split`, `indexOf`, `includes`, `parseInt(_, 16)`, and
    the decimal and hexadecimal renderings of integers. Strings are
    sequences of characters; UTF-16 surrogate pairs are not modelled. */
module JsString {
  import opened Wrappers
  import opened JsNum
  import opened Seqs

  /** White space and line terminators as `trim` and `parseInt` strip them
      (WhiteSpace and LineTerminator of section 12.2 and 12.3 of ECMA-262). */
  predicate IsSpace(c: char) {
    c in SPACE_CHARS || '\U{2000}' <= c <= '\U{200A}'
  }

  const SPACE_CHARS: set<char> := {
    '\t', '\n', '\U{B}', '\U{C}', '\r', ' ', '\U{A0}', '\U{1680}',
    '\U{2028}', '\U{2029}', '\U{202F}', '\U{205F}', '\U{3000}', '\U{FEFF}'
  }

  predicate AllSpace(s: string) {
    forall i | 0 <= i < |s| :: IsSpace(s[i])
  }

  /** The number of white-space characters `s` starts with. */
  function LeadingSpaces(s: string): (n: nat)
    ensures n <= |s|
    ensures forall i | 0 <= i < n :: IsSpace(s[i])
    ensures n < |s| ==> !IsSpace(s[n])
  {
    if |s| > 0 && IsSpace(s[0]) then 1 + LeadingSpaces(s[1..]) else 0
  }

  /** The number of white-space characters `s` ends with. */
  function TrailingSpaces(s: string): (n: nat)
    ensures n <= |s|
    ensures forall i | |s| - n <= i < |s| :: IsSpace(s[i])
    ensures n < |s| ==> !IsSpace(s[|s| - n - 1])
  {
    if |s| > 0 && IsSpace(s[|s| - 1]) then 1 + TrailingSpaces(s[..|s| - 1]) else 0
  }

  /** Text that is not all white space keeps its leading run when more text
      follows. */
  lemma {:induction false} LeadingSpacesAppend(x: string, y: string)
    requires LeadingSpaces(x) < |x|
    ensures LeadingSpaces(x + y) == LeadingSpaces(x)
    decreases |x|
  {
    assert (x + y)[0] == x[0];
    if IsSpace(x[0]) {
      assert (x + y)[1..] == x[1..] + y;
      LeadingSpacesAppend(x[1..], y);
    }
  }

  /** A white-space character at the end does not change the trimmed text. */
  lemma {:induction false} TrimDropsSpace(x: string, c: char)
    requires IsSpace(c)
    ensures Trim(x + [c]) == Trim(x)
  {
    TrailingSpacesSnoc(x, c);
    if LeadingSpaces(x) < |x| {
      LeadingSpacesAppend(x, [c]);
      TrimSnocSlice(x, c);
    } else {
      AllSpaceSnoc(x, c);
    }
  }

  /** A white-space character at the end lengthens the trailing run. */
  lemma TrailingSpacesSnoc(x: string, c: char)
    requires IsSpace(c)
    ensures TrailingSpaces(x + [c]) == 1 + TrailingSpaces(x)
  {
    assert (x + [c])[..|x|] == x;
  }

  /** All white space stays all white space with one more space. */
  lemma AllSpaceSnoc(x: string, c: char)
    requires IsSpace(c) && LeadingSpaces(x) == |x|
    ensures Trim(x + [c]) == Trim(x) == []
  {
    var s := x + [c];
    assert AllSpace(s) by {
      assert forall i | 0 <= i < |x| :: s[i] == x[i];
    }
  }

  /** The slice `Trim` keeps is the same with one more trailing space. */
  lemma {:induction false} TrimSnocSlice(x: string, c: char)
    requires LeadingSpaces(x) < |x| && LeadingSpaces(x + [c]) == LeadingSpaces(x)
    requires TrailingSpaces(x + [c]) == 1 + TrailingSpaces(x)
    ensures Trim(x + [c]) == Trim(x)
  {
    var s := x + [c];
    TrimSlice(x);
    TrimSlice(s);
    FrontSlice(x, [c], LeadingSpaces(x), |x| - TrailingSpaces(x));
  }

  /** Outside all-white-space text, `Trim` keeps what lies between the
      leading and the trailing run. */
  lemma {:induction false} TrimSlice(s: string)
    requires LeadingSpaces(s) < |s|
    ensures LeadingSpaces(s) <= |s| - TrailingSpaces(s)
    ensures Trim(s) == s[LeadingSpaces(s)..|s| - TrailingSpaces(s)]
  {
  }

  /** `s.trimStart()`, which `parseInt` applies first: what is left of `s`
      behind the run of white space it starts with. */
  function TrimStart(s: string): (r: string)
    ensures |r| <= |s| && s == s[..|s| - |r|] + r && AllSpace(s[..|s| - |r|])
    ensures r == [] || !IsSpace(r[0])
    ensures AllSpace(s) <==> r == []
  {
    var n := LeadingSpaces(s);
    assert s == s[..n] + s[n..];
    s[n..]
  }

  /** White space followed by text that does not start with white space:
      the white space is exactly the leading run. */
  lemma {:induction false} LeadingSpacesOf(a: string, t: string)
    requires AllSpace(a) && (t == [] || !IsSpace(t[0]))
    ensures LeadingSpaces(a + t) == |a|
    decreases |a|
  {
    if |a| == 0 {
      assert a + t == t;
    } else {
      assert (a + t)[0] == a[0];
      assert (a + t)[1..] == a[1..] + t;
      LeadingSpacesOf(a[1..], t);
    }
  }

  /** `s.trim()`: the slice of `s` between its leading and trailing white space. */
  function Trim(s: string): (r: string)
    ensures r == [] <==> AllSpace(s)
    ensures r == [] || (!IsSpace(r[0]) && !IsSpace(r[|r| - 1]))
    ensures r != [] ==> var i := LeadingSpaces(s);
      i + |r| <= |s| && r == s[i..i + |r|] && forall k | i + |r| <= k < |s| :: IsSpace(s[k])
  {
    var a := LeadingSpaces(s);
    if a == |s| then [] else
    var b := TrailingSpaces(s);
    assert b < |s| - a;
    var r := s[a..|s| - b];
    assert !IsSpace(s[a]);
    assert r == s[a..a + |r|];
    r
  }

  /** `s` holds `pat` at offset `k`. */
  predicate OccursAt(s: string, pat: string, k: int) {
    0 <= k && k + |pat| <= |s| && s[k..k + |pat|] == pat
  }

  /** `s.includes(pat)`. */
  predicate Includes(s: string, pat: string) {
    exists k | 0 <= k <= |s| - |pat| :: OccursAt(s, pat, k)
  }

  function IndexFrom(s: string, pat: string, from: nat): (r: int)
    requires from <= |s| + 1
    ensures r == -1 || (from <= r && OccursAt(s, pat, r))
    ensures r == -1 ==> forall k | from <= k :: !OccursAt(s, pat, k)
    ensures r != -1 ==> forall k | from <= k < r :: !OccursAt(s, pat, k)
    decreases |s| + 1 - from
  {
    if from + |pat| > |s| then -1
    else if s[from..from + |pat|] == pat then from
    else IndexFrom(s, pat, from + 1)
  }

  /** `s.indexOf(pat)`: the first offset holding `pat`, or -1. */
  function IndexOf(s: string, pat: string): (r: int)
    ensures r == -1 || OccursAt(s, pat, r)
    ensures r == -1 <==> !Includes(s, pat)
    ensures forall k | 0 <= k && (r == -1 || k < r) :: !OccursAt(s, pat, k)
  {
    IndexFrom(s, pat, 0)
  }

  predicate StartsWith(s: string, pre: string) {
    |pre| <= |s| && s[..|pre|] == pre
  }

  predicate EndsWith(s: string, suf: string) {
    |suf| <= |s| && s[|s| - |suf|..] == suf
  }

  /** A line less the carriage return it ends with, if any: the part of a
      `\r\n` separator that stays with the line before it. */
  function DropCr(line: string): string {
    if |line| > 0 && line[|line| - 1] == '\r' then line[..|line| - 1] else line
  }

  /** Trimming does not see that carriage return. */
  lemma TrimDropCr(line: string)
    ensures Trim(DropCr(line)) == Trim(line)
  {
    if |line| > 0 && line[|line| - 1] == '\r' {
      assert line == DropCr(line) + ['\r'];
      TrimDropsSpace(DropCr(line), '\r');
    }
  }

  /** `s` with the carriage return of every `\r\n` pair dropped. */
  function CrLfToLf(s: string): string
    decreases |s|
  {
    if |s| == 0 then ""
    else if |s| >= 2 && s[0] == '\r' && s[1] == '\n' then CrLfToLf(s[1..])
    else [s[0]] + CrLfToLf(s[1..])
  }

  /** Text without a line feed has no `\r\n` pair. */
  lemma {:induction false} CrLfToLfNoLineFeed(s: string)
    requires forall j | 0 <= j < |s| :: s[j] != '\n'
    ensures CrLfToLf(s) == s
    decreases |s|
  {
    if |s| > 0 {
      CrLfToLfNoLineFeed(s[1..]);
      assert s == [s[0]] + s[1..];
    }
  }

  /** Cutting at the first line feed: the text before it, less a carriage
      return just before it, then the line feed, then the rest. */
  lemma {:induction false} CrLfToLfCut(s: string, k: nat)
    requires k < |s| && s[k] == '\n' && forall j | 0 <= j < k :: s[j] != '\n'
    ensures var head := s[..k];
      CrLfToLf(s) == DropCr(head) + "\n" + CrLfToLf(s[k + 1..])
    decreases k
  {
    if k == 0 {
      assert [s[0]] == "\n";
      assert s[..0] == "";
    } else if k == 1 && s[0] == '\r' {
      var t := s[1..];
      assert t[0] == '\n' && t[1..] == s[2..];
      assert CrLfToLf(t) == [t[0]] + CrLfToLf(t[1..]);
      assert s[..1][..0] == "";
    } else {
      var t := s[1..];
      assert !(s[0] == '\r' && s[1] == '\n');
      assert CrLfToLf(s) == [s[0]] + CrLfToLf(t);
      CrLfToLfCut(t, k - 1);
      assert t[k..] == s[k + 1..];
      var head' := t[..k - 1];
      assert s[..k] == [s[0]] + head';
      DropCrCons(s[0], head');
      Seqs.Assoc([s[0]], DropCr(head'), "\n" + CrLfToLf(s[k + 1..]));
      Seqs.Assoc(DropCr(head'), "\n", CrLfToLf(s[k + 1..]));
      Seqs.Assoc([s[0]] + DropCr(head'), "\n", CrLfToLf(s[k + 1..]));
    }
  }

  /** A character in front of a line other than a lone carriage return
      stays in front once the line's final carriage return is dropped. */
  lemma DropCrCons(c: char, h: string)
    requires |h| > 0 || c != '\r'
    ensures DropCr([c] + h) == [c] + DropCr(h)
  {
    if |h| > 0 && h[|h| - 1] == '\r' {
      assert ([c] + h)[..|h|] == [c] + h[..|h| - 1];
    }
  }

  /** A one-character pattern occurs where that character stands. */
  lemma OccursCharAt(s: string, c: char, k: int)
    ensures OccursAt(s, [c], k) <==> 0 <= k < |s| && s[k] == c
  {
    if 0 <= k < |s| {
      assert s[k..k + 1] == [s[k]];
    }
  }

  /** A line without a line feed splits to itself. */
  lemma SplitLinesOne(line: string)
    requires NoLineFeed(line)
    ensures SplitLines(line) == [line]
  {
    OccursCharAt(line, '\n', IndexOf(line, "\n"));
  }

  /** A line, a line feed and more text split to the line (less a carriage
      return at its end) followed by the pieces of the rest. */
  lemma SplitLinesFirst(line: string, rest: string)
    requires NoLineFeed(line)
    ensures SplitLines(line + "\n" + rest) == [DropCr(line)] + SplitLines(rest)
  {
    var s := line + "\n" + rest;
    var n := |line|;
    assert s[n..n + 1] == "\n";
    assert OccursAt(s, "\n", n);
    forall j | 0 <= j < n ensures !OccursAt(s, "\n", j) {
      assert s[j..j + 1] == [line[j]];
    }
    assert IndexOf(s, "\n") == n;
    assert s[..n] == line;
    assert s[n + 1..] == rest;
  }

  /** Text that holds no line feed. */
  predicate NoLineFeed(s: string) {
    '\n' !in s
  }

  /** A line that splitting gives back unchanged: no line feed in it and no
      carriage return at its end. */
  predicate IsLine(s: string) {
    NoLineFeed(s) && !(|s| > 0 && s[|s| - 1] == '\r')
  }

  predicate AllLines(ls: seq<string>) {
    forall k | 0 <= k < |ls| :: IsLine(ls[k])
  }

  lemma AllLinesConcat(a: seq<string>, b: seq<string>)
    requires AllLines(a) && AllLines(b)
    ensures AllLines(a + b)
  {
    assert forall k | 0 <= k < |a + b| :: (a + b)[k] == if k < |a| then a[k] else b[k - |a|];
  }

  /** Lines joined with line feeds, a line feed and more text split back
      into the same lines followed by the pieces of that text. */
  lemma {:induction false} SplitJoined(parts: seq<string>, rest: string)
    requires |parts| >= 1 && AllLines(parts)
    ensures SplitLines(Join(parts, "\n") + "\n" + rest) == parts + SplitLines(rest)
    decreases |parts|
  {
    var head := parts[0];
    assert IsLine(head);
    if |parts| == 1 {
      SplitLinesFirst(head, rest);
      assert DropCr(head) == head;
      assert [head] == parts;
    } else {
      var tail := parts[1..];
      var joined := Join(tail, "\n");
      var more := joined + "\n" + rest;
      assert SplitLines(more) == tail + SplitLines(rest) by {
        SplitJoined(tail, rest);
      }
      assert Join(parts, "\n") + "\n" + rest == head + "\n" + more by {
        assert Join(parts, "\n") == head + "\n" + joined;
        Regroup5(head, "\n", joined, "\n", rest);
      }
      assert SplitLines(head + "\n" + more) == [head] + SplitLines(more) by {
        SplitLinesFirst(head, more);
        assert DropCr(head) == head;
      }
      assert parts == [head] + tail;
      Assoc([head], tail, SplitLines(rest));
    }
  }

  /** `s.split(/\r?\n/)`: pieces between line feeds; a carriage return just
      before a line feed belongs to the separator. Joined again with line
      feeds, the pieces give `s` less those carriage returns. */
  function SplitLines(s: string): (r: seq<string>)
    ensures |r| >= 1
    ensures forall i | 0 <= i < |r| :: '\n' !in r[i]
    decreases |s|
  {
    var k := IndexOf(s, "\n");
    if k == -1 then
      assert forall j | 0 <= j < |s| :: s[j] != '\n' by {
        forall j | 0 <= j < |s| ensures s[j] != '\n' {
          assert !OccursAt(s, "\n", j);
          assert s[j..j + 1] == [s[j]];
        }
      }
      [s]
    else
      var head := s[..k];
      assert forall j | 0 <= j < k :: s[j] != '\n' by {
        forall j | 0 <= j < k ensures s[j] != '\n' {
          assert !OccursAt(s, "\n", j);
          assert s[j..j + 1] == [s[j]];
        }
      }
      var piece := DropCr(head);
      var rest := SplitLines(s[k + 1..]);
      assert ([piece] + rest)[1..] == rest;
      [piece] + rest
  }

  /** Joined again with line feeds, the pieces give `s` less the carriage
      returns of its `\r\n` pairs. */
  lemma {:induction false} SplitLinesRejoin(s: string)
    ensures Join(SplitLines(s), "\n") == CrLfToLf(s)
    decreases |s|
  {
    if '\n' !in s {
      SplitLinesOne(s);
      CrLfToLfNoLineFeed(s);
    } else {
      var k := FirstLineFeed(s);
      var head := s[..k];
      var rest := s[k + 1..];
      assert s == head + "\n" + rest;
      SplitLinesFirst(head, rest);
      SplitLinesRejoin(rest);
      CrLfToLfCut(s, k);
      var pieces := SplitLines(rest);
      assert ([DropCr(head)] + pieces)[1..] == pieces;
    }
  }

  /** `indexOf("\n")` of text that holds a line feed finds the first one. */
  lemma FirstLineFeed(s: string) returns (k: nat)
    requires '\n' in s
    ensures k == IndexOf(s, "\n") && k < |s| && s[k] == '\n'
    ensures forall j | 0 <= j < k :: s[j] != '\n'
  {
    var i :| 0 <= i < |s| && s[i] == '\n';
    assert s[i..i + 1] == "\n";
    assert OccursAt(s, "\n", i);
    k := IndexOf(s, "\n");
    assert s[k..k + 1] == "\n";
    forall j | 0 <= j < k ensures s[j] != '\n' {
      assert !OccursAt(s, "\n", j);
      assert s[j..j + 1] == [s[j]];
    }
  }

  /** `parts.join(sep)`. */
  function Join(parts: seq<string>, sep: string): string {
    if |parts| == 0 then ""
    else if |parts| == 1 then parts[0]
    else parts[0] + sep + Join(parts[1..], sep)
  }

  // ---------------------------------------------------------------------
  // Decimal rendering: `${n}` of an integer, and of NaN.

  function DigitChar(d: int): (c: char)
    requires 0 <= d < 10
    ensures '0' <= c <= '9' && c as int - '0' as int == d
  {
    "0123456789"[d]
  }

  predicate IsDigit(c: char) {
    '0' <= c <= '9'
  }

  /** The value of a string of decimal digits, most significant first. */
  function DecimalValue(ds: string): nat
    requires forall i | 0 <= i < |ds| :: IsDigit(ds[i])
  {
    if |ds| == 0 then 0
    else
      var last := ds[|ds| - 1];
      assert IsDigit(last);
      10 * DecimalValue(ds[..|ds| - 1]) + (last as int - '0' as int)
  }

  /** `${n}` for a natural number: its decimal digits, without leading
      zeros. */
  function NatToDecimal(n: nat): (r: string)
    ensures |r| >= 1
    ensures forall i | 0 <= i < |r| :: IsDigit(r[i])
    ensures DecimalValue(r) == n
    ensures r[0] == '0' ==> r == "0"
  {
    if n < 10 then
      var r := [DigitChar(n)];
      assert r[..0] == "";
      r
    else
      var front := NatToDecimal(n / 10);
      var r := front + [DigitChar(n % 10)];
      assert r[..|r| - 1] == front;
      r
  }

  /** The number of digits in `s` from `k` on. */
  function DigitRun(s: string, k: nat): (n: nat)
    requires k <= |s|
    ensures k + n <= |s|
    ensures forall i | k <= i < k + n :: IsDigit(s[i])
    ensures k + n < |s| ==> !IsDigit(s[k + n])
    decreases |s| - k
  {
    if k < |s| && IsDigit(s[k]) then 1 + DigitRun(s, k + 1) else 0
  }

  /** The digit run from `k` is exactly `digits` when a non-digit, or the
      end, follows them. */
  lemma {:induction false} DigitRunIs(s: string, k: nat, digits: string, rest: string)
    requires k + |digits| + |rest| == |s| && s[k..] == digits + rest
    requires forall i | 0 <= i < |digits| :: IsDigit(digits[i])
    requires rest == [] || !IsDigit(rest[0])
    ensures DigitRun(s, k) == |digits|
    decreases |digits|
  {
    if |digits| > 0 {
      assert s[k] == digits[0];
      assert s[k + 1..] == digits[1..] + rest;
      DigitRunIs(s, k + 1, digits[1..], rest);
    } else if rest != [] {
      assert s[k] == rest[0];
    }
  }

  /** `${i}` for an integer `i`. */
  function IntToDecimal(i: int): (r: string)
    ensures |r| >= 1
    ensures i >= 0 ==> (forall k | 0 <= k < |r| :: IsDigit(r[k])) && DecimalValue(r) == i
    ensures i < 0 ==>
      r[0] == '-' && |r| >= 2 && (forall k | 1 <= k < |r| :: IsDigit(r[k])) && DecimalValue(r[1..]) == -i
  {
    if i < 0 then
      var r := "-" + NatToDecimal(-i);
      assert r[1..] == NatToDecimal(-i);
      r
    else NatToDecimal(i)
  }

  /** `${n}` for a number. */
  function NumToDecimal(n: Num): string {
    match n
    case NaN => "NaN"
    case Int(v) => IntToDecimal(v)
  }

  // ---------------------------------------------------------------------
  // Hexadecimal rendering and parsing.

  function HexChar(d: int): (c: char)
    requires 0 <= d < 16
    ensures IsLowerHex(c)
  {
    "0123456789abcdef"[d]
  }

  predicate IsLowerHex(c: char) {
    ('0' <= c <= '9') || ('a' <= c <= 'f')
  }

  /** The value of a hexadecimal digit in either case, as `parseInt` reads it. */
  function HexValue(c: char): (r: Option<nat>)
    ensures r.Some? ==> r.value < 16
  {
    if '0' <= c <= '9' then Some(c as int - '0' as int)
    else if 'a' <= c <= 'f' then Some(c as int - 'a' as int + 10)
    else if 'A' <= c <= 'F' then Some(c as int - 'A' as int + 10)
    else None
  }

  lemma HexCharValue(d: int)
    requires 0 <= d < 16
    ensures HexValue(HexChar(d)) == Some(d)
  {
  }

  function NatToHex(n: nat): (r: string)
    ensures |r| >= 1
    ensures n < 16 ==> r == [HexChar(n)]
    ensures 16 <= n < 256 ==> r == [HexChar(n / 16), HexChar(n % 16)]
    ensures forall i | 0 <= i < |r| :: IsLowerHex(r[i])
  {
    if n < 16 then [HexChar(n)] else NatToHex(n / 16) + [HexChar(n % 16)]
  }

  /** `i.toString(16)`. */
  function IntToHex(i: int): string {
    if i < 0 then "-" + NatToHex(-i) else NatToHex(i)
  }

  /** `s.padStart(2, "0")`. */
  function PadStart2(s: string): (r: string)
    ensures |r| == if |s| >= 2 then |s| else 2
  {
    if |s| >= 2 then s else seq(2 - |s|, _ => '0') + s
  }

  /** The longest prefix of `s` made of hexadecimal digits. */
  function HexDigitPrefix(s: string): (r: string)
    ensures |r| <= |s| && r == s[..|r|]
    ensures forall i | 0 <= i < |r| :: HexValue(r[i]).Some?
    ensures |r| < |s| ==> HexValue(s[|r|]).None?
  {
    if |s| == 0 || HexValue(s[0]).None? then "" else [s[0]] + HexDigitPrefix(s[1..])
  }

  /** The value of a string of hexadecimal digits, most significant first. */
  function HexDigitsValue(ds: string): nat
    requires forall i | 0 <= i < |ds| :: HexValue(ds[i]).Some?
  {
    if |ds| == 0 then 0 else 16 * HexDigitsValue(ds[..|ds| - 1]) + HexValue(ds[|ds| - 1]).value
  }

  /** `t` without the sign it starts with, if any. */
  function StripSign(t: string): string {
    if |t| > 0 && (t[0] == '-' || t[0] == '+') then t[1..] else t
  }

  /** `u` without the `0x` or `0X` it starts with, if any. */
  function StripHexPrefix(u: string): string {
    if |u| >= 2 && u[0] == '0' && (u[1] == 'x' || u[1] == 'X') then u[2..] else u
  }

  /** `parseInt(s, 16)` (section 19.2.5 of ECMA-262): leading white space
      skipped, an optional sign, an optional `0x`/`0X` prefix, then the
      longest run of hexadecimal digits; NaN when that run is empty. */
  function ParseIntHex(s: string): (r: Num)
    ensures AllSpace(s) ==> r.NaN?
    ensures r.Int? && r.v < 0 ==> LeadingSpaces(s) < |s| && s[LeadingSpaces(s)] == '-'
  {
    ParseSignedHex(TrimStart(s))
  }

  /** `parseInt(t, 16)` once the leading white space is gone. */
  function ParseSignedHex(t: string): (r: Num)
    ensures t == [] ==> r.NaN?
    ensures r.Int? && r.v < 0 ==> t[0] == '-'
  {
    var negative := |t| > 0 && t[0] == '-';
    var ds := HexDigitPrefix(StripHexPrefix(StripSign(t)));
    if |ds| == 0 then NaN
    else if negative then Int(-(HexDigitsValue(ds) as int))
    else Int(HexDigitsValue(ds))
  }

  /** The longest hexadecimal prefix of digits followed by a non-digit is
      those digits. */
  lemma {:induction false} HexDigitPrefixOf(ds: string, rest: string)
    requires forall i | 0 <= i < |ds| :: HexValue(ds[i]).Some?
    requires rest == [] || HexValue(rest[0]).None?
    ensures HexDigitPrefix(ds + rest) == ds
    decreases |ds|
  {
    if |ds| == 0 {
      assert ds + rest == rest;
    } else {
      assert (ds + rest)[0] == ds[0];
      assert (ds + rest)[1..] == ds[1..] + rest;
      HexDigitPrefixOf(ds[1..], rest);
      assert ds == [ds[0]] + ds[1..];
    }
  }

  /** A hexadecimal digit is neither white space nor a sign. */
  lemma HexDigitNotSpace(c: char)
    requires HexValue(c).Some?
    ensures !IsSpace(c) && c != '-' && c != '+'
  {
  }

  /** White space in front of text that does not start with white space is
      what `trimStart` removes. */
  lemma TrimStartOf(a: string, t: string)
    requires AllSpace(a) && (t == [] || !IsSpace(t[0]))
    ensures TrimStart(a + t) == t
  {
    LeadingSpacesOf(a, t);
    assert (a + t)[|a|..] == t;
  }

  /** An optional sign in front of text that does not start with one. */
  lemma StripSignOf(sign: string, v: string)
    requires sign == "" || sign == "-" || sign == "+"
    requires sign == "" && v != [] ==> v[0] != '-' && v[0] != '+'
    ensures StripSign(sign + v) == v
    ensures (|sign + v| > 0 && (sign + v)[0] == '-') <==> sign == "-"
  {
    if sign != "" {
      assert (sign + v)[0] == sign[0];
      assert (sign + v)[1..] == v;
    } else {
      assert sign + v == v;
    }
  }

  /** An optional `0x` in front of text that does not itself start with
      one. */
  lemma StripHexPrefixOf(x: string, v: string)
    requires x == "" || x == "0x" || x == "0X"
    requires x == "" ==> !(|v| >= 2 && v[0] == '0' && (v[1] == 'x' || v[1] == 'X'))
    ensures StripHexPrefix(x + v) == v
  {
    if x != "" {
      assert (x + v)[0] == '0' && (x + v)[1] == x[1];
      assert (x + v)[2..] == v;
    } else {
      assert x + v == v;
    }
  }

  /** A sign, `0x` or hexadecimal digit is what such text starts with. */
  lemma SignedRunStart(sign: string, x: string, ds: string, rest: string)
    requires sign == "" || sign == "-" || sign == "+"
    requires x == "" || x == "0x" || x == "0X"
    requires |ds| > 0 && HexValue(ds[0]).Some?
    ensures var u := x + (ds + rest);
      u != [] && u[0] == (if x != "" then '0' else ds[0]) && !IsSpace(u[0])
      && !IsSpace((sign + u)[0]) && (sign == "" ==> u[0] != '-' && u[0] != '+')
  {
    var w := ds + rest;
    var u := x + w;
    var t := sign + u;
    HexDigitNotSpace(ds[0]);
    assert w[0] == ds[0];
    assert u[0] == (if x != "" then '0' else ds[0]);
    assert t[0] == (if sign != "" then sign[0] else u[0]);
  }

  /** `parseInt(s, 16)` reads `s` as white space, an optional sign, an
      optional `0x`, a run of hexadecimal digits, and anything that does not
      continue the run; the result is the run's value with the sign. */
  lemma ParseIntHexReads(a: string, sign: string, x: string, ds: string, rest: string)
    requires AllSpace(a)
    requires sign == "" || sign == "-" || sign == "+"
    requires x == "" || x == "0x" || x == "0X"
    requires |ds| > 0 && forall i | 0 <= i < |ds| :: HexValue(ds[i]).Some?
    requires rest == [] || HexValue(rest[0]).None?
    requires x == "" ==> !(|ds + rest| >= 2 && ds[0] == '0' && ((ds + rest)[1] == 'x' || (ds + rest)[1] == 'X'))
    ensures ParseIntHex(a + (sign + (x + (ds + rest))))
            == Int(if sign == "-" then -(HexDigitsValue(ds) as int) else HexDigitsValue(ds))
  {
    SignedRunStart(sign, x, ds, rest);
    TrimStartOf(a, sign + (x + (ds + rest)));
    SignedHexReads(sign, x, ds, rest);
  }

  lemma SignedHexReads(sign: string, x: string, ds: string, rest: string)
    requires sign == "" || sign == "-" || sign == "+"
    requires x == "" || x == "0x" || x == "0X"
    requires |ds| > 0 && forall i | 0 <= i < |ds| :: HexValue(ds[i]).Some?
    requires rest == [] || HexValue(rest[0]).None?
    requires x == "" ==> !(|ds + rest| >= 2 && ds[0] == '0' && ((ds + rest)[1] == 'x' || (ds + rest)[1] == 'X'))
    ensures ParseSignedHex(sign + (x + (ds + rest)))
            == Int(if sign == "-" then -(HexDigitsValue(ds) as int) else HexDigitsValue(ds))
  {
    var w := ds + rest;
    var u := x + w;
    var t := sign + u;
    SignedRunStart(sign, x, ds, rest);
    StripSignOf(sign, u);
    StripHexPrefixOf(x, w);
    HexDigitPrefixOf(ds, rest);
    ParseSignedHexOf(t, ds, sign == "-");
  }

  /** `parseInt` reads the digit run it finds after the sign and the `0x`,
      negated after a minus. */
  lemma ParseSignedHexOf(t: string, ds: string, negative: bool)
    requires |ds| > 0 && HexDigitPrefix(StripHexPrefix(StripSign(t))) == ds
    requires (|t| > 0 && t[0] == '-') <==> negative
    ensures ParseSignedHex(t) == Int(if negative then -(HexDigitsValue(ds) as int) else HexDigitsValue(ds))
  {
  }

  /** Without a hexadecimal digit after the white space, the sign and the
      `0x`, `parseInt(s, 16)` is NaN. */
  lemma ParseIntHexNaN(a: string, sign: string, x: string, rest: string)
    requires AllSpace(a)
    requires sign == "" || sign == "-" || sign == "+"
    requires x == "" || x == "0x" || x == "0X"
    requires rest == [] || HexValue(rest[0]).None?
    requires sign == "" && x == "" && rest != [] ==> !IsSpace(rest[0]) && rest[0] != '-' && rest[0] != '+'
    ensures ParseIntHex(a + (sign + (x + rest))) == NaN
  {
    var u := x + rest;
    var t := sign + u;
    assert x != "" ==> u[0] == '0';
    assert x == "" ==> u == rest;
    assert t != [] ==> t[0] == (if sign != "" then sign[0] else u[0]);
    TrimStartOf(a, t);
    StripSignOf(sign, u);
    StripHexPrefixOf(x, rest);
    HexDigitPrefixOf("", rest);
    assert "" + rest == rest;
  }

  /** `n.toString(16).padStart(2, "0")`. */
  function ByteHex(n: int): string {
    PadStart2(IntToHex(n))
  }

  lemma ByteHexShape(n: int)
    requires 0 <= n < 256
    ensures ByteHex(n) == [HexChar(n / 16), HexChar(n % 16)]
  {
  }

  /** Reading a string of two hexadecimal digits gives their value. */
  lemma ParseTwoHexDigits(hi: int, lo: int)
    requires 0 <= hi < 16 && 0 <= lo < 16
    ensures ParseIntHex([HexChar(hi), HexChar(lo)]) == Int(16 * hi + lo)
  {
    var s := [HexChar(hi), HexChar(lo)];
    HexCharValue(hi);
    HexCharValue(lo);
    ParseHexDigitsOnly(s);
    TwoHexDigitsValue(s[0], s[1]);
  }

  /** A string of hexadecimal digits alone reads as its value. */
  lemma ParseHexDigitsOnly(ds: string)
    requires |ds| > 0 && forall i | 0 <= i < |ds| :: HexValue(ds[i]).Some?
    ensures ParseIntHex(ds) == Int(HexDigitsValue(ds))
  {
    assert HexValue('x').None? && HexValue('X').None?;
    ParseIntHexReads("", "", "", ds, "");
    assert "" + ("" + ("" + (ds + ""))) == ds;
  }

  /** Two hexadecimal digits are worth sixteen times the first plus the
      second. */
  lemma TwoHexDigitsValue(c1: char, c2: char)
    requires HexValue(c1).Some? && HexValue(c2).Some?
    ensures HexDigitsValue([c1, c2]) == 16 * HexValue(c1).value + HexValue(c2).value
  {
    var s := [c1, c2];
    assert s[..1] == [c1] && [c1][..0] == [];
    assert HexDigitsValue([c1]) == HexValue(c1).value;
    assert HexDigitsValue(s) == 16 * HexDigitsValue([c1]) + HexValue(c2).value;
  }

  /** Reading back a rendered byte gives the byte. */
  lemma ParseByteHex(n: int)
    requires 0 <= n < 256
    ensures ParseIntHex(ByteHex(n)) == Int(n)
  {
    ByteHexShape(n);
    ParseTwoHexDigits(n / 16, n % 16);
  }
}

=== FILE: leds.dfy ===
/** The LED and device-connection helpers of `src/util.ts`: the note-on
    triplet that lights a button, the start-up LED states derived from the
    bindings, and the lookup of two MIDI clients in an `aconnect --list`
    listing. */
module Leds {
  import opened Wrappers
  import opened JsNum
  import opened JsString
  import opened MidiCodec
  import opened Devices
  import opened LegacyConfig
  import opened Seqs

  /** `buttonLEDBytes`: the note-on triplet `((9 << 4) | channel, note, code)`
      that sets `button` to `color`, when the button has LED states and one
      of them is named `color`. */
  function ButtonLedBytes(button: Button, color: string, channel: int, note: int): (r: Option<ByteTriplet>)
    ensures r.None? <==> button.ledStates.None? || LedCode(button.ledStates.value, color).None?
    ensures r.Some? ==> r.value.b2 == note && r.value.b3 == LedCode(button.ledStates.value, color).value
    ensures r.Some? && 0 <= channel < 16 ==> r.value.b1 == 0x90 + channel
  {
    match button.ledStates
    case None => None
    case Some(states) =>
      match LedCode(states, color)
      case None => None
      case Some(code) =>
        if 0 <= channel < 16 then
          StatusByteValue(9, channel);
          Some(ByteTriplet(Or(Int(ShiftLeft4(Int(9))), Int(channel)), note, code))
        else
          Some(ByteTriplet(Or(Int(ShiftLeft4(Int(9))), Int(channel)), note, code))
  }

  /** The controller reads the triplet back as a note-on on the same key
      whose velocity is the state's code. */
  lemma ButtonLedBytesDecode(prevStatus: Num, button: Button, color: string, channel: int, note: int)
    requires 0 <= channel < 16 && IsByte(note)
    requires button.ledStates.Some? && LedCode(button.ledStates.value, color).Some?
    requires IsByte(LedCode(button.ledStates.value, color).value)
    ensures var code := LedCode(button.ledStates.value, color).value;
      DecodeLine(prevStatus, TripletHex(ButtonLedBytes(button, color, channel, note).value))
        == Decoded(Some(NoteOnEvent(channel, Int(note), Int(code))), Int(0x90 + channel))
  {
    var code := LedCode(button.ledStates.value, color).value;
    assert ButtonLedBytes(button, color, channel, note).value == NoteOnTriplet(channel, note, code);
    NoteOnRoundTrip(prevStatus, channel, note, code);
  }

  /** What one binding contributes to the start-up LED states: nothing, a
      triplet, or the `TypeError` of reading the first element of an empty
      list. */
  function LedForBinding(labelName: string, binding: Binding, device: Device): (r: Result<Option<ByteTriplet>, string>)
    ensures ButtonByLabel(device.buttons, labelName).None? ==> r == Success(None)
    ensures r.Success? && r.value.Some? ==> ButtonByLabel(device.buttons, labelName).Some?
  {
    match ButtonByLabel(device.buttons, labelName)
    case None => Success(None)
    case Some((key, button)) =>
      match binding
      case RangeBinding(_, modes) =>
        if |modes| == 0 then Failure("TypeError: modes[0] is undefined")
        else Success(ButtonLedBytes(button, modes[0].color, key.channel, key.note))
      case ToggleMuteBinding(_) =>
        Success(ButtonLedBytes(button, "GREEN", key.channel, key.note))
      case CycleBinding(items) =>
        if |items| == 0 then Failure("TypeError: items[0] is undefined")
        else Success(ButtonLedBytes(button, items[0].color.GetOr("OFF"), key.channel, key.note))
      case CommandBinding(_) =>
        var on := LedCode(button.ledStates.GetOr([]), "ON");
        if on.None? then Success(None)
        else Success(Some(ByteTriplet(Or(Int(ShiftLeft4(Int(9))), Int(key.channel)), key.note, on.value)))
      case PassthroughBinding(_, _) => Success(None)
      case OtherBinding(_) => Success(None)
  }

  /** A mute binding lights its button green. */
  lemma MuteLightsGreen(labelName: string, dial: string, device: Device)
    requires ButtonByLabel(device.buttons, labelName).Some?
    ensures var (key, button) := ButtonByLabel(device.buttons, labelName).value;
      LedForBinding(labelName, ToggleMuteBinding(dial), device) == Success(ButtonLedBytes(button, "GREEN", key.channel, key.note))
  {
  }

  /** A command binding lights its button with the `ON` state, and only a
      button that has one. */
  lemma CommandLightsOn(labelName: string, command: string, device: Device)
    requires ButtonByLabel(device.buttons, labelName).Some?
    ensures var (key, button) := ButtonByLabel(device.buttons, labelName).value;
      var r := LedForBinding(labelName, CommandBinding(command), device);
      r.Success? && (r.value.Some? <==> button.ledStates.Some? && LedCode(button.ledStates.value, "ON").Some?)
      && (r.value.Some? && 0 <= key.channel < 16 ==>
            r.value.value == ByteTriplet(0x90 + key.channel, key.note, LedCode(button.ledStates.value, "ON").value))
  {
    var (key, button) := ButtonByLabel(device.buttons, labelName).value;
    if 0 <= key.channel < 16 {
      StatusByteValue(9, key.channel);
    }
  }

  /** A cycle binding lights its button with its first item's colour, `OFF`
      when that item has none. */
  lemma CycleLightsFirstItem(labelName: string, items: seq<CycleItem>, device: Device)
    requires ButtonByLabel(device.buttons, labelName).Some? && |items| > 0
    ensures var (key, button) := ButtonByLabel(device.buttons, labelName).value;
      LedForBinding(labelName, CycleBinding(items), device)
        == Success(ButtonLedBytes(button, items[0].color.GetOr("OFF"), key.channel, key.note))
  {
  }

  /** A range binding lights its button with its first mode's colour; with
      no modes, reading that colour throws. */
  lemma RangeLightsFirstMode(labelName: string, dial: string, modes: seq<DialRange>, device: Device)
    requires ButtonByLabel(device.buttons, labelName).Some?
    ensures var (key, button) := ButtonByLabel(device.buttons, labelName).value;
      var r := LedForBinding(labelName, RangeBinding(dial, modes), device);
      if |modes| > 0 then r == Success(ButtonLedBytes(button, modes[0].color, key.channel, key.note))
      else r.Failure?
  {
  }

  /** Passthrough bindings, and bindings of a kind the LED code does not
      know, light nothing. */
  lemma OtherBindingsUnlit(labelName: string, binding: Binding, device: Device)
    requires binding.PassthroughBinding? || binding.OtherBinding?
    ensures LedForBinding(labelName, binding, device) == Success(None)
  {
  }

  /** Each binding's contribution in binding order, absent where the
      binding contributes nothing or throws. */
  function Contributions(bindings: Bindings, device: Device): (r: seq<Option<ByteTriplet>>)
    ensures |r| == |bindings|
    ensures forall i | 0 <= i < |bindings| ::
      r[i] == if LedForBinding(bindings[i].0, bindings[i].1, device).Success?
              then LedForBinding(bindings[i].0, bindings[i].1, device).value else None
  {
    seq(|bindings|, i requires 0 <= i < |bindings| =>
      var c := LedForBinding(bindings[i].0, bindings[i].1, device);
      if c.Success? then c.value else None)
  }

  /** `defaultLEDStates`: the triplets of the bindings that contribute one,
      in binding order; the first binding that throws aborts the whole. */
  function DefaultLedStates(bindings: Bindings, device: Device): (r: Result<seq<ByteTriplet>, string>)
    ensures r.Failure? <==> exists i | 0 <= i < |bindings| :: LedForBinding(bindings[i].0, bindings[i].1, device).Failure?
    ensures r.Success? ==> r.value == Defined(Contributions(bindings, device))
    ensures r.Success? ==> |r.value| <= |bindings|
    ensures r.Success? ==> forall t | t in r.value ::
      exists i | 0 <= i < |bindings| :: LedForBinding(bindings[i].0, bindings[i].1, device) == Success(Some(t))
    ensures r.Success? ==> forall i | 0 <= i < |bindings| && LedForBinding(bindings[i].0, bindings[i].1, device).value.Some? ::
      LedForBinding(bindings[i].0, bindings[i].1, device).value.value in r.value
  {
    if |bindings| == 0 then Success([])
    else
      var head := LedForBinding(bindings[0].0, bindings[0].1, device);
      var tail := bindings[1..];
      var rest := DefaultLedStates(tail, device);
      assert forall j | 0 <= j < |tail| :: tail[j] == bindings[j + 1];
      assert forall i | 1 <= i < |bindings| :: bindings[i] == tail[i - 1];
      FailureCons(bindings, device);
      if head.Failure? then Failure(head.error)
      else if rest.Failure? then Failure(rest.error)
      else
        ContributionsCons(bindings, device);
        ContributionsMembers(bindings, device);
        if head.value.None? then rest
        else Success([head.value.value] + rest.value)
  }

  /** Some binding of a non-empty list throws iff the first does or one of
      the rest does. */
  lemma FailureCons(bindings: Bindings, device: Device)
    requires |bindings| > 0
    ensures (exists i | 0 <= i < |bindings| :: LedForBinding(bindings[i].0, bindings[i].1, device).Failure?)
      <==> LedForBinding(bindings[0].0, bindings[0].1, device).Failure?
           || exists i | 0 <= i < |bindings[1..]| :: LedForBinding(bindings[1..][i].0, bindings[1..][i].1, device).Failure?
  {
    var p := (b: (string, Binding)) => LedForBinding(b.0, b.1, device).Failure?;
    HeadTail(bindings);
    Seqs.ExistsAppend([bindings[0]], bindings[1..], p);
    assert [bindings[0]][0] == bindings[0];
  }

  /** The present contributions are exactly the triplets the bindings
      produce. */
  lemma ContributionsMembers(bindings: Bindings, device: Device)
    ensures forall t | t in Defined(Contributions(bindings, device)) ::
      exists i | 0 <= i < |bindings| :: LedForBinding(bindings[i].0, bindings[i].1, device) == Success(Some(t))
    ensures forall i | 0 <= i < |bindings| && LedForBinding(bindings[i].0, bindings[i].1, device).Success?
                       && LedForBinding(bindings[i].0, bindings[i].1, device).value.Some? ::
      LedForBinding(bindings[i].0, bindings[i].1, device).value.value in Defined(Contributions(bindings, device))
  {
    var c := Contributions(bindings, device);
    forall t | t in Defined(c)
      ensures exists i | 0 <= i < |bindings| :: LedForBinding(bindings[i].0, bindings[i].1, device) == Success(Some(t))
    {
      var i :| 0 <= i < |c| && c[i] == Some(t);
      assert LedForBinding(bindings[i].0, bindings[i].1, device) == Success(Some(t));
    }
  }

  /** The contributions of a non-empty list are the first binding's followed
      by the rest's, so the present ones are the first's, if any, followed by
      the rest's. */
  lemma ContributionsCons(bindings: Bindings, device: Device)
    requires |bindings| > 0
    ensures var c := Contributions(bindings, device);
      c == [c[0]] + Contributions(bindings[1..], device)
      && Defined(c) == Defined([c[0]]) + Defined(Contributions(bindings[1..], device))
  {
    var c := Contributions(bindings, device);
    var rest := Contributions(bindings[1..], device);
    assert c[1..] == rest by {
      forall i | 0 <= i < |rest| ensures c[1..][i] == rest[i] {
        assert bindings[1..][i] == bindings[i + 1];
      }
    }
    HeadTail(c);
    DefinedAppend([c[0]], rest);
  }

  /** A binding whose label names no device button contributes nothing. */
  lemma DefaultLedStatesSkipsUnknownLabels(bindings: Bindings, labelName: string, binding: Binding, device: Device)
    requires ButtonByLabel(device.buttons, labelName).None?
    ensures DefaultLedStates([(labelName, binding)] + bindings, device) == DefaultLedStates(bindings, device)
  {
    assert ([(labelName, binding)] + bindings)[1..] == bindings;
  }

  // ---------------------------------------------------------------------
  // `connectMidiDevices`: finding two clients in an `aconnect --list` listing.

  /** The line terminators of section 22.2.2.7 of ECMA-262: the characters
      a regular expression's `.` does not match. */
  predicate IsLineTerminator(c: char) {
    c == '\n' || c == '\r' || c == '\U{2028}' || c == '\U{2029}'
  }

  /** Every character of `s` can be matched by `.`. */
  predicate WithinLine(s: string) {
    forall i | 0 <= i < |s| :: !IsLineTerminator(s[i])
  }

  /** A match of `/client (\d+): '(.*?)'/` starting at `k`: the client number
      and the name up to the next quote, which `.` must be able to cross. */
  function ClientMatchAt(line: string, k: nat): (r: Option<(string, string)>)
    requires k <= |line|
    ensures r.Some? ==> |r.value.0| > 0 && forall i | 0 <= i < |r.value.0| :: IsDigit(r.value.0[i])
    ensures r.Some? ==> '\'' !in r.value.1 && WithinLine(r.value.1)
  {
    if !StartsWith(line[k..], "client ") then None
    else
      var n := DigitRun(line, k + 7);
      var j := k + 7 + n;
      if n == 0 || !StartsWith(line[j..], ": '") then None
      else
        var q := IndexOf(line[j + 3..], "'");
        if q == -1 || !WithinLine(line[j + 3..j + 3 + q]) then None
        else
          var name := line[j + 3..j + 3 + q];
          assert '\'' !in name by {
            forall i | 0 <= i < |name| ensures name[i] != '\'' {
              assert !OccursAt(line[j + 3..], "'", i);
              assert line[j + 3..][i..i + 1] == [name[i]];
            }
          }
          Some((line[k + 7..j], name))
  }

  /** The leftmost match of `/client (\d+): '(.*?)'/` at or after `k`. */
  function ClientMatchFrom(line: string, k: nat): (r: Option<(string, string)>)
    requires k <= |line|
    ensures r.Some? ==> exists j | k <= j <= |line| :: ClientMatchAt(line, j) == r
    ensures r.None? ==> forall j | k <= j <= |line| :: ClientMatchAt(line, j).None?
    decreases |line| - k
  {
    var m := ClientMatchAt(line, k);
    if m.Some? || k == |line| then m else ClientMatchFrom(line, k + 1)
  }

  /** `line.match(portRe)`: client number and name, if the line has one. */
  function ParseClientLine(line: string): Option<(string, string)> {
    ClientMatchFrom(line, 0)
  }

  /** A listing line as `aconnect --list` prints a client parses back to its
      number and name, when the name has no quote and no line terminator. */
  lemma ParseClientLineRoundTrip(client: nat, name: string, tail: string)
    requires '\'' !in name && WithinLine(name)
    ensures ParseClientLine("client " + NatToDecimal(client) + ": '" + name + "'" + tail)
      == Some((NatToDecimal(client), name))
  {
    var line := "client " + NatToDecimal(client) + ": '" + name + "'" + tail;
    ClientMatchAtStart(NatToDecimal(client), name, tail);
    assert ClientMatchFrom(line, 0) == ClientMatchAt(line, 0);
  }

  /** At the start of a client line the pattern matches exactly when the
      quoted name holds no line terminator. */
  lemma ClientMatchAtStart(digits: string, name: string, tail: string)
    requires |digits| > 0 && forall i | 0 <= i < |digits| :: IsDigit(digits[i])
    requires '\'' !in name
    ensures ClientMatchAt("client " + digits + ": '" + name + "'" + tail, 0)
      == if WithinLine(name) then Some((digits, name)) else None
  {
    var line := "client " + digits + ": '" + name + "'" + tail;
    ClientLineHead(digits, name, tail);
    ClientLineName(digits, name, tail);
    DigitRunIs(line, 7, digits, ": '" + (name + "'" + tail));
    FirstQuote(name, tail);
    ClientMatchAtParts(line, digits, name);
  }

  /** The client line's prefix, digits and separator sit where the pattern
      looks for them. */
  lemma ClientLineHead(digits: string, name: string, tail: string)
    ensures var line := "client " + digits + ": '" + name + "'" + tail;
      var j := 7 + |digits|;
      StartsWith(line, "client ") && line[7..] == digits + (": '" + (name + "'" + tail))
      && line[j..] == ": '" + (name + "'" + tail) && StartsWith(line[j..], ": '")
      && line[7..j] == digits
  {
    var line := "client " + digits + ": '" + name + "'" + tail;
    var afterDigits := ": '" + (name + "'" + tail);
    Cut("client ", digits + afterDigits);
    assert line == "client " + (digits + afterDigits);
    Cut("client " + digits, afterDigits);
    assert line == ("client " + digits) + afterDigits;
    Cut(": '", name + "'" + tail);
    Cut(digits, afterDigits);
    assert line[7..7 + |digits|] == line[7..][..|digits|];
  }

  /** After the separator come the name and its closing quote. */
  lemma ClientLineName(digits: string, name: string, tail: string)
    ensures var line := "client " + digits + ": '" + name + "'" + tail;
      var j := 7 + |digits|;
      j + 3 + |name| <= |line| && line[j + 3..] == name + "'" + tail
      && line[j + 3..j + 3 + |name|] == name
  {
    var line := "client " + digits + ": '" + name + "'" + tail;
    var j := 7 + |digits|;
    Cut("client " + digits + ": '", name + "'" + tail);
    assert line == ("client " + digits + ": '") + (name + "'" + tail);
    Cut(name, "'" + tail);
    assert name + "'" + tail == name + ("'" + tail);
    assert line[j + 3..j + 3 + |name|] == line[j + 3..][..|name|];
  }

  /** Splitting a concatenation at the joint gives back its two parts. */
  lemma Cut(p: string, q: string)
    ensures |p + q| == |p| + |q| && (p + q)[..|p|] == p && (p + q)[|p|..] == q
  {
  }

  /** A line laid out as `client <digits>: '<name>'…` matches at its
      start. */
  lemma ClientMatchAtParts(line: string, digits: string, name: string)
    requires |line| >= 7 + |digits| + 3 + |name| + 1
    requires StartsWith(line, "client ") && |digits| > 0
    requires DigitRun(line, 7) == |digits| && line[7..7 + |digits|] == digits
    requires StartsWith(line[7 + |digits|..], ": '")
    requires IndexOf(line[7 + |digits| + 3..], "'") == |name|
    requires line[7 + |digits| + 3..7 + |digits| + 3 + |name|] == name
    ensures ClientMatchAt(line, 0) == if WithinLine(name) then Some((digits, name)) else None
  {
    assert line[0..] == line;
  }

  lemma FirstQuote(name: string, tail: string)
    requires '\'' !in name
    ensures IndexOf(name + "'" + tail, "'") == |name|
  {
    var rest := name + "'" + tail;
    assert rest[|name|..|name| + 1] == "'";
    assert OccursAt(rest, "'", |name|);
    forall i | 0 <= i < |name| ensures !OccursAt(rest, "'", i) {
      assert rest[i..i + 1] == [name[i]];
    }
  }

  /** The listing line names the client `device`. */
  predicate NamesClient(line: string, device: string) {
    var m := ParseClientLine(line);
    m.Some? && m.value.1 == device
  }

  /** The client number of the first listing line naming `device`. */
  function ClientOf(lines: seq<string>, device: string): (r: Option<string>)
    ensures r.Some? <==> exists i | 0 <= i < |lines| :: NamesClient(lines[i], device)
    ensures r.Some? ==> exists i | 0 <= i < |lines| ::
      NamesClient(lines[i], device) && r.value == ParseClientLine(lines[i]).value.0
      && forall j | 0 <= j < i :: !NamesClient(lines[j], device)
  {
    if |lines| == 0 then None
    else if NamesClient(lines[0], device) then Some(ParseClientLine(lines[0]).value.0)
    else
      var r := ClientOf(lines[1..], device);
      assert forall i | 1 <= i < |lines| :: lines[i] == lines[1..][i - 1];
      FirstNamingShift(lines, device, r);
      r
  }

  /** The first line of the rest naming the device is the first of the
      whole, one position on, when the head does not name it. */
  lemma FirstNamingShift(lines: seq<string>, device: string, r: Option<string>)
    requires |lines| > 0 && !NamesClient(lines[0], device)
    requires r.Some? ==> exists i | 0 <= i < |lines[1..]| ::
      NamesClient(lines[1..][i], device) && r.value == ParseClientLine(lines[1..][i]).value.0
      && forall j | 0 <= j < i :: !NamesClient(lines[1..][j], device)
    ensures r.Some? ==> exists i | 0 <= i < |lines| ::
      NamesClient(lines[i], device) && r.value == ParseClientLine(lines[i]).value.0
      && forall j | 0 <= j < i :: !NamesClient(lines[j], device)
  {
    if r.Some? {
      var k :| 0 <= k < |lines[1..]| && NamesClient(lines[1..][k], device) && r.value == ParseClientLine(lines[1..][k]).value.0
               && forall j | 0 <= j < k :: !NamesClient(lines[1..][j], device);
      FirstInTail(lines, l => NamesClient(l, device), k);
      assert NamesClient(lines[k + 1], device) && r.value == ParseClientLine(lines[k + 1]).value.0;
    }
  }

  /** The `aconnect` command that connects `d1` to `d2`, if both are listed;
      otherwise nothing is run. */
  function ConnectCommand(listing: string, d1: string, d2: string): (r: Option<string>)
    ensures r.Some? <==> ClientOf(SplitLines(listing), d1).Some? && ClientOf(SplitLines(listing), d2).Some?
    ensures r.Some? ==> r.value == "aconnect " + ClientOf(SplitLines(listing), d1).value + " " + ClientOf(SplitLines(listing), d2).value
  {
    var lines := SplitLines(listing);
    var c1 := ClientOf(lines, d1);
    var c2 := ClientOf(lines, d2);
    if c1.Some? && c2.Some? then Some("aconnect " + c1.value + " " + c2.value) else None
  }

  /** A failed `aconnect` is ignored only when it reports that the two
      clients are already connected. */
  function ConnectFailureRethrown(stderr: string): (rethrow: bool)
    ensures !rethrow <==> Trim(stderr) == "Connection is already subscribed"
  {
    Trim(stderr) != "Connection is already subscribed"
  }

  /** The message `aconnect` prints, with its line feed, is ignored. */
  lemma AlreadySubscribedIgnored()
    ensures !ConnectFailureRethrown("Connection is already subscribed\n")
  {
    var s := "Connection is already subscribed\n";
    assert !IsSpace(s[0]);
    assert LeadingSpaces(s) == 0;
    assert IsSpace(s[|s| - 1]);
    assert TrailingSpaces(s[..|s| - 1]) == 0;
    assert TrailingSpaces(s) == 1;
    assert s[0..|s| - 1] == "Connection is already subscribed";
  }
}

=== FILE: legacy_config.dfy ===
/** The binding shapes of `src/config.ts`, the configuration format that
    `src/util.ts` and `src/commands/watch_midi.ts` read: bindings keyed by
    button or dial label. Only the fields those readers use are kept. */
module LegacyConfig {
  import opened Wrappers

  /** A dial range `[low, high]`. */
  datatype Range = Range(low: int, high: int)

  datatype DialRange = DialRange(range: Range, color: string)

  datatype CycleItem = CycleItem(color: Option<string>)

  datatype Binding =
    | CommandBinding(command: string)
    | PassthroughBinding(outChannel: int, outController: int)
    | RangeBinding(dial: string, modes: seq<DialRange>)
    | CycleBinding(items: seq<CycleItem>)
    | ToggleMuteBinding(dial: string)
      /** `midi`, `momentary`, `cancel` and the `pipewire::*` bindings, whose
          fields these readers do not look at. */
    | OtherBinding(kind: string)

  /** `Object.entries(bindings)`: label and binding, in insertion order. */
  type Bindings = seq<(string, Binding)>
}

=== FILE: midi_codec.dfy ===
/** The MIDI wire codec of `src/midi/index.ts`: the status-nibble tables, the
    per-line decoder of `amidi --dump` output with its one carried status
    byte, and the hexadecimal encoder of byte triplets for `amidi --send-hex`. */
module MidiCodec {
  import opened Wrappers
  import opened JsNum
  import opened JsString
  import Seqs

  /** The seven channel-voice message kinds. */
  datatype EventType =
    | NoteOn
    | NoteOff
    | PolyphonicAftertouch
    | ControlChange
    | ProgramChange
    | ChannelPressureAftertouch
    | PitchBend

  /** The high nibble of a status byte for each kind. */
  function EventTypeCode(t: EventType): (r: int)
    ensures 0x8 <= r <= 0xE
  {
    match t
    case NoteOff => 0x8
    case NoteOn => 0x9
    case PolyphonicAftertouch => 0xA
    case ControlChange => 0xB
    case ProgramChange => 0xC
    case ChannelPressureAftertouch => 0xD
    case PitchBend => 0xE
  }

  /** The kind a status nibble denotes, if any. */
  function EventTypeOfCode(n: int): (r: Option<EventType>)
    ensures r.Some? <==> 0x8 <= n <= 0xE
    ensures r.Some? ==> EventTypeCode(r.value) == n
  {
    if n == 0x8 then Some(NoteOff)
    else if n == 0x9 then Some(NoteOn)
    else if n == 0xA then Some(PolyphonicAftertouch)
    else if n == 0xB then Some(ControlChange)
    else if n == 0xC then Some(ProgramChange)
    else if n == 0xD then Some(ChannelPressureAftertouch)
    else if n == 0xE then Some(PitchBend)
    else None
  }

  /** Decoding a kind's nibble gives back the kind, so the table is a bijection
      between the seven kinds and the nibbles 0x8..0xE. */
  lemma EventTypeRoundTrip(t: EventType)
    ensures EventTypeOfCode(EventTypeCode(t)) == Some(t)
  {
  }

  /** A decoded message. The channel is a nibble; the data fields are
      whatever `parseInt` produced, NaN included. */
  datatype MidiEvent =
    | NoteOnEvent(channel: int, note: Num, velocity: Num)
    | NoteOffEvent(channel: int, note: Num, velocity: Num)
    | PolyphonicAftertouchEvent(channel: int, note: Num, pressure: Num)
    | ControlChangeEvent(channel: int, controller: Num, value: Num)
    | ProgramChangeEvent(channel: int, program: Num)
    | ChannelPressureAftertouchEvent(channel: int, pressure: Num)
    | PitchBendEvent(channel: int, lsb: Num, msb: Num)
  {
    function Type(): EventType {
      match this
      case NoteOnEvent(_, _, _) => NoteOn
      case NoteOffEvent(_, _, _) => NoteOff
      case PolyphonicAftertouchEvent(_, _, _) => PolyphonicAftertouch
      case ControlChangeEvent(_, _, _) => ControlChange
      case ProgramChangeEvent(_, _) => ProgramChange
      case ChannelPressureAftertouchEvent(_, _) => ChannelPressureAftertouch
      case PitchBendEvent(_, _, _) => PitchBend
    }

    /** The first data byte. */
    function Data1(): Num {
      match this
      case NoteOnEvent(_, n, _) => n
      case NoteOffEvent(_, n, _) => n
      case PolyphonicAftertouchEvent(_, n, _) => n
      case ControlChangeEvent(_, c, _) => c
      case ProgramChangeEvent(_, p) => p
      case ChannelPressureAftertouchEvent(_, p) => p
      case PitchBendEvent(_, l, _) => l
    }

    /** The second data byte, for the kinds that carry one. */
    function Data2(): Option<Num> {
      match this
      case NoteOnEvent(_, _, v) => Some(v)
      case NoteOffEvent(_, _, v) => Some(v)
      case PolyphonicAftertouchEvent(_, _, p) => Some(p)
      case ControlChangeEvent(_, _, v) => Some(v)
      case ProgramChangeEvent(_, _) => None
      case ChannelPressureAftertouchEvent(_, _) => None
      case PitchBendEvent(_, _, m) => Some(m)
    }
  }

  /** The two-byte kinds: program change and channel pressure. */
  predicate HasOneDataByte(t: EventType) {
    t == ProgramChange || t == ChannelPressureAftertouch
  }

  /** The event the decoder builds from a kind, a channel and two data bytes. */
  function MakeEvent(t: EventType, channel: int, b2: Num, b3: Num): (e: MidiEvent)
    ensures e.Type() == t && e.channel == channel && e.Data1() == b2
    ensures e.Data2() == if HasOneDataByte(t) then None else Some(b3)
  {
    match t
    case NoteOn => NoteOnEvent(channel, b2, b3)
    case NoteOff => NoteOffEvent(channel, b2, b3)
    case PolyphonicAftertouch => PolyphonicAftertouchEvent(channel, b2, b3)
    case ControlChange => ControlChangeEvent(channel, b2, b3)
    case ProgramChange => ProgramChangeEvent(channel, b2)
    case ChannelPressureAftertouch => ChannelPressureAftertouchEvent(channel, b2)
    case PitchBend => PitchBendEvent(channel, b2, b3)
  }

  /** An event is determined by its kind, channel and data bytes. */
  lemma MakeEventComplete(e: MidiEvent)
    ensures e == MakeEvent(e.Type(), e.channel, e.Data1(), e.Data2().GetOr(Int(0)))
  {
  }

  // ---------------------------------------------------------------------
  // Decoding one line of the dump.

  /** The outcome of decoding one line: the event, if any, and the status
      byte remembered for the next line (`prevB1`). */
  datatype Decoded = Decoded(event: Option<MidiEvent>, prevStatus: Num)

  /** The status byte `amidi` is assumed to have sent before any line. */
  const INITIAL_STATUS: Num := Int(0)

  /** The kind a (possibly NaN) status byte denotes: `midiNumberToEvent(b1 >> 4)`. */
  function StatusType(b1: Num): Option<EventType> {
    EventTypeOfCode(ShiftRight4(b1))
  }

  /** Decode one trimmed line. Lines of a length other than 4 or 6 are
      dropped. A 4-character line whose first byte is no status byte is a
      message whose repeated status byte the driver omitted: its two bytes
      are the data bytes, and the previous status byte applies. */
  function DecodeLine(prevStatus: Num, line: string): (d: Decoded)
    ensures |line| != 4 && |line| != 6 ==> d == Decoded(None, prevStatus)
    ensures d.event.None? ==> d.prevStatus == prevStatus
    ensures d.event.Some? ==>
      StatusType(d.prevStatus) == Some(d.event.value.Type())
      && d.event.value.channel == LowNibble(d.prevStatus)
    ensures d.event.Some? && |line| == 6 ==> d.prevStatus == ParseIntHex(line[0..2])
    ensures d.event.Some? && |line| == 4 ==>
      if StatusType(ParseIntHex(line[0..2])).Some? then
        d.prevStatus == ParseIntHex(line[0..2]) && d.event.value.Data2().GetOr(Int(0)) == Int(0)
      else
        d.prevStatus == prevStatus && d.event.value.Data1() == ParseIntHex(line[0..2])
  {
    if |line| != 6 && |line| != 4 then Decoded(None, prevStatus)
    else
      var p1 := ParseIntHex(line[0..2]);
      var p2 := ParseIntHex(line[2..4]);
      var p3 := if |line| > 4 then ParseIntHex(line[4..6]) else Int(0);
      var omitted := StatusType(p1).None? && |line| == 4;
      var b1 := if omitted then prevStatus else p1;
      var b2 := if omitted then p1 else p2;
      var b3 := if omitted then p2 else p3;
      match StatusType(b1)
      case None => Decoded(None, prevStatus)
      case Some(t) => Decoded(Some(MakeEvent(t, LowNibble(b1), b2, b3)), b1)
  }

  /** Before any message has decoded, a line relying on the omitted status
      byte yields nothing: status 0 denotes no kind. */
  lemma OmittedStatusNeedsHistory(line: string)
    requires |line| == 4 && StatusType(ParseIntHex(line[0..2])).None?
    ensures DecodeLine(INITIAL_STATUS, line) == Decoded(None, INITIAL_STATUS)
  {
    SmallIsInt32(0);
  }

  /** The lines of one chunk of dump output: split on line breaks, trimmed,
      blank lines dropped. */
  function DumpLines(chunk: string): (r: seq<string>)
    ensures forall i | 0 <= i < |r| :: r[i] != [] && !IsSpace(r[i][0]) && !IsSpace(r[i][|r[i]| - 1])
  {
    NonBlank(TrimAll(SplitLines(chunk)))
  }

  /** What one line contributes to the dump lines: itself trimmed, unless it
      is blank. */
  function TrimmedLine(line: string): seq<string> {
    if Trim(line) == [] then [] else [Trim(line)]
  }

  /** A chunk of one line gives that line, trimmed, or nothing when it is
      blank. */
  lemma DumpLinesOne(line: string)
    requires NoLineFeed(line)
    ensures DumpLines(line) == TrimmedLine(line)
  {
    SplitLinesOne(line);
    assert TrimAll([line]) == [Trim(line)];
    TrimmedOne(line);
    NonBlankOne(Trim(line));
  }

  /** The first line of a chunk comes first in the dump lines, trimmed and
      kept unless blank, followed by the lines of the rest in order; with
      `DumpLinesOne` this fixes every line of the chunk, in order. */
  lemma DumpLinesFirst(line: string, rest: string)
    requires NoLineFeed(line)
    ensures DumpLines(line + "\n" + rest) == TrimmedLine(line) + DumpLines(rest)
  {
    var ls := SplitLines(rest);
    var tail := TrimAll(ls);
    SplitLinesFirst(line, rest);
    assert DumpLines(line + "\n" + rest) == NonBlank(TrimAll([DropCr(line)] + ls));
    TrimDropCr(line);
    TrimAllCons(DropCr(line), ls);
    TrimmedOne(line);
    NonBlankAppend([Trim(line)], tail);
    NonBlankOne(Trim(line));
  }

  /** Trimmed lines are empty or start and end with other than white space. */
  predicate TrimmedEdges(ls: seq<string>) {
    forall i | 0 <= i < |ls| :: ls[i] == [] || (!IsSpace(ls[i][0]) && !IsSpace(ls[i][|ls[i]| - 1]))
  }

  lemma TrimmedOne(line: string)
    ensures TrimmedEdges([Trim(line)])
  {
    var t := Trim(line);
    assert t == [] || (!IsSpace(t[0]) && !IsSpace(t[|t| - 1]));
  }

  lemma TrimAllCons(x: string, ls: seq<string>)
    ensures TrimAll([x] + ls) == [Trim(x)] + TrimAll(ls)
  {
    assert ([x] + ls)[1..] == ls;
  }

  function TrimAll(ls: seq<string>): (r: seq<string>)
    ensures |r| == |ls|
    ensures forall i | 0 <= i < |r| :: r[i] == Trim(ls[i])
    ensures TrimmedEdges(r)
  {
    if |ls| == 0 then []
    else
      var rest := TrimAll(ls[1..]);
      var r := [Trim(ls[0])] + rest;
      TrimmedOne(ls[0]);
      assert forall i | 1 <= i < |r| :: r[i] == rest[i - 1];
      r
  }

  /** The lines that are not empty. */
  function NonBlank(ls: seq<string>): (r: seq<string>)
    requires TrimmedEdges(ls)
    ensures |r| <= |ls|
    ensures TrimmedEdges(r)
    ensures forall i | 0 <= i < |r| :: r[i] != [] && r[i] in ls
    ensures forall i | 0 <= i < |ls| && ls[i] != [] :: ls[i] in r
  {
    if |ls| == 0 then []
    else
      Seqs.InTail(ls);
      var rest := NonBlank(ls[1..]);
      if ls[0] == [] then rest
      else
        Seqs.PrependShift(ls[0], rest);
        [ls[0]] + rest
  }

  /** A single line is kept exactly when it is not empty. */
  lemma NonBlankOne(line: string)
    requires TrimmedEdges([line])
    ensures NonBlank([line]) == if line == [] then [] else [line]
  {
    assert [line][1..] == [];
  }

  /** Dropping empty lines keeps the order: the kept lines of `a + b` are
      those of `a` followed by those of `b`. */
  lemma {:induction false} NonBlankAppend(a: seq<string>, b: seq<string>)
    requires TrimmedEdges(a) && TrimmedEdges(b)
    ensures NonBlank(a + b) == NonBlank(a) + NonBlank(b)
    decreases |a|
  {
    if |a| == 0 {
      assert a + b == b;
    } else {
      TrimmedTail(a, b);
      NonBlankAppend(a[1..], b);
      NonBlankCons(a, b);
      Seqs.Assoc(if a[0] == [] then [] else [a[0]], NonBlank(a[1..]), NonBlank(b));
    }
  }

  lemma {:induction false} TrimmedTail(a: seq<string>, b: seq<string>)
    requires |a| > 0 && TrimmedEdges(a) && TrimmedEdges(b)
    ensures TrimmedEdges(a[1..]) && TrimmedEdges(a + b)
  {
    Seqs.InTail(a);
    Seqs.FrontIndex(a, b);
    assert forall k | 0 <= k < |b| :: (a + b)[|a| + k] == b[k];
  }

  /** The first line of `a + b` is kept or dropped as the first of `a` is. */
  lemma {:induction false} NonBlankCons(a: seq<string>, b: seq<string>)
    requires |a| > 0 && TrimmedEdges(a) && TrimmedEdges(b)
    ensures TrimmedEdges(a[1..]) && TrimmedEdges(a[1..] + b) && TrimmedEdges(a + b)
    ensures NonBlank(a) == (if a[0] == [] then [] else [a[0]]) + NonBlank(a[1..])
    ensures NonBlank(a + b) == (if a[0] == [] then [] else [a[0]]) + NonBlank(a[1..] + b)
  {
    TrimmedTail(a, b);
    NonBlankHead(a);
    NonBlankHead(a + b);
    Seqs.ConsAppend(a, b);
  }

  lemma {:induction false} NonBlankHead(s: seq<string>)
    requires |s| > 0 && TrimmedEdges(s)
    ensures TrimmedEdges(s[1..])
    ensures NonBlank(s) == (if s[0] == [] then [] else [s[0]]) + NonBlank(s[1..])
  {
    TrimmedTail(s, []);
  }

  /** The result of decoding a run of lines: the events in order and the
      status byte carried to the next run. */
  datatype DecodedRun = DecodedRun(events: seq<MidiEvent>, prevStatus: Num)

  /** Decode lines in order, threading the remembered status byte. */
  function DecodeLines(prevStatus: Num, lines: seq<string>): (r: DecodedRun)
    ensures |r.events| <= |lines|
    ensures r.events == [] ==> r.prevStatus == prevStatus
    ensures r.events != [] ==>
      var last := r.events[|r.events| - 1];
      StatusType(r.prevStatus) == Some(last.Type()) && last.channel == LowNibble(r.prevStatus)
    decreases |lines|
  {
    if |lines| == 0 then DecodedRun([], prevStatus)
    else
      var d := DecodeLine(prevStatus, lines[0]);
      var rest := DecodeLines(d.prevStatus, lines[1..]);
      match d.event
      case None => rest
      case Some(e) => DecodedRun([e] + rest.events, rest.prevStatus)
  }

  /** The events of one chunk of `amidi --dump` output. */
  function DecodeChunk(prevStatus: Num, chunk: string): DecodedRun {
    DecodeLines(prevStatus, DumpLines(chunk))
  }

  /** Decoding is a fold: two runs of lines decode as their concatenation. */
  lemma {:induction false} DecodeLinesAppend(prevStatus: Num, xs: seq<string>, ys: seq<string>)
    ensures var a := DecodeLines(prevStatus, xs);
      var b := DecodeLines(a.prevStatus, ys);
      DecodeLines(prevStatus, xs + ys) == DecodedRun(a.events + b.events, b.prevStatus)
    decreases |xs|
  {
    if |xs| == 0 {
      assert xs + ys == ys;
    } else {
      var d := DecodeLine(prevStatus, xs[0]);
      DecodeLinesHead(prevStatus, xs, ys);
      DecodeLinesAppend(d.prevStatus, xs[1..], ys);
      var a' := DecodeLines(d.prevStatus, xs[1..]);
      var b := DecodeLines(a'.prevStatus, ys);
      if d.event.Some? {
        Seqs.Assoc([d.event.value], a'.events, b.events);
      }
    }
  }

  /** The first line of `xs + ys` is decoded first. */
  lemma DecodeLinesHead(prevStatus: Num, xs: seq<string>, ys: seq<string>)
    requires |xs| > 0
    ensures var d := DecodeLine(prevStatus, xs[0]);
      var rest := DecodeLines(d.prevStatus, xs[1..] + ys);
      DecodeLines(prevStatus, xs + ys)
      == if d.event.Some? then DecodedRun([d.event.value] + rest.events, rest.prevStatus) else rest
  {
    assert (xs + ys)[0] == xs[0];
    assert (xs + ys)[1..] == xs[1..] + ys;
  }

  // ---------------------------------------------------------------------
  // Encoding triplets for `amidi --send-hex`.

  datatype ByteTriplet = ByteTriplet(b1: int, b2: int, b3: int)

  predicate IsByte(n: int) {
    0 <= n < 256
  }

  predicate IsByteTriplet(t: ByteTriplet) {
    IsByte(t.b1) && IsByte(t.b2) && IsByte(t.b3)
  }

  /** `${b1Str}${b2Str}${b3Str}`. */
  function TripletHex(t: ByteTriplet): (r: string)
    ensures IsByteTriplet(t) ==> |r| == 6 && forall i | 0 <= i < 6 :: IsLowerHex(r[i])
  {
    var r := ByteHex(t.b1) + ByteHex(t.b2) + ByteHex(t.b3);
    if IsByteTriplet(t) then TripletHexLower(t); r else r
  }

  lemma TripletHexLower(t: ByteTriplet)
    requires IsByteTriplet(t)
    ensures var r := ByteHex(t.b1) + ByteHex(t.b2) + ByteHex(t.b3);
      |r| == 6 && forall i | 0 <= i < 6 :: IsLowerHex(r[i])
  {
    var h1, h2, h3 := ByteHex(t.b1), ByteHex(t.b2), ByteHex(t.b3);
    ByteHexLower(t.b1);
    ByteHexLower(t.b2);
    ByteHexLower(t.b3);
    PairsLower(h1, h2, h3);
  }

  lemma PairsLower(h1: string, h2: string, h3: string)
    requires |h1| == 2 && IsLowerHex(h1[0]) && IsLowerHex(h1[1])
    requires |h2| == 2 && IsLowerHex(h2[0]) && IsLowerHex(h2[1])
    requires |h3| == 2 && IsLowerHex(h3[0]) && IsLowerHex(h3[1])
    ensures |h1 + h2 + h3| == 6 && forall i | 0 <= i < 6 :: IsLowerHex((h1 + h2 + h3)[i])
  {
    assert h1 + h2 + h3 == [h1[0], h1[1], h2[0], h2[1], h3[0], h3[1]];
  }

  lemma ByteHexLower(n: int)
    requires IsByte(n)
    ensures |ByteHex(n)| == 2 && IsLowerHex(ByteHex(n)[0]) && IsLowerHex(ByteHex(n)[1])
  {
    ByteHexShape(n);
  }

  /** The triplets that are present, in order. */
  function Defined(items: seq<Option<ByteTriplet>>): (r: seq<ByteTriplet>)
    ensures |r| <= |items|
    ensures forall t | t in r :: Some(t) in items
    ensures forall i | 0 <= i < |items| && items[i].Some? :: items[i].value in r
    ensures |items| == 1 ==> r == if items[0].Some? then [items[0].value] else []
  {
    if |items| == 0 then []
    else
      var rest := Defined(items[1..]);
      assert forall i | 1 <= i < |items| :: items[i] == items[1..][i - 1];
      if items[0].None? then rest else [items[0].value] + rest
  }

  /** The present triplets of `a + b` are those of `a`, in order, followed
      by those of `b`: with the one-item cases this fixes every triplet's
      position and count. */
  lemma {:induction false} DefinedAppend(a: seq<Option<ByteTriplet>>, b: seq<Option<ByteTriplet>>)
    ensures Defined(a + b) == Defined(a) + Defined(b)
    decreases |a|
  {
    if |a| == 0 {
      assert a + b == b;
    } else {
      assert (a + b)[0] == a[0];
      assert (a + b)[1..] == a[1..] + b;
      DefinedAppend(a[1..], b);
      if a[0].Some? {
        assert [a[0].value] + (Defined(a[1..]) + Defined(b)) == ([a[0].value] + Defined(a[1..])) + Defined(b);
      }
    }
  }

  /** The argument of `amidi --send-hex`: every present triplet in order,
      absent entries skipped. */
  function EncodeTriplets(items: seq<Option<ByteTriplet>>): (r: string)
    ensures (forall t | t in Defined(items) :: IsByteTriplet(t)) ==>
      |r| == 6 * |Defined(items)|
      && (forall i | 0 <= i < |r| :: IsLowerHex(r[i]))
      && forall k | 0 <= k < |Defined(items)| :: r[6 * k..6 * k + 6] == TripletHex(Defined(items)[k])
  {
    HexOfAll(Defined(items))
  }

  /** The triplets' hex strings joined with nothing between them. */
  function HexOfAll(ts: seq<ByteTriplet>): (r: string)
    ensures (forall t | t in ts :: IsByteTriplet(t)) ==>
      |r| == 6 * |ts|
      && (forall i | 0 <= i < |r| :: IsLowerHex(r[i]))
      && forall k | 0 <= k < |ts| :: r[6 * k..6 * k + 6] == TripletHex(ts[k])
  {
    HexBlocks(ts);
    Concat(Hexes(ts))
  }

  function Hexes(ts: seq<ByteTriplet>): (r: seq<string>)
    ensures |r| == |ts| && forall k | 0 <= k < |ts| :: r[k] == TripletHex(ts[k])
  {
    seq(|ts|, k requires 0 <= k < |ts| => TripletHex(ts[k]))
  }

  lemma HexBlocks(ts: seq<ByteTriplet>)
    ensures (forall t | t in ts :: IsByteTriplet(t)) ==>
      var r := Concat(Hexes(ts));
      |r| == 6 * |ts|
      && (forall i | 0 <= i < |r| :: IsLowerHex(r[i]))
      && forall k | 0 <= k < |ts| :: r[6 * k..6 * k + 6] == TripletHex(ts[k])
  {
    if forall t | t in ts :: IsByteTriplet(t) {
      assert forall k | 0 <= k < |ts| :: IsByteTriplet(ts[k]);
      JoinSixes(Hexes(ts));
    }
  }

  /** `parts.join("")`. */
  function Concat(parts: seq<string>): string {
    if |parts| == 0 then "" else parts[0] + Concat(parts[1..])
  }

  predicate IsHexBlock(h: string) {
    |h| == 6 && forall i | 0 <= i < 6 :: IsLowerHex(h[i])
  }

  /** Joined six-character lower-case blocks sit at the multiples of six. */
  lemma {:induction false} JoinSixes(parts: seq<string>)
    requires forall k | 0 <= k < |parts| :: IsHexBlock(parts[k])
    ensures var r := Concat(parts);
      |r| == 6 * |parts|
      && (forall i | 0 <= i < |r| :: IsLowerHex(r[i]))
      && forall k | 0 <= k < |parts| :: r[6 * k..6 * k + 6] == parts[k]
  {
    if |parts| > 0 {
      JoinSixes(parts[1..]);
      assert IsHexBlock(parts[0]);
      SixesStep(parts, Concat(parts[1..]));
    }
  }

  /** A six-character lower-case block in front of a string of such blocks
      is one more block. */
  lemma SixesStep(parts: seq<string>, rest: string)
    requires |parts| > 0 && IsHexBlock(parts[0])
    requires |rest| == 6 * (|parts| - 1) && forall i | 0 <= i < |rest| :: IsLowerHex(rest[i])
    requires forall k | 0 <= k < |parts| - 1 :: rest[6 * k..6 * k + 6] == parts[1..][k]
    ensures var r := parts[0] + rest;
      |r| == 6 * |parts|
      && (forall i | 0 <= i < |r| :: IsLowerHex(r[i]))
      && forall k | 0 <= k < |parts| :: r[6 * k..6 * k + 6] == parts[k]
  {
    var r := parts[0] + rest;
    assert r[0..6] == parts[0];
    forall k | 1 <= k < |parts| ensures r[6 * k..6 * k + 6] == parts[k] {
      assert r[6 * k..6 * k + 6] == rest[6 * (k - 1)..6 * (k - 1) + 6];
      assert parts[1..][k - 1] == parts[k];
    }
  }

  /** Decoding a six-character encoding of a triplet whose first byte is a
      status byte gives the message the triplet encodes, and makes it the
      remembered status. */
  lemma DecodeEncodedTriplet(prevStatus: Num, t: ByteTriplet)
    requires IsByteTriplet(t) && 0x8 <= t.b1 / 16 <= 0xE
    ensures DecodeLine(prevStatus, TripletHex(t))
      == Decoded(Some(MakeEvent(EventTypeOfCode(t.b1 / 16).value, t.b1 % 16, Int(t.b2), Int(t.b3))), Int(t.b1))
  {
    var h1, h2, h3 := ByteHex(t.b1), ByteHex(t.b2), ByteHex(t.b3);
    ByteHexLower(t.b1); ByteHexLower(t.b2); ByteHexLower(t.b3);
    var line := TripletHex(t);
    assert line == h1 + h2 + h3;
    PairSlices(h1, h2, h3);
    ParseByteHex(t.b1);
    ParseByteHex(t.b2);
    ParseByteHex(t.b3);
    DecodeParsedSix(prevStatus, line, t);
  }

  /** Three pairs laid end to end are cut back out at 0, 2 and 4. */
  lemma PairSlices(h1: string, h2: string, h3: string)
    requires |h1| == 2 && |h2| == 2 && |h3| == 2
    ensures |h1 + h2 + h3| == 6
    ensures (h1 + h2 + h3)[0..2] == h1 && (h1 + h2 + h3)[2..4] == h2 && (h1 + h2 + h3)[4..6] == h3
  {
  }

  /** A six-character line whose three bytes parse to a triplet with a
      status byte decodes to that triplet's message. */
  lemma DecodeParsedSix(prevStatus: Num, line: string, t: ByteTriplet)
    requires IsByteTriplet(t) && 0x8 <= t.b1 / 16 <= 0xE && |line| == 6
    requires ParseIntHex(line[0..2]) == Int(t.b1)
    requires ParseIntHex(line[2..4]) == Int(t.b2) && ParseIntHex(line[4..6]) == Int(t.b3)
    ensures DecodeLine(prevStatus, line)
      == Decoded(Some(MakeEvent(EventTypeOfCode(t.b1 / 16).value, t.b1 % 16, Int(t.b2), Int(t.b3))), Int(t.b1))
  {
    DecodeSixFields(prevStatus, line);
    ByteNibbles(t.b1);
  }

  /** A six-character line decodes its three hex pairs as status and data. */
  lemma DecodeSixFields(prevStatus: Num, line: string)
    requires |line| == 6
    ensures var p1 := ParseIntHex(line[0..2]);
      DecodeLine(prevStatus, line)
      == match StatusType(p1)
         case None => Decoded(None, prevStatus)
         case Some(t) => Decoded(Some(MakeEvent(t, LowNibble(p1), ParseIntHex(line[2..4]), ParseIntHex(line[4..6]))), p1)
  {
  }

  /** The high and low nibbles of a byte read through a 32-bit integer. */
  lemma ByteNibbles(b: int)
    requires IsByte(b)
    ensures ShiftRight4(Int(b)) == b / 16 && LowNibble(Int(b)) == b % 16
  {
    SmallIsInt32(b);
  }

  /** A four-character line whose two hex pairs parse to data bytes, the
      first not a status byte, decodes under the remembered status. */
  lemma DecodeParsedFour(status: int, line: string, d1: int, d2: int)
    requires IsByte(status) && 0x8 <= status / 16 <= 0xE
    requires IsByte(d1) && IsByte(d2) && !(0x8 <= d1 / 16 <= 0xE) && |line| == 4
    requires ParseIntHex(line[0..2]) == Int(d1) && ParseIntHex(line[2..4]) == Int(d2)
    ensures DecodeLine(Int(status), line)
      == Decoded(Some(MakeEvent(EventTypeOfCode(status / 16).value, status % 16, Int(d1), Int(d2))), Int(status))
  {
    SmallIsInt32(d1);
    SmallIsInt32(status);
  }

  /** Decoding a four-character line that omits the status byte reuses the
      remembered status and reads the two bytes as data. */
  lemma DecodeOmittedStatus(status: int, d1: int, d2: int)
    requires IsByte(status) && 0x8 <= status / 16 <= 0xE
    requires IsByte(d1) && IsByte(d2) && !(0x8 <= d1 / 16 <= 0xE)
    ensures DecodeLine(Int(status), ByteHex(d1) + ByteHex(d2))
      == Decoded(Some(MakeEvent(EventTypeOfCode(status / 16).value, status % 16, Int(d1), Int(d2))), Int(status))
  {
    var line := ByteHex(d1) + ByteHex(d2);
    ByteHexShape(d1);
    ByteHexShape(d2);
    assert line[0..2] == ByteHex(d1) && line[2..4] == ByteHex(d2);
    ParseByteHex(d1);
    ParseByteHex(d2);
    DecodeParsedFour(status, line, d1, d2);
  }

  /** The note-on triplet the LED code builds, `((9 << 4) | channel, note, code)`. */
  function NoteOnTriplet(channel: int, note: int, code: int): (t: ByteTriplet)
    requires 0 <= channel < 16
    ensures t.b1 == 0x90 + channel && t.b2 == note && t.b3 == code
  {
    StatusByteValue(9, channel);
    ByteTriplet(Or(Int(ShiftLeft4(Int(9))), Int(channel)), note, code)
  }

  /** Sending a note-on triplet and reading it back gives the same channel,
      note and velocity. */
  lemma NoteOnRoundTrip(prevStatus: Num, channel: int, note: int, velocity: int)
    requires 0 <= channel < 16 && IsByte(note) && IsByte(velocity)
    ensures DecodeLine(prevStatus, TripletHex(NoteOnTriplet(channel, note, velocity)))
      == Decoded(Some(NoteOnEvent(channel, Int(note), Int(velocity))), Int(0x90 + channel))
  {
    var t := NoteOnTriplet(channel, note, velocity);
    assert t.b1 / 16 == 9 && t.b1 % 16 == channel;
    DecodeEncodedTriplet(prevStatus, t);
  }
}

=== FILE: midish.dfy ===
/** The midish side of `src/midi/midish.ts`: the text command for a MIDI
    event, the tracking of midish's current output channel (`co`), and the
    start-up script. Events reach the formatter after a JSON round trip, in
    which a NaN data byte becomes `null`. */
module Midish {
  import opened Wrappers
  import opened JsNum
  import opened JsString
  import opened MidiCodec
  import opened Seqs

  /** The optional second argument of the formatter: absent, a number (as
      `Array.prototype.map` passes an index), or an options object. */
  datatype Flags = NoFlags | IndexFlag(index: int) | OptionFlags(highPrecisionControl: bool)

  /** Whether a control change is sent as a 14-bit `xctl`. */
  predicate UsesHighPrecision(flags: Flags) {
    flags.OptionFlags? && flags.highPrecisionControl
  }

  /** A data byte as it is interpolated after the JSON round trip. */
  function FieldText(n: Num): string {
    match n
    case NaN => "null"
    case Int(v) => IntToDecimal(v)
  }

  /** `out<channel>`. */
  function OutName(channel: int): string {
    "out" + IntToDecimal(channel)
  }

  /** The event kind a midish command word filters for, as midish reads it. */
  function MnemonicKind(word: string): Option<EventType> {
    if word == "kat" then Some(PolyphonicAftertouch)
    else if word == "ctl" || word == "xctl" then Some(ControlChange)
    else if word == "xpc" then Some(ProgramChange)
    else if word == "cat" then Some(ChannelPressureAftertouch)
    else if word == "bend" then Some(PitchBend)
    else None
  }

  /** The midish command word for an event kind other than the note kinds:
      midish reads the kind back from it, and only a high-precision control
      change uses the 14-bit `xctl`. */
  function Mnemonic(t: EventType, flags: Flags): (r: string)
    requires t != NoteOn && t != NoteOff
    ensures MnemonicKind(r) == Some(t)
    ensures r == "xctl" <==> t == ControlChange && UsesHighPrecision(flags)
  {
    match t
    case PolyphonicAftertouch => "kat"
    case ControlChange => if UsesHighPrecision(flags) then "xctl" else "ctl"
    case ProgramChange => "xpc"
    case ChannelPressureAftertouch => "cat"
    case PitchBend => "bend"
  }

  /** `(msb << 4) | lsb`. */
  function BendAmount(lsb: Num, msb: Num): int {
    Or(Int(ShiftLeft4(msb)), lsb)
  }

  /** The number of data fields midish expects after the channel. */
  function Arity(t: EventType): nat {
    if t == PolyphonicAftertouch || t == ControlChange then 2 else 1
  }

  /** The arguments after the channel: one space-led field per data value
      of the kind (the two bend bytes are sent as one amount), with no
      brace or line break that would end the filter or the command early. */
  function Arguments(e: MidiEvent): (r: string)
    requires !e.NoteOnEvent? && !e.NoteOffEvent?
    ensures multiset(r)[' '] == Arity(e.Type()) && NoDelimiter(r)
  {
    match e
    case PolyphonicAftertouchEvent(_, note, pressure) =>
      FieldIsPlain(note); FieldIsPlain(pressure);
      TwoArguments(FieldText(note), FieldText(pressure));
      " " + FieldText(note) + " " + FieldText(pressure)
    case ControlChangeEvent(_, controller, value) =>
      FieldIsPlain(controller); FieldIsPlain(value);
      TwoArguments(FieldText(controller), FieldText(value));
      " " + FieldText(controller) + " " + FieldText(value)
    case ProgramChangeEvent(_, program) =>
      FieldIsPlain(program); OneArgument(FieldText(program));
      " " + FieldText(program)
    case ChannelPressureAftertouchEvent(_, pressure) =>
      FieldIsPlain(pressure); OneArgument(FieldText(pressure));
      " " + FieldText(pressure)
    case PitchBendEvent(_, lsb, msb) =>
      DecimalIsPlain(BendAmount(lsb, msb)); OneArgument(IntToDecimal(BendAmount(lsb, msb)));
      " " + IntToDecimal(BendAmount(lsb, msb))
  }

  /** No character that would end an `oaddev {…}` filter or a command. */
  predicate NoDelimiter(w: string) {
    '}' !in w && '{' !in w && '\n' !in w
  }

  /** One argument word: no delimiter and no space. */
  predicate PlainWord(w: string) {
    ' ' !in w && NoDelimiter(w)
  }

  /** A decimal rendering is a sign and digits only. */
  lemma DecimalIsPlain(v: int)
    ensures PlainWord(IntToDecimal(v))
  {
    var r := IntToDecimal(v);
    forall k | 0 <= k < |r| ensures r[k] != ' ' && r[k] != '}' && r[k] != '{' && r[k] != '\n' {
      if k > 0 || v >= 0 {
        assert IsDigit(r[k]);
      }
    }
  }

  lemma FieldIsPlain(n: Num)
    ensures PlainWord(FieldText(n))
  {
    if n.Int? {
      DecimalIsPlain(n.v);
    }
  }

  /** A space and one word: one space, no delimiter. */
  lemma OneArgument(a: string)
    requires PlainWord(a)
    ensures multiset(" " + a)[' '] == 1 && NoDelimiter(" " + a)
  {
    assert multiset(" " + a) == multiset(" ") + multiset(a);
  }

  /** Two space-led words: two spaces, no delimiter. */
  lemma TwoArguments(a: string, b: string)
    requires PlainWord(a) && PlainWord(b)
    ensures multiset(" " + a + " " + b)[' '] == 2 && NoDelimiter(" " + a + " " + b)
  {
    OneArgument(a);
    OneArgument(b);
    assert " " + a + " " + b == (" " + a) + (" " + b);
    assert multiset((" " + a) + (" " + b)) == multiset(" " + a) + multiset(" " + b);
  }

  /** The `oaddev {…}` wrapper around an event filter. */
  function Oaddev(body: string): (r: string)
    ensures StartsWith(r, "oaddev {") && EndsWith(r, "}")
    ensures |r| == |body| + 9 && r[8..|r| - 1] == body
  {
    var r := "oaddev {" + body + "}";
    assert r[..8] == "oaddev {";
    assert r[|r| - 1..] == "}";
    r
  }

  /** `midiEventToMidish`: note events cannot be sent through midish and are
      refused; every other event becomes `oaddev {<word> out<ch> <args>}`. */
  function ToMidish(e: MidiEvent, flags: Flags): (r: Result<string, string>)
    ensures r.Failure? <==> e.Type() == NoteOn || e.Type() == NoteOff
    ensures r.Success? ==> StartsWith(r.value, "oaddev {") && EndsWith(r.value, "}")
  {
    if e.NoteOnEvent? || e.NoteOffEvent? then
      Failure("cannot use NoteOn or NoteOff events with midish")
    else
      Success(Oaddev(Mnemonic(e.Type(), flags) + " " + OutName(e.channel) + Arguments(e)))
  }

  /** A control change is sent as `xctl` exactly when an options object asks
      for high precision; a numeric flag never does. */
  lemma ControlChangeWord(channel: int, controller: Num, value: Num, flags: Flags)
    ensures var r := ToMidish(ControlChangeEvent(channel, controller, value), flags);
      r.Success? && (StartsWith(r.value, "oaddev {xctl ") <==> UsesHighPrecision(flags))
  {
    var e := ControlChangeEvent(channel, controller, value);
    WordPrefix(Mnemonic(e.Type(), flags), OutName(channel), Arguments(e));
  }

  /** The filter of a control change starts with `xctl ` exactly when its
      word is `xctl`. */
  lemma WordPrefix(word: string, out: string, args: string)
    requires word == "xctl" || word == "ctl"
    ensures StartsWith(Oaddev(word + " " + out + args), "oaddev {xctl ") <==> word == "xctl"
  {
    var w := Oaddev(word + " " + out + args);
    var rest := out + args + "}";
    StartsWithSplit(w, "oaddev {", "xctl ");
    assert w[8..] == word + " " + rest;
    if word == "xctl" {
      assert word + " " + rest == "xctl " + rest;
      StartsWithSelf("xctl ", rest);
    } else {
      assert (word + " " + rest)[0] == 'c';
    }
  }

  /** A prefix made of two parts matches part by part. */
  lemma StartsWithSplit(s: string, a: string, b: string)
    requires StartsWith(s, a)
    ensures StartsWith(s, a + b) <==> StartsWith(s[|a|..], b)
  {
    if |a| + |b| <= |s| {
      assert s[..|a| + |b|] == s[..|a|] + s[|a|..][..|b|];
    }
  }

  lemma StartsWithSelf(p: string, q: string)
    ensures StartsWith(p + q, p)
  {
    assert (p + q)[..|p|] == p;
  }

  /** For a pitch bend whose bytes are 7-bit values with `lsb < 16`, the amount
      is `16 * msb + lsb`. */
  lemma BendAmountValue(lsb: int, msb: int)
    requires 0 <= lsb < 16 && 0 <= msb < 128
    ensures BendAmount(Int(lsb), Int(msb)) == 16 * msb + lsb
  {
    OrNibble(msb, lsb);
  }

  predicate IsNoteEvent(e: MidiEvent) {
    e.NoteOnEvent? || e.NoteOffEvent?
  }

  /** `midiEvents.map(midiEventToMidish).join("\n")`: the command batch of a
      `midi` action. `map` hands each event its index as the flags argument;
      the first refused event aborts the batch. */
  function MidishBatch(events: seq<MidiEvent>): (r: Result<string, string>)
    ensures r.Failure? <==> exists i | 0 <= i < |events| :: IsNoteEvent(events[i])
    ensures r.Success? ==> exists parts: seq<string> ::
      |parts| == |events| && r.value == Join(parts, "\n")
      && forall k | 0 <= k < |events| :: parts[k] == ToMidish(events[k], IndexFlag(k)).value
  {
    var results := seq(|events|, i requires 0 <= i < |events| => ToMidish(events[i], IndexFlag(i)));
    assert forall i | 0 <= i < |events| :: results[i].Failure? <==> IsNoteEvent(events[i]);
    var parts := Collect(results, 0);
    if parts.Failure? then Failure(parts.error) else Success(Join(parts.value, "\n"))
  }

  /** The values of a list of results from `from` on, or the first error:
      what an exception thrown inside `map` does to the list. */
  function Collect(results: seq<Result<string, string>>, from: nat): (r: Result<seq<string>, string>)
    requires from <= |results|
    ensures r.Failure? <==> exists i | from <= i < |results| :: results[i].Failure?
    ensures r.Success? ==> |r.value| == |results| - from
    ensures r.Success? ==> forall k | 0 <= k < |r.value| :: Success(r.value[k]) == results[from + k]
    decreases |results| - from
  {
    if from == |results| then Success([])
    else if results[from].Failure? then Failure(results[from].error)
    else
      var rest := Collect(results, from + 1);
      if rest.Failure? then Failure(rest.error)
      else
        var r := [results[from].value] + rest.value;
        assert forall k | 1 <= k < |r| :: r[k] == rest.value[k - 1];
        Success(r)
  }

  /** Commands of a `midi` action never use `xctl`: the index `map` passes
      is a number. */
  lemma BatchNeverHighPrecision(events: seq<MidiEvent>, i: nat)
    requires i < |events|
    ensures !UsesHighPrecision(IndexFlag(i))
  {
  }

  // ---------------------------------------------------------------------
  // Output-channel tracking.

  /** `s` has a token `out<digits>` starting at `k`. */
  predicate OutTokenAt(s: string, k: int) {
    0 <= k && k + 3 < |s| && s[k] == 'o' && s[k + 1] == 'u' && s[k + 2] == 't' && IsDigit(s[k + 3])
  }

  /** Where the first match of `/(out\d+)/` in `s` at or after `k` starts,
      or -1. */
  function FirstOutIndexFrom(s: string, k: nat): (j: int)
    requires k <= |s|
    ensures j == -1 || (k <= j && OutTokenAt(s, j))
    ensures forall i | k <= i && (j == -1 || i < j) :: !OutTokenAt(s, i)
    decreases |s| - k
  {
    if k + 3 >= |s| then -1
    else if OutTokenAt(s, k) then k
    else FirstOutIndexFrom(s, k + 1)
  }

  /** The first match of `/(out\d+)/` in `s`: the leftmost `out` followed by
      a digit, with all the digits that follow it. */
  function FirstOutToken(s: string): (r: Option<string>)
    ensures r.None? <==> forall j :: !OutTokenAt(s, j)
  {
    var j := FirstOutIndexFrom(s, 0);
    if j == -1 then None else Some(s[j..j + 3 + DigitRun(s, j + 3)])
  }

  /** The outcome of one write to midish: the current output afterwards and
      the text written. */
  datatype Written = Written(co: string, text: string)

  /** The output midish selects when it starts. */
  const INITIAL_CO: string := "out0"

  /** A command with a line feed ensured at its end. */
  function Terminated(cmd: string): (r: string)
    ensures EndsWith(r, "\n")
    ensures r == cmd || r == cmd + "\n"
    ensures EndsWith(cmd, "\n") ==> r == cmd
  {
    if EndsWith(cmd, "\n") then cmd else cmd + "\n"
  }

  /** `streamDataFn`: terminate the command and, when the first output it
      names differs from the current one, select that output first. */
  function StreamCommand(co: string, cmd: string): (w: Written)
    ensures EndsWith(w.text, "\n")
    ensures FirstOutToken(Terminated(cmd)).None? ==> w == Written(co, Terminated(cmd))
    ensures FirstOutToken(Terminated(cmd)).Some? ==> w.co == FirstOutToken(Terminated(cmd)).value
    ensures w.text == Terminated(cmd) <==> w.co == co
    ensures w.co != co ==> w.text == "co " + w.co + "\n" + Terminated(cmd)
  {
    var line := Terminated(cmd);
    match FirstOutToken(line)
    case Some(channel) =>
      if channel != co then Written(channel, "co " + channel + "\n" + line)
      else Written(co, line)
    case None => Written(co, line)
  }

  /** Sending the same command twice selects the output at most once. */
  lemma StreamCommandIdempotent(co: string, cmd: string)
    ensures var w := StreamCommand(co, cmd);
      StreamCommand(w.co, cmd) == Written(w.co, Terminated(cmd))
  {
  }

  /** The text written is the command with a line feed ensured, optionally
      preceded by a `co` line. */
  lemma StreamCommandKeepsCommand(co: string, cmd: string)
    ensures EndsWith(StreamCommand(co, cmd).text, Terminated(cmd))
  {
  }

  /** The prefix of a formatted command contains no `out` token. */
  predicate NoOutPrefix(p: string) {
    |p| > 0 && p[|p| - 1] == ' ' && forall k | 0 <= k < |p| - 1 :: p[k] == 'o' ==> p[k + 1] != 'u'
  }

  lemma {:induction false} FirstOutTokenAfterPrefix(p: string, digits: string, rest: string)
    requires NoOutPrefix(p)
    requires |digits| > 0 && forall i | 0 <= i < |digits| :: IsDigit(digits[i])
    requires rest == [] || !IsDigit(rest[0])
    ensures FirstOutToken(p + "out" + digits + rest) == Some("out" + digits)
  {
    var s := p + "out" + digits + rest;
    var n := |p|;
    assert OutTokenAt(s, n);
    assert s[..n] == p;
    NoOutTokenBefore(p, s);
    var j := FirstOutIndexFrom(s, 0);
    assert j == -1 || n < j ==> !OutTokenAt(s, n);
    assert 0 <= j < n ==> !OutTokenAt(s, j);
    assert j == n;
    DigitRunIs(s, n + 3, digits, rest);
    assert s[n..n + 3 + |digits|] == "out" + digits;
  }

  /** No `out` followed by a digit starts inside such a prefix. */
  lemma NoOutTokenBefore(p: string, s: string)
    requires NoOutPrefix(p) && |s| > |p| && s[..|p|] == p
    ensures forall j | 0 <= j < |p| :: !OutTokenAt(s, j)
  {
    forall j | 0 <= j < |p| ensures !OutTokenAt(s, j) {
      assert s[j] == p[j];
      if j < |p| - 1 {
        assert s[j + 1] == p[j + 1];
      } else {
        assert s[j] == ' ';
      }
    }
  }

  lemma CommandPrefixHasNoToken(t: EventType, flags: Flags)
    requires t != NoteOn && t != NoteOff
    ensures NoOutPrefix("oaddev {" + Mnemonic(t, flags) + " ")
  {
    var m := Mnemonic(t, flags);
    var p := "oaddev {" + m + " ";
    assert forall k | 0 <= k < |m| :: m[k] != 'o';
    forall k | 0 <= k < |p| - 1 ensures p[k] == 'o' ==> p[k + 1] != 'u' {
      if k == 0 {
        assert p[1] == 'a';
      } else if k < 8 {
        assert p[k] == "oaddev {"[k];
      } else {
        assert p[k] == m[k - 8];
      }
    }
  }

  /** The text of a formatted command: a prefix free of `out` tokens, the
      output name, and arguments that start with a space. */
  lemma CommandShape(e: MidiEvent, flags: Flags)
    requires !IsNoteEvent(e) && e.channel >= 0
    ensures var p := "oaddev {" + Mnemonic(e.Type(), flags) + " ";
      var rest := Arguments(e) + "}";
      ToMidish(e, flags).value == p + "out" + IntToDecimal(e.channel) + rest
      && rest[0] == ' ' && rest[|rest| - 1] == '}'
  {
    var m := Mnemonic(e.Type(), flags);
    var d := IntToDecimal(e.channel);
    var a := Arguments(e);
    assert ToMidish(e, flags).value == "oaddev {" + (m + " " + ("out" + d) + a) + "}";
    Regroup("oaddev {", m, " ", "out", d, a, "}");
  }

  /** A formatted command names the event's output, so streaming it selects
      that output: a `co` line is written exactly when the current output
      differs. */
  lemma MidishSelectsEventOutput(co: string, e: MidiEvent, flags: Flags)
    requires !IsNoteEvent(e) && e.channel >= 0
    ensures var w := StreamCommand(co, ToMidish(e, flags).value);
      w.co == OutName(e.channel)
      && (w.text == ToMidish(e, flags).value + "\n" <==> co == OutName(e.channel))
  {
    CommandLineToken(e, flags);
  }

  /** The line written for a formatted command is the command and a line
      feed, and its first output token is the event's output. */
  lemma CommandLineToken(e: MidiEvent, flags: Flags)
    requires !IsNoteEvent(e) && e.channel >= 0
    ensures var cmd := ToMidish(e, flags).value;
      Terminated(cmd) == cmd + "\n" && FirstOutToken(cmd + "\n") == Some(OutName(e.channel))
  {
    var cmd := ToMidish(e, flags).value;
    var p := "oaddev {" + Mnemonic(e.Type(), flags) + " ";
    var digits := IntToDecimal(e.channel);
    var rest := Arguments(e) + "}";
    CommandShape(e, flags);
    CommandPrefixHasNoToken(e.Type(), flags);
    CommandUnterminated(cmd, rest);
    FirstOutTokenTerminated(p, digits, rest);
  }

  lemma FirstOutTokenTerminated(p: string, digits: string, rest: string)
    requires NoOutPrefix(p)
    requires |digits| > 0 && forall i | 0 <= i < |digits| :: IsDigit(digits[i])
    requires |rest| > 0 && !IsDigit(rest[0])
    ensures FirstOutToken(p + "out" + digits + rest + "\n") == Some("out" + digits)
  {
    assert p + "out" + digits + rest + "\n" == p + "out" + digits + (rest + "\n");
    assert (rest + "\n")[0] == rest[0];
    FirstOutTokenAfterPrefix(p, digits, rest + "\n");
  }

  lemma CommandUnterminated(cmd: string, rest: string)
    requires |rest| > 0 && rest[|rest| - 1] == '}' && EndsWith(cmd, rest)
    ensures Terminated(cmd) == cmd + "\n"
  {
    assert cmd[|cmd| - 1] == rest[|rest| - 1];
  }

  // ---------------------------------------------------------------------
  // Start-up script.

  /** `onew out<i> {0 <i>}`: declare output `i` on channel `i` of device 0. */
  function OutputDeclaration(i: int): string {
    "onew " + OutName(i) + " {0 " + IntToDecimal(i) + "}"
  }

  /** The declarations of the outputs `from` to 15. */
  function OutputDeclarations(from: nat): (r: seq<string>)
    requires from <= 16
    ensures |r| == 16 - from
    ensures forall k | 0 <= k < |r| :: r[k] == OutputDeclaration(from + k)
    decreases 16 - from
  {
    if from == 16 then []
    else
      var rest := OutputDeclarations(from + 1);
      PrependAt(OutputDeclaration, from, rest);
      [OutputDeclaration(from)] + rest
  }

  /** The commands sent to a fresh midish: open the sequencer port, enter
      idle mode, declare the sixteen outputs and select output 0. */
  function InitCommands(): (r: seq<string>)
    ensures |r| == 19
    ensures r[0] == "dnew 0 \"14:0\" rw" && r[1] == "i"
    ensures forall ch | 0 <= ch < 16 :: r[ch + 2] == OutputDeclaration(ch)
    ensures r[18] == "co " + INITIAL_CO
  {
    var head := ["dnew 0 \"14:0\" rw", "i"];
    var decls := OutputDeclarations(0);
    var tail := ["co " + INITIAL_CO];
    Concat3(head, decls, tail);
    head + decls + tail
  }

  /** `initCommands.join("\n") + "\n"`: read back line by line, the script
      is the start-up commands in order, each on its own line, and an empty
      piece after the final line feed. */
  function InitScript(): (r: string)
    ensures EndsWith(r, "\n")
    ensures SplitLines(r) == InitCommands() + [""]
  {
    var cmds := InitCommands();
    var r := Join(cmds, "\n") + "\n";
    InitCommandsAreLines();
    SplitJoined(cmds, "");
    SplitLinesOne("");
    assert r + "" == r;
    r
  }

  /** Every start-up command is a single line. */
  lemma InitCommandsAreLines()
    ensures AllLines(InitCommands())
  {
    var head := ["dnew 0 \"14:0\" rw", "i"];
    var decls := OutputDeclarations(0);
    var tail := ["co " + INITIAL_CO];
    assert InitCommands() == head + decls + tail;
    FixedCommandsAreLines();
    assert AllLines(decls) by {
      forall k | 0 <= k < |decls| ensures IsLine(decls[k]) {
        OutputDeclarationIsLine(k);
      }
    }
    AllLinesConcat(head, decls);
    AllLinesConcat(head + decls, tail);
  }

  lemma FixedCommandsAreLines()
    ensures AllLines(["dnew 0 \"14:0\" rw", "i"]) && AllLines(["co " + INITIAL_CO])
  {
  }

  lemma OutputDeclarationIsLine(i: nat)
    ensures IsLine(OutputDeclaration(i))
  {
    var d := IntToDecimal(i);
    assert forall k | 0 <= k < |d| :: d[k] != '\n';
    NotInAppend('\n', "out", d);
    NotInAppend('\n', "onew ", OutName(i));
    NotInAppend('\n', "onew " + OutName(i), " {0 ");
    NotInAppend('\n', "onew " + OutName(i) + " {0 ", d);
    NotInAppend('\n', "onew " + OutName(i) + " {0 " + d, "}");
  }

  /** The output the start-up script selects last is the one channel
      tracking starts from, so the first command for output 0 writes no
      `co` line. */
  lemma InitScriptAgreesWithTracking(cmd: string)
    requires FirstOutToken(Terminated(cmd)) == Some(INITIAL_CO)
    ensures StreamCommand(INITIAL_CO, cmd) == Written(INITIAL_CO, Terminated(cmd))
    ensures InitCommands()[|InitCommands()| - 1] == "co " + INITIAL_CO
  {
  }
}

=== FILE: pwdump_framing.dfy ===
/** The framing loop of `watchPwDump` (`src/pipewire/index.ts`): `pw-dump`
    output arrives in arbitrary pieces, each prefixed with a newline and
    appended to a buffer; every JSON array from a `"\n["` to the next
    `"\n]"` that parses is cut out and emitted. JSON parsing itself is the
    parameter `parses`. */
module PwDumpFraming {
  import opened JsString

  const OPEN_MARK: string := "\n["
  const CLOSE_MARK: string := "\n]"

  /** `s.slice(from, to)` for offsets inside `s`: empty unless `from < to`. */
  function Slice(s: string, from: nat, to: nat): (r: string)
    requires from <= |s| && to <= |s|
    ensures |r| == if from < to then to - from else 0
  {
    if from < to then s[from..to] else ""
  }

  /** One pass of the loop body: stop, or emit `chunk`, found at offset `at`,
      leaving `rest`. */
  datatype Step = Stop | Emit(chunk: string, at: nat, rest: string)

  /** A frame: opens with `"\n["`, closes with `"\n]"`, and holds no earlier
      `"\n]"`. */
  predicate IsFrame(chunk: string) {
    StartsWith(chunk, OPEN_MARK) && EndsWith(chunk, CLOSE_MARK)
    && forall k | 0 <= k < |chunk| - 2 :: !OccursAt(chunk, CLOSE_MARK, k)
  }

  /** Cut the text between the first `"\n["` and the first `"\n]"` if it
      parses. `JSON.parse("")` throws, hence `!parses("")`: when the close
      mark comes first the slice is empty and extraction stops. */
  function StepFrame(buf: string, parses: string -> bool): (r: Step)
    requires !parses("")
    ensures r.Emit? ==>
      parses(r.chunk) && IsFrame(r.chunk)
      && r.at == IndexOf(buf, OPEN_MARK)
      && r.at + |r.chunk| <= |buf| && buf[r.at..r.at + |r.chunk|] == r.chunk
      && r.rest == buf[..r.at] + buf[r.at + |r.chunk|..]
    ensures r.Stop? && Includes(buf, OPEN_MARK) && Includes(buf, CLOSE_MARK) ==>
      var o := IndexOf(buf, OPEN_MARK);
      var c := IndexOf(buf, CLOSE_MARK);
      !parses(Slice(buf, o, c + 2))
    ensures !Includes(buf, OPEN_MARK) || !Includes(buf, CLOSE_MARK) ==> r.Stop?
  {
    var o := IndexOf(buf, OPEN_MARK);
    var c := IndexOf(buf, CLOSE_MARK);
    if o == -1 || c == -1 then Stop
    else
      var chunk := Slice(buf, o, c + 2);
      if !parses(chunk) then Stop
      else
        FrameBetween(buf, o, c);
        Emit(chunk, o, buf[..o] + buf[c + 2..])
  }

  /** Between an open mark and the first close mark, when the slice is not
      empty, lies a frame. */
  lemma FrameBetween(buf: string, o: nat, c: nat)
    requires OccursAt(buf, OPEN_MARK, o) && OccursAt(buf, CLOSE_MARK, c)
    requires forall k | 0 <= k < c :: !OccursAt(buf, CLOSE_MARK, k)
    requires o < c + 2
    ensures o <= c && IsFrame(buf[o..c + 2])
  {
    MarksOrdered(buf, o, c);
    var chunk := buf[o..c + 2];
    FrameEnds(buf, o, c);
    forall k | 0 <= k < |chunk| - 2 ensures !OccursAt(chunk, CLOSE_MARK, k) {
      OccursInSlice(buf, o, c + 2, CLOSE_MARK, k);
    }
  }

  /** The marks differ in their second character, so an open mark is not at
      the close mark's offset; nor one past it, where the close mark has its
      `]` and the open mark would have its line feed. */
  lemma MarksOrdered(buf: string, o: nat, c: nat)
    requires OccursAt(buf, OPEN_MARK, o) && OccursAt(buf, CLOSE_MARK, c) && o < c + 2
    ensures o <= c
  {
    assert buf[o..o + 2] == OPEN_MARK && buf[c..c + 2] == CLOSE_MARK;
    assert buf[o + 1] == '[' && buf[c + 1] == ']' && buf[o] == '\n';
  }

  lemma FrameEnds(buf: string, o: nat, c: nat)
    requires OccursAt(buf, OPEN_MARK, o) && OccursAt(buf, CLOSE_MARK, c) && o <= c
    ensures StartsWith(buf[o..c + 2], OPEN_MARK) && EndsWith(buf[o..c + 2], CLOSE_MARK)
  {
    var chunk := buf[o..c + 2];
    assert chunk[..2] == buf[o..o + 2];
    assert chunk[|chunk| - 2..] == buf[c..c + 2];
  }

  /** A pattern inside a slice is the pattern at the shifted offset of the
      whole string. */
  lemma OccursInSlice(s: string, lo: nat, hi: nat, pat: string, k: nat)
    requires lo <= hi <= |s| && k + |pat| <= hi - lo
    ensures OccursAt(s[lo..hi], pat, k) <==> OccursAt(s, pat, lo + k)
  {
    var u := s[lo..hi][k..k + |pat|];
    var v := s[lo + k..lo + k + |pat|];
    assert forall i | 0 <= i < |pat| :: u[i] == v[i];
    assert u == v;
  }

  /** Two characters that differ from a two-character mark. */
  lemma NoMarkAt(s: string, mark: string, k: nat)
    requires |mark| == 2 && k + 2 <= |s| && (s[k] != mark[0] || s[k + 1] != mark[1])
    ensures !OccursAt(s, mark, k)
  {
    assert s[k..k + 2][0] == s[k] && s[k..k + 2][1] == s[k + 1];
  }

  /** The buffer left after a data event, and the chunks emitted in order. */
  datatype Framed = Framed(buffer: string, chunks: seq<string>)

  function TotalLength(chunks: seq<string>): nat {
    if |chunks| == 0 then 0 else |chunks[0]| + TotalLength(chunks[1..])
  }

  /** The loop, as a recursive reference: emit frames until one does not
      parse or none is left, and reset a remainder that is only whitespace
      (`stdoutBuf.trim().length === 0`) to the empty string. */
  function Extract(buf: string, parses: string -> bool): (r: Framed)
    requires !parses("")
    ensures forall k | 0 <= k < |r.chunks| :: parses(r.chunks[k]) && IsFrame(r.chunks[k])
    ensures r.buffer == "" || StepFrame(r.buffer, parses).Stop?
    ensures r.chunks == [] ==> r.buffer == buf
    ensures r.buffer != "" ==> |r.buffer| + TotalLength(r.chunks) == |buf|
    ensures r.buffer == "" ==> TotalLength(r.chunks) <= |buf|
    decreases |buf|
  {
    match StepFrame(buf, parses)
    case Stop => Framed(buf, [])
    case Emit(chunk, _, rest) =>
      assert |chunk| > 0;
      if AllSpace(rest) then
        assert TotalLength([chunk]) == |chunk|;
        Framed("", [chunk])
      else
        var more := Extract(rest, parses);
        var r := Framed(more.buffer, [chunk] + more.chunks);
        assert ([chunk] + more.chunks)[1..] == more.chunks;
        assert forall k | 1 <= k < |r.chunks| :: r.chunks[k] == more.chunks[k - 1];
        r
  }

  /** The `data` handler: append a newline and the piece, then extract. */
  function OnData(buf: string, data: string, parses: string -> bool): (r: Framed)
    requires !parses("")
    ensures forall k | 0 <= k < |r.chunks| :: parses(r.chunks[k]) && IsFrame(r.chunks[k])
    ensures r.chunks == [] ==> r.buffer == buf + "\n" + data
  {
    Extract(buf + "\n" + data, parses)
  }

  /** The loop as `watchPwDump` writes it, with its two `break`s. */
  method ExtractLoop(buf: string, parses: string -> bool) returns (buffer: string, chunks: seq<string>)
    requires !parses("")
    ensures Framed(buffer, chunks) == Extract(buf, parses)
  {
    buffer := buf;
    chunks := [];
    var openIndex := IndexOf(buffer, OPEN_MARK);
    var closeIndex := IndexOf(buffer, CLOSE_MARK);
    assert chunks + Extract(buffer, parses).chunks == Extract(buf, parses).chunks;
    while openIndex != -1 && closeIndex != -1
      invariant openIndex == IndexOf(buffer, OPEN_MARK) && closeIndex == IndexOf(buffer, CLOSE_MARK)
      invariant Resumes(buf, buffer, chunks, parses)
      decreases |buffer|
    {
      var data := Slice(buffer, openIndex, closeIndex + 2);
      if !parses(data) {
        LoopStops(buf, buffer, chunks, parses);
        break;
      }
      LoopEmits(buf, buffer, chunks, parses);
      chunks := chunks + [data];
      buffer := buffer[..openIndex] + buffer[closeIndex + 2..];
      if AllSpace(buffer) {
        buffer := "";
        break;
      }
      openIndex := IndexOf(buffer, OPEN_MARK);
      closeIndex := IndexOf(buffer, CLOSE_MARK);
    }
    if openIndex == -1 || closeIndex == -1 {
      LoopStops(buf, buffer, chunks, parses);
    }
  }

  /** The loop's invariant: what is left to extract from `buffer`, after the
      chunks emitted so far, is what extracting from `buf` gives. */
  predicate Resumes(buf: string, buffer: string, chunks: seq<string>, parses: string -> bool)
    requires !parses("")
  {
    Extract(buf, parses) == Framed(Extract(buffer, parses).buffer, chunks + Extract(buffer, parses).chunks)
  }

  /** Where the loop stops, its buffer and chunks are the result. */
  lemma LoopStops(buf: string, buffer: string, chunks: seq<string>, parses: string -> bool)
    requires !parses("") && Resumes(buf, buffer, chunks, parses)
    requires var o, c := IndexOf(buffer, OPEN_MARK), IndexOf(buffer, CLOSE_MARK);
      o == -1 || c == -1 || !parses(Slice(buffer, o, c + 2))
    ensures Framed(buffer, chunks) == Extract(buf, parses)
  {
    ExtractStops(buffer, parses);
    assert chunks + [] == chunks;
  }

  /** An emitting turn keeps the invariant for the remainder, or ends the
      loop with an empty buffer when the remainder is blank. */
  lemma LoopEmits(buf: string, buffer: string, chunks: seq<string>, parses: string -> bool)
    requires !parses("") && Resumes(buf, buffer, chunks, parses)
    requires IndexOf(buffer, OPEN_MARK) != -1 && IndexOf(buffer, CLOSE_MARK) != -1
    requires parses(Slice(buffer, IndexOf(buffer, OPEN_MARK), IndexOf(buffer, CLOSE_MARK) + 2))
    ensures var o, c := IndexOf(buffer, OPEN_MARK), IndexOf(buffer, CLOSE_MARK);
      var data := Slice(buffer, o, c + 2);
      var rest := buffer[..o] + buffer[c + 2..];
      if AllSpace(rest) then Extract(buf, parses) == Framed("", chunks + [data])
      else Resumes(buf, rest, chunks + [data], parses)
  {
    var o, c := IndexOf(buffer, OPEN_MARK), IndexOf(buffer, CLOSE_MARK);
    var data := Slice(buffer, o, c + 2);
    var rest := buffer[..o] + buffer[c + 2..];
    ExtractEmits(buffer, parses);
    if AllSpace(rest) {
      assert chunks + [data] + [] == chunks + [data];
    } else {
      AppendOne(chunks, data, Extract(rest, parses).chunks);
    }
  }

  /** One turn of the loop, as `Extract` sees it: the frame between the
      first marks is emitted, then extraction stops on a blank remainder or
      goes on with the remainder. */
  lemma ExtractEmits(buffer: string, parses: string -> bool)
    requires !parses("")
    requires IndexOf(buffer, OPEN_MARK) != -1 && IndexOf(buffer, CLOSE_MARK) != -1
    requires parses(Slice(buffer, IndexOf(buffer, OPEN_MARK), IndexOf(buffer, CLOSE_MARK) + 2))
    ensures var o, c := IndexOf(buffer, OPEN_MARK), IndexOf(buffer, CLOSE_MARK);
      var data := Slice(buffer, o, c + 2);
      var rest := buffer[..o] + buffer[c + 2..];
      Extract(buffer, parses)
      == if AllSpace(rest) then Framed("", [data])
         else Framed(Extract(rest, parses).buffer, [data] + Extract(rest, parses).chunks)
  {
  }

  lemma AppendOne(a: seq<string>, x: string, b: seq<string>)
    ensures a + ([x] + b) == a + [x] + b
  {
  }

  /** Extraction emits nothing when a mark is missing or the text between
      the first marks does not parse. */
  lemma ExtractStops(buffer: string, parses: string -> bool)
    requires !parses("")
    requires var o, c := IndexOf(buffer, OPEN_MARK), IndexOf(buffer, CLOSE_MARK);
      o == -1 || c == -1 || !parses(Slice(buffer, o, c + 2))
    ensures Extract(buffer, parses) == Framed(buffer, [])
  {
  }

  /** The frame of a one-object message, with the line feed the handler
      puts in front. */
  lemma OneObjectStep(parses: string -> bool)
    requires !parses("") && parses("\n[\n{}\n]")
    ensures StepFrame("\n[\n{}\n]\n", parses) == Emit("\n[\n{}\n]", 0, "\n")
  {
    var buf := "\n[\n{}\n]\n";
    assert OccursAt(buf, OPEN_MARK, 0);
    NoMarkAt(buf, CLOSE_MARK, 0);
    NoMarkAt(buf, CLOSE_MARK, 1);
    NoMarkAt(buf, CLOSE_MARK, 2);
    NoMarkAt(buf, CLOSE_MARK, 3);
    NoMarkAt(buf, CLOSE_MARK, 4);
    assert OccursAt(buf, CLOSE_MARK, 5);
    assert IndexOf(buf, CLOSE_MARK) == 5;
    assert Slice(buf, 0, 7) == "\n[\n{}\n]";
    assert buf[..0] + buf[7..] == "\n";
  }

  /** A whole message in one piece: the frame is emitted and the trailing
      newline is dropped with the buffer. */
  lemma WholeMessageInOnePiece(parses: string -> bool)
    requires !parses("") && parses("\n[\n{}\n]")
    ensures OnData("", "[\n{}\n]\n", parses) == Framed("", ["\n[\n{}\n]"])
  {
    assert "" + "\n" + "[\n{}\n]\n" == "\n[\n{}\n]\n";
    ExtractOneObject(parses);
  }

  lemma ExtractOneObject(parses: string -> bool)
    requires !parses("") && parses("\n[\n{}\n]")
    ensures Extract("\n[\n{}\n]\n", parses) == Framed("", ["\n[\n{}\n]"])
  {
    OneObjectStep(parses);
    assert IsSpace('\n');
    assert AllSpace("\n");
  }

  /** The first half of a one-object message holds no close mark. */
  lemma HalfMessageStops(parses: string -> bool)
    requires !parses("")
    ensures StepFrame("\n[\n{}", parses) == Stop
  {
    var first := "\n[\n{}";
    NoMarkAt(first, CLOSE_MARK, 0);
    NoMarkAt(first, CLOSE_MARK, 1);
    NoMarkAt(first, CLOSE_MARK, 2);
    assert IndexOf(first, CLOSE_MARK) == -1;
  }

  /** A message split in two pieces: nothing is emitted until the close
      mark arrives, and then the whole frame is. */
  lemma SplitMessageWaits(parses: string -> bool)
    requires !parses("") && parses("\n[\n{}\n]")
    ensures OnData("", "[\n{}", parses) == Framed("\n[\n{}", [])
    ensures OnData("\n[\n{}", "]\n", parses) == Framed("", ["\n[\n{}\n]"])
  {
    assert "" + "\n" + "[\n{}" == "\n[\n{}";
    HalfMessageStops(parses);
    assert "\n[\n{}" + "\n" + "]\n" == "\n[\n{}\n]\n";
    ExtractOneObject(parses);
  }
}

=== FILE: seqs.dfy ===
/** Facts about sequence concatenation that the string-building operations
    rely on. They are stated over plain sequences so that a proof using
    them does not unfold the functions that built the parts. */
module Seqs {
  /** An element put in front shifts every index by one. */
  lemma PrependShift<X>(x: X, rest: seq<X>)
    ensures |[x] + rest| == |rest| + 1 && ([x] + rest)[0] == x
    ensures forall k | 1 <= k < |rest| + 1 :: ([x] + rest)[k] == rest[k - 1]
  {
  }

  /** A sequence that lists `f` from `from + 1` on, with `f(from)` put in
      front, lists `f` from `from` on. */
  lemma PrependAt<X>(f: int -> X, from: int, rest: seq<X>)
    requires forall k | 0 <= k < |rest| :: rest[k] == f(from + 1 + k)
    ensures forall k | 0 <= k < |rest| + 1 :: ([f(from)] + rest)[k] == f(from + k)
  {
    forall k | 0 <= k < |rest| + 1 ensures ([f(from)] + rest)[k] == f(from + k) {
      if k > 0 {
        assert from + 1 + (k - 1) == from + k;
      }
    }
  }

  /** Where each part of a three-part concatenation lands. */
  lemma Concat3<X>(a: seq<X>, b: seq<X>, c: seq<X>)
    ensures |a + b + c| == |a| + |b| + |c|
    ensures forall k | 0 <= k < |a| :: (a + b + c)[k] == a[k]
    ensures forall k | 0 <= k < |b| :: (a + b + c)[|a| + k] == b[k]
    ensures forall k | 0 <= k < |c| :: (a + b + c)[|a| + |b| + k] == c[k]
  {
  }

  /** Concatenation is associative, here in the grouping the command
      formatter builds and the grouping the output-token search reads. */
  lemma Regroup<X>(x: seq<X>, m: seq<X>, sp: seq<X>, o: seq<X>, d: seq<X>, a: seq<X>, y: seq<X>)
    ensures x + (m + sp + (o + d) + a) + y == x + m + sp + o + d + (a + y)
  {
  }

  /** The front part of a concatenation keeps its indices. */
  lemma FrontIndex<X>(a: seq<X>, b: seq<X>)
    ensures forall k | 0 <= k < |a| :: (a + b)[k] == a[k]
  {
  }

  /** Concatenation is associative, here for a separated head in front of
      a separated tail. */
  lemma Regroup5<X>(a: seq<X>, s: seq<X>, b: seq<X>, t: seq<X>, c: seq<X>)
    ensures a + s + b + t + c == a + s + (b + t + c)
  {
  }

  /** The members of one part per item, concatenated, are the members of
      some item's part. */
  lemma MembersCons<X, Y>(items: seq<X>, head: seq<Y>, rest: seq<Y>, inPart: (X, Y) -> bool)
    requires |items| > 0
    requires forall y :: y in head <==> inPart(items[0], y)
    requires forall y :: y in rest <==> exists k | 0 <= k < |items| - 1 :: inPart(items[1..][k], y)
    ensures forall y :: y in head + rest <==> exists k | 0 <= k < |items| :: inPart(items[k], y)
  {
    forall y | y in head + rest ensures exists k | 0 <= k < |items| :: inPart(items[k], y) {
      if y in head {
        assert inPart(items[0], y);
      } else {
        var k :| 0 <= k < |items| - 1 && inPart(items[1..][k], y);
        assert inPart(items[k + 1], y);
      }
    }
    forall y | exists k | 0 <= k < |items| :: inPart(items[k], y) ensures y in head + rest {
      var k :| 0 <= k < |items| && inPart(items[k], y);
      if k == 0 {
        assert y in head;
      } else {
        assert inPart(items[1..][k - 1], y);
        assert y in rest;
      }
    }
  }

  /** Concatenation is associative, here for a wrapped body of a word, a
      separator, a name and arguments. */
  lemma Wrap<X>(l: seq<X>, m: seq<X>, sp: seq<X>, o: seq<X>, args: seq<X>, r: seq<X>)
    ensures l + (m + sp + o + args) + r == (l + m + sp) + o + (args + r)
  {
  }

  lemma Assoc<X>(a: seq<X>, b: seq<X>, c: seq<X>)
    ensures a + (b + c) == a + b + c
  {
  }

  /** A slice within the front part of a concatenation ignores the back. */
  lemma FrontSlice<X>(a: seq<X>, b: seq<X>, i: nat, j: nat)
    requires i <= j <= |a|
    ensures (a + b)[i..j] == a[i..j]
  {
  }

  /** The tail of a sequence shifts every index down by one, and whatever
      it holds, the sequence holds. */
  lemma InTail<X>(s: seq<X>)
    requires |s| > 0
    ensures forall k | 1 <= k < |s| :: s[1..][k - 1] == s[k]
    ensures forall x | x in s[1..] :: x in s
  {
    forall x | x in s[1..] ensures x in s {
      var j :| 0 <= j < |s| - 1 && s[1..][j] == x;
      assert s[j + 1] == x;
    }
  }

  /** A concatenation with a non-empty front starts as the front does. */
  lemma ConsAppend<X>(a: seq<X>, b: seq<X>)
    requires |a| > 0
    ensures (a + b)[0] == a[0] && (a + b)[1..] == a[1..] + b
  {
  }

  /** What neither part holds, the concatenation does not hold. */
  lemma NotInAppend<X>(x: X, a: seq<X>, b: seq<X>)
    requires x !in a && x !in b
    ensures x !in a + b
  {
  }

  /** A non-empty sequence is its first element followed by the rest. */
  lemma HeadTail<X>(s: seq<X>)
    requires |s| > 0
    ensures s == [s[0]] + s[1..]
  {
  }

  /** Some element of a concatenation satisfies `p` iff some element of one
      of its parts does. */
  lemma ExistsAppend<X>(a: seq<X>, b: seq<X>, p: X -> bool)
    ensures (exists i | 0 <= i < |a + b| :: p((a + b)[i]))
      <==> (exists i | 0 <= i < |a| :: p(a[i])) || (exists i | 0 <= i < |b| :: p(b[i]))
  {
    if exists i | 0 <= i < |a + b| :: p((a + b)[i]) {
      var i :| 0 <= i < |a + b| && p((a + b)[i]);
      if i >= |a| {
        assert (a + b)[i] == b[i - |a|];
      }
    }
    if exists i | 0 <= i < |a| :: p(a[i]) {
      var i :| 0 <= i < |a| && p(a[i]);
      assert (a + b)[i] == a[i];
    }
    if exists i | 0 <= i < |b| :: p(b[i]) {
      var i :| 0 <= i < |b| && p(b[i]);
      assert (a + b)[|a| + i] == b[i];
    }
  }

  /** The first element of the tail satisfying `p` is the first of the whole
      sequence, one position on, when the head does not satisfy `p`. */
  lemma FirstInTail<X>(s: seq<X>, p: X -> bool, k: nat)
    requires |s| > 0 && !p(s[0]) && k < |s| - 1
    requires p(s[1..][k]) && forall j | 0 <= j < k :: !p(s[1..][j])
    ensures s[k + 1] == s[1..][k] && p(s[k + 1]) && forall j | 0 <= j < k + 1 :: !p(s[j])
  {
    forall j | 0 <= j < k + 1 ensures !p(s[j]) {
      if j > 0 {
        assert s[j] == s[1..][j - 1];
      }
    }
  }

  /** When the head is skipped and does not stop the scan, an element that
      stops the scan with only skipped ones before it is found in the whole
      sequence iff it is found in the tail. */
  lemma StopAfterHead<X>(s: seq<X>, stop: X -> bool, skip: X -> bool)
    requires |s| > 0 && skip(s[0]) && !stop(s[0])
    ensures (exists i | 0 <= i < |s| :: stop(s[i]) && forall j | 0 <= j < i :: skip(s[j]))
      <==> (exists i | 0 <= i < |s[1..]| :: stop(s[1..][i]) && forall j | 0 <= j < i :: skip(s[1..][j]))
  {
    var t := s[1..];
    if exists i | 0 <= i < |s| :: stop(s[i]) && forall j | 0 <= j < i :: skip(s[j]) {
      var i :| 0 <= i < |s| && stop(s[i]) && forall j | 0 <= j < i :: skip(s[j]);
      assert t[i - 1] == s[i];
      forall j | 0 <= j < i - 1 ensures skip(t[j]) {
        assert t[j] == s[j + 1];
      }
    }
    if exists i | 0 <= i < |t| :: stop(t[i]) && forall j | 0 <= j < i :: skip(t[j]) {
      var i :| 0 <= i < |t| && stop(t[i]) && forall j | 0 <= j < i :: skip(t[j]);
      assert s[i + 1] == t[i];
      forall j | 0 <= j < i + 1 ensures skip(s[j]) {
        if j > 0 {
          assert s[j] == t[j - 1];
        }
      }
    }
  }

  /** A head that stops the scan is the element found; a head that neither
      stops the scan nor is skipped rules every element out. */
  lemma StopAtHead<X>(s: seq<X>, stop: X -> bool, skip: X -> bool)
    requires |s| > 0
    ensures stop(s[0]) ==> exists i | 0 <= i < |s| :: stop(s[i]) && forall j | 0 <= j < i :: skip(s[j])
    ensures !stop(s[0]) && !skip(s[0]) ==> !exists i | 0 <= i < |s| :: stop(s[i]) && forall j | 0 <= j < i :: skip(s[j])
  {
    if !stop(s[0]) && !skip(s[0]) {
      forall i | 0 <= i < |s| && stop(s[i]) ensures !forall j | 0 <= j < i :: skip(s[j]) {
        assert i > 0 && !skip(s[0]);
      }
    }
  }
}

=== FILE: swap_amps.dfy ===
/** `swapAmps` (`src/commands/swap_amps.ts`): find the guitar input's
    forward links, and if exactly one goes to an amp, replace it by a link
    to the other amp. Plain property reads on a missing object throw a
    TypeError, which is the `Failure` here. */
module SwapAmps {
  import opened Wrappers
  import opened JsString
  import opened Graph
  import opened GraphLinks

  const GUITAR_NODE: string := "alsa_input.usb-Focusrite_Scarlett_Solo_USB_Y7E3FPF1B27EC5-00.analog-stereo"
  const GUITAR_PORT: string := "capture_FR"
  const CLEAN_AMP: string := "Clean Amp"
  const METAL_AMP: string := "Metal Amp"
  const AMP_INPUT: string := "input_1"
  const TYPE_ERROR: string := "Cannot read properties of undefined (reading 'info')"

  /** `NEXT_AMP[name] ?? "Clean Amp"`. No key of the object prototype holds
      "Amp", and only names holding it get here, so the lookup sees just the
      two entries. */
  function NextAmp(name: string): (r: string)
    ensures name == CLEAN_AMP ==> r == METAL_AMP
    ensures name != CLEAN_AMP && name != METAL_AMP ==> r == CLEAN_AMP
    ensures r == CLEAN_AMP || r == METAL_AMP
    ensures r != name
  {
    if name == CLEAN_AMP then METAL_AMP else CLEAN_AMP
  }

  /** Swapping twice returns to the amp one started from. */
  lemma NextAmpSwapsBack(name: string)
    requires name == CLEAN_AMP || name == METAL_AMP
    ensures NextAmp(NextAmp(name)) == name
  {
  }

  /** `obj.info?.props?.["port.name"]` on a possibly missing object. */
  function PortNameOf(it: Option<Item>): (r: Result<Option<string>, string>)
    ensures r.Failure? <==> it.None?
    ensures it.Some? ==> r == Success(it.value.props.portName)
  {
    match it
    case None => Failure(TYPE_ERROR)
    case Some(x) => Success(x.props.portName)
  }

  /** An index entry naming the guitar input. */
  predicate IsGuitarEntry(e: IndexEntry) {
    e.item.Some? && e.port.Some?
    && e.item.value.props.nodeName == Some(GUITAR_NODE) && e.port.value.props.portName == Some(GUITAR_PORT)
  }

  /** The `find` over `Object.entries(dump.links.forward)`; each entry reads
      its node's name and then its port's name before comparing. */
  function GuitarEntry(forward: LinkIndex): (r: Result<Option<IndexEntry>, string>)
    ensures r.Success? && r.value.Some? ==>
              IsGuitarEntry(r.value.value) && exists i | 0 <= i < |forward| :: forward[i].1 == r.value.value
    ensures r == Success(None) <==> forall i | 0 <= i < |forward| ::
                                       forward[i].1.item.Some? && forward[i].1.port.Some? && !IsGuitarEntry(forward[i].1)
    ensures r.Failure? ==> exists i | 0 <= i < |forward| :: forward[i].1.item.None? || forward[i].1.port.None?
  {
    if |forward| == 0 then Success(None)
    else
      var e := forward[0].1;
      if e.item.None? || e.port.None? then Failure(TYPE_ERROR)
      else if IsGuitarEntry(e) then Success(Some(e))
      else
        var r := GuitarEntry(forward[1..]);
        assert forall i | 1 <= i < |forward| :: forward[i] == forward[1..][i - 1];
        r
  }

  /** A far end whose node's name mentions "Amp". */
  predicate IsAmpEnd(end: LinkEnd) {
    end.node.Some? && end.node.value.props.nodeName.Some? && Includes(end.node.value.props.nodeName.value, "Amp")
  }

  /** `links.filter(l => l[0].info?.props?.["node.name"]?.includes("Amp"))`;
      a far end without a node object throws. */
  function AmpLinks(ends: seq<LinkEnd>): (r: Result<seq<LinkEnd>, string>)
    ensures r.Failure? <==> exists i | 0 <= i < |ends| :: ends[i].node.None?
    ensures r.Success? ==> forall k | 0 <= k < |r.value| :: IsAmpEnd(r.value[k]) && r.value[k] in ends
    ensures r.Success? ==> forall i | 0 <= i < |ends| :: IsAmpEnd(ends[i]) ==> ends[i] in r.value
    ensures r.Success? ==> |r.value| <= |ends|
  {
    if |ends| == 0 then Success([])
    else if ends[0].node.None? then Failure(TYPE_ERROR)
    else
      var rest := AmpLinks(ends[1..]);
      assert forall i | 1 <= i < |ends| :: ends[i] == ends[1..][i - 1];
      if rest.Failure? then rest
      else if IsAmpEnd(ends[0]) then
        var r := [ends[0]] + rest.value;
        assert forall k | 1 <= k < |r| :: r[k] == rest.value[k - 1];
        Success(r)
      else rest
  }

  /** The guitar input as a `pw-link` endpoint. */
  const GUITAR: NodeAndPort := NodeAndPort(GUITAR_NODE, GUITAR_PORT)

  /** `swapAmps` on the forward index: the commands it runs, in order, or
      the TypeError it throws. */
  function SwapAmps(forward: LinkIndex): (r: Result<seq<string>, string>)
    ensures GuitarEntry(forward) == Success(None) ==> r == Success([])
    ensures r.Success? && r.value != [] ==>
      GuitarEntry(forward).Success? && GuitarEntry(forward).value.Some?
      && var e := GuitarEntry(forward).value.value;
      AmpLinks(e.links).Success?
      && var amps := AmpLinks(e.links).value;
      |amps| == 1 && amps[0].port.Some? && amps[0].port.value.props.portName.Some?
      && var name := amps[0].node.value.props.nodeName.value;
         var port := amps[0].port.value.props.portName.value;
         r.value == [DestroyCommand(GUITAR, NodeAndPort(name, port)),
                     CreateCommand(GUITAR, NodeAndPort(NextAmp(name), AMP_INPUT))]
    ensures GuitarEntry(forward).Success? && GuitarEntry(forward).value.Some? ==>
      var e := GuitarEntry(forward).value.value;
      AmpLinks(e.links).Success? && |AmpLinks(e.links).value| != 1 ==> r == Success([])
    ensures GuitarEntry(forward).Success? && GuitarEntry(forward).value.Some? ==>
      var e := GuitarEntry(forward).value.value;
      AmpLinks(e.links).Success? && |AmpLinks(e.links).value| == 1 ==>
      var amp := AmpLinks(e.links).value[0];
      amp.port.Some? ==>
        if amp.port.value.props.portName.None? then r == Success([])
        else r == Success([DestroyCommand(GUITAR, NodeAndPort(amp.node.value.props.nodeName.value, amp.port.value.props.portName.value)),
                           CreateCommand(GUITAR, NodeAndPort(NextAmp(amp.node.value.props.nodeName.value), AMP_INPUT))])
    ensures r.Failure? <==>
      GuitarEntry(forward).Failure?
      || (GuitarEntry(forward).value.Some?
          && var e := GuitarEntry(forward).value.value;
          (AmpLinks(e.links).Failure?
           || (|AmpLinks(e.links).value| == 1 && AmpLinks(e.links).value[0].port.None?)))
  {
    var found :- GuitarEntry(forward);
    match found
    case None => Success([])
    case Some(e) =>
      var amps :- AmpLinks(e.links);
      if |amps| != 1 then Success([])
      else
        var current := amps[0];
        var name := current.node.value.props.nodeName;
        var port :- PortNameOf(current.port);
        if name.None? || port.None? then Success([])
        else Success([DestroyCommand(GUITAR, NodeAndPort(name.value, port.value)),
                      CreateCommand(GUITAR, NodeAndPort(NextAmp(name.value), AMP_INPUT))])
  }

  /** With the guitar linked to the clean amp alone, the swap moves it to
      the metal amp's input, deleting the old link first. */
  lemma CleanSwapsToMetal(forward: LinkIndex, e: IndexEntry, amp: Item, ampPort: Item)
    requires GuitarEntry(forward) == Success(Some(e))
    requires e.links == [LinkEnd(Some(amp), Some(ampPort))]
    requires amp.props.nodeName == Some(CLEAN_AMP) && ampPort.props.portName.Some?
    ensures SwapAmps(forward) == Success([
      DestroyCommand(GUITAR, NodeAndPort(CLEAN_AMP, ampPort.props.portName.value)),
      CreateCommand(GUITAR, NodeAndPort(METAL_AMP, AMP_INPUT))])
  {
    assert OccursAt(CLEAN_AMP, "Amp", 6);
    assert IsAmpEnd(e.links[0]);
  }
}

=== FILE: watch_hotplug.dfy ===
/** The headphone hotplug watcher of `src/commands/watch.ts`: every
    `pw-dump` frame updates the graph and (re)starts a 500 ms timer; when it
    fires, the equaliser is linked to the headphones if they have just
    appeared. The timer and the stream become events; the commands and the
    timer operations become effects. */
module WatchHotplug {
  import opened Wrappers
  import opened Graph
  import opened GraphLinks
  import opened Errors
  import opened JsString

  const UPDATE_HOOK_TIMEOUT_MS: nat := 500
  const QC35_NAME: string := "Bose QuietComfort 35"
  const QC35_EQ_NAME: string := "LSP Parametric EQ x16 Stereo (QC35)"
  const QC35_EQ_L: NodeAndPort := NodeAndPort(QC35_EQ_NAME, "Output L")
  const QC35_EQ_R: NodeAndPort := NodeAndPort(QC35_EQ_NAME, "Output R")
  const QC35_L: NodeAndPort := NodeAndPort(QC35_NAME, "playback_FL")
  const QC35_R: NodeAndPort := NodeAndPort(QC35_NAME, "playback_FR")

  /** The headphones: a node whose description (not its name) is the
      headphones' name. */
  predicate IsQC35(it: Item) {
    it.itemType == NodeType && it.props.nodeDescription == Some(QC35_NAME)
  }

  /** `Object.values(dump.items).some(...)`. */
  function HasQC35(items: seq<Item>): (r: bool)
    ensures r <==> exists i | 0 <= i < |items| :: IsQC35(items[i])
  {
    if |items| == 0 then false
    else
      var r := IsQC35(items[0]) || HasQC35(items[1..]);
      assert forall i | 1 <= i < |items| :: items[i] == items[1..][i - 1];
      r
  }

  datatype WatchState = WatchState(dump: Dump, prevHadQC35: bool, timerPending: bool)

  const INITIAL_STATE: WatchState := WatchState(EMPTY_DUMP, false, false)

  /** A frame from `pw-dump` (already parsed, `None` if it does not parse),
      or the expiry of the update timer. */
  datatype WatchEvent = DataArrived(parsed: Option<seq<Item>>) | HookTimerFired

  datatype WatchEffect =
    | ArmTimer(delayMs: nat)
    | RefreshTimer
    | RunCommand(command: string)
      /** The `catch` of the two links rethrew: an unhandled rejection. */
    | UnhandledRejection(message: string)
      /** `updateDump` threw inside the stream listener. */
    | HandlerThrew(message: string)

  datatype WatchStep = WatchStep(state: WatchState, effects: seq<WatchEffect>)

  /** The command an `ensureLink` runs, if any. */
  function CommandOf(r: Result<Option<string>, string>): (e: seq<WatchEffect>)
    ensures |e| <= 1
    ensures e != [] <==> r.Success? && r.value.Some?
  {
    if r.Success? && r.value.Some? then [RunCommand(r.value.value)] else []
  }

  /** `Promise.all([ensureLink(L), ensureLink(R)]).catch(...)`: both
      decisions are taken on the same graph before anything runs. A thrown
      TypeError rejects at once, the left one first, and the `catch` rethrows
      any `Error` that is not "link exists". A failing `pw-link` rejects with
      a plain object, which the `catch` drops; that happens outside the model. */
  function PassEffects(dump: Dump): (e: seq<WatchEffect>)
    ensures var l := EnsureLink(QC35_EQ_L, QC35_L, dump);
      var r := EnsureLink(QC35_EQ_R, QC35_R, dump);
      (l.Success? && r.Success? ==> e == CommandOf(l) + CommandOf(r))
      && (l.Failure? || r.Failure? ==> e == CommandOf(l) + CommandOf(r) + [UnhandledRejection(ID_OF_UNDEFINED)])
  {
    var l := EnsureLink(QC35_EQ_L, QC35_L, dump);
    var r := EnsureLink(QC35_EQ_R, QC35_R, dump);
    var commands := CommandOf(l) + CommandOf(r);
    if l.Failure? || r.Failure? then
      var message := if l.Failure? then l.error else r.error;
      TypeErrorRethrown(message);
      commands + (if WatchLinkError(ErrorValue(message)) == Rethrown then [UnhandledRejection(message)] else [])
    else commands
  }

  /** The only error `ensureLink` throws is the TypeError of a missing node
      object, which the `catch` rethrows. */
  lemma TypeErrorRethrown(message: string)
    requires message == ID_OF_UNDEFINED
    ensures WatchLinkError(ErrorValue(message)) == Rethrown
  {
    assert 'k' !in "Cannot read " && 'k' !in "properties " && 'k' !in "of undefined " && 'k' !in "(reading 'id')";
    assert 'k' !in message;
    assert LINK_EXISTS[13] == "failed to link ports: File exists"[13] == 'k';
    forall k | 0 <= k <= |message| - |LINK_EXISTS| ensures !OccursAt(message, LINK_EXISTS, k) {
      assert message[k..k + |LINK_EXISTS|][13] == message[k + 13];
      assert message[k + 13] in message;
    }
  }

  /** One event. A frame updates the graph; if that throws, the listener
      throws and nothing else happens. Otherwise the pending timer is
      refreshed, or a new one armed. When the timer fires, the links are
      ensured only if the headphones were absent at the last pass and are
      present now; then the presence is remembered and the timer cleared. */
  function Step(s: WatchState, ev: WatchEvent): (o: WatchStep)
    requires Ascending(s.dump.items)
    ensures Ascending(o.state.dump.items)
    ensures ev.DataArrived? ==> o.state.prevHadQC35 == s.prevHadQC35
    ensures ev.DataArrived? && s.timerPending ==> o.state.timerPending && ArmCount(o.effects) == 0
    ensures ev.DataArrived? ==>
              ArmCount(o.effects) <= 1 && (o.state.timerPending <==> s.timerPending || ArmCount(o.effects) == 1)
    ensures ev.HookTimerFired? && s.timerPending ==>
      o.state == WatchState(s.dump, HasQC35(s.dump.items), false)
    ensures ev.HookTimerFired? ==>
      (o.effects != [] ==> s.timerPending && !s.prevHadQC35 && HasQC35(s.dump.items))
    ensures ev.HookTimerFired? && s.timerPending && !s.prevHadQC35 && HasQC35(s.dump.items) ==>
      o.effects == PassEffects(s.dump)
  {
    match ev
    case DataArrived(parsed) =>
      var u := UpdateDump(s.dump, parsed);
      var updated := s.(dump := u.dump);
      if u.error.Some? then WatchStep(updated, [HandlerThrew(u.error.value)])
      else if s.timerPending then WatchStep(updated, [RefreshTimer])
      else WatchStep(updated.(timerPending := true), [ArmTimer(UPDATE_HOOK_TIMEOUT_MS)])
    case HookTimerFired =>
      if !s.timerPending then WatchStep(s, [])
      else
        var has := HasQC35(s.dump.items);
        var effects := if !s.prevHadQC35 && has then PassEffects(s.dump) else [];
        WatchStep(s.(prevHadQC35 := has, timerPending := false), effects)
  }

  function ArmCount(effects: seq<WatchEffect>): nat {
    if |effects| == 0 then 0
    else (if effects[0].ArmTimer? then 1 else 0) + ArmCount(effects[1..])
  }

  lemma ArmCountAppend(a: seq<WatchEffect>, b: seq<WatchEffect>)
    ensures ArmCount(a + b) == ArmCount(a) + ArmCount(b)
  {
    if |a| > 0 {
      assert (a + b)[1..] == a[1..] + b;
    } else {
      assert a + b == b;
    }
  }

  /** A burst of frames with no timer expiry in between. A frame whose
      update throws ends the burst: the framing loop catches the throw,
      keeps that frame at the head of its buffer and pushes it again with
      every later chunk, where it throws again, so no later frame reaches
      the listener although the process keeps running. */
  function Burst(s: WatchState, frames: seq<Option<seq<Item>>>): (o: WatchStep)
    requires Ascending(s.dump.items)
    ensures Ascending(o.state.dump.items)
    ensures o.state.prevHadQC35 == s.prevHadQC35
    decreases |frames|
  {
    if |frames| == 0 then WatchStep(s, [])
    else
      var first := Step(s, DataArrived(frames[0]));
      if first.effects != [] && first.effects[0].HandlerThrew? then first
      else
        var rest := Burst(first.state, frames[1..]);
        WatchStep(rest.state, first.effects + rest.effects)
  }

  /** However many frames a burst holds, it arms at most one timer, and a
      pending timer is never doubled: a burst gives one pass. */
  lemma {:induction false} BurstArmsAtMostOnce(s: WatchState, frames: seq<Option<seq<Item>>>)
    requires Ascending(s.dump.items)
    ensures var o := Burst(s, frames);
      ArmCount(o.effects) + (if s.timerPending then 1 else 0) <= 1
      && (o.state.timerPending <==> s.timerPending || ArmCount(o.effects) == 1)
    decreases |frames|
  {
    if |frames| > 0 {
      var first := Step(s, DataArrived(frames[0]));
      if !(first.effects != [] && first.effects[0].HandlerThrew?) {
        BurstArmsAtMostOnce(first.state, frames[1..]);
        var rest := Burst(first.state, frames[1..]);
        ArmCountAppend(first.effects, rest.effects);
      }
    }
  }

  /** Two passes over the same graph: the second one issues nothing, as the
      presence it compares against is the one the first pass stored. */
  lemma SteadyGraphIsQuiet(s: WatchState)
    requires Ascending(s.dump.items) && s.timerPending
    ensures var first := Step(s, HookTimerFired).state;
      Step(first.(timerPending := true), HookTimerFired).effects == []
  {
  }

  /** The links are ensured exactly on an absent-to-present transition. */
  lemma LinksOnArrivalOnly(s: WatchState)
    requires Ascending(s.dump.items) && s.timerPending
    requires EnsureLink(QC35_EQ_L, QC35_L, s.dump).Success? && EnsureLink(QC35_EQ_R, QC35_R, s.dump).Success?
    requires FindLinkPair(QC35_EQ_L, QC35_L, s.dump.items).Some?
    requires var p := FindLinkPair(QC35_EQ_L, QC35_L, s.dump.items).value;
      IndexGet(s.dump.links.forward, PortKey(p.srcNode.id, p.srcPort.id)).None?
    ensures Step(s, HookTimerFired).effects != [] <==> !s.prevHadQC35 && HasQC35(s.dump.items)
  {
    if !s.prevHadQC35 && HasQC35(s.dump.items) {
      assert CommandOf(EnsureLink(QC35_EQ_L, QC35_L, s.dump)) != [];
    }
  }
}

=== FILE: watch_midi.dfy ===
/** The controller watcher of `src/commands/watch_midi.ts`: range buttons
    step through their dial ranges, command buttons run their command,
    unbound buttons with LEDs step through their colours, and passthrough
    dials are forwarded to midish, selecting the output channel only when it
    changes. The event stream, the shell and midish become effects; the
    floating-point dial scaling is the parameter `scale`. */
module WatchMidi {
  import opened Wrappers
  import opened JsNum
  import opened JsString
  import opened MidiCodec
  import opened Devices
  import opened LegacyConfig
  import opened Leds
  import opened Midish
  import Seqs

  const RANGE_STATE_MISSING: string := "TypeError: rangeStates[dial] is undefined"
  const MODE_MISSING: string := "TypeError: modes[0] is undefined"
  const NEW_MODE_MISSING: string := "TypeError: modes[newIdx] is undefined"

  /** `(kind << 4) | channel`. */
  function StatusByte(kind: int, channel: int): (b: int)
    ensures 0 <= kind < 16 && 0 <= channel < 16 ==> b == 16 * kind + channel
  {
    if 0 <= kind < 16 && 0 <= channel < 16 then
      StatusByteValue(kind, channel);
      Or(Int(ShiftLeft4(Int(kind))), Int(channel))
    else
      Or(Int(ShiftLeft4(Int(kind))), Int(channel))
  }

  // ---------------------------------------------------------------------
  // LED triplets.

  /** `setRangeLed`: the triplet that shows a range mode's colour. Unlike
      `buttonLEDBytes` it carries the note-off status. */
  function SetRangeLed(button: Button, mode: DialRange, channel: int, note: int): (r: Option<ByteTriplet>)
    ensures r.None? <==> button.ledStates.None? || LedCode(button.ledStates.value, mode.color).None?
    ensures r.Some? ==> r.value.b2 == note && r.value.b3 == LedCode(button.ledStates.value, mode.color).value
    ensures r.Some? && 0 <= channel < 16 ==> r.value.b1 == 0x80 + channel
  {
    match button.ledStates
    case None => None
    case Some(states) =>
      match LedCode(states, mode.color)
      case None => None
      case Some(code) => Some(ByteTriplet(StatusByte(8, channel), note, code))
  }

  /** `setRangeLed` and `buttonLEDBytes` agree on when a colour can be shown
      and on the note and velocity; their status bytes differ in the kind
      nibble alone, note-off against note-on. */
  lemma SetRangeLedIsNoteOff(button: Button, mode: DialRange, channel: int, note: int)
    requires 0 <= channel < 16
    ensures SetRangeLed(button, mode, channel, note).Some? <==> ButtonLedBytes(button, mode.color, channel, note).Some?
    ensures SetRangeLed(button, mode, channel, note).Some? ==>
      var off := SetRangeLed(button, mode, channel, note).value;
      var on := ButtonLedBytes(button, mode.color, channel, note).value;
      off.b2 == on.b2 && off.b3 == on.b3 && off.b1 == on.b1 - 0x10
  {
  }

  /** The controller reads a range LED triplet back as a note-off on the
      button's key whose velocity is the colour's code. */
  lemma SetRangeLedDecodes(prevStatus: Num, button: Button, mode: DialRange, channel: int, note: int)
    requires 0 <= channel < 16 && IsByte(note)
    requires SetRangeLed(button, mode, channel, note).Some? && IsByte(SetRangeLed(button, mode, channel, note).value.b3)
    ensures var t := SetRangeLed(button, mode, channel, note).value;
      DecodeLine(prevStatus, TripletHex(t)) == Decoded(Some(NoteOffEvent(channel, Int(note), Int(t.b3))), Int(0x80 + channel))
  {
    var t := SetRangeLed(button, mode, channel, note).value;
    assert t.b1 / 16 == 8 && t.b1 % 16 == channel;
    DecodeEncodedTriplet(prevStatus, t);
  }

  /** The start-up LED of one range binding: its first mode's colour on its
      button. With no modes, `mode` is undefined and reading its colour
      throws, which happens only when the button has LED states. */
  function RangeLedFor(labelName: string, binding: Binding, device: Device): (r: Result<Option<ByteTriplet>, string>)
    ensures r.Failure? ==> binding.RangeBinding? && |binding.modes| == 0
    ensures r.Success? && r.value.Some? ==>
      binding.RangeBinding? && |binding.modes| > 0 && ButtonByLabel(device.buttons, labelName).Some?
      && var (key, button) := ButtonByLabel(device.buttons, labelName).value;
         r.value == SetRangeLed(button, binding.modes[0], key.channel, key.note)
  {
    if !binding.RangeBinding? then Success(None)
    else match ButtonByLabel(device.buttons, labelName)
      case None => Success(None)
      case Some((key, button)) =>
        if |binding.modes| == 0 then
          if button.ledStates.Some? then Failure(MODE_MISSING) else Success(None)
        else Success(SetRangeLed(button, binding.modes[0], key.channel, key.note))
  }

  /** The start-up LED of every binding, in binding order. */
  function RangeLedList(bindings: Bindings, device: Device): (r: seq<Result<Option<ByteTriplet>, string>>)
    ensures |r| == |bindings| && forall i | 0 <= i < |bindings| :: r[i] == RangeLedFor(bindings[i].0, bindings[i].1, device)
  {
    seq(|bindings|, i requires 0 <= i < |bindings| => RangeLedFor(bindings[i].0, bindings[i].1, device))
  }

  /** The triplets of `RangeLedList`, with a failed entry read as none. */
  function RangeLedValues(bindings: Bindings, device: Device): (r: seq<Option<ByteTriplet>>)
    ensures |r| == |bindings|
    ensures forall i | 0 <= i < |bindings| ::
      r[i] == if RangeLedFor(bindings[i].0, bindings[i].1, device).Success? then RangeLedFor(bindings[i].0, bindings[i].1, device).value else None
  {
    var results := RangeLedList(bindings, device);
    seq(|results|, i requires 0 <= i < |results| => if results[i].Success? then results[i].value else None)
  }

  /** The first start-up batch: the range LEDs, in binding order. Every
      entry is built before the batch is filtered, so one that throws
      aborts the batch. */
  function RangeLeds(bindings: Bindings, device: Device): (r: Result<seq<ByteTriplet>, string>)
    ensures r.Failure? <==> exists i | 0 <= i < |bindings| :: RangeLedFor(bindings[i].0, bindings[i].1, device).Failure?
    ensures r.Success? ==> r.value == Defined(RangeLedValues(bindings, device))
    ensures r.Success? ==> forall t | t in r.value ::
      exists i | 0 <= i < |bindings| :: RangeLedFor(bindings[i].0, bindings[i].1, device) == Success(Some(t))
    ensures r.Success? ==> forall i | 0 <= i < |bindings| ::
      (RangeLedFor(bindings[i].0, bindings[i].1, device).Success? && RangeLedFor(bindings[i].0, bindings[i].1, device).value.Some?
       ==> RangeLedFor(bindings[i].0, bindings[i].1, device).value.value in r.value)
  {
    var results := RangeLedList(bindings, device);
    if exists i | 0 <= i < |results| :: results[i].Failure? then Failure(MODE_MISSING)
    else
      var values := RangeLedValues(bindings, device);
      assert forall i | 0 <= i < |results| :: results[i] == Success(values[i]);
      Success(Defined(values))
  }

  /** One binding's batch is its own LED, if it has one. */
  lemma RangeLedsOne(labelName: string, binding: Binding, device: Device)
    ensures var one := RangeLedFor(labelName, binding, device);
      RangeLeds([(labelName, binding)], device)
        == if one.Failure? then Failure(MODE_MISSING)
           else if one.value.Some? then Success([one.value.value]) else Success([])
  {
    var one := RangeLedFor(labelName, binding, device);
    var bs := [(labelName, binding)];
    assert bs[0] == (labelName, binding);
    if one.Failure? {
      assert RangeLedFor(bs[0].0, bs[0].1, device).Failure?;
    }
  }

  /** The range batch keeps binding order: two runs of bindings give their
      batches one after the other, and the whole fails iff either part does. */
  lemma RangeLedsAppend(a: Bindings, b: Bindings, device: Device)
    ensures RangeLeds(a + b, device).Failure? <==> RangeLeds(a, device).Failure? || RangeLeds(b, device).Failure?
    ensures RangeLeds(a, device).Success? && RangeLeds(b, device).Success? ==>
      RangeLeds(a + b, device) == Success(RangeLeds(a, device).value + RangeLeds(b, device).value)
  {
    RangeLedListAppend(a, b, device);
    var ra, rb := RangeLedList(a, device), RangeLedList(b, device);
    assert RangeLeds(a, device).Failure? <==> exists i | 0 <= i < |ra| :: ra[i].Failure?;
    assert RangeLeds(b, device).Failure? <==> exists i | 0 <= i < |rb| :: rb[i].Failure?;
    assert RangeLeds(a + b, device).Failure? <==> exists i | 0 <= i < |ra + rb| :: (ra + rb)[i].Failure?;
    Seqs.ExistsAppend(ra, rb, (r: Result<Option<ByteTriplet>, string>) => r.Failure?);
    if RangeLeds(a, device).Success? && RangeLeds(b, device).Success? {
      DefinedAppend(RangeLedValues(a, device), RangeLedValues(b, device));
    }
  }

  /** The per-binding LEDs, and their values, of two runs of bindings are
      theirs one after the other. */
  lemma RangeLedListAppend(a: Bindings, b: Bindings, device: Device)
    ensures RangeLedList(a + b, device) == RangeLedList(a, device) + RangeLedList(b, device)
    ensures RangeLedValues(a + b, device) == RangeLedValues(a, device) + RangeLedValues(b, device)
  {
    var ab := a + b;
    assert forall i | 0 <= i < |ab| :: ab[i] == if i < |a| then a[i] else b[i - |a|];
  }

  /** The start-up LED of one command binding: the button's `ON` code, sent
      with the note-off status. */
  function CommandLedFor(labelName: string, binding: Binding, device: Device): (r: Option<ByteTriplet>)
    ensures r.Some? ==> binding.CommandBinding? && ButtonByLabel(device.buttons, labelName).Some?
  {
    if !binding.CommandBinding? then None
    else match ButtonByLabel(device.buttons, labelName)
      case None => None
      case Some((key, button)) =>
        if button.ledStates.None? then None
        else match LedCode(button.ledStates.value, "ON")
          case None => None
          case Some(code) => Some(ByteTriplet(StatusByte(8, key.channel), key.note, code))
  }

  /** The start-up LED of every command binding, in binding order. */
  function CommandLedList(bindings: Bindings, device: Device): (r: seq<Option<ByteTriplet>>)
    ensures |r| == |bindings| && forall i | 0 <= i < |bindings| :: r[i] == CommandLedFor(bindings[i].0, bindings[i].1, device)
  {
    seq(|bindings|, i requires 0 <= i < |bindings| => CommandLedFor(bindings[i].0, bindings[i].1, device))
  }

  /** The second start-up batch: the command LEDs, in binding order. */
  function CommandLeds(bindings: Bindings, device: Device): (r: seq<ByteTriplet>)
    ensures |r| <= |bindings|
    ensures forall t | t in r :: exists i | 0 <= i < |bindings| :: CommandLedFor(bindings[i].0, bindings[i].1, device) == Some(t)
    ensures forall i | 0 <= i < |bindings| ::
      (CommandLedFor(bindings[i].0, bindings[i].1, device).Some? ==> CommandLedFor(bindings[i].0, bindings[i].1, device).value in r)
  {
    Defined(CommandLedList(bindings, device))
  }

  /** One binding's batch is its own LED, if it has one. */
  lemma CommandLedsOne(labelName: string, binding: Binding, device: Device)
    ensures var one := CommandLedFor(labelName, binding, device);
      CommandLeds([(labelName, binding)], device) == if one.Some? then [one.value] else []
  {
    assert CommandLedList([(labelName, binding)], device) == [CommandLedFor(labelName, binding, device)];
  }

  /** The command batch keeps binding order: two runs of bindings give
      their batches one after the other. */
  lemma CommandLedsAppend(a: Bindings, b: Bindings, device: Device)
    ensures CommandLeds(a + b, device) == CommandLeds(a, device) + CommandLeds(b, device)
  {
    var ab := a + b;
    assert forall i | 0 <= i < |ab| :: ab[i] == if i < |a| then a[i] else b[i - |a|];
    assert CommandLedList(ab, device) == CommandLedList(a, device) + CommandLedList(b, device);
    DefinedAppend(CommandLedList(a, device), CommandLedList(b, device));
  }

  /** This watcher lights the same command buttons as the daemon's default
      LED states, with the same code, but with the note-off status where
      those use note-on. */
  lemma CommandLedIsNoteOffOfDefault(labelName: string, command: string, device: Device)
    requires ButtonByLabel(device.buttons, labelName).Some?
    requires 0 <= ButtonByLabel(device.buttons, labelName).value.0.channel < 16
    ensures var mine := CommandLedFor(labelName, CommandBinding(command), device);
      var theirs := LedForBinding(labelName, CommandBinding(command), device);
      theirs.Success? && (mine.Some? <==> theirs.value.Some?)
      && (mine.Some? ==>
            mine.value.b2 == theirs.value.value.b2 && mine.value.b3 == theirs.value.value.b3
            && mine.value.b1 == theirs.value.value.b1 - 0x10)
  {
    var (key, button) := ButtonByLabel(device.buttons, labelName).value;
    StatusByteValue(9, key.channel);
    if button.ledStates.None? {
      assert LedCode([], "ON").None?;
    }
  }

  // ---------------------------------------------------------------------
  // Range modes.

  /** The mode a range dial is in: its current range and the mode index. */
  datatype RangeState = RangeState(range: Range, idx: int)

  type RangeStates = map<string, RangeState>

  /** The modes of the last range binding for `dial`, the one
      `Object.fromEntries` keeps. */
  function LastRangeModes(bindings: Bindings, dial: string): (r: Option<seq<DialRange>>)
    ensures r.Some? ==> exists i | 0 <= i < |bindings| :: bindings[i].1 == RangeBinding(dial, r.value)
    ensures r.None? <==> forall i | 0 <= i < |bindings| :: !(bindings[i].1.RangeBinding? && bindings[i].1.dial == dial)
  {
    if |bindings| == 0 then None
    else
      var n := |bindings| - 1;
      var b := bindings[n].1;
      if b.RangeBinding? && b.dial == dial then Some(b.modes)
      else
        var r := LastRangeModes(bindings[..n], dial);
        assert forall i | 0 <= i < n :: bindings[..n][i] == bindings[i];
        r
  }

  /** `rangeStates`: every range dial at mode 0 of its last binding. Reading
      the first mode of a binding without modes throws. */
  function InitRangeStates(bindings: Bindings): (r: Result<RangeStates, string>)
    ensures r.Failure? <==> exists i | 0 <= i < |bindings| :: bindings[i].1.RangeBinding? && |bindings[i].1.modes| == 0
    ensures r.Success? ==> forall d ::
      (d in r.value <==> LastRangeModes(bindings, d).Some?)
      && (d in r.value ==> r.value[d] == RangeState(LastRangeModes(bindings, d).value[0].range, 0))
  {
    if |bindings| == 0 then Success(map[])
    else
      var n := |bindings| - 1;
      var b := bindings[n].1;
      var prev := InitRangeStates(bindings[..n]);
      assert forall i | 0 <= i < n :: bindings[..n][i] == bindings[i];
      if prev.Failure? then prev
      else if !b.RangeBinding? then prev
      else if |b.modes| == 0 then Failure(MODE_MISSING)
      else Success(prev.value[b.dial := RangeState(b.modes[0].range, 0)])
  }

  /** Every range binding has modes. */
  predicate ModesPresent(bindings: Bindings) {
    forall i | 0 <= i < |bindings| :: bindings[i].1.RangeBinding? ==> |bindings[i].1.modes| > 0
  }

  /** A press on a range button: `(idx + 1) % modes.length` and that mode's
      range. A dial without a state, or a mode index that does not select a
      mode, makes the property read throw. */
  function RangePress(rs: RangeStates, dial: string, modes: seq<DialRange>): (r: Result<RangeStates, string>)
    ensures dial !in rs || |modes| == 0 ==> r.Failure?
    ensures dial in rs && |modes| > 0 && 0 <= rs[dial].idx < |modes| ==>
      var i := rs[dial].idx;
      var next := if i + 1 < |modes| then i + 1 else 0;
      r == Success(rs[dial := RangeState(modes[next].range, next)])
    ensures dial in rs && |modes| > 0 && rs[dial].idx >= 0 ==> r.Success?
    ensures r.Success? ==>
      (r.value.Keys == rs.Keys && 0 <= r.value[dial].idx < |modes|
       && r.value[dial].range == modes[r.value[dial].idx].range
       && forall d | d in rs && d != dial :: r.value[d] == rs[d])
  {
    if dial !in rs then Failure(RANGE_STATE_MISSING)
    else
      var n := Rem(Int(rs[dial].idx + 1), |modes|);
      NextIndex(rs[dial].idx, |modes|);
      if n.Int? && 0 <= n.v < |modes| then
        Reassign(rs, dial, RangeState(modes[n.v].range, n.v));
        Success(rs[dial := RangeState(modes[n.v].range, n.v)])
      else Failure(NEW_MODE_MISSING)
  }

  /** Setting one present key keeps the key set and every other entry. */
  lemma Reassign<K, V>(m: map<K, V>, k: K, v: V)
    requires k in m
    ensures m[k := v].Keys == m.Keys && m[k := v][k] == v
    ensures forall d | d in m && d != k :: m[k := v][d] == m[d]
  {
  }

  /** `k` presses of the same range button. */
  function PressRange(rs: RangeStates, dial: string, modes: seq<DialRange>, k: nat): Result<RangeStates, string> {
    if k == 0 then Success(rs)
    else
      var m :- PressRange(rs, dial, modes, k - 1);
      RangePress(m, dial, modes)
  }

  /** From the first mode, the `k`-th press selects mode `k`. */
  lemma {:induction false} RangePressesCount(rs: RangeStates, dial: string, modes: seq<DialRange>, k: nat)
    requires 0 < |modes| && k < |modes|
    requires dial in rs && rs[dial] == RangeState(modes[0].range, 0)
    ensures PressRange(rs, dial, modes, k) == Success(rs[dial := RangeState(modes[k].range, k)])
  {
    if k > 0 {
      RangePressesCount(rs, dial, modes, k - 1);
      var m := rs[dial := RangeState(modes[k - 1].range, k - 1)];
      PressRangeStep(rs, dial, modes, k, m);
      assert RangePress(m, dial, modes) == Success(m[dial := RangeState(modes[k].range, k)]);
      assert m[dial := RangeState(modes[k].range, k)] == rs[dial := RangeState(modes[k].range, k)];
    } else {
      assert rs[dial := RangeState(modes[0].range, 0)] == rs;
    }
  }

  /** As many presses as there are modes bring the dial back to the first
      one. */
  lemma RangePressesWrap(rs: RangeStates, dial: string, modes: seq<DialRange>)
    requires 0 < |modes|
    requires dial in rs && rs[dial] == RangeState(modes[0].range, 0)
    ensures PressRange(rs, dial, modes, |modes|) == Success(rs)
  {
    var n := |modes|;
    var m := rs[dial := RangeState(modes[n - 1].range, n - 1)];
    PressesToLast(rs, dial, modes);
    PressRangeStep(rs, dial, modes, n, m);
    LastPressRestores(rs, dial, modes);
  }

  /** From the first mode, one press fewer than there are modes reaches the
      last mode. */
  lemma PressesToLast(rs: RangeStates, dial: string, modes: seq<DialRange>)
    requires 0 < |modes|
    requires dial in rs && rs[dial] == RangeState(modes[0].range, 0)
    ensures PressRange(rs, dial, modes, |modes| - 1) == Success(rs[dial := RangeState(modes[|modes| - 1].range, |modes| - 1)])
  {
    RangePressesCount(rs, dial, modes, |modes| - 1);
  }

  /** From the last mode, a press restores the states the presses started
      from. */
  lemma LastPressRestores(rs: RangeStates, dial: string, modes: seq<DialRange>)
    requires 0 < |modes|
    requires dial in rs && rs[dial] == RangeState(modes[0].range, 0)
    ensures RangePress(rs[dial := RangeState(modes[|modes| - 1].range, |modes| - 1)], dial, modes) == Success(rs)
  {
    var m := rs[dial := RangeState(modes[|modes| - 1].range, |modes| - 1)];
    LastPressWraps(m, dial, modes);
    RestoreEntry(rs, dial, RangeState(modes[|modes| - 1].range, |modes| - 1));
  }

  /** One more press acts on the states the earlier presses left. */
  lemma PressRangeStep(rs: RangeStates, dial: string, modes: seq<DialRange>, k: nat, m: RangeStates)
    requires k > 0 && PressRange(rs, dial, modes, k - 1) == Success(m)
    ensures PressRange(rs, dial, modes, k) == RangePress(m, dial, modes)
  {
  }

  /** Overwriting an entry and then writing its old value back gives the
      map back. */
  lemma RestoreEntry(rs: RangeStates, dial: string, v: RangeState)
    requires dial in rs
    ensures rs[dial := v][dial := rs[dial]] == rs
  {
  }

  lemma LastPressWraps(m: RangeStates, dial: string, modes: seq<DialRange>)
    requires 0 < |modes| && dial in m && m[dial].idx == |modes| - 1
    ensures RangePress(m, dial, modes) == Success(m[dial := RangeState(modes[0].range, 0)])
  {
  }

  // ---------------------------------------------------------------------
  // LED colours of unbound buttons.

  /** The state names without "FLASHING", in table order. */
  function NonFlashing(states: LedStates): (r: seq<string>)
    ensures |r| <= |states|
    ensures forall k | 0 <= k < |r| :: !Includes(r[k], "FLASHING") && exists i | 0 <= i < |states| :: states[i].0 == r[k]
    ensures forall i | 0 <= i < |states| :: !Includes(states[i].0, "FLASHING") ==> states[i].0 in r
  {
    if |states| == 0 then []
    else
      var rest := NonFlashing(states[1..]);
      assert forall i | 1 <= i < |states| :: states[i] == states[1..][i - 1];
      if Includes(states[0].0, "FLASHING") then rest
      else
        var r := [states[0].0] + rest;
        assert forall k | 1 <= k < |r| :: r[k] == rest[k - 1];
        r
  }

  /** `!buttonStates[key]`: no state yet, zero or NaN. */
  predicate Falsy(v: Option<Num>) {
    v.None? || v == Some(Int(0)) || v == Some(NaN)
  }

  /** The state after a press of an unbound button with `count` colours. */
  function NextButtonState(prev: Option<Num>, count: nat): (r: Num)
    ensures Falsy(prev) ==> r == Int(1)
    ensures count >= 2 && prev.Some? && prev.value.Int? && 0 <= prev.value.v < count ==>
      r == Int(if prev.value.v + 1 < count then prev.value.v + 1 else 0)
    ensures count == 0 && !Falsy(prev) ==> r.NaN?
  {
    if Falsy(prev) then Int(1) else Rem(Succ(prev.value), count)
  }

  /** `button.ledStates[names[state]]`; an index outside the names reads the
      property named "undefined". */
  function StateCode(states: LedStates, names: seq<string>, state: Num): (r: Option<int>)
    ensures state.Int? && 0 <= state.v < |names| ==> r == LedCode(states, names[state.v])
    ensures !(state.Int? && 0 <= state.v < |names|) ==> r == LedCode(states, "undefined")
  {
    var name := if state.Int? && 0 <= state.v < |names| then names[state.v] else "undefined";
    LedCode(states, name)
  }

  /** `k` presses of an unbound button that has had none. */
  function ButtonPresses(count: nat, k: nat): (r: Option<Num>)
    ensures r.None? <==> k == 0
  {
    if k == 0 then None else Some(NextButtonState(ButtonPresses(count, k - 1), count))
  }

  /** With two colours or more, the presses select colours 1, 2, … in order
      and the press after the last colour selects colour 0. */
  lemma {:induction false} ButtonPressesCycle(count: nat, k: nat)
    requires 2 <= count && 1 <= k <= count
    ensures ButtonPresses(count, k) == Some(Int(if k < count then k else 0))
  {
    if k > 1 {
      ButtonPressesCycle(count, k - 1);
    }
  }

  /** Every selected colour of a button with two colours or more is one of
      its non-flashing states. */
  lemma CycledCodeIsAColour(states: LedStates, k: nat)
    requires 2 <= |NonFlashing(states)| && 1 <= k <= |NonFlashing(states)|
    ensures var names := NonFlashing(states);
      var code := StateCode(states, names, ButtonPresses(|names|, k).value);
      code.Some? && exists i | 0 <= i < |states| :: states[i] == (names[if k < |names| then k else 0], code.value)
  {
    var names := NonFlashing(states);
    ButtonPressesCycle(|names|, k);
  }

  /** A button with a single non-flashing colour alternates between state 1,
      which names no colour, and state 0. */
  lemma SingleColourAlternates(states: LedStates)
    requires |NonFlashing(states)| == 1
    ensures ButtonPresses(1, 1) == Some(Int(1)) && ButtonPresses(1, 2) == Some(Int(0)) && ButtonPresses(1, 3) == Some(Int(1))
    ensures StateCode(states, NonFlashing(states), Int(1)) == LedCode(states, "undefined")
  {
  }

  // ---------------------------------------------------------------------
  // Output-channel tracking.

  /** The passthrough command, a 14-bit controller change on output
      `outChannel`. */
  function PassthroughCommand(outChannel: int, outController: int, mapped: int): string {
    "oaddev {xctl " + OutName(outChannel) + (" " + IntToDecimal(outController) + " " + IntToDecimal(mapped) + "}")
  }

  /** The passthrough command is what `midiEventToMidish` makes of the same
      control change with high precision asked for. */
  lemma PassthroughIsMidish(outChannel: int, outController: int, mapped: int)
    ensures ToMidish(ControlChangeEvent(outChannel, Int(outController), Int(mapped)), OptionFlags(true))
      == Success(PassthroughCommand(outChannel, outController, mapped))
  {
    var e := ControlChangeEvent(outChannel, Int(outController), Int(mapped));
    var args := " " + IntToDecimal(outController) + " " + IntToDecimal(mapped);
    assert Mnemonic(e.Type(), OptionFlags(true)) == "xctl";
    assert Arguments(e) == args;
    Seqs.Wrap("oaddev {", "xctl", " ", OutName(outChannel), args, "}");
    XctlPrefix();
  }

  lemma XctlPrefix()
    ensures "oaddev {" + "xctl" + " " == "oaddev {xctl "
  {
  }

  /** Select `target` first when it is not the current output. */
  function SelectOutput(co: string, target: string, cmd: string): (w: Written)
    ensures w.co == target
    ensures w.text == cmd <==> co == target
    ensures co != target ==> w.text == "co " + target + "\n" + cmd
  {
    if target != co then Written(target, "co " + target + "\n" + cmd) else Written(co, cmd)
  }

  /** When this watcher and midish's own stream agree on the current output,
      they still agree after a passthrough command: midish sees the output
      the command names and selects it too. Each change of output is thus
      written twice, once by each tracker. */
  lemma PassthroughKeepsMidishInStep(co: string, outChannel: int, outController: int, mapped: int)
    requires outChannel >= 0
    ensures var newCo := OutName(outChannel);
      var mine := SelectOutput(co, newCo, PassthroughCommand(outChannel, outController, mapped));
      StreamCommand(co, mine.text)
        == Written(newCo, (if co != newCo then "co " + newCo + "\n" else "") + mine.text + "\n")
  {
    var newCo := OutName(outChannel);
    var cmd := PassthroughCommand(outChannel, outController, mapped);
    PassthroughToken(outChannel, outController, mapped);
    if co != newCo {
      SelectionToken(outChannel, cmd);
    }
    StreamAfterSelect(co, newCo, cmd);
  }

  lemma StreamAfterSelect(co: string, newCo: string, cmd: string)
    requires Terminated(cmd) == cmd + "\n" && FirstOutToken(cmd + "\n") == Some(newCo)
    requires co != newCo ==>
      var text := "co " + newCo + "\n" + cmd;
      Terminated(text) == text + "\n" && FirstOutToken(text + "\n") == Some(newCo)
    ensures var mine := SelectOutput(co, newCo, cmd);
      StreamCommand(co, mine.text) == Written(newCo, (if co != newCo then "co " + newCo + "\n" else "") + mine.text + "\n")
  {
    var mine := SelectOutput(co, newCo, cmd);
    if co == newCo {
      assert mine.text == cmd;
      var w := StreamCommand(co, cmd);
      assert w.co == newCo;
      assert w == Written(newCo, cmd + "\n");
      assert "" + cmd + "\n" == cmd + "\n";
    } else {
      var text := "co " + newCo + "\n" + cmd;
      assert mine.text == text;
      var w := StreamCommand(co, text);
      assert w.co == newCo;
      assert w.text == "co " + newCo + "\n" + (text + "\n");
      Seqs.Assoc("co " + newCo + "\n", text, "\n");
    }
  }

  /** The passthrough command names its output first. */
  lemma PassthroughToken(outChannel: int, outController: int, mapped: int)
    requires outChannel >= 0
    ensures var cmd := PassthroughCommand(outChannel, outController, mapped);
      cmd[|cmd| - 1] == '}' && Terminated(cmd) == cmd + "\n"
      && FirstOutToken(cmd + "\n") == Some(OutName(outChannel))
  {
    var digits := IntToDecimal(outChannel);
    var cmd := PassthroughCommand(outChannel, outController, mapped);
    var rest := " " + IntToDecimal(outController) + " " + IntToDecimal(mapped) + "}";
    var p := "oaddev {xctl ";
    CommandPrefixHasNoToken(ControlChange, OptionFlags(true));
    assert p == "oaddev {" + Mnemonic(ControlChange, OptionFlags(true)) + " ";
    assert cmd == p + ("out" + digits) + rest;
    Regroup(p, "out", digits, rest);
    FirstOutTokenAfterPrefix(p, digits, rest + "\n");
  }

  lemma Regroup(p: string, o: string, digits: string, rest: string)
    ensures p + (o + digits) + rest + "\n" == p + o + digits + (rest + "\n")
  {
  }

  /** A command behind a `co` line names the selected output first. */
  lemma SelectionToken(outChannel: int, cmd: string)
    requires outChannel >= 0 && |cmd| > 0 && cmd[|cmd| - 1] == '}'
    ensures var text := "co " + OutName(outChannel) + "\n" + cmd;
      Terminated(text) == text + "\n" && FirstOutToken(text + "\n") == Some(OutName(outChannel))
  {
    var digits := IntToDecimal(outChannel);
    var text := "co " + OutName(outChannel) + "\n" + cmd;
    assert text[|text| - 1] == '}';
    assert text + "\n" == "co " + "out" + digits + ("\n" + cmd + "\n");
    assert NoOutPrefix("co ");
    FirstOutTokenAfterPrefix("co ", digits, "\n" + cmd + "\n");
  }

  /** The last command this watcher pushes at start-up leaves midish's
      tracker at output 0, the output this watcher starts from. */
  lemma StartupEndsAtOutputZero(co: string)
    ensures StreamCommand(co, "co " + INITIAL_CO).co == INITIAL_CO
  {
    assert "co " + INITIAL_CO == "co out0";
    assert Terminated("co out0") == "co out0\n";
    assert "out" + "0" == INITIAL_CO;
    assert "co out0\n" == "co " + "out" + "0" + "\n";
    assert NoOutPrefix("co ");
    assert IntToDecimal(0) == "0";
    FirstOutTokenAfterPrefix("co ", "0", "\n");
  }

  // ---------------------------------------------------------------------
  // The event handler.

  datatype MidiWatchState = MidiWatchState(buttonStates: map<ButtonKey, Num>, rangeStates: RangeStates, co: string)

  /** A note-on triplet whose velocity may be missing. */
  datatype LedWrite = LedWrite(b1: int, b2: int, b3: Option<int>)

  datatype MidiEffect =
    | RunShell(command: string)
    | SendLed(write: LedWrite)
    | PushMidish(text: string)

  datatype MidiStep = MidiStep(state: MidiWatchState, effects: seq<MidiEffect>)

  /** The scaled dial value: dial label, raw value and the dial's current
      range, if it has a range binding. */
  type Scale = (string, Num, Option<Range>) -> int

  /** What a watcher started with `bindings` on `device` has done before
      the first event: its state, the commands it pushed to midish and the
      two LED batches. */
  datatype Startup = Startup(state: MidiWatchState, midishInit: seq<string>, rangeLeds: seq<ByteTriplet>, commandLeds: seq<ByteTriplet>)

  /** Start-up: the midish set-up commands, the range states, then the two
      LED batches. The first mode of a range binding is read first while
      building the range states, so that is where a binding without modes
      throws. */
  function StartUp(bindings: Bindings, device: Device): (r: Result<Startup, string>)
    ensures r.Success? <==> ModesPresent(bindings)
    ensures r.Success? ==>
      (r.value.state.co == INITIAL_CO && r.value.state.buttonStates == map[]
       && r.value.midishInit == InitCommands()
       && Success(r.value.state.rangeStates) == InitRangeStates(bindings)
       && Success(r.value.rangeLeds) == RangeLeds(bindings, device)
       && r.value.commandLeds == CommandLeds(bindings, device))
  {
    match InitRangeStates(bindings)
    case Failure(e) => Failure(e)
    case Success(rs) =>
      Success(Startup(MidiWatchState(map[], rs, INITIAL_CO), InitCommands(), RangeLeds(bindings, device).value, CommandLeds(bindings, device)))
  }

  /** A note-on. Command buttons run their command; range buttons advance
      their dial's mode (the new mode's LED triplet is built but not sent);
      unbound buttons with LED states advance and show their colour. */
  function OnNoteOn(device: Device, bindings: Bindings, s: MidiWatchState, channel: int, note: Num): (r: Result<MidiStep, string>)
    ensures r.Success? ==> r.value.state.co == s.co
    ensures r.Success? ==> forall k | 0 <= k < |r.value.effects| :: !r.value.effects[k].PushMidish?
    ensures note.NaN? || EntryAt(device.buttons, ButtonKey(channel, note.v)).None? ==> r == Success(MidiStep(s, []))
    ensures note.Int? && EntryAt(device.buttons, ButtonKey(channel, note.v)).Some? ==>
      var key := ButtonKey(channel, note.v);
      var button := EntryAt(device.buttons, key).value;
      var b := EntryAt(bindings, button.labelName);
      (b.Some? && b.value.CommandBinding? ==> r == Success(MidiStep(s, [RunShell(b.value.command)])))
      && (b.Some? && b.value.RangeBinding? ==>
            var pressed := RangePress(s.rangeStates, b.value.dial, b.value.modes);
            (r.Failure? <==> pressed.Failure?)
            && (pressed.Success? ==> r == Success(MidiStep(s.(rangeStates := pressed.value), []))))
      && (b.Some? && !b.value.CommandBinding? && !b.value.RangeBinding? ==> r == Success(MidiStep(s, [])))
      && (b.None? && button.ledStates.None? ==> r == Success(MidiStep(s, [])))
      && (b.None? && button.ledStates.Some? ==>
            var names := NonFlashing(button.ledStates.value);
            var prev := if key in s.buttonStates then Some(s.buttonStates[key]) else None;
            var next := NextButtonState(prev, |names|);
            r == Success(MidiStep(s.(buttonStates := s.buttonStates[key := next]),
                                  [SendLed(LedWrite(StatusByte(9, channel), note.v, StateCode(button.ledStates.value, names, next)))])))
  {
    if note.NaN? then Success(MidiStep(s, []))
    else
      var key := ButtonKey(channel, note.v);
      match EntryAt(device.buttons, key)
      case None => Success(MidiStep(s, []))
      case Some(button) =>
        match EntryAt<string, Binding>(bindings, button.labelName)
        case Some(CommandBinding(command)) => Success(MidiStep(s, [RunShell(command)]))
        case Some(RangeBinding(dial, modes)) =>
          var rs :- RangePress(s.rangeStates, dial, modes);
          Success(MidiStep(s.(rangeStates := rs), []))
        case Some(_) => Success(MidiStep(s, []))
        case None =>
          match button.ledStates
          case None => Success(MidiStep(s, []))
          case Some(states) =>
            var names := NonFlashing(states);
            var prev := if key in s.buttonStates then Some(s.buttonStates[key]) else None;
            var next := NextButtonState(prev, |names|);
            var write := LedWrite(StatusByte(9, channel), note.v, StateCode(states, names, next));
            Success(MidiStep(s.(buttonStates := s.buttonStates[key := next]), [SendLed(write)]))
  }

  /** A controller change. A dial bound to a passthrough forwards the
      scaled value to midish, selecting the output first if it changed. */
  function OnControlChange(device: Device, bindings: Bindings, scale: Scale, s: MidiWatchState,
                           channel: int, controller: Num, value: Num): (r: MidiStep)
    ensures r.state.buttonStates == s.buttonStates && r.state.rangeStates == s.rangeStates
    ensures |r.effects| <= 1 && (r.effects == [] ==> r.state == s)
    ensures r.effects != [] ==> r.effects[0].PushMidish? && EndsWith(r.effects[0].text, "}")
    ensures r.state.co != s.co ==> r.effects != [] && StartsWith(r.effects[0].text, "co " + r.state.co + "\n")
  {
    if controller.NaN? then MidiStep(s, [])
    else match EntryAt(device.dials, DialKey(channel, controller.v))
      case None => MidiStep(s, [])
      case Some(dialLabel) =>
        match EntryAt<string, Binding>(bindings, dialLabel)
        case Some(PassthroughBinding(outChannel, outController)) =>
          var range := if dialLabel in s.rangeStates then Some(s.rangeStates[dialLabel].range) else None;
          var cmd := PassthroughCommand(outChannel, outController, scale(dialLabel, value, range));
          var w := SelectOutput(s.co, OutName(outChannel), cmd);
          assert EndsWith(w.text, "}") by {
            assert w.text[|w.text| - 1] == cmd[|cmd| - 1];
          }
          MidiStep(s.(co := w.co), [PushMidish(w.text)])
        case _ => MidiStep(s, [])
  }

  /** What a control change does, case by case: a dial bound to a
      passthrough forwards the scaled value to the bound midish output,
      switching `co` first when needed; every other control change is
      ignored. */
  lemma ControlChangeCases(device: Device, bindings: Bindings, scale: Scale, s: MidiWatchState,
                           channel: int, controller: Num, value: Num)
    ensures controller.Int? && EntryAt(device.dials, DialKey(channel, controller.v)).Some? ==>
      var dialLabel := EntryAt(device.dials, DialKey(channel, controller.v)).value;
      var b := EntryAt(bindings, dialLabel);
      if b.Some? && b.value.PassthroughBinding? then
        var range := if dialLabel in s.rangeStates then Some(s.rangeStates[dialLabel].range) else None;
        var w := SelectOutput(s.co, OutName(b.value.outChannel),
                              PassthroughCommand(b.value.outChannel, b.value.outController, scale(dialLabel, value, range)));
        OnControlChange(device, bindings, scale, s, channel, controller, value) == MidiStep(s.(co := w.co), [PushMidish(w.text)])
      else OnControlChange(device, bindings, scale, s, channel, controller, value) == MidiStep(s, [])
    ensures controller.NaN? || EntryAt(device.dials, DialKey(channel, controller.v)).None? ==> OnControlChange(device, bindings, scale, s, channel, controller, value) == MidiStep(s, [])
  {
  }

  /** One event from the controller. Note-offs and the other kinds only
      log. */
  function OnEvent(device: Device, bindings: Bindings, scale: Scale, s: MidiWatchState, e: MidiEvent): (r: Result<MidiStep, string>)
    ensures !e.NoteOnEvent? && !e.ControlChangeEvent? ==> r == Success(MidiStep(s, []))
    ensures r.Failure? ==> e.NoteOnEvent?
    ensures e.NoteOnEvent? ==> r == OnNoteOn(device, bindings, s, e.channel, e.note)
    ensures e.ControlChangeEvent? ==> r == Success(OnControlChange(device, bindings, scale, s, e.channel, e.controller, e.value))
  {
    match e
    case NoteOnEvent(channel, note, _) => OnNoteOn(device, bindings, s, channel, note)
    case ControlChangeEvent(channel, controller, value) =>
      Success(OnControlChange(device, bindings, scale, s, channel, controller, value))
    case _ => Success(MidiStep(s, []))
  }

  /** The handler's invariant: every range binding's dial has a state and
      its binding has modes, and no mode index is negative. */
  predicate Tracked(bindings: Bindings, s: MidiWatchState) {
    ModesPresent(bindings)
    && (forall i | 0 <= i < |bindings| :: bindings[i].1.RangeBinding? ==> bindings[i].1.dial in s.rangeStates)
    && forall d | d in s.rangeStates :: s.rangeStates[d].idx >= 0
  }

  /** A watcher that started holds the invariant. */
  lemma StartUpTracked(bindings: Bindings, device: Device)
    requires StartUp(bindings, device).Success?
    ensures Tracked(bindings, StartUp(bindings, device).value.state)
  {
    var rs := StartUp(bindings, device).value.state.rangeStates;
    forall i | 0 <= i < |bindings| && bindings[i].1.RangeBinding?
      ensures bindings[i].1.dial in rs
    {
      assert LastRangeModes(bindings, bindings[i].1.dial).Some?;
    }
  }

  /** Under the invariant the handler never throws, keeps the invariant, and
      keeps every mode index inside its binding's modes. */
  lemma {:induction false} OnEventKeepsTracked(device: Device, bindings: Bindings, scale: Scale, s: MidiWatchState, e: MidiEvent)
    requires Tracked(bindings, s)
    ensures OnEvent(device, bindings, scale, s, e).Success?
    ensures Tracked(bindings, OnEvent(device, bindings, scale, s, e).value.state)
  {
    if e.NoteOnEvent? && e.note.Int? {
      var key := ButtonKey(e.channel, e.note.v);
      var button := EntryAt(device.buttons, key);
      if button.Some? {
        var b := EntryAt(bindings, button.value.labelName);
        if b.Some? && b.value.RangeBinding? {
          var i :| 0 <= i < |bindings| && bindings[i] == (button.value.labelName, b.value);
          assert b.value.dial in s.rangeStates && |b.value.modes| > 0;
          var r := RangePress(s.rangeStates, b.value.dial, b.value.modes);
          assert r.Success?;
          assert r.value.Keys == s.rangeStates.Keys;
        }
      }
    }
  }
}

=== FILE: wrappers.dfy ===
/** Optional values and results, used wherever the TypeScript code yields
    `undefined` or throws. */
module Wrappers {

  /** A value that may be absent (`undefined` in the source). */
  datatype Option<+T> = None | Some(value: T) {

    /** The value, or `default` when absent (the `??` operator). */
    function GetOr(default: T): T {
      match this
      case Some(v) => v
      case None => default
    }
  }

  /** Either a value or the error that the source would throw. */
  datatype Result<+R, +E> = Success(value: R) | Failure(error: E) {

    predicate IsFailure() {
      Failure?
    }

    function PropagateFailure<U>(): Result<U, E>
      requires Failure?
    {
      Failure(error)
    }

    function Extract(): R
      requires Success?
    {
      value
    }
  }

  /** `obj[key]` for an object held as its list of entries, as the
      configuration's bindings (keyed by label) and the device's buttons and
      dials (keyed by `channel:note` or `channel:controller`) are. */
  function EntryAt<K(==), V>(entries: seq<(K, V)>, key: K): (r: Option<V>)
    ensures r.Some? <==> exists i | 0 <= i < |entries| :: entries[i].0 == key
    ensures r.Some? ==> (key, r.value) in entries
  {
    if |entries| == 0 then None
    else if entries[0].0 == key then Some(entries[0].1)
    else
      var r := EntryAt(entries[1..], key);
      assert forall i | 1 <= i < |entries| :: entries[i] == entries[1..][i - 1];
      r
  }
}
